=== FILE: README.md ===
# CS:APP labs in Dafny

A Dafny model of the algorithmic core of a set of CS:APP lab solutions:

- **Dynamic storage allocators** (malloc lab), in four variants:
  - `mm-final.c`: eight segregated free lists kept sorted by size. Each header carries a prev-alloc bit, so blocks in use have no footer.
  - `mm-explicit.c`: one LIFO doubly-linked free list between a prologue and an epilogue sentinel.
  - `mm-segregated.c`: eight LIFO buckets. The file has only init, extend, coalesce and the list operations.
  - `mm-implicit-free-list.c`: an implicit block list searched by next-fit.
- **Data Lab bit puzzles** (`bits.c`): eleven loop-free functions on 64-bit two's-complement integers.
- **Cache-friendly matrix transpose** (`trans.c`): the plain transpose, the 32×32, 64×64 and 61×67 blocked versions, the dispatcher and the checker.
- **The shell's command-line tokeniser** (`parseline` and `builtin_command` in `shellex.c`).

## How the allocators are modelled

The heap is a map from byte addresses to 32-bit words (module `Heap`). An 8-byte pointer in the 4-byte-word variants is two words, low half first. `mm-explicit.c` works in 8-byte words. Every operation is a pure function from one state to the next:

- `mm_init`, `extend_heap`, `coalesce`, `place`, `link_blk`, `remove_blk`, `mm_free` and the header/footer writes are functions;
- `first_fit`, `find_fit`, `mm_malloc`, `mm_realloc` and `mm_checkheap` are methods, with loops where the C has them.

Each variant has a ghost *view*:

- the blocks of the heap in address order, as (address, size, alloc) triples;
- for `mm-final.c`, the prev-alloc bit of each header;
- the free lists as sequences of blocks;
- for the implicit list, the index of the next-fit rover.

A representation predicate (`Rep`) ties memory to a view. It covers:

- the tags each block carries;
- the prologue and epilogue;
- the list links;
- that every free block is on exactly the list it belongs to.

Every operation has a refinement lemma (`…Refines`). Each one says that the new memory represents a stated new view: a block split, merged, marked or appended. So each list operation and each coalescing case is checked against an independent, block-level definition.

`mem_sbrk` is a grow-or-fail step, `Heap.Sbrk`. A boolean `grant` parameter decides whether the memory system grants the request. The heap is capped at 2^32 bytes (`HeapLimit`).

The bit puzzles are modelled on unbounded integers restricted to the 64-bit range. `&`, `|`, `^` and `~` are defined bit by bit on two's-complement integers (module `Twos`). Signed shifts and wrap-around are written out. Each puzzle is proved equal to an independent definition of what its comment promises.

## Model

| member | source | states |
|---|---|---|
| DataLab.CopyLSBCorrect | labs/lab01/bits.c:127-129 | copyLSB(x) is -1 (all ones) when bit 0 of x is set and 0 otherwise |
| DataLab.DividePower2Correct | labs/lab01/bits.c:138-150 | for a 64-bit x and 0 <= n <= 62, dividePower2(x, n) is x / 2^n rounded toward zero, negative x included |
| DataLab.DistinctNegationCorrect | labs/lab01/bits.c:158-160 | distinctNegation(x) is 1 exactly when x differs from its 64-bit wrapped negation |
| DataLab.AnyEvenBitCorrect | labs/lab01/bits.c:169-181 | anyEvenBit(x) is 1 exactly when some even-numbered bit of x is set |
| DataLab.IsLessOrEqualCorrect | labs/lab01/bits.c:190-201 | isLessOrEqual(x, y) is 1 exactly when x <= y as signed 64-bit values, extreme values included |
| DataLab.ReplaceByteCorrect | labs/lab01/bits.c:211-216 | bit i of replaceByte(x, n, c) is bit i - 8n of c inside byte n and bit i of x everywhere else |
| DataLab.ConditionalCorrect | labs/lab01/bits.c:224-230 | conditional(x, y, z) is y when x is non-zero and z otherwise |
| DataLab.BitMaskCorrect | labs/lab01/bits.c:241-251 | bit i of bitMask(h, l) is set exactly when l <= i <= h |
| DataLab.BitMaskEmpty | labs/lab01/bits.c:241-251 | bitMask(h, l) is 0 when l > h |
| DataLab.IsPalindromeCorrect | labs/lab01/bits.c:260-289 | isPalindrome(x) is 1 exactly when bit i of x equals bit 63 - i for every i |
| DataLab.TrueFiveEighthsCorrect | labs/lab01/bits.c:301-306 | trueFiveEighths(x) is 5x / 8 rounded toward zero, computed without the intermediate overflow |
| DataLab.LogicalNegCorrect | labs/lab01/bits.c:315-317 | logicalNeg(x) is 1 exactly when x is 0 |
| Transpose.Trans | labs/lab04/trans.c:159-171 | after trans, B[j][i] == A[i][j] for every i < N and j < M |
| Transpose.IsTranspose | labs/lab04/trans.c:194-209 | is_transpose returns 0 or 1, and 1 exactly when B is the transpose of A |
| Transpose.Block | labs/lab04/trans.c:16-45 | one 8×8 block pass writes the transpose of its block into B and leaves every cell outside the block untouched |
| Transpose.Transpose32 | labs/lab04/trans.c:16-45 | the 8×8-blocked routine leaves B equal to the transpose of a 32×32 A |
| Transpose.Block64 | labs/lab04/trans.c:47-103 | one 8×8 block pass of the 64×64 routine ends with the block transposed and every other cell of B unchanged, although it parks values of A in B's upper-right quarter on the way |
| Transpose.Transpose64 | labs/lab04/trans.c:47-103 | the 64×64 routine leaves B equal to the transpose of A |
| Transpose.Transpose61 | labs/lab04/trans.c:105-121 | the 61×67 routine, with its 16-wide strips and clipped edges, leaves B equal to the transpose of A |
| Transpose.TransposeSubmit | labs/lab04/trans.c:131-148 | the dispatcher on M leaves B equal to the transpose of A |
| Transpose.TransposeUnique | labs/lab04/trans.c:194-209 | two matrices that are both the transpose of A are equal, so the routines above agree with trans |
| Shell.Terminated | examples/ch08/shellex.c:74 | the buffer keeps every character but the last, which becomes a space |
| Shell.SplitWords | examples/ch08/shellex.c:75-91 | the loop fills argv with exactly the space-separated words of the line, in order, and stops with overflow exactly when there are MAXARGS or more words (the 128th word is found with 127 already stored) |
| Shell.ParseLine | examples/ch08/shellex.c:68-100 | parseline agrees with the reference definition ParseSpec, which covers the word split, the blank line, the trailing '&' and the abort at MAXARGS or more words; every argument it returns is a non-empty run of non-spaces |
| Shell.WordsSpaced | examples/ch08/shellex.c:75-91 | splitting words joined by spaces gives the same words back |
| Shell.WordsKeepCharacters | examples/ch08/shellex.c:75-91 | the words of a line, concatenated, are the line with its spaces removed |
| Shell.BlankLine | examples/ch08/shellex.c:91-94 | a line of spaces parses to an empty argv with result 1 |
| Shell.TypedLine | examples/ch08/shellex.c:80-99 | a typed line of words parses to its words, without a final word that starts with '&' and with result 1 when there is one; with MAXARGS or more words the shell exits |
| Shell.TypedBuiltin | examples/ch08/shellex.c:59-66 | on a parsed typed line, builtin_command quits exactly when the first word is "quit" and returns 1 exactly when it is "&"; the argv is empty only for a lone word starting with '&' |
| Buckets.ClassIndex | labs/malloclab/mm-final.c:463-481 | find_size_class_index returns a class in 0..7 whose bounds bracket the size: above the previous class's upper bound and within its own, except at the ends; so it is monotone in the size |
| Buckets.PushChain | labs/malloclab/mm-segregated.c:221-231 | pushing a block at the head of a bucket gives a well-linked list with the block first, its prev at the head slot and the old first entry's prev at the block |
| Buckets.UnlinkChain | labs/malloclab/mm-final.c:417-432 | remove_blk takes the entry out of a well-linked list, patching the head slot when it was first, leaves the other entries in order, and clears the entry's own links |
| Buckets.InsertChain | labs/malloclab/mm-final.c:448-459 | linking a block after entry t - 1 gives a well-linked list with the block at position t |
| Final.PackRoundTrip | labs/malloclab/mm-final.c:492-517 | for a size that is a multiple of 8, the size, prev-alloc and alloc fields read back from a written header are the ones packed |
| Final.PayloadInverse | labs/malloclab/mm-final.c:529-537 | header_to_payload and payload_to_header are inverse |
| Final.CalcRealSize | labs/malloclab/mm-final.c:483-490 | the block size is a multiple of 8, at least 24, holds the request after the 4-byte header, and is the least such size above 24 |
| Final.CalcRealSizeAgrees | labs/malloclab/mm-final.c:483-490 | the size_t arithmetic of calc_real_size gives that size for every request up to SIZE_MAX - 11 |
| Final.InsertSortedIs | labs/malloclab/mm-final.c:434-461 | inserting before the first entry at least as large keeps a list sorted by size and adds exactly the one block |
| Final.WalkIs | labs/malloclab/mm-final.c:448-455 | link_blk's walk stops at the last entry smaller than the new block |
| Final.LinkShape | labs/malloclab/mm-final.c:434-461 | link_blk on a consistent heap gives the heap whose list for the block's class is the sorted insert of the block, other lists unchanged, no tag touched |
| Final.UnlinkShape | labs/malloclab/mm-final.c:417-432 | remove_blk on entry t of list c gives the heap whose list c has that entry dropped, no tag touched |
| Final.CoalesceRefines | labs/malloclab/mm-final.c:308-366 | coalesce merges a freed block with each free neighbour into one free block, relinks it into its class, and returns it; the view it yields keeps cases 1 and 3 leaving the successor's prev-alloc bit set |
| FinalOps.PlaceRefines | labs/malloclab/mm-final.c:386-415 | place on a block at least as large as the request gives the heap of the block-level place: whole block in use, or an in-use block of exactly the request and a free, coalesced, relinked remainder |
| FinalOps.PlaceSplit | labs/malloclab/mm-final.c:406-414 | when the remainder is at least 24 bytes, place splits and coalesces the remainder |
| FinalOps.PlaceWhole | labs/malloclab/mm-final.c:395-405 | when the remainder is under 24 bytes, place marks the whole block in use and sets the successor's prev-alloc bit |
| FinalOps.PlaceTooSmall | labs/malloclab/mm-final.c:388-394 | place on a block smaller than the request still unlinks a free block before returning, and changes nothing on a block in use |
| FinalOps.PlacedAt | labs/malloclab/mm-final.c:386-415 | after place, the block keeps its address, is in use and holds the request |
| FinalOps.ExtendRefines | labs/malloclab/mm-final.c:285-304 | extend_heap rounds to a multiple of 8, returns NULL and changes nothing when the memory system refuses, and otherwise appends a free block in place of the epilogue, coalesces it and returns the merged block |
| FinalOps.GrowBlock | labs/malloclab/mm-final.c:285-304 | the block extend_heap returns is free and at least as large as the request |
| FinalApi.InitRefines | labs/malloclab/mm-final.c:92-131 | mm_init lays out the eight list heads, padding, prologue and epilogue, then a first free chunk; each refusal of the memory system returns -1 with the stated partial heap |
| FinalApi.Fit | labs/malloclab/mm-final.c:368-384 | the first-fit choice is a block of at least the request in the request's class or a higher one, with none before it; it is None exactly when classes index..7 hold no such block |
| FinalApi.FirstFit | labs/malloclab/mm-final.c:368-384 | first_fit's walk of the lists returns the header Fit chooses, or NULL when Fit finds none |
| FinalApi.ListedAt | labs/malloclab/mm-final.c:374-378 | every list entry is a free block of the heap at a non-null address |
| FinalApi.FitPlaced | labs/malloclab/mm-final.c:142-151 | placing the request in a fitting free block gives a consistent heap holding it at that block |
| FinalApi.Malloc | labs/malloclab/mm-final.c:134-158 | mm_malloc returns NULL for 0; on a fit it places in the block first_fit chooses; on a miss it grows the heap by max(CHUNKSIZE, size) and places there, returning NULL only when the memory system refuses; the new block is in use, holds the request, and every block in use before stays in use |
| FinalApi.FreeRefines | labs/malloclab/mm-final.c:160-170 | mm_free of a block in use gives the heap of the block-level free: the block marked free and coalesced |
| FinalApi.FreeHead | labs/malloclab/mm-final.c:164-168 | mm_free writes only the header, with the alloc bit clear and the prev-alloc bit kept, and no footer |
| FinalApi.FreeAllocated | labs/malloclab/mm-final.c:160-170 | after a free the blocks in use are those before, less the freed one |
| FinalRealloc.AbsorbRefines | labs/malloclab/mm-final.c:203-232 | the corrected growth in place into the free neighbours, which also sets the successor's prev-alloc bit, gives the heap of the block-level merge, with the merged block in use |
| FinalRealloc.AbsorbKeepsBit | labs/malloclab/mm-final.c:214-219 | the corrected in-place growth into the next block leaves the prev-alloc bit of the block after set |
| FinalRealloc.AbsorbPlaced | labs/malloclab/mm-final.c:211-232 | after the corrected growth, placing the request in the merged block gives a consistent heap that holds it, with every other block in use kept |
| FinalRealloc.AbsorbLosesBit | labs/malloclab/mm-final.c:214-219 | growth into the next block as written leaves the prev-alloc bit of the block after clear, although the merged block is in use |
| FinalRealloc.ReallocLosesBit | labs/malloclab/mm-final.c:214-219 | when place then keeps the whole merged block, the bit stays clear |
| FinalRealloc.Resize | labs/malloclab/mm-final.c:181-246 | on a block not in use the result is NULL; a block large enough is placed in place; the corrected growth into free neighbours returns the merged block; otherwise the block moves, and the old block is freed when the move succeeds |
| FinalRealloc.Realloc | labs/malloclab/mm-final.c:172-247 | realloc of NULL is malloc, realloc to 0 frees and returns NULL, a failed realloc changes nothing, and every block in use other than the old one stays in use |
| FinalCheck.ListsCountFree | labs/malloclab/mm-final.c:258-282 | in a consistent heap the eight lists together are exactly as long as the heap has free blocks |
| FinalCheck.CountList | labs/malloclab/mm-final.c:263-271 | the walk of list c counts its entries |
| FinalCheck.CountFree | labs/malloclab/mm-final.c:273-280 | the address-order walk counts the free blocks |
| FinalCheck.CheckHeap | labs/malloclab/mm-final.c:258-282 | mm_checkheap's assert holds on a consistent heap, and both counts are the number of free blocks |
| Explicit.PackRoundTrip | labs/malloclab/mm-explicit.c:439-452 | size and alloc read back from a written header are the ones packed |
| Explicit.RealSize | labs/malloclab/mm-explicit.c:424-433 | the block size is a multiple of 8, at least 32, at least the request plus 16, and the least such size above 32 |
| Explicit.RealSizeAgrees | labs/malloclab/mm-explicit.c:424-433 | the size_t arithmetic of calc_real_size gives that size for every request up to SIZE_MAX - 23 |
| Explicit.LinkChain | labs/malloclab/mm-explicit.c:398-408 | link_blk splices the block right after the first entry with mutually consistent links |
| Explicit.UnlinkChain | labs/malloclab/mm-explicit.c:411-422 | remove_blk makes the entry's neighbours point at each other, keeps the others in order and clears the entry's links |
| Explicit.CoalesceRefines | labs/malloclab/mm-explicit.c:307-360 | each of the four cases yields one free block with the summed size in header and footer, linked first after the head sentinel |
| Explicit.PlaceRefines | labs/malloclab/mm-explicit.c:373-395 | place allocates the whole block when the remainder is under 32 bytes and otherwise splits off a free remainder linked after the head |
| Explicit.PlaceTooSmall | labs/malloclab/mm-explicit.c:375-379 | place on a block smaller than the request unlinks it if free and changes nothing else |
| Explicit.ExtendRefines | labs/malloclab/mm-explicit.c:279-305 | extend_heap returns NULL unchanged when refused and otherwise appends a free block at the old epilogue, coalesces it and returns the merged block |
| Explicit.InitRefines | labs/malloclab/mm-explicit.c:87-116 | mm_init lays out prologue and epilogue sentinels and one free chunk on the list; each refusal returns -1 |
| Explicit.FirstFit | labs/malloclab/mm-explicit.c:362-369 | first_fit returns the first list entry that is large enough, walking from the head, or NULL; the sentinels are never returned |
| Explicit.Malloc | labs/malloclab/mm-explicit.c:118-139 | mm_malloc returns NULL for 0, places in the first fit, or grows the heap and places there; the new block is in use and holds the request |
| Explicit.FreeRefines | labs/malloclab/mm-explicit.c:141-150 | mm_free of a block in use marks it free in header and footer and coalesces it |
| Explicit.AbsorbRefines | labs/malloclab/mm-explicit.c:183-213 | growth in place into free neighbours gives the block-level merge, then place |
| Explicit.Resize | labs/malloclab/mm-explicit.c:161-227 | a block not in use gives NULL; a large enough block is placed in place; growth into neighbours returns the merged block; otherwise the block moves and the old one is freed |
| Explicit.Realloc | labs/malloclab/mm-explicit.c:152-228 | realloc of NULL is malloc, realloc to 0 frees and returns NULL, a failed realloc changes nothing, and the result points at a block in use that holds the request |
| Explicit.ReallocAsWritten | labs/malloclab/mm-explicit.c:152-228 | as written, the moving branch returns a pointer one word past the new block's payload |
| Explicit.MovedPointerStray | labs/malloclab/mm-explicit.c:219-225 | that pointer is the payload of no block |
| Explicit.InitAsWrittenCarriesOn | labs/malloclab/mm-explicit.c:100-102 | when mem_sbrk refuses, mm_init as written goes on to lay out the heap at address -1, where the corrected Init returns -1 |
| Explicit.ListCountsFree | labs/malloclab/mm-explicit.c:239-276 | in a consistent heap the list holds exactly as many entries as the heap has free blocks |
| Explicit.WalkList | labs/malloclab/mm-explicit.c:253-263 | the list walk finds every link pair consistent, reaches the epilogue and counts the entries |
| Explicit.WalkHeap | labs/malloclab/mm-explicit.c:265-272 | the address-order walk counts the free blocks |
| Explicit.CheckHeap | labs/malloclab/mm-explicit.c:239-276 | mm_checkheap's asserts all hold on a consistent heap, and both counts are the number of free blocks |
| Segregated.PackRoundTrip | labs/malloclab/mm-segregated.c:263-288 | size and alloc read back from a written header are the ones packed |
| Segregated.PayloadInverse | labs/malloclab/mm-segregated.c:290-298 | header_to_payload and payload_to_header are inverse |
| Segregated.PushShape | labs/malloclab/mm-segregated.c:221-231 | link_blk pushes the block at the head of the bucket of its payload size, other buckets unchanged |
| Segregated.UnlinkShape | labs/malloclab/mm-final.c:417-432 | the head-aware removal drops the entry from its bucket, others unchanged |
| Segregated.RemoveAgrees | labs/malloclab/mm-segregated.c:209-219 | for an entry that is not first in its bucket, remove_blk as written does what the head-aware removal does |
| Segregated.RemoveHeadStale | labs/malloclab/mm-segregated.c:209-219 | for the first entry, remove_blk as written leaves the head naming it, breaks the bucket's chain and overwrites the neighbouring heads |
| Segregated.CoalesceRefines | labs/malloclab/mm-segregated.c:159-207 | with the head-aware removal, each coalescing case yields one free block with the summed size in header and footer, pushed on its bucket |
| Segregated.CoalesceHeadBreaks | labs/malloclab/mm-segregated.c:159-219 | coalesce as written, merging into a free next block that heads its bucket, leaves a heap no view is consistent with |
| Segregated.ExtendRefines | labs/malloclab/mm-segregated.c:135-155 | extend_heap rounds up to a multiple of 8, writes a free block at the old epilogue and a new epilogue after it, and coalesces, where the coalesce uses the head-aware removal |
| Segregated.InitRefines | labs/malloclab/mm-segregated.c:93-132 | mm_init lays out the bucket heads, prologue, epilogue and a first free chunk; each refusal returns -1 |
| Implicit.PackRoundTrip | labs/malloclab/mm-implicit-free-list.c:38-46 | GET_SIZE and GET_ALLOC of PACK(s, a) give back s and a |
| Implicit.ASize | labs/malloclab/mm-implicit-free-list.c:92-96 | the adjusted size is a multiple of 8, at least 16, at least the request plus 8, and the least such size above 16 |
| Implicit.ASizeAgrees | labs/malloclab/mm-implicit-free-list.c:92-96 | the size_t arithmetic gives that size for every request up to SIZE_MAX - 15 |
| Implicit.FirstFit | labs/malloclab/mm-implicit-free-list.c:265-272 | the first block in a range that is free and large enough, with none before it, or None exactly when the range has none |
| Implicit.NextFitNone | labs/malloclab/mm-implicit-free-list.c:261-275 | next-fit finds nothing exactly when no block of the heap fits |
| ImplicitOps.FindFit | labs/malloclab/mm-implicit-free-list.c:261-275 | find_fit scans from the rover to the epilogue and then from the first block up to the old rover, returning the next fit and moving the rover to it |
| ImplicitOps.ScanToEnd | labs/malloclab/mm-implicit-free-list.c:265-268 | the first loop returns the first fit from the rover to the end |
| ImplicitOps.ScanToRover | labs/malloclab/mm-implicit-free-list.c:270-272 | the second loop returns the first fit before the old rover, or NULL with the rover back where it started |
| ImplicitCoalesce.RoverAfterMerge | labs/malloclab/mm-implicit-free-list.c:256-257 | a rover strictly inside the merged block moves to its start, and any other rover keeps pointing at the same block |
| ImplicitCoalesce.CoalesceRefines | labs/malloclab/mm-implicit-free-list.c:228-259 | each case yields one free block with the summed size in header and footer, with the rover adjusted |
| ImplicitOps.PlaceRefines | labs/malloclab/mm-implicit-free-list.c:277-295 | place splits when the remainder is at least 16 bytes, allocates the whole block otherwise, and leaves a block smaller than the request alone |
| ImplicitOps.ExtendRefines | labs/malloclab/mm-implicit-free-list.c:212-226 | extend_heap rounds an odd word count up to even, appends a free block, writes a new epilogue and coalesces; when refused it changes nothing |
| ImplicitOps.FreeRefines | labs/malloclab/mm-implicit-free-list.c:112-120 | mm_free marks the block free in header and footer and coalesces it |
| ImplicitOps.FreeAllocated | labs/malloclab/mm-implicit-free-list.c:112-120 | after a free the blocks in use are those before, less the freed one |
| ImplicitOps.InitRefines | labs/malloclab/mm-implicit-free-list.c:67-81 | mm_init writes the padding, prologue and epilogue, then a first free chunk; each refusal returns -1 |
| ImplicitOps.Malloc | labs/malloclab/mm-implicit-free-list.c:83-110 | mm_malloc returns NULL for 0, places in the next fit, or grows the heap by max(asize, CHUNKSIZE) and places there; the block is in use and holds the request |

## Left out

- memlib.c is not part of this model. `mem_sbrk` is the grow-or-fail step `Heap.Sbrk`, and whether it succeeds is the `grant` parameter of each operation that calls it. The heap is capped at 2^32 bytes.
- Payload contents are not modelled. The data that `mm_realloc` copies with `memcpy` is not tracked; only the blocks are.
- `mm_calloc` (mm-final.c and mm-explicit.c) is left out. It is `mm_malloc` followed by a `memset` of the payload, and payload bytes are not modelled. The `nmemb * size` overflow is unspecified in C.
- `mm_realloc` of mm-implicit-free-list.c is left out. It is the textbook malloc, copy and free, and payload contents are not modelled.
- `mm_checkheap` of mm-implicit-free-list.c is left out. It only prints.
- The `DEBUG` assertions of mm-final.c are left out. They check conditions the refinement lemmas already prove.
- `eval` and `main` of shellex.c are left out. They are process plumbing: fork, execve and waitpid.
- Shell.ParseLine: the `printf` before the exit at MAXARGS or more words is not modelled. The exit is the `Exit` result.
- DataLab.CopyLSB, DataLab.BitMask, DataLab.Conditional, DataLab.ReplaceByte, DataLab.IsPalindrome, DataLab.DistinctNegation, DataLab.IsLessOrEqual, DataLab.LogicalNeg: these puzzles overflow a signed `long`, which C leaves undefined. The overflowing steps are `x << 63` and `1L << 63` (copyLSB, bitMask), `condition << 63` (conditional), `0xFFL << 56` and `c << 56` for c of 128 or more (replaceByte), `~0L << 32` and `v << 32` (isPalindrome), and `~x + 1` or `~y + 1` at LONG_MIN (distinctNegation, isLessOrEqual, logicalNeg). They are modelled as the two's-complement wrap-around that every compiler the lab targets produces.
- Transpose.TransposeSubmit: requires N == 32 when M == 32, N == 64 when M == 64, and N == 67 when M == 61. The lab's driver calls it only with these three graded shapes. With a smaller N the routine it dispatches to indexes outside the arrays. With a larger N every access stays in bounds, but the columns of B past the routine's fixed bound are never written, so B is not the transpose (for example M = 32 with N = 40). Transpose32, Transpose64 and Transpose61 likewise require their one shape.
- Transpose: the claim that no routine writes A holds by construction, since a matrix is an immutable value.
- Final.ClassOf, Segregated.ClassOf: the class boundaries are stated through Buckets.ClassIndex; monotonicity follows from its bounds rather than being a row of its own.
- FinalApi.Malloc, FinalRealloc.Resize, FinalRealloc.Realloc: these return NULL for a request above SIZE_MAX - 11, where the C's `calc_real_size` wraps to a tiny block size and carries on (see Findings).
- Explicit.Malloc, Explicit.Resize, Explicit.Realloc: these return NULL for a request above SIZE_MAX - 23, where the C wraps (see Findings).
- ImplicitOps.Malloc: returns NULL for a request above SIZE_MAX - 15, where the C's `asize` wraps (see Findings).
- Segregated.CoalesceRefines, Segregated.ExtendRefines: both are stated for the corrected, head-aware removal. extend_heap's coalesce reaches `remove_blk(prev_neighbor)` (mm-segregated.c:190) when the old last block is free; when that block heads its bucket, the C as written overwrites the next heads. Coalescing as written is `Segregated.CoalesceAsWritten`, and `Segregated.CoalesceHeadBreaks` shows where it goes wrong (see Findings).
- Explicit.Realloc: the moving branch returns the new block's payload. The code as written is `Explicit.ReallocAsWritten` (see Findings).
- Explicit.InitRefines: it is stated for the corrected test against `(void *)-1`. The code as written is `Explicit.InitAsWritten` (see Findings).
- FinalRealloc.AbsorbRefines, FinalRealloc.AbsorbPlaced, FinalRealloc.Resize, FinalRealloc.Realloc: growth into a free next block sets the successor's prev-alloc bit, which mm-final.c:214-233 leaves clear. The code as written is `FinalRealloc.AbsorbAsWritten` (see Findings).

## Findings

| source | as written | input that shows it | evidently intended | confidence | as-written member | corrected member |
|---|---|---|---|---|---|---|
| labs/malloclab/mm-explicit.c:219-225 | `mm_malloc` already returns a payload pointer, but the result is treated as a block and `block_to_payload` is applied again | a block in use with both neighbours in use, grown past its size: `p = mm_malloc(16); mm_malloc(16); mm_realloc(p, 100)` | return the payload of the new block | not executed; high | Explicit.ReallocAsWritten, Explicit.MovedPointerStray | Explicit.Realloc |
| labs/malloclab/mm-explicit.c:100-101 | the result of `mem_sbrk` is compared with NULL, but on failure `mem_sbrk` returns `(void *)-1` | the memory system refuses the first 7-word request | return -1 when `mem_sbrk` fails | not executed; high | Explicit.InitAsWritten, Explicit.InitAsWrittenCarriesOn | Explicit.Init, Explicit.InitRefines |
| labs/malloclab/mm-segregated.c:213-214 | when the predecessor is a bucket-head slot, the 8-byte store through `header_to_next(prev)`, which is `prev + 12`, lands 12 to 20 bytes past the slot: on the high word of head c + 1 and the low word of head c + 2, or on the prologue header and footer when c is the last class | a call of `coalesce` on a free block whose next neighbour is free, first in its bucket, and whose merged size stays in that bucket; or a second `extend_heap` whose free last block heads its bucket. No entry point of the file reaches it yet: the file has no `mm_malloc` or `mm_free`, and the first coalesce, from `mm_init`, is case 1, which calls no `remove_blk` | update the head slot itself, as mm-final.c:423-426 does | not executed; high | Segregated.RemoveHeadStale, Segregated.CoalesceAsWritten, Segregated.CoalesceHeadBreaks | Segregated.CoalesceRefines |
| labs/malloclab/mm-final.c:214-219 | growth in place into a free next block writes the merged header in use but never sets the prev-alloc bit of the block after, which was clear because the absorbed block was free; the both-free branch at :221-233 does the same, and the lemmas exhibit the :214-219 branch | `mm_init(); p = mm_malloc(8); mm_realloc(p, 4072)`: the merged block is placed whole and the epilogue's prev-alloc bit stays clear | set the prev-alloc bit of the block after, as place does for a free block | not executed; medium | FinalRealloc.AbsorbAsWritten, FinalRealloc.AbsorbLosesBit, FinalRealloc.ReallocLosesBit | FinalRealloc.Absorb, FinalRealloc.AbsorbKeepsBit, FinalRealloc.AbsorbPlaced |
| labs/malloclab/mm-final.c:483-490 | `calc_real_size` computes in `size_t` and wraps near SIZE_MAX | `mm_malloc(SIZE_MAX)`: the block size is 8 | return NULL for a request no block can hold | not executed; high | Final.CalcRealSizeWraps | Final.CalcRealSize, Final.CalcRealSizeAgrees |
| labs/malloclab/mm-explicit.c:424-433 | `calc_real_size` computes in `size_t` and wraps near SIZE_MAX | `mm_malloc(SIZE_MAX - 15)`: the block size is 0 | return NULL for a request no block can hold | not executed; high | Explicit.RealSizeWraps | Explicit.RealSize, Explicit.RealSizeAgrees |
| labs/malloclab/mm-implicit-free-list.c:92-96 | `asize` is computed in `size_t` and wraps near SIZE_MAX | `mm_malloc(SIZE_MAX)`: the adjusted size is 8 | return NULL for a request no block can hold | not executed; high | Implicit.ASizeWraps | Implicit.ASize, Implicit.ASizeAgrees |

=== FILE: buckets.dfy ===
/**
 * The size-class lists shared by labs/malloclab/mm-segregated.c and
 * labs/malloclab/mm-final.c.
 *
 * Both keep eight list heads, 8-byte pointers, at size_class_start, and
 * thread each list through the free blocks: a block named by its header h
 * keeps its prev pointer at h + 4 and its next pointer at h + 12.  The
 * first block of a list points back at the head slot itself.  Memory is in
 * 4-byte words, so each pointer occupies two words, low half first.
 *
 * Chain says that memory holds one list; Push, Unlink and InsertAfter are
 * the stores the C functions make, and the lemmas here say what each does
 * to a chain and which words it leaves alone.
 */
module Buckets {
  import opened Twos
  import opened Heap

  /** SIZE_CLASS_NUMBER. */
  const CLASSES: int := 8

  /** &size_class_start[c]: the head slot of class c. */
  function Slot(start: int, c: int): int {
    start + 8 * c
  }

  /** size_class_start + SIZE_CLASS_NUMBER: the first byte past the heads. */
  function HeadsEnd(start: int): int {
    start + 8 * CLASSES
  }

  /**
   * UPPER_c, the largest size class c takes.  The two files agree on every
   * bound but the first, which is passed as u0.
   */
  function Upper(u0: int, c: int): int {
    if c == 0 then u0
    else if c == 1 then 64
    else if c == 2 then 128
    else if c == 3 then 256
    else if c == 4 then 512
    else if c == 5 then 2048
    else 4096
  }

  /**
   * find_size_class_index: the first class whose upper bound the size does
   * not exceed, and the last class for anything above 4096.
   */
  function ClassIndex(u0: int, size: int): (r: int)
    requires 0 < u0 < 64
    ensures 0 <= r < CLASSES
    ensures r == 0 || Upper(u0, r - 1) < size
    ensures r == CLASSES - 1 || size <= Upper(u0, r)
  {
    if size <= u0 then 0
    else if size > u0 && size <= 64 then 1
    else if size > 64 && size <= 128 then 2
    else if size > 128 && size <= 256 then 3
    else if size > 256 && size <= 512 then 4
    else if size > 512 && size <= 2048 then 5
    else if size > 2048 && size <= 4096 then 6
    else 7
  }

  /** A larger size never falls in a lower class. */
  lemma ClassMonotone(u0: int, a: int, b: int)
    requires 0 < u0 < 64 && a <= b
    ensures ClassIndex(u0, a) <= ClassIndex(u0, b)
  {
  }

  /** *header_to_prev(h). */
  function PrevOf(m: Mem, h: int): int {
    LoadPtr(m, h + 4)
  }

  /** *header_to_next(h). */
  function NextOf(m: Mem, h: int): int {
    LoadPtr(m, h + 12)
  }

  function SetPrev(m: Mem, h: int, p: int): Mem {
    StorePtr(m, h + 4, p)
  }

  function SetNext(m: Mem, h: int, p: int): Mem {
    StorePtr(m, h + 12, p)
  }

  // ---------------------------------------------------------------------------
  // Pointer words

  /** A pointer store is read back, and a pointer 8 or more bytes away is untouched. */
  lemma StoreRead(m: Mem, a: int, p: int)
    requires 0 <= p < Word32
    ensures LoadPtr(StorePtr(m, a, p), a) == p
    ensures forall b {:trigger LoadPtr(StorePtr(m, a, p), b)} :: a + 8 <= b || b + 8 <= a ==>
      LoadPtr(StorePtr(m, a, p), b) == LoadPtr(m, b)
    ensures forall x {:trigger Load(StorePtr(m, a, p), x)} :: x != a && x != a + 4 ==>
      Load(StorePtr(m, a, p), x) == Load(m, x)
  {
    PtrRoundTrip(m, a, p);
  }

  /** x lies outside the link words [h + 4, h + 20) of node h. */
  predicate Off(x: int, h: int) {
    x < h + 4 || h + 20 <= x
  }

  // ---------------------------------------------------------------------------
  // Chains

  /** Node i points back at the node before it (the slot for the first) and on at the next (NULL after the last). */
  predicate Node(m: Mem, slot: int, ns: seq<int>, i: int)
    requires 0 <= i < |ns|
  {
    && PrevOf(m, ns[i]) == (if i == 0 then slot else ns[i - 1])
    && NextOf(m, ns[i]) == (if i + 1 < |ns| then ns[i + 1] else 0)
  }

  /** The list headed at slot threads the nodes ns in order, both ways. */
  predicate Chain(m: Mem, slot: int, ns: seq<int>) {
    && LoadPtr(m, slot) == (if |ns| == 0 then 0 else ns[0])
    && (forall i :: 0 <= i < |ns| ==> Node(m, slot, ns, i))
  }

  /** Two nodes whose link words do not overlap. */
  predicate Far(x: int, y: int) {
    x + 20 <= y || y + 20 <= x
  }

  /** Nodes above lo, below the heap limit, pairwise far apart. */
  predicate Spread(lo: int, ns: seq<int>) {
    && (forall i :: 0 <= i < |ns| ==> lo <= ns[i] && ns[i] + 20 <= HeapLimit)
    && (forall i, j :: 0 <= i < j < |ns| ==> Far(ns[i], ns[j]))
  }

  /** Where the heads sit: a positive, 8-aligned start with room below the heap limit. */
  predicate Heads(start: int) {
    0 < start && start % 8 == 0 && HeadsEnd(start) <= HeapLimit
  }

  /** Every link word and head the chain reads is the same in m' as in m. */
  lemma ChainFrame(m: Mem, m': Mem, slot: int, ns: seq<int>)
    requires Chain(m, slot, ns)
    requires LoadPtr(m', slot) == LoadPtr(m, slot)
    requires forall i :: 0 <= i < |ns| ==> PrevOf(m', ns[i]) == PrevOf(m, ns[i]) && NextOf(m', ns[i]) == NextOf(m, ns[i])
    ensures Chain(m', slot, ns)
  {
    forall i | 0 <= i < |ns| ensures Node(m', slot, ns, i) {
      assert Node(m, slot, ns, i);
    }
  }

  /** A chain is kept by any change of memory outside its slot and its nodes' link words. */
  lemma ChainKept(m: Mem, m': Mem, slot: int, ns: seq<int>)
    requires Chain(m, slot, ns)
    requires Load(m', slot) == Load(m, slot) && Load(m', slot + 4) == Load(m, slot + 4)
    requires forall i :: 0 <= i < |ns| ==>
      forall x :: ns[i] + 4 <= x < ns[i] + 20 ==> Load(m', x) == Load(m, x)
    ensures Chain(m', slot, ns)
  {
    forall i | 0 <= i < |ns|
      ensures PrevOf(m', ns[i]) == PrevOf(m, ns[i]) && NextOf(m', ns[i]) == NextOf(m, ns[i])
    {
      var h := ns[i];
      assert Load(m', h + 4) == Load(m, h + 4) && Load(m', h + 8) == Load(m, h + 8);
      assert Load(m', h + 12) == Load(m, h + 12) && Load(m', h + 16) == Load(m, h + 16);
    }
    ChainFrame(m, m', slot, ns);
  }

  // ---------------------------------------------------------------------------
  // Pushing on the front: link_blk of mm-segregated.c, and the first case of
  // link_blk of mm-final.c

  /**
   * The stores that make h the first node of the list at slot: the slot
   * names h, h points back at the slot and on at the old first node, and
   * that node, if any, points back at h.
   */
  function Push(m: Mem, slot: int, h: int): Mem {
    var next := LoadPtr(m, slot);
    var m1 := SetNext(SetPrev(StorePtr(m, slot, h), h, slot), h, next);
    if next != 0 then SetPrev(m1, next, h) else m1
  }

  /** Pushing h makes the chain [h] + ns. */
  lemma PushChain(m: Mem, start: int, c: int, ns: seq<int>, h: int)
    requires Heads(start) && 0 <= c < CLASSES
    requires Chain(m, Slot(start, c), ns) && Spread(HeadsEnd(start), [h] + ns)
    ensures Chain(Push(m, Slot(start, c), h), Slot(start, c), [h] + ns)
  {
    var slot := Slot(start, c);
    var hs := [h] + ns;
    assert hs[0] == h;
    var next := if |ns| == 0 then 0 else ns[0];
    if |ns| > 0 {
      assert hs[1] == ns[0] && Far(hs[0], hs[1]);
    }
    PushWrites(m, slot, h, next);
    var m' := PushForm(m, slot, h, next);
    PushPoints(m, slot, h, next);
    forall i | 0 <= i < |ns|
      ensures NextOf(m', ns[i]) == NextOf(m, ns[i])
      ensures i > 0 ==> PrevOf(m', ns[i]) == PrevOf(m, ns[i])
    {
      assert hs[i + 1] == ns[i] && Far(hs[0], hs[i + 1]);
      if i > 0 {
        assert Far(hs[1], hs[i + 1]);
      }
      PushKeeps(m, m', slot, h, next, ns[i]);
    }
    PushNodes(m, m', slot, ns, h);
  }

  /** The links of a node clear of the pushed one survive the push; so does the old first node's next. */
  lemma PushKeeps(m: Mem, m': Mem, slot: int, h: int, next: int, g: int)
    requires slot + 8 <= g && Far(h, g) && (next != 0 ==> next == g || Far(next, g))
    requires m' == PushForm(m, slot, h, next)
    ensures NextOf(m', g) == NextOf(m, g)
    ensures g != next ==> PrevOf(m', g) == PrevOf(m, g)
  {
  }

  /** Push writes only the slot, h's link words and the old first node's prev pointer. */
  lemma PushFrame(m: Mem, slot: int, h: int, x: int)
    requires 0 <= slot < Word32 && 0 <= h < Word32 && 0 <= LoadPtr(m, slot) < Word32
    requires x != slot && x != slot + 4 && Off(x, h)
    requires LoadPtr(m, slot) != 0 ==> x != LoadPtr(m, slot) + 4 && x != LoadPtr(m, slot) + 8
    ensures Load(Push(m, slot, h), x) == Load(m, x)
  {
    PushWrites(m, slot, h, LoadPtr(m, slot));
  }

  /** The words Push writes, for pointers below 2^32. */
  lemma PushWrites(m: Mem, slot: int, h: int, next: int)
    requires LoadPtr(m, slot) == next && 0 <= slot < Word32 && 0 <= h < Word32 && 0 <= next < Word32
    ensures Push(m, slot, h) == PushForm(m, slot, h, next)
  {
  }

  /** Push as the eight word stores it makes. */
  function PushForm(m: Mem, slot: int, h: int, next: int): Mem {
    var m1 := m[slot := h][slot + 4 := 0][h + 4 := slot][h + 8 := 0][h + 12 := next][h + 16 := 0];
    if next != 0 then m1[next + 4 := h][next + 8 := 0] else m1
  }

  /** What the pushed node, the slot and the old first node read after the push. */
  lemma PushPoints(m: Mem, slot: int, h: int, next: int)
    requires 0 <= slot < Word32 && 0 <= h < Word32 && 0 <= next < Word32
    requires slot + 8 <= h && (next != 0 ==> slot + 8 <= next && Far(h, next))
    ensures LoadPtr(PushForm(m, slot, h, next), slot) == h
    ensures PrevOf(PushForm(m, slot, h, next), h) == slot && NextOf(PushForm(m, slot, h, next), h) == next
    ensures next != 0 ==> PrevOf(PushForm(m, slot, h, next), next) == h
  {
  }

  /** The nodes after the pushed one keep their links, except the old first's prev. */
  lemma PushNodes(m: Mem, m': Mem, slot: int, ns: seq<int>, h: int)
    requires Chain(m, slot, ns) && Spread(slot + 8, [h] + ns)
    requires LoadPtr(m', slot) == h && PrevOf(m', h) == slot
    requires NextOf(m', h) == (if |ns| == 0 then 0 else ns[0])
    requires |ns| > 0 ==> PrevOf(m', ns[0]) == h
    requires forall i :: 0 <= i < |ns| ==> NextOf(m', ns[i]) == NextOf(m, ns[i])
    requires forall i :: 0 < i < |ns| ==> PrevOf(m', ns[i]) == PrevOf(m, ns[i])
    ensures Chain(m', slot, [h] + ns)
  {
    var hs := [h] + ns;
    forall i | 0 <= i < |hs| ensures Node(m', slot, hs, i) {
      if i > 0 {
        assert hs[i] == ns[i - 1];
        assert Node(m, slot, ns, i - 1);
        if i > 1 {
          assert hs[i - 1] == ns[i - 2];
        }
        if i + 1 < |hs| {
          assert hs[i + 1] == ns[i];
        }
      }
    }
  }

  // ---------------------------------------------------------------------------
  // Taking a node out: remove_blk of mm-final.c

  /**
   * remove_blk of mm-final.c: the node's predecessor (the slot itself when
   * the predecessor lies among the heads) now names the node's successor,
   * the successor points back at the predecessor, and the node's own links
   * are cleared.
   */
  function Unlink(m: Mem, start: int, h: int): Mem {
    var prev := PrevOf(m, h);
    var next := NextOf(m, h);
    var m1 := if prev == 0 then m else if prev < HeadsEnd(start) then StorePtr(m, prev, next) else SetNext(m, prev, next);
    var m2 := if next == 0 then m1 else SetPrev(m1, next, prev);
    SetNext(SetPrev(m2, h, 0), h, 0)
  }

  /** Unlinking node t leaves the chain without it and clears its links. */
  lemma UnlinkChain(m: Mem, start: int, c: int, ns: seq<int>, t: int)
    requires Heads(start) && 0 <= c < CLASSES
    requires Chain(m, Slot(start, c), ns) && Spread(HeadsEnd(start), ns) && 0 <= t < |ns|
    ensures var m' := Unlink(m, start, ns[t]);
      && Chain(m', Slot(start, c), ns[..t] + ns[t + 1..])
      && PrevOf(m', ns[t]) == 0 && NextOf(m', ns[t]) == 0
  {
    var slot := Slot(start, c);
    var h := ns[t];
    assert Node(m, slot, ns, t);
    var prev := if t == 0 then slot else ns[t - 1];
    var next := if t + 1 < |ns| then ns[t + 1] else 0;
    if t > 0 {
      assert Far(ns[t - 1], h);
    }
    if t + 1 < |ns| {
      assert Far(h, ns[t + 1]);
    }
    if t > 0 && t + 1 < |ns| {
      assert Far(ns[t - 1], ns[t + 1]);
    }
    UnlinkWrites(m, start, h, prev, next);
    var m' := UnlinkForm(m, start, h, prev, next);
    UnlinkPoints(m, start, h, prev, next);
    forall i | 0 <= i < |ns| && i != t
      ensures i != t + 1 ==> PrevOf(m', ns[i]) == PrevOf(m, ns[i])
      ensures i != t - 1 ==> NextOf(m', ns[i]) == NextOf(m, ns[i])
    {
      assert Far(ns[i], h);
      if t > 0 && i != t - 1 {
        assert Far(ns[i], ns[t - 1]);
      }
      if t + 1 < |ns| && i != t + 1 {
        assert Far(ns[i], ns[t + 1]);
      }
      UnlinkKeeps(m, m', start, h, prev, next, ns[i]);
    }
    if t > 0 {
      UnlinkKeepsSlot(m, m', start, h, prev, next, slot);
    }
    UnlinkNodes(m, m', slot, ns, t);
  }

  /** The words Unlink writes, for pointers below 2^32: prev is a slot or a node, next a node or NULL. */
  lemma UnlinkWrites(m: Mem, start: int, h: int, prev: int, next: int)
    requires PrevOf(m, h) == prev && NextOf(m, h) == next && Heads(start)
    requires 0 < prev < Word32 && 0 <= h < Word32 && 0 <= next < Word32
    ensures Unlink(m, start, h) == UnlinkForm(m, start, h, prev, next)
  {
  }

  /** Unlink as the word stores it makes. */
  function UnlinkForm(m: Mem, start: int, h: int, prev: int, next: int): Mem {
    var m1 := if prev < HeadsEnd(start) then m[prev := next][prev + 4 := 0] else m[prev + 12 := next][prev + 16 := 0];
    var m2 := if next == 0 then m1 else m1[next + 4 := prev][next + 8 := 0];
    m2[h + 4 := 0][h + 8 := 0][h + 12 := 0][h + 16 := 0]
  }

  /** What the unlinked node and its neighbours read after the unlink. */
  lemma UnlinkPoints(m: Mem, start: int, h: int, prev: int, next: int)
    requires Heads(start) && 0 < prev < Word32 && 0 <= h < Word32 && 0 <= next < Word32
    requires HeadsEnd(start) <= h && (prev < HeadsEnd(start) ==> prev + 8 <= HeadsEnd(start))
    requires HeadsEnd(start) <= prev ==> Far(prev, h) && (next != 0 ==> Far(prev, next))
    requires next != 0 ==> HeadsEnd(start) <= next && Far(h, next)
    ensures var m' := UnlinkForm(m, start, h, prev, next);
      && PrevOf(m', h) == 0 && NextOf(m', h) == 0
      && (prev < HeadsEnd(start) ==> LoadPtr(m', prev) == next)
      && (HeadsEnd(start) <= prev ==> NextOf(m', prev) == next)
      && (next != 0 ==> PrevOf(m', next) == prev)
  {
  }

  /** The links of a node clear of the unlinked one and of its neighbours survive; so do the predecessor's prev and the successor's next. */
  lemma UnlinkKeeps(m: Mem, m': Mem, start: int, h: int, prev: int, next: int, g: int)
    requires Heads(start) && m' == UnlinkForm(m, start, h, prev, next)
    requires 0 < prev && (prev < HeadsEnd(start) ==> prev + 8 <= HeadsEnd(start))
    requires HeadsEnd(start) <= g && Far(h, g) && (prev == g || prev < HeadsEnd(start) || Far(prev, g))
    requires next == g || next == 0 || Far(next, g)
    ensures g != next ==> PrevOf(m', g) == PrevOf(m, g)
    ensures g != prev ==> NextOf(m', g) == NextOf(m, g)
  {
  }

  /** A head slot is untouched unless it is the predecessor. */
  lemma UnlinkKeepsSlot(m: Mem, m': Mem, start: int, h: int, prev: int, next: int, slot: int)
    requires Heads(start) && m' == UnlinkForm(m, start, h, prev, next)
    requires HeadsEnd(start) <= prev || prev + 8 <= slot || slot + 8 <= prev
    requires HeadsEnd(start) <= h && (next != 0 ==> HeadsEnd(start) <= next)
    requires slot + 8 <= HeadsEnd(start)
    ensures LoadPtr(m', slot) == LoadPtr(m, slot)
  {
  }

  /** Unlink writes only the predecessor's next (or the slot), the successor's prev and h's link words. */
  lemma UnlinkFrame(m: Mem, start: int, h: int, x: int)
    requires Heads(start) && 0 < PrevOf(m, h) < Word32 && 0 <= h < Word32 && 0 <= NextOf(m, h) < Word32
    requires Off(x, h)
    requires var prev := PrevOf(m, h);
      if prev < HeadsEnd(start) then x != prev && x != prev + 4 else x != prev + 12 && x != prev + 16
    requires NextOf(m, h) != 0 ==> x != NextOf(m, h) + 4 && x != NextOf(m, h) + 8
    ensures Load(Unlink(m, start, h), x) == Load(m, x)
  {
    UnlinkWrites(m, start, h, PrevOf(m, h), NextOf(m, h));
  }

  /** The chain without node t, from what the stores that unlink it leave in each node's links. */
  lemma UnlinkNodes(m: Mem, m': Mem, slot: int, ns: seq<int>, t: int)
    requires Chain(m, slot, ns) && 0 <= t < |ns|
    requires t == 0 ==> LoadPtr(m', slot) == (if |ns| > 1 then ns[1] else 0)
    requires t > 0 ==> LoadPtr(m', slot) == LoadPtr(m, slot)
    requires t > 0 ==> NextOf(m', ns[t - 1]) == (if t + 1 < |ns| then ns[t + 1] else 0)
    requires t + 1 < |ns| ==> PrevOf(m', ns[t + 1]) == (if t == 0 then slot else ns[t - 1])
    requires forall i :: 0 <= i < |ns| && i != t && i != t + 1 ==> PrevOf(m', ns[i]) == PrevOf(m, ns[i])
    requires forall i :: 0 <= i < |ns| && i != t && i != t - 1 ==> NextOf(m', ns[i]) == NextOf(m, ns[i])
    ensures Chain(m', slot, ns[..t] + ns[t + 1..])
  {
    var r := ns[..t] + ns[t + 1..];
    assert |r| == |ns| - 1;
    forall i | 0 <= i < |r| ensures Node(m', slot, r, i) {
      if i < t {
        assert r[i] == ns[i] && Node(m, slot, ns, i);
        if i > 0 {
          assert r[i - 1] == ns[i - 1];
        }
        if i + 1 < |r| {
          assert r[i + 1] == (if i + 1 < t then ns[i + 1] else ns[t + 1]);
        }
      } else {
        assert r[i] == ns[i + 1] && Node(m, slot, ns, i + 1);
        if i > 0 {
          assert r[i - 1] == (if i == t then ns[t - 1] else ns[i]);
        }
        if i + 1 < |r| {
          assert r[i + 1] == ns[i + 2];
        }
      }
    }
  }

  /** Nodes of one list lie far from every node of another. */
  predicate Apart(ns: seq<int>, gs: seq<int>) {
    forall i, j :: 0 <= i < |ns| && 0 <= j < |gs| ==> Far(ns[i], gs[j])
  }

  /** Unlinking a node of list c leaves list d, whose nodes lie apart from list c's, threaded as before. */
  lemma UnlinkOther(m: Mem, start: int, c: int, ns: seq<int>, t: int, d: int, gs: seq<int>)
    requires Heads(start) && 0 <= c < CLASSES && 0 <= d < CLASSES && c != d
    requires Chain(m, Slot(start, c), ns) && Spread(HeadsEnd(start), ns) && 0 <= t < |ns|
    requires Chain(m, Slot(start, d), gs) && Spread(HeadsEnd(start), gs) && Apart(ns, gs)
    ensures Chain(Unlink(m, start, ns[t]), Slot(start, d), gs)
  {
    var h := ns[t];
    assert Node(m, Slot(start, c), ns, t);
    var prev := if t == 0 then Slot(start, c) else ns[t - 1];
    var next := if t + 1 < |ns| then ns[t + 1] else 0;
    UnlinkWrites(m, start, h, prev, next);
    var m' := UnlinkForm(m, start, h, prev, next);
    forall j | 0 <= j < |gs| ensures PrevOf(m', gs[j]) == PrevOf(m, gs[j]) && NextOf(m', gs[j]) == NextOf(m, gs[j]) {
      assert Far(h, gs[j]);
      if t > 0 {
        assert Far(ns[t - 1], gs[j]);
      }
      if t + 1 < |ns| {
        assert Far(ns[t + 1], gs[j]);
      }
      UnlinkKeeps(m, m', start, h, prev, next, gs[j]);
    }
    UnlinkKeepsSlot(m, m', start, h, prev, next, Slot(start, d));
    ChainFrame(m, m', Slot(start, d), gs);
  }

  /** The slot and the links of list d survive a push on list c when its nodes lie apart from h and list c's. */
  lemma PushOther(m: Mem, start: int, c: int, ns: seq<int>, h: int, d: int, gs: seq<int>)
    requires Heads(start) && 0 <= c < CLASSES && 0 <= d < CLASSES && c != d
    requires Chain(m, Slot(start, c), ns) && Spread(HeadsEnd(start), [h] + ns)
    requires Chain(m, Slot(start, d), gs) && Spread(HeadsEnd(start), gs) && Apart([h] + ns, gs)
    ensures Chain(Push(m, Slot(start, c), h), Slot(start, d), gs)
  {
    var slot := Slot(start, c);
    var hs := [h] + ns;
    assert hs[0] == h;
    var next := if |ns| == 0 then 0 else ns[0];
    if |ns| > 0 {
      assert hs[1] == ns[0];
    }
    PushWrites(m, slot, h, next);
    var m' := PushForm(m, slot, h, next);
    forall j | 0 <= j < |gs| ensures PrevOf(m', gs[j]) == PrevOf(m, gs[j]) && NextOf(m', gs[j]) == NextOf(m, gs[j]) {
      assert Far(hs[0], gs[j]);
      if |ns| > 0 {
        assert Far(hs[1], gs[j]);
      }
      PushKeeps(m, m', slot, h, next, gs[j]);
    }
    PushKeepsSlot(m, m', slot, h, next, Slot(start, d));
    ChainFrame(m, m', Slot(start, d), gs);
  }

  /** Another head slot survives a push. */
  lemma PushKeepsSlot(m: Mem, m': Mem, slot: int, h: int, next: int, other: int)
    requires m' == PushForm(m, slot, h, next)
    requires slot + 8 <= other || other + 8 <= slot
    requires other + 8 <= h && (next != 0 ==> other + 8 <= next)
    ensures LoadPtr(m', other) == LoadPtr(m, other)
  {
  }

  // ---------------------------------------------------------------------------
  // Inserting after a node: the second case of link_blk of mm-final.c

  /**
   * The stores that put h between node p and curr (NULL at the end): p
   * names h, h points back at p and on at curr, and curr, if any, points
   * back at h.
   */
  function InsertAfter(m: Mem, p: int, h: int, curr: int): Mem {
    var m1 := SetNext(SetPrev(SetNext(m, p, h), h, p), h, curr);
    if curr != 0 then SetPrev(m1, curr, h) else m1
  }

  /** Inserting h after node t - 1 makes the chain ns[..t] + [h] + ns[t..]. */
  lemma InsertChain(m: Mem, start: int, c: int, ns: seq<int>, t: int, h: int)
    requires Heads(start) && 0 <= c < CLASSES
    requires Chain(m, Slot(start, c), ns) && 0 < t <= |ns| && Spread(HeadsEnd(start), ns[..t] + [h] + ns[t..])
    ensures var curr := if t < |ns| then ns[t] else 0;
      Chain(InsertAfter(m, ns[t - 1], h, curr), Slot(start, c), ns[..t] + [h] + ns[t..])
  {
    var slot := Slot(start, c);
    var hs := ns[..t] + [h] + ns[t..];
    var p := ns[t - 1];
    var curr := if t < |ns| then ns[t] else 0;
    assert hs[t - 1] == p && hs[t] == h;
    assert Far(p, h);
    if t < |ns| {
      assert hs[t + 1] == curr;
      assert Far(h, curr) && Far(p, curr);
    }
    InsertWrites(m, p, h, curr);
    var m' := InsertForm(m, p, h, curr);
    InsertPoints(m, p, h, curr);
    InsertKeepsSlot(m, m', p, h, curr, slot);
    forall i | 0 <= i < |ns|
      ensures i != t - 1 ==> NextOf(m', ns[i]) == NextOf(m, ns[i])
      ensures i != t ==> PrevOf(m', ns[i]) == PrevOf(m, ns[i])
    {
      var j := if i < t then i else i + 1;
      assert hs[j] == ns[i] && Far(hs[j], hs[t]);
      if j != t - 1 {
        assert Far(hs[j], hs[t - 1]);
      }
      if t < |ns| && j != t + 1 {
        assert Far(hs[j], hs[t + 1]);
      }
      InsertKeeps(m, m', p, h, curr, ns[i]);
    }
    InsertNodes(m, m', slot, ns, t, h);
  }

  /** Inserting into list c leaves list d, whose nodes lie apart from list c's and h, threaded as before. */
  lemma InsertOther(m: Mem, start: int, c: int, ns: seq<int>, t: int, h: int, d: int, gs: seq<int>)
    requires Heads(start) && 0 <= c < CLASSES && 0 <= d < CLASSES && c != d
    requires Chain(m, Slot(start, c), ns) && 0 < t <= |ns| && Spread(HeadsEnd(start), ns[..t] + [h] + ns[t..])
    requires Chain(m, Slot(start, d), gs) && Spread(HeadsEnd(start), gs) && Apart(ns[..t] + [h] + ns[t..], gs)
    ensures var curr := if t < |ns| then ns[t] else 0;
      Chain(InsertAfter(m, ns[t - 1], h, curr), Slot(start, d), gs)
  {
    var hs := ns[..t] + [h] + ns[t..];
    var p := ns[t - 1];
    var curr := if t < |ns| then ns[t] else 0;
    assert hs[t - 1] == p && hs[t] == h;
    if t < |ns| {
      assert hs[t + 1] == curr;
    }
    InsertWrites(m, p, h, curr);
    var m' := InsertForm(m, p, h, curr);
    forall j | 0 <= j < |gs| ensures PrevOf(m', gs[j]) == PrevOf(m, gs[j]) && NextOf(m', gs[j]) == NextOf(m, gs[j]) {
      assert Far(hs[t], gs[j]) && Far(hs[t - 1], gs[j]);
      if t < |ns| {
        assert Far(hs[t + 1], gs[j]);
      }
      InsertKeeps(m, m', p, h, curr, gs[j]);
    }
    InsertKeepsSlot(m, m', p, h, curr, Slot(start, d));
    ChainFrame(m, m', Slot(start, d), gs);
  }

  /** The words InsertAfter writes, for pointers below 2^32. */
  lemma InsertWrites(m: Mem, p: int, h: int, curr: int)
    requires 0 <= p < Word32 && 0 <= h < Word32 && 0 <= curr < Word32
    ensures InsertAfter(m, p, h, curr) == InsertForm(m, p, h, curr)
  {
  }

  /** InsertAfter as the word stores it makes. */
  function InsertForm(m: Mem, p: int, h: int, curr: int): Mem {
    var m1 := m[p + 12 := h][p + 16 := 0][h + 4 := p][h + 8 := 0][h + 12 := curr][h + 16 := 0];
    if curr != 0 then m1[curr + 4 := h][curr + 8 := 0] else m1
  }

  /** What p, h and curr read after the insertion. */
  lemma InsertPoints(m: Mem, p: int, h: int, curr: int)
    requires 0 <= p < Word32 && 0 <= h < Word32 && 0 <= curr < Word32
    requires Far(p, h) && (curr != 0 ==> Far(h, curr) && Far(p, curr))
    ensures var m' := InsertForm(m, p, h, curr);
      && NextOf(m', p) == h && PrevOf(m', h) == p && NextOf(m', h) == curr
      && (curr != 0 ==> PrevOf(m', curr) == h)
  {
  }

  /** The links of a node clear of h survive, except p's next and curr's prev. */
  lemma InsertKeeps(m: Mem, m': Mem, p: int, h: int, curr: int, g: int)
    requires m' == InsertForm(m, p, h, curr)
    requires Far(h, g) && (p == g || Far(p, g)) && (curr == 0 || curr == g || Far(curr, g))
    ensures g != p ==> NextOf(m', g) == NextOf(m, g)
    ensures g != curr ==> PrevOf(m', g) == PrevOf(m, g)
  {
  }

  /** A head slot below every node is untouched. */
  lemma InsertKeepsSlot(m: Mem, m': Mem, p: int, h: int, curr: int, slot: int)
    requires m' == InsertForm(m, p, h, curr)
    requires slot + 8 <= p && slot + 8 <= h && (curr != 0 ==> slot + 8 <= curr)
    ensures LoadPtr(m', slot) == LoadPtr(m, slot)
  {
  }

  /** InsertAfter writes only p's next, curr's prev and h's link words. */
  lemma InsertFrame(m: Mem, p: int, h: int, curr: int, x: int)
    requires 0 <= p < Word32 && 0 <= h < Word32 && 0 <= curr < Word32
    requires Off(x, h) && x != p + 12 && x != p + 16 && (curr != 0 ==> x != curr + 4 && x != curr + 8)
    ensures Load(InsertAfter(m, p, h, curr), x) == Load(m, x)
  {
    InsertWrites(m, p, h, curr);
  }

  /** The chain with h at position t, from what the stores that insert it leave in each node's links. */
  lemma InsertNodes(m: Mem, m': Mem, slot: int, ns: seq<int>, t: int, h: int)
    requires Chain(m, slot, ns) && 0 < t <= |ns|
    requires LoadPtr(m', slot) == LoadPtr(m, slot)
    requires NextOf(m', ns[t - 1]) == h && PrevOf(m', h) == ns[t - 1]
    requires NextOf(m', h) == (if t < |ns| then ns[t] else 0)
    requires t < |ns| ==> PrevOf(m', ns[t]) == h
    requires forall i :: 0 <= i < |ns| && i != t - 1 ==> NextOf(m', ns[i]) == NextOf(m, ns[i])
    requires forall i :: 0 <= i < |ns| && i != t ==> PrevOf(m', ns[i]) == PrevOf(m, ns[i])
    ensures Chain(m', slot, ns[..t] + [h] + ns[t..])
  {
    var hs := ns[..t] + [h] + ns[t..];
    assert |hs| == |ns| + 1;
    assert hs[0] == ns[0];
    forall i | 0 <= i < |hs| ensures Node(m', slot, hs, i) {
      if i < t {
        assert hs[i] == ns[i] && Node(m, slot, ns, i);
        if i > 0 {
          assert hs[i - 1] == ns[i - 1];
        }
        if i + 1 < t {
          assert hs[i + 1] == ns[i + 1];
        }
      } else if i == t {
        assert hs[i - 1] == ns[t - 1];
        if t < |ns| {
          assert hs[i + 1] == ns[t];
        }
      } else {
        assert hs[i] == ns[i - 1] && Node(m, slot, ns, i - 1);
        assert hs[i - 1] == (if i == t + 1 then h else ns[i - 2]);
        if i + 1 < |hs| {
          assert hs[i + 1] == ns[i];
        }
      }
    }
  }

  // Blocks and lists shared by both allocators.

  const WSIZE: int := 4
  const DSIZE: int := 8
  const MIN_BLOCK_SIZE: int := 24

  /**
   * Sizes are multiples of 8, at least a header and a footer, and a free
   * block holds its two pointers too; headers sit 4 bytes below a multiple
   * of 8, so payloads are 8-aligned.
   */
  predicate Sized(bs: seq<Block>) {
    forall b {:trigger b in bs} :: b in bs ==>
      b.size % 8 == 0 && b.size >= DSIZE && (!b.alloc ==> b.size >= MIN_BLOCK_SIZE) && b.addr % 8 == 4
  }

  function Addrs(fl: seq<Block>): (r: seq<int>)
    ensures |r| == |fl| && forall i :: 0 <= i < |fl| ==> r[i] == fl[i].addr
  {
    seq(|fl|, i requires 0 <= i < |fl| => fl[i].addr)
  }

  /** Two distinct free blocks of the row lie at least MIN_BLOCK_SIZE bytes apart. */
  lemma FreeFar(bs: seq<Block>, b: Block, c: Block)
    requires Tiled(bs) && Sized(bs) && b in bs && c in bs && b != c && !b.alloc && !c.alloc
    ensures Far(b.addr, c.addr)
  {
    var i :| 0 <= i < |bs| && bs[i] == b;
    var j :| 0 <= j < |bs| && bs[j] == c;
    if i < j {
      TiledOrder(bs, i, j);
    } else {
      TiledOrder(bs, j, i);
    }
  }

  /** No block's header or footer, nor the epilogue, lies among the link words of the node at h. */
  ghost predicate OffTags(bs: seq<Block>, h: int) {
    && (forall c {:trigger c in bs} :: c in bs ==> Off(c.addr, h) && Off(End(c) - WSIZE, h))
    && (|bs| > 0 ==> Off(Stop(bs), h))
  }

  lemma TagsOff(bs: seq<Block>, b: Block)
    requires Tiled(bs) && Sized(bs) && |bs| > 0 && b in bs && !b.alloc
    ensures OffTags(bs, b.addr)
  {
    Within(bs);
    forall c {:trigger c in bs} | c in bs ensures Off(c.addr, b.addr) && Off(End(c) - WSIZE, b.addr) {
      if c != b {
        var i :| 0 <= i < |bs| && bs[i] == b;
        var j :| 0 <= j < |bs| && bs[j] == c;
        if i < j {
          TiledOrder(bs, i, j);
        } else {
          TiledOrder(bs, j, i);
        }
      }
    }
  }

  /** Lists with no block in common, of free blocks of the row, have their nodes apart. */
  lemma ListsApart(bs: seq<Block>, fl: seq<Block>, gl: seq<Block>)
    requires Tiled(bs) && Sized(bs)
    requires forall b {:trigger b in fl} :: b in fl ==> b in bs && !b.alloc && b !in gl
    requires forall b {:trigger b in gl} :: b in gl ==> b in bs && !b.alloc
    ensures Apart(Addrs(fl), Addrs(gl))
  {
    var ns, gs := Addrs(fl), Addrs(gl);
    forall i, j | 0 <= i < |ns| && 0 <= j < |gs| ensures Far(ns[i], gs[j]) {
      assert fl[i] in fl && gl[j] in gl;
      FreeFar(bs, fl[i], gl[j]);
    }
  }

  lemma AddrsDrop(fl: seq<Block>, t: int)
    requires 0 <= t < |fl|
    ensures Addrs(fl[..t] + fl[t + 1..]) == Addrs(fl)[..t] + Addrs(fl)[t + 1..]
  {
    var a, b := Addrs(fl[..t] + fl[t + 1..]), Addrs(fl)[..t] + Addrs(fl)[t + 1..];
    assert |a| == |b|;
    forall i | 0 <= i < |a| ensures a[i] == b[i] {
      if i < t {
        assert (fl[..t] + fl[t + 1..])[i] == fl[i];
      } else {
        assert (fl[..t] + fl[t + 1..])[i] == fl[i + 1];
      }
    }
  }

  lemma AddrsCons(b: Block, fl: seq<Block>)
    ensures Addrs([b] + fl) == [b.addr] + Addrs(fl)
  {
    var a, c := Addrs([b] + fl), [b.addr] + Addrs(fl);
    assert |a| == |c|;
    forall i | 0 <= i < |a| ensures a[i] == c[i] {
      if i > 0 {
        assert ([b] + fl)[i] == fl[i - 1];
      }
    }
  }

  /** The list with entry t taken out. */
  function Drop(fl: seq<Block>, t: int): seq<Block>
    requires 0 <= t < |fl|
  {
    fl[..t] + fl[t + 1..]
  }

  /** Every list with block b taken out. */
  function Strip(ls: seq<seq<Block>>, b: Block): (r: seq<seq<Block>>)
    ensures |r| == |ls| && forall c :: 0 <= c < |ls| ==> r[c] == Without(ls[c], b)
  {
    seq(|ls|, c requires 0 <= c < |ls| => Without(ls[c], b))
  }

  /** Taking out a block no list holds changes no list. */
  lemma StripAbsent(ls: seq<seq<Block>>, b: Block)
    requires forall c :: 0 <= c < |ls| ==> b !in ls[c]
    ensures Strip(ls, b) == ls
  {
    forall c | 0 <= c < |ls| ensures Strip(ls, b)[c] == ls[c] {
      WithoutAbsent(ls[c], b);
    }
  }

  /** Every listed block lies wholly below lo or wholly from hi on. */
  ghost predicate Clear(ls: seq<seq<Block>>, lo: int, hi: int) {
    forall c, b {:trigger b in ls[c]} :: 0 <= c < |ls| && b in ls[c] ==> End(b) <= lo || hi <= b.addr
  }

  /** No list holds any of blocks i .. j - 1. */
  ghost predicate Unlisted(bs: seq<Block>, ls: seq<seq<Block>>, i: int, j: int) {
    forall c, x {:trigger bs[x] in ls[c]} :: 0 <= c < |ls| && i <= x < j && 0 <= x < |bs| ==> bs[x] !in ls[c]
  }

  /** The blocks of the row other than i .. j - 1, which no list holds, keep the listed blocks clear of the run. */
  lemma OutsideRun(bs: seq<Block>, ls: seq<seq<Block>>, i: int, j: int)
    requires Tiled(bs) && 0 <= i < j <= |bs| && Unlisted(bs, ls, i, j)
    requires forall c, b {:trigger b in ls[c]} :: 0 <= c < |ls| && b in ls[c] ==> b in bs
    ensures Clear(ls, bs[i].addr, End(bs[j - 1]))
  {
    forall c, b {:trigger b in ls[c]} | 0 <= c < |ls| && b in ls[c] ensures End(b) <= bs[i].addr || End(bs[j - 1]) <= b.addr {
      var x :| 0 <= x < |bs| && bs[x] == b;
      if x < i {
        TiledOrder(bs, x, i);
      } else if x >= j {
        TiledOrder(bs, j - 1, x);
      }
    }
  }

  /** A list whose nodes lie clear of [lo, hi), above the heads, survives a change inside [lo, hi). */
  lemma ChainOutside(m: Mem, m': Mem, start: int, c: int, fl: seq<Block>, lo: int, hi: int)
    requires Heads(start) && 0 <= c < CLASSES && HeadsEnd(start) <= lo
    requires Chain(m, Slot(start, c), Addrs(fl)) && SameOutside(m, m', lo, hi)
    requires forall b {:trigger b in fl} :: b in fl ==> (End(b) <= lo || hi <= b.addr) && b.size >= MIN_BLOCK_SIZE
    ensures Chain(m', Slot(start, c), Addrs(fl))
  {
    var ns := Addrs(fl);
    forall t | 0 <= t < |ns| ensures PrevOf(m', ns[t]) == PrevOf(m, ns[t]) && NextOf(m', ns[t]) == NextOf(m, ns[t]) {
      assert fl[t] in fl;
    }
    ChainFrame(m, m', Slot(start, c), ns);
  }

  /** extend_heap's rounding of a byte count up to a multiple of DSIZE, in size_t arithmetic. */
  function RoundUp(size: int): int {
    DSIZE * (((size + DSIZE - 1) % Two64) / DSIZE)
  }

  /** The rounding gives the least multiple of 8 at or above size, for sizes whose rounding does not wrap. */
  lemma RoundUpIs(size: int)
    requires 0 <= size && size + DSIZE - 1 < Two64
    ensures RoundUp(size) % 8 == 0 && size <= RoundUp(size) < size + DSIZE
    ensures size % 8 == 0 ==> RoundUp(size) == size
  {
  }

  /** mm_init's loop from head i on: every head from i to the last set to NULL. */
  function ClearHeads(m: Mem, start: int, i: int): Mem
    decreases CLASSES - i
  {
    if i >= CLASSES then m else ClearHeads(StorePtr(m, Slot(start, i), 0), start, i + 1)
  }

  /** Eight empty lists. */
  function NoLists(): (r: seq<seq<Block>>)
    ensures |r| == CLASSES && forall c :: 0 <= c < CLASSES ==> r[c] == []
  {
    seq(CLASSES, c => [])
  }

  /** The loop sets heads i .. 7 to NULL and writes nothing outside them. */
  lemma {:induction false} ClearHeadsLoads(m: Mem, start: int, i: int)
    requires 0 <= i <= CLASSES
    ensures forall c :: i <= c < CLASSES ==> LoadPtr(ClearHeads(m, start, i), Slot(start, c)) == 0
    ensures forall x :: x < Slot(start, i) || HeadsEnd(start) <= x ==> Load(ClearHeads(m, start, i), x) == Load(m, x)
    decreases CLASSES - i
  {
    if i < CLASSES {
      var m1 := StorePtr(m, Slot(start, i), 0);
      ClearHeadsLoads(m1, start, i + 1);
      var r := ClearHeads(m, start, i);
      assert r == ClearHeads(m1, start, i + 1);
      assert Load(r, Slot(start, i)) == Load(m1, Slot(start, i));
      assert Load(r, Slot(start, i) + 4) == Load(m1, Slot(start, i) + 4);
    }
  }
}

=== FILE: datalab.dfy ===
/**
 * The Data Lab puzzles of labs/lab01/bits.c.
 *
 * Each puzzle is written exactly as the C expression, operator for operator,
 * over the two's-complement operators of module Twos; a lemma next to it proves
 * that the expression computes what the puzzle's comment asks for.
 */
module DataLab {
  import opened Twos

  /** C's `/` on signed integers: the quotient rounded toward zero. */
  function TruncDiv(a: int, d: int): int
    requires d > 0
  {
    if a >= 0 then a / d else -((-a) / d)
  }

  // ---------------------------------------------------------------------------
  // copyLSB

  function CopyLSB(x: int): int {
    Shr(Shl(x, 63), 63)
  }

  /** Every bit of the result is bit 0 of x: all ones (-1) or all zeros. */
  lemma CopyLSBCorrect(x: int)
    ensures CopyLSB(x) == if Bit(x, 0) then -1 else 0
  {
    Pow2Values();
    ShlMul(x, 63);
    var q, b := x / 2, x % 2;
    assert x * Two63 == b * Two63 + q * Two64;
    WrapPeriodic(b * Two63, q);
    WrapNear(Two63);
    assert Shl(x, 63) == if b == 1 then -Two63 else 0;
    ShrSign(Shl(x, 63));
  }

  // ---------------------------------------------------------------------------
  // dividePower2

  function DividePower2(x: int, n: int): int
    requires IsLong(x) && 0 <= n <= 62
  {
    Shr(Add(x, And(Shr(x, 63), Add(Shl(1, n), Not(0)))), n)
  }

  /** x / 2^n rounded toward zero, for 0 <= n <= 62. */
  lemma DividePower2Correct(x: int, n: int)
    requires IsLong(x) && 0 <= n <= 62
    ensures DividePower2(x, n) == TruncDiv(x, Pow2(n))
  {
    DividePower2Bias(x, n);
    var d := Pow2(n);
    var biased := Add(x, And(Shr(x, 63), Add(Shl(1, n), Not(0))));
    ShrDiv(biased, n);
    if x < 0 {
      assert biased == x + d - 1;
      RoundUpDiv(x, d);
    } else {
      assert biased == x;
    }
    assert DividePower2(x, n) == biased / d;
  }

  /** The bias added before the shift: 2^n - 1 for negative x, 0 otherwise. */
  lemma DividePower2Bias(x: int, n: int)
    requires IsLong(x) && 0 <= n <= 62
    ensures Pow2(n) < Two63
    ensures And(Shr(x, 63), Add(Shl(1, n), Not(0))) == if x < 0 then Pow2(n) - 1 else 0
  {
    var d := Pow2(n);
    ShlOne(n);
    assert Add(d, Not(0)) == d - 1;
    ShrSign(x);
    AndMinusOne(d - 1);
  }

  /** 1 << n is 2^n while it fits below bit 63. */
  lemma ShlOne(n: int)
    requires 0 <= n <= 62
    ensures Shl(1, n) == Pow2(n) && Pow2(n) < Two63
  {
    Pow2Values();
    Pow2Mono(n, 62);
    ShlMul(1, n);
  }

  /** Adding d - 1 before a floor division turns it into division toward zero for x < 0. */
  lemma RoundUpDiv(x: int, d: int)
    requires x < 0 && d > 0
    ensures (x + d - 1) / d == -((-x) / d)
  {
    var q, r := (-x) / d, (-x) % d;
    assert x + d - 1 == (-q) * d + (d - 1 - r);
    DivUnique(x + d - 1, d, -q, d - 1 - r);
  }

  // ---------------------------------------------------------------------------
  // distinctNegation

  function DistinctNegation(x: int): int {
    LNot(LNot(Xor(x, Add(Not(x), 1))))
  }

  /** 1 exactly when x differs from its (wrapping) negation. */
  lemma DistinctNegationCorrect(x: int)
    ensures DistinctNegation(x) == if x != Wrap(-x) then 1 else 0
  {
    XorZero(x, Add(Not(x), 1));
  }

  /** The only longs equal to their own negation are 0 and LONG_MIN. */
  lemma SelfNegation(x: int)
    requires IsLong(x)
    ensures x == Wrap(-x) <==> x == 0 || x == -Two63
  {
    if -Two63 < x {
      assert Wrap(-x) == -x;
    } else {
      assert Wrap(-x) == (Two63 + Two63) % Two64 - Two63;
    }
  }

  // ---------------------------------------------------------------------------
  // anyEvenBit

  /** One step `hi = x >> w; x = hi | x`. */
  function Fold(a: int, w: int): int
    requires 0 < w < 64
  {
    Or(Shr(a, w), a)
  }

  function AnyEvenBit(x: int): int {
    And(Fold(Fold(Fold(Fold(Fold(x, 32), 16), 8), 4), 2), 1)
  }

  /** One folding step: bit j of the result is bit j or bit j + w of a. */
  lemma FoldBit(a: int, w: nat, j: nat)
    requires 0 < w < 64
    ensures Bit(Fold(a, w), j) == (Bit(a, j) || Bit(a, j + w))
  {
    BitBitwise(OrOp, Shr(a, w), a, j);
    BitShr(a, w, j);
  }

  /** Some even-numbered bit among bits 0..63 of x is set. */
  predicate HasEvenBit(x: int) {
    exists i: nat :: i < 64 && i % 2 == 0 && Bit(x, i)
  }

  /** 1 exactly when some even-numbered bit of x is set. */
  lemma AnyEvenBitCorrect(x: int)
    ensures AnyEvenBit(x) == if HasEvenBit(x) then 1 else 0
  {
    AndOne(Fold(Fold(Fold(Fold(Fold(x, 32), 16), 8), 4), 2));
    EvenFoldsUp(x);
    EvenFoldsDown(x);
  }

  lemma EvenFoldsUp(x: int)
    ensures Bit(Fold(Fold(Fold(Fold(Fold(x, 32), 16), 8), 4), 2), 0) ==> HasEvenBit(x)
  {
    var x1 := Fold(x, 32);
    var x2 := Fold(x1, 16);
    var x3 := Fold(x2, 8);
    var x4 := Fold(x3, 4);
    var x5 := Fold(x4, 2);
    FoldBits(x, x1, 32);
    FoldBits(x1, x2, 16);
    FoldBits(x2, x3, 8);
    FoldBits(x3, x4, 4);
    FoldBits(x4, x5, 2);
    if Bit(x5, 0) {
      var i := FoldedEvenBitUp(x, x1, x2, x3, x4, x5);
    }
  }

  lemma EvenFoldsDown(x: int)
    ensures HasEvenBit(x) ==> Bit(Fold(Fold(Fold(Fold(Fold(x, 32), 16), 8), 4), 2), 0)
  {
    var x1 := Fold(x, 32);
    var x2 := Fold(x1, 16);
    var x3 := Fold(x2, 8);
    var x4 := Fold(x3, 4);
    var x5 := Fold(x4, 2);
    FoldBits(x, x1, 32);
    FoldBits(x1, x2, 16);
    FoldBits(x2, x3, 8);
    FoldBits(x3, x4, 4);
    FoldBits(x4, x5, 2);
    if HasEvenBit(x) {
      var i: nat :| i < 64 && i % 2 == 0 && Bit(x, i);
      FoldedEvenBitDown(x, x1, x2, x3, x4, x5, i);
    }
  }

  lemma FoldBits(a: int, b: int, w: nat)
    requires 0 < w < 64 && b == Fold(a, w)
    ensures forall j: nat {:trigger Bit(b, j)} :: Bit(b, j) == (Bit(a, j) || Bit(a, j + w))
  {
    forall j: nat {:trigger Bit(b, j)} ensures Bit(b, j) == (Bit(a, j) || Bit(a, j + w)) {
      FoldBit(a, w, j);
    }
  }

  /** A set bit j < 2w of a survives the fold at j, or at j - w when j >= w; evenness is kept. */
  lemma FoldDown(a: int, b: int, w: nat, j: nat) returns (k: nat)
    requires forall t: nat {:trigger Bit(b, t)} :: Bit(b, t) == (Bit(a, t) || Bit(a, t + w))
    requires 0 < w && w % 2 == 0 && j < 2 * w && j % 2 == 0 && Bit(a, j)
    ensures k < w && k % 2 == 0 && Bit(b, k)
  {
    if j >= w {
      k := j - w;
      assert Bit(a, k + w);
    } else {
      k := j;
    }
  }

  /** A set bit j of the fold comes from bit j or bit j + w of a. */
  lemma FoldUp(a: int, b: int, w: nat, j: nat) returns (k: nat)
    requires forall t: nat {:trigger Bit(b, t)} :: Bit(b, t) == (Bit(a, t) || Bit(a, t + w))
    requires Bit(b, j)
    ensures (k == j || k == j + w) && Bit(a, k)
  {
    k := if Bit(a, j) then j else j + w;
  }

  /** After the five folds, a set bit 0 comes from a set even-numbered bit of x. */
  lemma FoldedEvenBitUp(x: int, x1: int, x2: int, x3: int, x4: int, x5: int) returns (i: nat)
    requires forall j: nat {:trigger Bit(x1, j)} :: Bit(x1, j) == (Bit(x, j) || Bit(x, j + 32))
    requires forall j: nat {:trigger Bit(x2, j)} :: Bit(x2, j) == (Bit(x1, j) || Bit(x1, j + 16))
    requires forall j: nat {:trigger Bit(x3, j)} :: Bit(x3, j) == (Bit(x2, j) || Bit(x2, j + 8))
    requires forall j: nat {:trigger Bit(x4, j)} :: Bit(x4, j) == (Bit(x3, j) || Bit(x3, j + 4))
    requires forall j: nat {:trigger Bit(x5, j)} :: Bit(x5, j) == (Bit(x4, j) || Bit(x4, j + 2))
    requires Bit(x5, 0)
    ensures i < 64 && i % 2 == 0 && Bit(x, i)
  {
    var j4 := FoldUp(x4, x5, 2, 0);
    var j3 := FoldUp(x3, x4, 4, j4);
    var j2 := FoldUp(x2, x3, 8, j3);
    var j1 := FoldUp(x1, x2, 16, j2);
    i := FoldUp(x, x1, 32, j1);
  }

  /** A set even-numbered bit of x reaches bit 0 through the five folds. */
  lemma FoldedEvenBitDown(x: int, x1: int, x2: int, x3: int, x4: int, x5: int, i: nat)
    requires forall j: nat {:trigger Bit(x1, j)} :: Bit(x1, j) == (Bit(x, j) || Bit(x, j + 32))
    requires forall j: nat {:trigger Bit(x2, j)} :: Bit(x2, j) == (Bit(x1, j) || Bit(x1, j + 16))
    requires forall j: nat {:trigger Bit(x3, j)} :: Bit(x3, j) == (Bit(x2, j) || Bit(x2, j + 8))
    requires forall j: nat {:trigger Bit(x4, j)} :: Bit(x4, j) == (Bit(x3, j) || Bit(x3, j + 4))
    requires forall j: nat {:trigger Bit(x5, j)} :: Bit(x5, j) == (Bit(x4, j) || Bit(x4, j + 2))
    requires i < 64 && i % 2 == 0 && Bit(x, i)
    ensures Bit(x5, 0)
  {
    var j1 := FoldDown(x, x1, 32, i);
    var j2 := FoldDown(x1, x2, 16, j1);
    var j3 := FoldDown(x2, x3, 8, j2);
    var j4 := FoldDown(x3, x4, 4, j3);
    var j5 := FoldDown(x4, x5, 2, j4);
  }

  // ---------------------------------------------------------------------------
  // isLessOrEqual

  function IsLessOrEqual(x: int, y: int): int
    requires IsLong(x) && IsLong(y)
  {
    var signx := Shr(x, 63);
    var signy := Shr(y, 63);
    var diffSign := Xor(LNot(signx), LNot(signy));
    var a := And(diffSign, signx);
    var b := And(LNot(diffSign), Shr(Add(x, Add(Not(y), 1)), 63));
    Or(Or(a, b), LNot(Xor(x, y)))
  }

  /** Values of `&`, `|`, `^` on the truth values 0, 1 and the masks 0, -1 that the puzzles combine. */
  lemma SmallValues()
    ensures Xor(0, 0) == 0 && Xor(0, 1) == 1 && Xor(1, 0) == 1 && Xor(1, 1) == 0
    ensures And(1, -1) == 1 && And(1, 0) == 0 && And(0, -1) == 0 && And(0, 0) == 0
    ensures Or(0, 0) == 0 && Or(0, 1) == 1 && Or(1, 0) == 1 && Or(1, 1) == 1
  {
  }

  /** 1 exactly when x <= y as signed 64-bit values. */
  lemma IsLessOrEqualCorrect(x: int, y: int)
    requires IsLong(x) && IsLong(y)
    ensures IsLessOrEqual(x, y) == if x <= y then 1 else 0
  {
    ShrSign(x);
    ShrSign(y);
    SmallValues();
    XorZero(x, y);
    var signx := Shr(x, 63);
    var signy := Shr(y, 63);
    var diffSign := Xor(LNot(signx), LNot(signy));
    var a := And(diffSign, signx);
    var eq := LNot(Xor(x, y));
    if (x < 0) != (y < 0) {
      assert diffSign == 1;
      assert a == (if x < 0 then 1 else 0);
      assert And(LNot(diffSign), Shr(Add(x, Add(Not(y), 1)), 63)) == 0 by {
        AndMinusOne(Shr(Add(x, Add(Not(y), 1)), 63));
      }
    } else {
      assert diffSign == 0 && a == 0;
      var d := Add(x, Add(Not(y), 1));
      if y == -Two63 {
        WrapNear(Two63);
        WrapNear(x - Two63);
        assert d == x + Two63;
      } else {
        assert d == x - y;
      }
      ShrSign(d);
      assert Shr(d, 63) == (if x < y then -1 else 0);
    }
  }

  // ---------------------------------------------------------------------------
  // replaceByte

  function ReplaceByte(x: int, n: int, c: int): int
    requires 0 <= n <= 7 && 0 <= c <= 255
  {
    var mask := Shl(0xFF, Shl(n, 3));
    Or(And(x, Not(mask)), Shl(c, Shl(n, 3)))
  }

  /** Bits 8n..8n+7 of the result are the bits of c; every other bit is x's; a long x gives a long result. */
  lemma ReplaceByteCorrect(x: int, n: int, c: int, i: nat)
    requires 0 <= n <= 7 && 0 <= c <= 255 && i < 64
    ensures Bit(ReplaceByte(x, n, c), i) ==
              if 8 * n <= i < 8 * n + 8 then Bit(c, i - 8 * n) else Bit(x, i)
    ensures IsLong(x) ==> IsLong(ReplaceByte(x, n, c))
  {
    ByteShift(n);
    var mask := Shl(0xFF, 8 * n);
    if IsLong(x) {
      BitwiseLong(AndOp, x, Not(mask));
      BitwiseLong(OrOp, And(x, Not(mask)), Shl(c, 8 * n));
    }
    ByteMaskBit(n, i);
    ShiftedByteBit(c, n, i);
    BitNot(mask, i);
    BitBitwise(AndOp, x, Not(mask), i);
    BitBitwise(OrOp, And(x, Not(mask)), Shl(c, 8 * n), i);
  }

  /** `n << 3` is 8n. */
  lemma ByteShift(n: int)
    requires 0 <= n <= 7
    ensures Shl(n, 3) == 8 * n
  {
    Pow2Values();
    ShlMul(n, 3);
  }

  /** `0xFF << 8n` has exactly bits 8n..8n+7 set. */
  lemma ByteMaskBit(n: int, i: nat)
    requires 0 <= n <= 7 && i < 64
    ensures Bit(Shl(0xFF, 8 * n), i) == (8 * n <= i < 8 * n + 8)
  {
    Pow2Values();
    assert 0xFF == Pow2(8) - 1;
    BitShl(0xFF, 8 * n, i);
    if 8 * n <= i {
      BitLowOnes(8, i - 8 * n);
    }
  }

  /** `c << 8n` for a byte c holds c's bits at 8n..8n+7 and nothing else. */
  lemma ShiftedByteBit(c: int, n: int, i: nat)
    requires 0 <= n <= 7 && 0 <= c <= 255 && i < 64
    ensures Bit(Shl(c, 8 * n), i) == (8 * n <= i < 8 * n + 8 && Bit(c, i - 8 * n))
  {
    BitShl(c, 8 * n, i);
    if 8 * n + 8 <= i {
      Pow2Values();
      BitAbove(c, 8, i - 8 * n);
    }
  }

  // ---------------------------------------------------------------------------
  // conditional

  function Conditional(x: int, y: int, z: int): int {
    var condition := LNot(LNot(x));
    var mask := Shr(Shl(condition, 63), 63);
    Or(And(mask, y), And(Not(mask), z))
  }

  /** Same as `x ? y : z`. */
  lemma ConditionalCorrect(x: int, y: int, z: int)
    ensures Conditional(x, y, z) == if x != 0 then y else z
  {
    AndMinusOne(y);
    AndMinusOne(z);
    OrIdentities(y);
    OrIdentities(z);
    ShlTop();
    ShrSign(-Two63);
    ShrSign(0);
  }

  // ---------------------------------------------------------------------------
  // bitMask

  function BitMask(highbit: int, lowbit: int): int
    requires 0 <= lowbit < 64 && 0 <= highbit < 64
  {
    var shiftLo := Add(63, Add(Not(lowbit), 1));
    var lo := Shr(Shl(1, 63), shiftLo);
    var shiftHi := Add(63, Add(Not(highbit), 1));
    var hi := Xor(Not(Shr(Shl(1, 63), shiftHi)), Shl(1, highbit));
    And(hi, lo)
  }

  /** -2^63 >> (63 - k) is -2^k: ones from bit k upward. */
  lemma ShrMinLong(k: nat)
    requires k < 64
    ensures Shr(Shl(1, 63), 63 - k) == -Pow2(k)
  {
    Pow2Values();
    ShlTop();
    ShrDiv(-Two63, 63 - k);
    var p, q := Pow2(k), Pow2(63 - k);
    Pow2Add(k, 63 - k);
    NegMul(p, q);
    DivUnique(-Two63, q, -p, 0);
  }

  /** Exactly bits lowbit..highbit are set (none when lowbit > highbit). */
  lemma BitMaskCorrect(highbit: int, lowbit: int, i: nat)
    requires 0 <= lowbit < 64 && 0 <= highbit < 64 && i < 64
    ensures Bit(BitMask(highbit, lowbit), i) <==> lowbit <= i <= highbit
  {
    assert Add(63, Add(Not(lowbit), 1)) == 63 - lowbit;
    assert Add(63, Add(Not(highbit), 1)) == 63 - highbit;
    var lo := Shr(Shl(1, 63), 63 - lowbit);
    var top := Shr(Shl(1, 63), 63 - highbit);
    var one := Shl(1, highbit);
    ShrMinLong(lowbit);
    ShrMinLong(highbit);
    assert lo == -Pow2(lowbit) && top == -Pow2(highbit);
    assert BitMask(highbit, lowbit) == And(Xor(Not(top), one), lo);
    assert Not(top) == Pow2(highbit) - 1;
    BitHighOnes(lowbit, i);
    BitLowOnes(highbit, i);
    BitShl(1, highbit, i);
    if highbit <= i {
      BitPow2(0, i - highbit);
    }
    assert Bit(one, i) == (i == highbit);
    BitBitwise(XorOp, Not(top), one, i);
    BitBitwise(AndOp, Xor(Not(top), one), lo, i);
  }

  /** When lowbit > highbit the mask is all zeros. */
  lemma BitMaskEmpty(highbit: int, lowbit: int)
    requires 0 <= highbit < lowbit < 64
    ensures BitMask(highbit, lowbit) == 0
  {
    var r := BitMask(highbit, lowbit);
    forall i: nat | i < 64 ensures Bit(r, i) == Bit(0, i) {
      BitMaskCorrect(highbit, lowbit, i);
      BitConst(i);
    }
    BitMaskLong(highbit, lowbit);
    LongExt(r, 0);
  }

  lemma BitMaskLong(highbit: int, lowbit: int)
    requires 0 <= lowbit < 64 && 0 <= highbit < 64
    ensures IsLong(BitMask(highbit, lowbit))
  {
    assert Add(63, Add(Not(lowbit), 1)) == 63 - lowbit;
    assert Add(63, Add(Not(highbit), 1)) == 63 - highbit;
    var lo := Shr(Shl(1, 63), 63 - lowbit);
    var top := Shr(Shl(1, 63), 63 - highbit);
    var one := Shl(1, highbit);
    ShrLong(Shl(1, 63), 63 - lowbit);
    ShrLong(Shl(1, 63), 63 - highbit);
    BitwiseLong(XorOp, Not(top), one);
    BitwiseLong(AndOp, Xor(Not(top), one), lo);
  }

  // ---------------------------------------------------------------------------
  // isPalindrome

  /** One step of the parallel bit reversal: swap the s-bit groups that `mask` selects with their neighbours. */
  function Swap(v: int, mask: int, s: int): int
    requires 0 < s < 64
  {
    Or(And(Shr(v, s), mask), And(Shl(v, s), Not(mask)))
  }

  /** The next, finer mask: `mask ^= mask << s`. */
  function NextMask(mask: int, s: int): int
    requires 0 < s < 64
  {
    Xor(mask, Shl(mask, s))
  }

  function IsPalindrome(x: int): int
    requires IsLong(x)
  {
    LNot(Xor(Reverse(x, Not(0)), x))
  }

  /** The six swap steps of isPalindrome, with `mask` starting out as all ones. */
  function Reverse(v: int, mask: int): int {
    var m1 := NextMask(mask, 32);
    var v1 := Swap(v, m1, 32);
    var m2 := NextMask(m1, 16);
    var v2 := Swap(v1, m2, 16);
    var m3 := NextMask(m2, 8);
    var v3 := Swap(v2, m3, 8);
    var m4 := NextMask(m3, 4);
    var v4 := Swap(v3, m4, 4);
    var m5 := NextMask(m4, 2);
    var v5 := Swap(v4, m5, 2);
    var m6 := NextMask(m5, 1);
    Swap(v5, m6, 1)
  }

  /** Bit index i with its bit of weight s flipped (s a power of two). */
  function Flip(i: int, s: int): (r: int)
    requires s > 0
    ensures 0 <= i ==> 0 <= r
  {
    if i % (2 * s) < s then i + s
    else
      assert 0 <= i ==> s <= i by {
        if 0 <= i {
          ModAtMost(i, 2 * s);
        }
      }
      i - s
  }

  lemma ModAtMost(i: int, d: int)
    requires 0 <= i && 0 < d
    ensures i % d <= i
  {
    var q := i / d;
    DivBounds(i, d);
    if q >= 1 {
      MulAtLeast(q, d);
    }
  }

  /** Index i with its bits below p (a power of two) complemented: `i ^ (p - 1)`. */
  function FlipLow(i: int, p: int): int
    requires p > 0
  {
    i - 2 * (i % p) + p - 1
  }

  /** Flipping bit s of an index whose bits below s are already complemented complements one more bit. */
  lemma FlipStep(i: int, s: int)
    requires s > 0
    ensures Flip(FlipLow(i, s), s) == FlipLow(i, 2 * s)
  {
    var q, r := i / (2 * s), i % (2 * s);
    var j := FlipLow(i, s);
    if r < s {
      DivUnique(i, s, 2 * q, r);
      DivUnique(j, 2 * s, q, s - 1 - r);
    } else {
      DivUnique(i, s, 2 * q + 1, r - s);
      DivUnique(j, 2 * s, q, 3 * s - 1 - r);
    }
  }

  /** Complementing no bits leaves i; complementing all six gives 63 - i. */
  lemma FlipLowEnds(i: int)
    requires 0 <= i < 64
    ensures FlipLow(i, 1) == i && FlipLow(i, 64) == 63 - i
  {
    DivUnique(i, 1, i, 0);
    DivUnique(i, 64, 0, i);
  }

  lemma FlipLowRange(i: int, p: int)
    requires 0 <= i < 64 && (p == 2 || p == 4 || p == 8 || p == 16 || p == 32)
    ensures 0 <= FlipLow(i, p) < 64
  {
    if p == 2 {
    } else if p == 4 {
    } else if p == 8 {
    } else if p == 16 {
    } else {
    }
  }

  /** The indices a bit passes through in the six swap steps, each below 64, ending at 63 - i. */
  lemma FlipIndices(i: int) returns (j1: int, j2: int, j3: int, j4: int, j5: int)
    requires 0 <= i < 64
    ensures 0 <= j1 < 64 && 0 <= j2 < 64 && 0 <= j3 < 64 && 0 <= j4 < 64 && 0 <= j5 < 64
    ensures Flip(i, 1) == j1 && Flip(j1, 2) == j2 && Flip(j2, 4) == j3
    ensures Flip(j3, 8) == j4 && Flip(j4, 16) == j5 && Flip(j5, 32) == 63 - i
  {
    FlipLowEnds(i);
    j1, j2, j3, j4, j5 := FlipLow(i, 2), FlipLow(i, 4), FlipLow(i, 8), FlipLow(i, 16), FlipLow(i, 32);
    FlipStep(i, 1);
    FlipStep(i, 2);
    FlipStep(i, 4);
    FlipStep(i, 8);
    FlipStep(i, 16);
    FlipStep(i, 32);
    FlipLowRange(i, 2);
    FlipLowRange(i, 4);
    FlipLowRange(i, 8);
    FlipLowRange(i, 16);
    FlipLowRange(i, 32);
  }

  /** The masks are 0x00000000ffffffff, 0x0000ffff0000ffff, ..., 0x5555555555555555: bit i is set when bit s of i is clear. */
  predicate IsMask(m: int, s: int)
    requires s > 0
  {
    forall i: nat :: i < 64 ==> (Bit(m, i) <==> i % (2 * s) < s)
  }

  lemma MaskStep(m: int, s: int)
    requires 0 < s < 64 && IsMask(m, 2 * s)
    ensures IsMask(NextMask(m, s), s)
  {
    forall i: nat | i < 64
      ensures Bit(NextMask(m, s), i) <==> i % (2 * s) < s
    {
      BitBitwise(XorOp, m, Shl(m, s), i);
      BitShl(m, s, i);
      MaskIndex(i, s);
    }
  }

  /** The index arithmetic behind MaskStep: bit s of i against bit 2s of i and of i - s. */
  predicate MaskRel(i: nat, s: int)
    requires s > 0
  {
    (i % (2 * s) < s) == ((i % (4 * s) < 2 * s) != (s <= i && (i - s) % (4 * s) < 2 * s))
  }

  lemma MaskIndex(i: nat, s: int)
    requires 0 < s
    ensures MaskRel(i, s)
  {
    var q, r := i / (4 * s), i % (4 * s);
    if q < 0 {
      MulAtLeast(-q, 4 * s);
      assert false;
    }
    MaskCase(i, s, q, r);
  }

  lemma MaskCase(i: nat, s: int, q: nat, r: int)
    requires 0 < s && 0 <= r < 4 * s && i == q * (4 * s) + r
    ensures MaskRel(i, s)
  {
    DivUnique(i, 4 * s, q, r);
    assert q * (4 * s) == (2 * q) * (2 * s);
    if r < s {
      DivUnique(i, 2 * s, 2 * q, r);
      if s <= i {
        if q == 0 {
          assert false;
        }
        assert i - s == (q - 1) * (4 * s) + (3 * s + r);
        DivUnique(i - s, 4 * s, q - 1, 3 * s + r);
      }
    } else if r < 2 * s {
      DivUnique(i, 2 * s, 2 * q, r);
      DivUnique(i - s, 4 * s, q, r - s);
    } else {
      assert q * (4 * s) + r == (2 * q + 1) * (2 * s) + (r - 2 * s);
      DivUnique(i, 2 * s, 2 * q + 1, r - 2 * s);
      DivUnique(i - s, 4 * s, q, r - s);
    }
  }

  /** Bit i of a swap step is bit Flip(i, s) of its input. */
  lemma SwapBit(v: int, m: int, s: int, i: nat)
    requires 0 < s < 64 && i < 64 && (Bit(m, i) <==> i % (2 * s) < s)
    ensures Bit(Swap(v, m, s), i) == Bit(v, Flip(i, s))
  {
    BitBitwise(AndOp, Shr(v, s), m, i);
    BitNot(m, i);
    BitBitwise(AndOp, Shl(v, s), Not(m), i);
    BitBitwise(OrOp, And(Shr(v, s), m), And(Shl(v, s), Not(m)), i);
    BitShr(v, s, i);
    BitShl(v, s, i);
    if i < s {
      DivUnique(i, 2 * s, 0, i);
    }
  }

  lemma MaskLong(m: int, s: int)
    requires 0 < s < 64 && IsLong(m)
    ensures IsLong(NextMask(m, s))
  {
    BitwiseLong(XorOp, m, Shl(m, s));
  }

  lemma SwapLong(v: int, m: int, s: int)
    requires 0 < s < 64 && IsLong(v) && IsLong(m)
    ensures IsLong(Swap(v, m, s))
  {
    ShrLong(v, s);
    BitwiseLong(AndOp, Shr(v, s), m);
    BitwiseLong(AndOp, Shl(v, s), Not(m));
    BitwiseLong(OrOp, And(Shr(v, s), m), And(Shl(v, s), Not(m)));
  }

  /** One step `mask ^= mask << s; v = ((v >> s) & mask) | ((v << s) & ~mask)`. */
  lemma Stage(v: int, m: int, s: int)
    requires 0 < s < 64 && IsLong(v) && IsLong(m) && IsMask(m, 2 * s)
    ensures IsLong(NextMask(m, s)) && IsMask(NextMask(m, s), s)
    ensures IsLong(Swap(v, NextMask(m, s), s))
    ensures forall i: nat {:trigger Bit(Swap(v, NextMask(m, s), s), i)} :: i < 64 ==>
              Bit(Swap(v, NextMask(m, s), s), i) == Bit(v, Flip(i, s))
  {
    var m' := NextMask(m, s);
    MaskStep(m, s);
    MaskLong(m, s);
    SwapLong(v, m', s);
    SwapBits(v, m', s);
  }

  /** Every bit of a swap step under a mask of period 2s. */
  lemma SwapBits(v: int, m: int, s: int)
    requires 0 < s < 64 && IsMask(m, s)
    ensures forall i: nat {:trigger Bit(Swap(v, m, s), i)} :: i < 64 ==> Bit(Swap(v, m, s), i) == Bit(v, Flip(i, s))
  {
    forall i: nat | i < 64 ensures Bit(Swap(v, m, s), i) == Bit(v, Flip(i, s)) {
      assert Bit(m, i) <==> i % (2 * s) < s;
      SwapBit(v, m, s, i);
    }
  }

  /** The six steps send bit 63 - i of x to bit i. */
  lemma ReverseBits(x: int, m0: int)
    requires IsLong(x) && m0 == -1
    ensures IsLong(Reverse(x, m0))
    ensures forall i: nat :: i < 64 ==> Bit(Reverse(x, m0), i) == Bit(x, 63 - i)
  {
    assert IsMask(m0, 64) by {
      forall i: nat | i < 64 ensures Bit(m0, i) {
        BitConst(i);
      }
    }
    var m1 := NextMask(m0, 32);
    var v1 := Swap(x, m1, 32);
    Stage(x, m0, 32);
    var m2 := NextMask(m1, 16);
    var v2 := Swap(v1, m2, 16);
    Stage(v1, m1, 16);
    var m3 := NextMask(m2, 8);
    var v3 := Swap(v2, m3, 8);
    Stage(v2, m2, 8);
    var m4 := NextMask(m3, 4);
    var v4 := Swap(v3, m4, 4);
    Stage(v3, m3, 4);
    var m5 := NextMask(m4, 2);
    var v5 := Swap(v4, m5, 2);
    Stage(v4, m4, 2);
    var m6 := NextMask(m5, 1);
    var v6 := Swap(v5, m6, 1);
    Stage(v5, m5, 1);
    ChainBits(x, v1, v2, v3, v4, v5, v6);
  }

  /** Composing the six index flips. */
  lemma ChainBits(x: int, v1: int, v2: int, v3: int, v4: int, v5: int, v6: int)
    requires forall i: nat {:trigger Bit(v1, i)} :: i < 64 ==> Bit(v1, i) == Bit(x, Flip(i, 32))
    requires forall i: nat {:trigger Bit(v2, i)} :: i < 64 ==> Bit(v2, i) == Bit(v1, Flip(i, 16))
    requires forall i: nat {:trigger Bit(v3, i)} :: i < 64 ==> Bit(v3, i) == Bit(v2, Flip(i, 8))
    requires forall i: nat {:trigger Bit(v4, i)} :: i < 64 ==> Bit(v4, i) == Bit(v3, Flip(i, 4))
    requires forall i: nat {:trigger Bit(v5, i)} :: i < 64 ==> Bit(v5, i) == Bit(v4, Flip(i, 2))
    requires forall i: nat {:trigger Bit(v6, i)} :: i < 64 ==> Bit(v6, i) == Bit(v5, Flip(i, 1))
    ensures forall i: nat :: i < 64 ==> Bit(v6, i) == Bit(x, 63 - i)
  {
    forall i: nat | i < 64 ensures Bit(v6, i) == Bit(x, 63 - i) {
      var j1, j2, j3, j4, j5 := FlipIndices(i);
      assert Bit(v6, i) == Bit(v5, j1);
      assert Bit(v5, j1) == Bit(v4, j2);
      assert Bit(v4, j2) == Bit(v3, j3);
      assert Bit(v3, j3) == Bit(v2, j4);
      assert Bit(v2, j4) == Bit(v1, j5);
      assert Bit(v1, j5) == Bit(x, 63 - i);
    }
  }

  /** The 64-bit pattern of x reads the same from both ends. */
  predicate IsMirror(x: int) {
    forall i: nat :: i < 64 ==> Bit(x, i) == Bit(x, 63 - i)
  }

  /** 1 exactly when the 64-bit pattern of x reads the same from both ends. */
  lemma IsPalindromeCorrect(x: int)
    requires IsLong(x)
    ensures IsPalindrome(x) == if IsMirror(x) then 1 else 0
  {
    XorZero(Reverse(x, Not(0)), x);
    ReverseFixed(x, Not(0));
  }

  /** x is its own bit reversal exactly when it is a mirror image. */
  lemma ReverseFixed(x: int, m0: int)
    requires IsLong(x) && m0 == -1
    ensures Reverse(x, m0) == x <==> IsMirror(x)
  {
    var r := Reverse(x, m0);
    ReverseBits(x, m0);
    if IsMirror(x) {
      LongExt(r, x);
    }
    if r == x {
      forall i: nat | i < 64 ensures Bit(x, i) == Bit(x, 63 - i) {
        assert Bit(r, i) == Bit(x, 63 - i);
      }
    }
  }

  // ---------------------------------------------------------------------------
  // trueFiveEighths

  function TrueFiveEighths(x: int): int
    requires IsLong(x)
  {
    var eighths := Shr(x, 3);
    var remainder := And(x, 7);
    Add(Add(eighths, Shl(eighths, 2)),
        Shr(Add(Add(remainder, Shl(remainder, 2)), And(Shr(x, 63), 7)), 3))
  }

  /** 5x/8 rounded toward zero, with no overflow in the intermediate 5x. */
  lemma TrueFiveEighthsCorrect(x: int)
    requires IsLong(x)
    ensures TrueFiveEighths(x) == TruncDiv(5 * x, 8)
  {
    var e, r := x / 8, x % 8;
    var c := if x < 0 then 7 else 0;
    FiveEighthsParts(x);
    assert 5 * x == 5 * r + 5 * e * 8;
    if x < 0 {
      RoundUpDiv(5 * x, 8);
      ShiftedDiv(5 * r + 7, 5 * e, 8);
    } else {
      ShiftedDiv(5 * r, 5 * e, 8);
    }
  }

  /** The expression adds 5 * (x >> 3) to the rounded-up-for-negatives 5 * (x & 7) / 8, with no wrap-around. */
  lemma FiveEighthsParts(x: int)
    requires IsLong(x)
    ensures TrueFiveEighths(x) == 5 * (x / 8) + (5 * (x % 8) + (if x < 0 then 7 else 0)) / 8
  {
    var e, r := x / 8, x % 8;
    assert Pow2(3) == 8;
    ShrDiv(x, 3);
    AndLowMask(x, 3);
    assert Shr(x, 3) == e && And(x, 7) == r;
    DivBounds(x, 8);
    ShrSign(x);
    AndMinusOne(7);
    var c := if x < 0 then 7 else 0;
    assert And(Shr(x, 63), 7) == c;
    FiveTimes(e);
    FiveEighthsOfRest(r, c);
    var t := (5 * r + c) / 8;
    assert Add(5 * e, t) == 5 * e + t;
  }

  /** `e + (e << 2)` is 5e for an eighth of a long. */
  lemma FiveTimes(e: int)
    requires -Two63 / 8 <= e < Two63 / 8
    ensures Add(e, Shl(e, 2)) == 5 * e
  {
    assert Pow2(2) == 4;
    ShlMul(e, 2);
  }

  /** `(r + (r << 2) + c) >> 3` on a remainder r and the rounding bias c. */
  lemma FiveEighthsOfRest(r: int, c: int)
    requires 0 <= r < 8 && (c == 0 || c == 7)
    ensures Shr(Add(Add(r, Shl(r, 2)), c), 3) == (5 * r + c) / 8 && 0 <= (5 * r + c) / 8 < 8
  {
    assert Pow2(2) == 4 && Pow2(3) == 8;
    ShlMul(r, 2);
    assert Add(Add(r, 4 * r), c) == 5 * r + c;
    ShrDiv(5 * r + c, 3);
  }


  // ---------------------------------------------------------------------------
  // logicalNeg

  function LogicalNeg(x: int): int
    requires IsLong(x)
  {
    Add(Or(Shr(x, 63), Shr(Add(Not(x), 1), 63)), 1)
  }

  /** Same as `!x`, computed without `!`. */
  lemma LogicalNegCorrect(x: int)
    requires IsLong(x)
    ensures LogicalNeg(x) == LNot(x)
  {
    ShrSign(x);
    OrIdentities(0);
    OrIdentities(-1);
    if x == -Two63 {
      WrapNear(Two63);
      assert Add(Not(x), 1) == -Two63;
    } else {
      assert Add(Not(x), 1) == -x;
    }
    ShrSign(Add(Not(x), 1));
  }
}

=== FILE: explicit.dfy ===
/**
 * labs/malloclab/mm-explicit.c: an explicit, doubly linked free list kept
 * in last-in-first-out order and searched by first fit.
 *
 * Words are 8 bytes.  A block is named by its header address; every block
 * has a header and a footer holding pack(size, alloc), and a free block
 * keeps prev_blk and next_blk pointers in its second and third words.  The
 * heap starts with a 32-byte allocated prologue block, which heap_head
 * names and which heads the free list, and ends with a 24-byte epilogue
 * (header of size 0, allocated, then prev and next) that closes the list.
 *
 * State is the memory, heap_head and memlib's break.  Each C function is a
 * function (or, where it loops, a method) on State reading and writing
 * words in the order the C code does.  View is the row of blocks and the
 * free list in list order; Rep ties memory to both, and the lemmas show
 * each operation moves the View as the abstract operations MergeView,
 * PlaceView, ExtendView and FreeView say.
 */
module Explicit {
  import opened Twos
  import opened Heap

  const WSIZE: int := 8
  const MIN_BLOCK_SIZE: int := 32
  const CHUNKSIZE: int := 4096

  /** The memory, heap_head and the break. */
  datatype State = State(mem: Mem, head: int, brk: int)

  // ---------------------------------------------------------------------------
  // The helpers

  /** pack(size, alloc): the size with the low bit set when the block is in use. */
  function Pack(size: int, alloc: bool): int {
    if alloc then Or(size, 1) else size
  }

  function GetSize(m: Mem, blk: int): int {
    SizeField(Load(m, blk))
  }

  function GetAlloc(m: Mem, blk: int): bool {
    AllocBit(Load(m, blk))
  }

  /** blk->prev_blk, the block's second word. */
  function PrevOf(m: Mem, blk: int): int {
    Load(m, blk + WSIZE)
  }

  /** blk->next_blk, the block's third word. */
  function NextOf(m: Mem, blk: int): int {
    Load(m, blk + 2 * WSIZE)
  }

  function WriteHeader(m: Mem, blk: int, size: int, alloc: bool): Mem {
    m[blk := Pack(size, alloc)]
  }

  /** write_footer finds the footer from the size the header holds now. */
  function WriteFooter(m: Mem, blk: int, size: int, alloc: bool): Mem {
    m[blk + GetSize(m, blk) - WSIZE := Pack(size, alloc)]
  }

  function FindNext(m: Mem, blk: int): int {
    blk + GetSize(m, blk)
  }

  /** find_prev_blk steps back by the size in the word before blk, the footer of the block before. */
  function FindPrev(m: Mem, blk: int): int {
    blk - SizeField(Load(m, blk - WSIZE))
  }

  function BlockToPayload(blk: int): int {
    blk + WSIZE
  }

  function PayloadToBlock(p: int): int {
    p - WSIZE
  }

  /** The tag a block's header and footer hold. */
  function Tag(b: Block): int {
    b.size + (if b.alloc then 1 else 0)
  }

  lemma PackAllocated(size: int)
    requires size % 8 == 0
    ensures Pack(size, true) == size + 1
  {
    OrFlags(size);
  }

  lemma PackTag(size: int, alloc: bool)
    requires size % 8 == 0
    ensures Pack(size, alloc) == Tag(Block(0, size, alloc))
  {
    if alloc {
      PackAllocated(size);
    }
  }

  lemma ReadTag(m: Mem, a: int, b: Block)
    requires Load(m, a) == Tag(b) && b.size % 8 == 0
    ensures GetSize(m, a) == b.size && GetAlloc(m, a) == b.alloc
  {
    TagFields(b.size, false, b.alloc);
  }

  /**
   * get_size and get_alloc read back what write_header stored, and the
   * arithmetic they are modelled with agrees with the C masks SIZE_MASK and
   * ALLOC_MASK.
   */
  lemma PackRoundTrip(m: Mem, blk: int, size: int, alloc: bool)
    requires size % 8 == 0
    ensures GetSize(WriteHeader(m, blk, size, alloc), blk) == size
    ensures GetAlloc(WriteHeader(m, blk, size, alloc), blk) == alloc
    ensures And(Pack(size, alloc), Not(7)) == size
    ensures (And(Pack(size, alloc), 1) != 0) == alloc
  {
    PackTag(size, alloc);
    ReadTag(WriteHeader(m, blk, size, alloc), blk, Block(0, size, alloc));
    SizeFieldMask(Pack(size, alloc));
    AllocBitMask(Pack(size, alloc));
  }

  // ---------------------------------------------------------------------------
  // calc_real_size

  /**
   * The block size for a payload of n bytes: 32 for up to 16 bytes,
   * otherwise the payload rounded up to 8 plus 16 for header and footer.
   * It is the least multiple of 8 that is at least 32 and holds n + 16.
   */
  function RealSize(n: int): (r: int)
    requires 0 <= n
    ensures r % 8 == 0 && r >= MIN_BLOCK_SIZE && r >= n + 2 * WSIZE
    ensures r == MIN_BLOCK_SIZE || r - 8 < n + 2 * WSIZE
  {
    if n <= 2 * WSIZE then MIN_BLOCK_SIZE else 2 * WSIZE + WSIZE * ((n + WSIZE - 1) / WSIZE)
  }

  /** The same computation in size_t arithmetic, each step wrapping at 2^64. */
  function RealSizeAsWritten(n: int): int
    requires 0 <= n <= SizeMax
  {
    if n <= 2 * WSIZE then MIN_BLOCK_SIZE
    else (2 * WSIZE + (WSIZE * (((n + WSIZE - 1) % Two64) / WSIZE)) % Two64) % Two64
  }

  /** Up to SIZE_MAX - 23 nothing wraps and the two agree. */
  lemma RealSizeAgrees(n: int)
    requires 0 <= n <= SizeMax - 23
    ensures RealSizeAsWritten(n) == RealSize(n)
  {
    if n > 2 * WSIZE {
      assert (n + 7) % Two64 == n + 7;
      var q := (n + 7) / 8;
      assert 8 * q <= n + 7;
      assert (8 * q) % Two64 == 8 * q;
      assert (16 + 8 * q) % Two64 == 16 + 8 * q;
    }
  }

  /** For malloc(SIZE_MAX - 15) the rounding wraps and the block size comes out as 0. */
  lemma RealSizeWraps()
    ensures RealSizeAsWritten(SizeMax - 15) == 0
  {
    var n := SizeMax - 15;
    assert (n + 7) % Two64 == n + 7;
    assert (n + 7) / 8 == Two64 / 8 - 2;
    assert (8 * (Two64 / 8 - 2)) % Two64 == Two64 - 16;
  }

  // ---------------------------------------------------------------------------
  // The free list: link_blk and remove_blk

  /** link_blk(prev, new_blk): put new_blk right after prev; nothing happens when either is NULL. */
  function LinkBlk(m: Mem, prev: int, nb: int): Mem {
    if prev == 0 || nb == 0 then m
    else
      var next := NextOf(m, prev);
      var m1 := m[prev + 2 * WSIZE := nb];
      var m2 := if next != 0 then m1[next + WSIZE := nb] else m1;
      m2[nb + WSIZE := prev][nb + 2 * WSIZE := next]
  }

  /** remove_blk(blk): clear blk's links and join its neighbours in the list to each other. */
  function RemoveBlk(m: Mem, blk: int): Mem {
    var prev := PrevOf(m, blk);
    var next := NextOf(m, blk);
    var m1 := m[blk + 2 * WSIZE := 0][blk + WSIZE := 0];
    var m2 := if prev != 0 then m1[prev + 2 * WSIZE := next] else m1;
    if next != 0 then m2[next + WSIZE := prev] else m2
  }

  /**
   * The prev_blk and next_blk words of the nodes ns chain them in order,
   * both ways, with NULL before the first and after the last.
   */
  predicate Linked(m: Mem, ns: seq<int>) {
    && |ns| >= 2
    && (forall i :: 0 <= i < |ns| ==> ns[i] != 0)
    && PrevOf(m, ns[0]) == 0 && NextOf(m, ns[|ns| - 1]) == 0
    && (forall i :: 0 < i < |ns| ==> Step(m, ns, i))
  }

  /** Node i - 1 and node i point at each other. */
  predicate Step(m: Mem, ns: seq<int>, i: int)
    requires 0 < i < |ns|
  {
    NextOf(m, ns[i - 1]) == ns[i] && PrevOf(m, ns[i]) == ns[i - 1]
  }

  /**
   * Two distinct nodes none of whose three first words (header, prev_blk,
   * next_blk) coincide with the other's, as when they are 24 bytes apart.
   */
  predicate Far(x: int, y: int) {
    && x != y && x != y + 8 && y != x + 8 && x != y + 16 && y != x + 16
  }

  predicate Apart(ns: seq<int>) {
    forall i, j :: 0 <= i < j < |ns| ==> Far(ns[i], ns[j])
  }

  /** Linking x after the first node makes it the second, and touches only the four link words involved. */
  lemma LinkFront(m: Mem, ns: seq<int>, x: int)
    requires Linked(m, ns) && x != 0 && Apart([ns[0], x] + ns[1..])
    ensures Linked(LinkBlk(m, ns[0], x), [ns[0], x] + ns[1..])
    ensures forall a {:trigger Load(LinkBlk(m, ns[0], x), a)} ::
      a != ns[0] + 16 && a != ns[1] + 8 && a != x + 8 && a != x + 16 ==> Load(LinkBlk(m, ns[0], x), a) == Load(m, a)
  {
    assert Step(m, ns, 1);
    LinkWrites(m, ns[0], x, ns[1]);
    LinkChain(m, ns, x, m[ns[0] + 16 := x][ns[1] + 8 := x][x + 8 := ns[0]][x + 16 := ns[1]]);
  }

  lemma LinkChain(m: Mem, ns: seq<int>, x: int, m': Mem)
    requires Linked(m, ns) && x != 0 && Apart([ns[0], x] + ns[1..])
    requires m' == m[ns[0] + 16 := x][ns[1] + 8 := x][x + 8 := ns[0]][x + 16 := ns[1]]
    ensures Linked(m', [ns[0], x] + ns[1..])
  {
    var h, n1 := ns[0], ns[1];
    var r := [h, x] + ns[1..];
    assert r[0] == h && r[1] == x && r[2] == n1;
    assert Far(r[0], r[1]) && Far(r[0], r[2]) && Far(r[1], r[2]);
    forall t | 2 <= t < |ns|
      ensures PrevOf(m', ns[t]) == PrevOf(m, ns[t]) && NextOf(m', ns[t]) == NextOf(m, ns[t])
    {
      assert r[t + 1] == ns[t];
      assert Far(r[0], r[t + 1]) && Far(r[1], r[t + 1]) && Far(r[2], r[t + 1]);
    }
    Linked2(m, ns, x, m');
  }

  /** With the first node's successor non-NULL, link_blk makes these four stores. */
  lemma LinkWrites(m: Mem, h: int, x: int, n: int)
    requires NextOf(m, h) == n && h != 0 && x != 0 && n != 0
    ensures LinkBlk(m, h, x) == m[h + 16 := x][n + 8 := x][x + 8 := h][x + 16 := n]
  {
  }

  /** The chain with x second, from what the stores that link it leave in each node's links. */
  lemma Linked2(m: Mem, ns: seq<int>, x: int, m': Mem)
    requires Linked(m, ns) && x != 0
    requires forall t :: 2 <= t < |ns| ==>
      PrevOf(m', ns[t]) == PrevOf(m, ns[t]) && NextOf(m', ns[t]) == NextOf(m, ns[t])
    requires NextOf(m', ns[0]) == x && PrevOf(m', x) == ns[0] && NextOf(m', x) == ns[1] && PrevOf(m', ns[1]) == x
    requires PrevOf(m', ns[0]) == PrevOf(m, ns[0]) && NextOf(m', ns[1]) == NextOf(m, ns[1])
    ensures Linked(m', [ns[0], x] + ns[1..])
  {
    var r := [ns[0], x] + ns[1..];
    assert |r| == |ns| + 1;
    assert r[|r| - 1] == ns[|ns| - 1];
    forall i | 3 <= i < |r| ensures Step(m', r, i) {
      assert r[i - 1] == ns[i - 2] && r[i] == ns[i - 1];
      assert Step(m, ns, i - 1);
    }
    assert Step(m', r, 1) && Step(m', r, 2);
    forall i | 2 <= i < |r| ensures r[i] != 0 {
      assert r[i] == ns[i - 1];
    }
  }

  /** With both list neighbours non-NULL, remove_blk makes these four stores. */
  lemma RemoveWrites(m: Mem, x: int, p: int, n: int)
    requires PrevOf(m, x) == p && NextOf(m, x) == n && p != 0 && n != 0
    ensures RemoveBlk(m, x) == m[x + 16 := 0][x + 8 := 0][p + 16 := n][n + 8 := p]
  {
  }

  /** Removing node k (neither end) drops it from the chain, zeroes its links, and touches only the four link words involved. */
  lemma Unlink(m: Mem, ns: seq<int>, k: int)
    requires Linked(m, ns) && Apart(ns) && 0 < k < |ns| - 1
    ensures Linked(RemoveBlk(m, ns[k]), ns[..k] + ns[k + 1..])
    ensures PrevOf(RemoveBlk(m, ns[k]), ns[k]) == 0 && NextOf(RemoveBlk(m, ns[k]), ns[k]) == 0
    ensures forall a {:trigger Load(RemoveBlk(m, ns[k]), a)} ::
      a != ns[k] + 8 && a != ns[k] + 16 && a != ns[k - 1] + 16 && a != ns[k + 1] + 8 ==> Load(RemoveBlk(m, ns[k]), a) == Load(m, a)
  {
    var p, x, n := ns[k - 1], ns[k], ns[k + 1];
    assert Step(m, ns, k) && Step(m, ns, k + 1);
    RemoveWrites(m, x, p, n);
    UnlinkChain(m, ns, k, m[x + 16 := 0][x + 8 := 0][p + 16 := n][n + 8 := p]);
  }

  lemma UnlinkChain(m: Mem, ns: seq<int>, k: int, m': Mem)
    requires Linked(m, ns) && Apart(ns) && 0 < k < |ns| - 1
    requires m' == m[ns[k] + 16 := 0][ns[k] + 8 := 0][ns[k - 1] + 16 := ns[k + 1]][ns[k + 1] + 8 := ns[k - 1]]
    ensures Linked(m', ns[..k] + ns[k + 1..])
    ensures PrevOf(m', ns[k]) == 0 && NextOf(m', ns[k]) == 0
  {
    var p, x, n := ns[k - 1], ns[k], ns[k + 1];
    assert Far(p, x) && Far(x, n) && Far(p, n);
    forall t | 0 <= t < |ns| && (t < k - 1 || k + 1 < t)
      ensures PrevOf(m', ns[t]) == PrevOf(m, ns[t]) && NextOf(m', ns[t]) == NextOf(m, ns[t])
    {
      Untouched(m, m', ns, k, t);
    }
    Relinked(m, ns, k, m');
  }

  /** The chain without node k, from what the stores that remove it leave in each node's links. */
  lemma Relinked(m: Mem, ns: seq<int>, k: int, m': Mem)
    requires Linked(m, ns) && 0 < k < |ns| - 1
    requires forall t :: 0 <= t < |ns| && (t < k - 1 || k + 1 < t) ==>
      PrevOf(m', ns[t]) == PrevOf(m, ns[t]) && NextOf(m', ns[t]) == NextOf(m, ns[t])
    requires NextOf(m', ns[k - 1]) == ns[k + 1] && PrevOf(m', ns[k + 1]) == ns[k - 1]
    requires PrevOf(m', ns[k - 1]) == PrevOf(m, ns[k - 1]) && NextOf(m', ns[k + 1]) == NextOf(m, ns[k + 1])
    ensures Linked(m', ns[..k] + ns[k + 1..])
  {
    var r := ns[..k] + ns[k + 1..];
    assert |r| == |ns| - 1;
    assert r[0] == ns[0] && r[|r| - 1] == ns[|ns| - 1];
    forall i | 0 < i < |r| ensures Step(m', r, i) {
      if i < k {
        assert r[i - 1] == ns[i - 1] && r[i] == ns[i];
        assert Step(m, ns, i);
      } else if i > k {
        assert r[i - 1] == ns[i] && r[i] == ns[i + 1];
        assert Step(m, ns, i + 1);
      }
    }
    forall i | 0 <= i < |r| ensures r[i] != 0 {
      if i < k {
        assert r[i] == ns[i];
      } else {
        assert r[i] == ns[i + 1];
      }
    }
  }

  /** The links of a node other than k and its two neighbours survive the stores that remove node k. */
  lemma Untouched(m: Mem, m': Mem, ns: seq<int>, k: int, t: int)
    requires Apart(ns) && 0 < k < |ns| - 1 && 0 <= t < |ns| && (t < k - 1 || k + 1 < t)
    requires m' == m[ns[k] + 16 := 0][ns[k] + 8 := 0][ns[k - 1] + 16 := ns[k + 1]][ns[k + 1] + 8 := ns[k - 1]]
    ensures PrevOf(m', ns[t]) == PrevOf(m, ns[t]) && NextOf(m', ns[t]) == NextOf(m, ns[t])
  {
    assert Far(ns[t], ns[k]) && Far(ns[t], ns[k - 1]) && Far(ns[t], ns[k + 1]);
  }

  // ---------------------------------------------------------------------------
  // The view

  /** The row of blocks, prologue first, and the free blocks in the order the list holds them. */
  datatype View = View(blocks: seq<Block>, free: seq<Block>)

  /** Every block is at least MIN_BLOCK_SIZE bytes, a multiple of 8, and starts on an 8-byte boundary. */
  predicate Sized(bs: seq<Block>) {
    forall b {:trigger b in bs} :: b in bs ==> b.size >= MIN_BLOCK_SIZE && b.size % 8 == 0 && b.addr % 8 == 0
  }

  /** Block b's header and footer hold its tag. */
  predicate BlockOk(m: Mem, b: Block) {
    Load(m, b.addr) == Tag(b) && Load(m, End(b) - WSIZE) == Tag(b)
  }

  predicate Tagged(m: Mem, bs: seq<Block>) {
    forall b {:trigger b in bs} :: b in bs ==> BlockOk(m, b)
  }

  function Addrs(fl: seq<Block>): (r: seq<int>)
    ensures |r| == |fl| && forall i :: 0 <= i < |fl| ==> r[i] == fl[i].addr
  {
    seq(|fl|, i requires 0 <= i < |fl| => fl[i].addr)
  }

  /** The nodes the list threads: the prologue, the free blocks in list order, the epilogue. */
  function Nodes(head: int, fl: seq<Block>, epi: int): seq<int> {
    [head] + Addrs(fl) + [epi]
  }

  /** fl holds free blocks of bs, none twice. */
  predicate Members(bs: seq<Block>, fl: seq<Block>) {
    && (forall i, j :: 0 <= i < j < |fl| ==> fl[i] != fl[j])
    && (forall b {:trigger b in fl} :: b in fl ==> b in bs && !b.alloc)
  }

  /**
   * fl holds every free block of bs except block gap, when gap names one (a
   * block just freed and not yet linked), which it does not hold.
   */
  predicate Listed(bs: seq<Block>, fl: seq<Block>, gap: int) {
    && (0 <= gap < |bs| ==> bs[gap] !in fl)
    && (forall k :: 0 <= k < |bs| && !bs[k].alloc && k != gap ==> bs[k] in fl)
  }

  /**
   * Memory holds the row and the list: the prologue at heap_head, tiled
   * blocks with their tags, the epilogue header right after the last block
   * with the break 24 bytes past it, and the list threading the prologue,
   * the blocks of fl and the epilogue.
   */
  ghost predicate Shape(s: State, v: View) {
    var bs := v.blocks;
    && 0 < s.head && |bs| > 0 && bs[0] == Block(s.head, MIN_BLOCK_SIZE, true)
    && Tiled(bs) && Sized(bs) && Tagged(s.mem, bs)
    && Load(s.mem, Stop(bs)) == 1
    && s.brk == Stop(bs) + 3 * WSIZE && s.brk <= HeapLimit
    && Members(bs, v.free)
    && Linked(s.mem, Nodes(s.head, v.free, Stop(bs)))
  }

  /** The heap is consistent: its shape, and the list holds exactly the free blocks. */
  ghost predicate Rep(s: State, v: View) {
    Shape(s, v) && Listed(v.blocks, v.free, -1)
  }

  // ---------------------------------------------------------------------------
  // Where things lie in a tiled row

  /** Two distinct blocks of the row lie at least MIN_BLOCK_SIZE bytes apart. */
  lemma StartsFar(bs: seq<Block>, b: Block, c: Block)
    requires Tiled(bs) && Sized(bs) && b in bs && c in bs && b != c
    ensures b.addr + MIN_BLOCK_SIZE <= c.addr || c.addr + MIN_BLOCK_SIZE <= b.addr
  {
    var i :| 0 <= i < |bs| && bs[i] == b;
    var j :| 0 <= j < |bs| && bs[j] == c;
    if i < j {
      TiledOrder(bs, i, j);
    } else {
      TiledOrder(bs, j, i);
    }
  }

  /** The list's nodes are far apart when its blocks are distinct free blocks of the row. */
  lemma NodesApart(bs: seq<Block>, fl: seq<Block>)
    requires Tiled(bs) && Sized(bs) && |bs| > 0 && bs[0].alloc && Members(bs, fl)
    ensures Apart(Nodes(bs[0].addr, fl, Stop(bs)))
  {
    var ns := Nodes(bs[0].addr, fl, Stop(bs));
    Within(bs);
    assert bs[0] in bs;
    forall i, j | 0 <= i < j < |ns| ensures Far(ns[i], ns[j]) {
      if j == |ns| - 1 {
        if i > 0 {
          assert ns[i] == fl[i - 1].addr && fl[i - 1] in fl;
        }
      } else if i == 0 {
        assert ns[j] == fl[j - 1].addr && fl[j - 1] in fl;
        StartsFar(bs, bs[0], fl[j - 1]);
      } else {
        assert ns[i] == fl[i - 1].addr && fl[i - 1] in fl;
        assert ns[j] == fl[j - 1].addr && fl[j - 1] in fl;
        StartsFar(bs, fl[i - 1], fl[j - 1]);
      }
    }
  }

  /** An address strictly between a block's header and footer is no block's header or footer, nor the epilogue header. */
  lemma Inside(bs: seq<Block>, c: Block, a: int)
    requires Tiled(bs) && Sized(bs) && |bs| > 0 && c in bs && c.addr < a < End(c) - WSIZE
    ensures forall b {:trigger b in bs} :: b in bs ==> a != b.addr && a != End(b) - WSIZE
    ensures a < Stop(bs)
  {
    Within(bs);
    forall b {:trigger b in bs} | b in bs ensures a != b.addr && a != End(b) - WSIZE {
      if b != c {
        StartsFar(bs, b, c);
        var i :| 0 <= i < |bs| && bs[i] == b;
        var j :| 0 <= j < |bs| && bs[j] == c;
        if i < j {
          TiledOrder(bs, i, j);
        } else {
          TiledOrder(bs, j, i);
        }
      }
    }
  }

  /**
   * The link words of every list node (a block of the row, or the epilogue)
   * are no block's header or footer, nor the epilogue header.
   */
  lemma LinkWords(bs: seq<Block>, fl: seq<Block>, t: int)
    requires Tiled(bs) && Sized(bs) && |bs| > 0
    requires forall b {:trigger b in fl} :: b in fl ==> b in bs
    requires 0 <= t < |fl| + 2
    ensures var y := Nodes(bs[0].addr, fl, Stop(bs))[t];
      forall b {:trigger b in bs} :: b in bs ==>
        y + 8 != b.addr && y + 8 != End(b) - WSIZE && y + 16 != b.addr && y + 16 != End(b) - WSIZE
    ensures var y := Nodes(bs[0].addr, fl, Stop(bs))[t];
      y + 8 != Stop(bs) && y + 16 != Stop(bs)
  {
    var ns := Nodes(bs[0].addr, fl, Stop(bs));
    var y := ns[t];
    if t == |fl| + 1 {
      Within(bs);
    } else {
      var c := if t == 0 then bs[0] else fl[t - 1];
      assert c in bs by {
        if t > 0 {
          assert fl[t - 1] in fl;
        }
      }
      assert y == c.addr;
      Inside(bs, c, y + 8);
      Inside(bs, c, y + 16);
    }
  }

  /** Dropping entry t of the free list drops node t + 1. */
  lemma NodesDrop(head: int, fl: seq<Block>, epi: int, t: int)
    requires 0 <= t < |fl|
    ensures var ns := Nodes(head, fl, epi);
      ns[..t + 1] + ns[t + 2..] == Nodes(head, fl[..t] + fl[t + 1..], epi)
  {
    var ns := Nodes(head, fl, epi);
    var a := ns[..t + 1] + ns[t + 2..];
    var b := Nodes(head, fl[..t] + fl[t + 1..], epi);
    assert |a| == |b|;
    forall i | 0 <= i < |a| ensures a[i] == b[i] {
      if 0 < i <= t {
        assert a[i] == fl[i - 1].addr;
      } else if t < i < |a| - 1 {
        assert a[i] == fl[i].addr;
      }
    }
  }

  /** A sub-list of a list of distinct free blocks is one too. */
  lemma MembersDrop(bs: seq<Block>, fl: seq<Block>, t: int)
    requires Members(bs, fl) && 0 <= t < |fl|
    ensures Members(bs, fl[..t] + fl[t + 1..])
  {
    var r := fl[..t] + fl[t + 1..];
    forall i, j | 0 <= i < j < |r| ensures r[i] != r[j] {
      var i' := if i < t then i else i + 1;
      var j' := if j < t then j else j + 1;
      assert r[i] == fl[i'] && r[j] == fl[j'];
    }
    forall b {:trigger b in r} | b in r ensures b in bs && !b.alloc {
      assert b in fl;
    }
  }

  /** remove_blk on entry t of the free list unlinks it and leaves the tags alone. */
  lemma UnlinkShape(s: State, v: View, t: int)
    requires Shape(s, v) && 0 <= t < |v.free|
    ensures Shape(s.(mem := RemoveBlk(s.mem, v.free[t].addr)), View(v.blocks, v.free[..t] + v.free[t + 1..]))
    ensures PrevOf(RemoveBlk(s.mem, v.free[t].addr), v.free[t].addr) == 0
  {
    var bs, fl := v.blocks, v.free;
    var ns := Nodes(s.head, fl, Stop(bs));
    var m' := RemoveBlk(s.mem, fl[t].addr);
    NodesApart(bs, fl);
    assert ns[t + 1] == fl[t].addr;
    Unlink(s.mem, ns, t + 1);
    NodesDrop(s.head, fl, Stop(bs), t);
    MembersDrop(bs, fl, t);
    LinkWords(bs, fl, t);
    LinkWords(bs, fl, t + 1);
    LinkWords(bs, fl, t + 2);
    forall b {:trigger b in bs} | b in bs ensures BlockOk(m', b) {
      assert Load(m', b.addr) == Load(s.mem, b.addr);
      assert Load(m', End(b) - WSIZE) == Load(s.mem, End(b) - WSIZE);
    }
    assert Load(m', Stop(bs)) == 1;
  }

  /** A block pushed on the front of the free list becomes node 1. */
  lemma NodesCons(head: int, b: Block, fl: seq<Block>, epi: int)
    ensures var ns := Nodes(head, fl, epi);
      Nodes(head, [b] + fl, epi) == [ns[0], b.addr] + ns[1..]
  {
    var ns := Nodes(head, fl, epi);
    var a := Nodes(head, [b] + fl, epi);
    var c := [ns[0], b.addr] + ns[1..];
    assert |a| == |c|;
    forall i | 0 <= i < |a| ensures a[i] == c[i] {
      if 2 <= i < |a| - 1 {
        assert a[i] == ([b] + fl)[i - 1].addr == fl[i - 2].addr;
        assert c[i] == ns[i - 1];
      }
    }
  }

  lemma MembersCons(bs: seq<Block>, b: Block, fl: seq<Block>)
    requires Members(bs, fl) && b in bs && !b.alloc && b !in fl
    ensures Members(bs, [b] + fl)
  {
    var fl' := [b] + fl;
    forall i, j | 0 <= i < j < |fl'| ensures fl'[i] != fl'[j] {
      assert fl'[j] == fl[j - 1] && fl[j - 1] in fl;
      if i > 0 {
        assert fl'[i] == fl[i - 1];
      }
    }
    assert forall c {:trigger c in fl'} :: c in fl' ==> c == b || c in fl;
  }

  /** link_blk(heap_head, blk) for a free block not on the list pushes it on the front and leaves the tags alone. */
  lemma LinkShape(s: State, v: View, k: int)
    requires Shape(s, v) && 1 <= k < |v.blocks| && !v.blocks[k].alloc && v.blocks[k] !in v.free
    ensures Shape(s.(mem := LinkBlk(s.mem, s.head, v.blocks[k].addr)), View(v.blocks, [v.blocks[k]] + v.free))
  {
    var bs, fl := v.blocks, v.free;
    var b := bs[k];
    var fl' := [b] + fl;
    var ns := Nodes(s.head, fl, Stop(bs));
    var m' := LinkBlk(s.mem, s.head, b.addr);
    assert b in bs;
    MembersCons(bs, b, fl);
    NodesApart(bs, fl');
    NodesCons(s.head, b, fl, Stop(bs));
    assert ns[0] == s.head;
    TiledOrder(bs, 0, k);
    LinkFront(s.mem, ns, b.addr);
    LinkWords(bs, fl', 0);
    LinkWords(bs, fl', 1);
    LinkWords(bs, fl', 2);
    forall c {:trigger c in bs} | c in bs ensures BlockOk(m', c) {
      assert Load(m', c.addr) == Load(s.mem, c.addr);
      assert Load(m', End(c) - WSIZE) == Load(s.mem, End(c) - WSIZE);
    }
    assert Load(m', Stop(bs)) == 1;
  }

  /** The chain survives any change that leaves every node's link words alone. */
  lemma LinkedSame(m: Mem, m': Mem, ns: seq<int>)
    requires Linked(m, ns)
    requires forall t :: 0 <= t < |ns| ==> PrevOf(m', ns[t]) == PrevOf(m, ns[t]) && NextOf(m', ns[t]) == NextOf(m, ns[t])
    ensures Linked(m', ns)
  {
    assert PrevOf(m', ns[0]) == PrevOf(m, ns[0]);
    assert NextOf(m', ns[|ns| - 1]) == NextOf(m, ns[|ns| - 1]);
    forall i | 0 < i < |ns| ensures Step(m', ns, i) {
      assert Step(m, ns, i);
    }
  }

  /**
   * Replacing blocks i .. j - 1 by blocks ns that cover the same bytes, with
   * memory changed only inside those bytes, every new block's tags in place,
   * and no listed block among those replaced, gives a state of the same
   * shape for the spliced row.
   */
  lemma SpliceShape(s: State, v: View, i: int, j: int, ns: seq<Block>, m': Mem)
    requires Shape(s, v) && 1 <= i < j <= |v.blocks|
    requires Tiled(ns) && |ns| > 0 && Sized(ns) && Tagged(m', ns)
    requires ns[0].addr == v.blocks[i].addr && Stop(ns) == End(v.blocks[j - 1])
    requires SameOutside(s.mem, m', v.blocks[i].addr, End(v.blocks[j - 1]))
    requires forall b {:trigger b in v.free} :: b in v.free ==> End(b) <= v.blocks[i].addr || End(v.blocks[j - 1]) <= b.addr
    ensures |Splice(v.blocks, i, j, ns)| > 0
    ensures Shape(s.(mem := m'), View(Splice(v.blocks, i, j, ns), v.free))
  {
    var bs, fl := v.blocks, v.free;
    var r := Splice(bs, i, j, ns);
    SpliceTiled(bs, i, j, ns);
    Within(bs);
    assert bs[j - 1] in bs;
    assert r[0] == bs[0];
    SpliceRow(s.mem, m', bs, i, j, ns);
    SpliceMembers(bs, fl, i, j, ns);
    SpliceLinks(s, v, i, j, m');
  }

  /** Blocks kept by a splice keep their size and tags when memory changes only inside the replaced bytes. */
  lemma SpliceRow(m: Mem, m': Mem, bs: seq<Block>, i: int, j: int, ns: seq<Block>)
    requires Tiled(bs) && Sized(bs) && Tagged(m, bs) && 0 <= i < j <= |bs|
    requires Sized(ns) && Tagged(m', ns)
    requires SameOutside(m, m', bs[i].addr, End(bs[j - 1]))
    ensures Sized(Splice(bs, i, j, ns)) && Tagged(m', Splice(bs, i, j, ns))
  {
    var r := Splice(bs, i, j, ns);
    var d := |ns| - (j - i);
    forall b {:trigger b in r} | b in r
      ensures b.size >= MIN_BLOCK_SIZE && b.size % 8 == 0 && b.addr % 8 == 0 && BlockOk(m', b)
    {
      var x :| 0 <= x < |r| && r[x] == b;
      if x < i {
        assert r[x] == bs[x] && bs[x] in bs;
        TiledOrder(bs, x, i);
        KeptBlockOk(m, m', b, bs[i].addr, End(bs[j - 1]));
      } else if x < i + |ns| {
        assert r[x] == ns[x - i] && ns[x - i] in ns;
      } else {
        assert r[x] == bs[x - d] && bs[x - d] in bs;
        TiledOrder(bs, j - 1, x - d);
        KeptBlockOk(m, m', b, bs[i].addr, End(bs[j - 1]));
      }
    }
  }

  lemma KeptBlockOk(m: Mem, m': Mem, b: Block, lo: int, hi: int)
    requires BlockOk(m, b) && b.size >= WSIZE && (End(b) <= lo || hi <= b.addr)
    requires SameOutside(m, m', lo, hi)
    ensures BlockOk(m', b)
  {
    assert Load(m', b.addr) == Load(m, b.addr);
    assert Load(m', End(b) - WSIZE) == Load(m, End(b) - WSIZE);
  }

  /** Listed blocks outside the replaced run are still blocks of the spliced row. */
  lemma SpliceMembers(bs: seq<Block>, fl: seq<Block>, i: int, j: int, ns: seq<Block>)
    requires Tiled(bs) && Members(bs, fl) && 0 <= i < j <= |bs|
    requires forall b {:trigger b in fl} :: b in fl ==> End(b) <= bs[i].addr || End(bs[j - 1]) <= b.addr
    ensures Members(Splice(bs, i, j, ns), fl)
  {
    var r := Splice(bs, i, j, ns);
    forall b {:trigger b in fl} | b in fl ensures b in r {
      var x :| 0 <= x < |bs| && bs[x] == b;
      if x < i {
        assert r[x] == b;
      } else if x >= j {
        assert r[x - (j - i) + |ns|] == b;
      } else {
        assert bs[i] in bs && bs[x] in bs && bs[j - 1] in bs;
        if x > i {
          TiledOrder(bs, i, x);
        }
        if x < j - 1 {
          TiledOrder(bs, x, j - 1);
        }
      }
    }
  }

  /** The list's link words lie outside the replaced bytes, so the chain survives. */
  lemma SpliceLinks(s: State, v: View, i: int, j: int, m': Mem)
    requires Shape(s, v) && 1 <= i < j <= |v.blocks|
    requires SameOutside(s.mem, m', v.blocks[i].addr, End(v.blocks[j - 1]))
    requires forall b {:trigger b in v.free} :: b in v.free ==> End(b) <= v.blocks[i].addr || End(v.blocks[j - 1]) <= b.addr
    ensures Linked(m', Nodes(s.head, v.free, Stop(v.blocks)))
  {
    var bs, fl := v.blocks, v.free;
    var ns := Nodes(s.head, fl, Stop(bs));
    var lo, hi := bs[i].addr, End(bs[j - 1]);
    Within(bs);
    assert bs[0] in bs && bs[j - 1] in bs;
    TiledOrder(bs, 0, i);
    forall t | 0 <= t < |ns| ensures PrevOf(m', ns[t]) == PrevOf(s.mem, ns[t]) && NextOf(m', ns[t]) == NextOf(s.mem, ns[t]) {
      if 0 < t < |ns| - 1 {
        var b := fl[t - 1];
        assert ns[t] == b.addr && b in fl;
        assert b in bs;
        assert b.size >= MIN_BLOCK_SIZE;
      }
    }
    LinkedSame(s.mem, m', ns);
  }

  // ---------------------------------------------------------------------------
  // Abstract operations on the view

  /** Free block k merged with the free blocks on either side; the merged block goes on the front of the list. */
  function MergeView(v: View, k: int): View
    requires 1 <= k < |v.blocks|
  {
    var bs := v.blocks;
    var lo, hi := MergeLo(bs, k), MergeHi(bs, k);
    View(Merge(bs, k), [Merged(bs, lo, hi)] + Without(Without(v.free, bs[lo]), bs[hi]))
  }

  // ---------------------------------------------------------------------------
  // coalesce

  /**
   * coalesce(blk): look at the blocks before and after blk; take the free
   * ones off the list, write the merged block's header and footer, and link
   * it after the prologue.  Returns the merged block.
   */
  function Coalesce(s: State, blk: int): (State, int) {
    var m := s.mem;
    var prev := FindPrev(m, blk);
    var next := FindNext(m, blk);
    var prevAlloc := GetAlloc(m, prev);
    var nextAlloc := GetAlloc(m, next);
    var prevSize := GetSize(m, prev);
    var nextSize := GetSize(m, next);
    var size := GetSize(m, blk);
    if prevAlloc && nextAlloc then (s.(mem := LinkBlk(m, s.head, blk)), blk)
    else if prevAlloc && !nextAlloc then Rejoin(s, RemoveBlk(m, next), blk, size + nextSize)
    else if !prevAlloc && nextAlloc then Rejoin(s, RemoveBlk(m, prev), prev, size + prevSize)
    else Rejoin(s, RemoveBlk(RemoveBlk(m, prev), next), prev, size + prevSize + nextSize)
  }

  /** The tail of each merging case: header, footer, free, then link_blk(heap_head, blk). */
  function Rejoin(s: State, m: Mem, blk: int, size: int): (State, int) {
    var m1 := WriteFooter(WriteHeader(m, blk, size, false), blk, size, false);
    (s.(mem := LinkBlk(m1, s.head, blk)), blk)
  }

  /** What the helpers read at block k, and where its neighbours are. */
  lemma ReadBlock(s: State, v: View, k: int)
    requires Shape(s, v) && 0 <= k < |v.blocks|
    ensures var b := v.blocks[k];
      && GetSize(s.mem, b.addr) == b.size && GetAlloc(s.mem, b.addr) == b.alloc
      && SizeField(Load(s.mem, End(b) - WSIZE)) == b.size
      && b.size >= MIN_BLOCK_SIZE && b.size % 8 == 0 && b.addr % 8 == 0
      && s.head <= b.addr && End(b) <= Stop(v.blocks)
      && End(b) == (if k + 1 < |v.blocks| then v.blocks[k + 1].addr else Stop(v.blocks))
  {
    var bs := v.blocks;
    assert bs[k] in bs;
    ReadTag(s.mem, bs[k].addr, bs[k]);
    ReadTag(s.mem, End(bs[k]) - WSIZE, bs[k]);
    Within(bs);
  }

  /** The epilogue header reads as size 0, allocated. */
  lemma ReadEpilogue(s: State, v: View)
    requires Shape(s, v)
    ensures GetSize(s.mem, Stop(v.blocks)) == 0 && GetAlloc(s.mem, Stop(v.blocks))
  {
    TagFields(0, false, true);
  }

  /** Block b's tag stored in its first and last word. */
  function PutTags(m: Mem, b: Block): Mem {
    m[b.addr := Tag(b)][End(b) - WSIZE := Tag(b)]
  }

  /** write_header then write_footer for block b store its tag at both ends. */
  lemma TagWrites(m: Mem, b: Block)
    requires b.size % 8 == 0
    ensures WriteFooter(WriteHeader(m, b.addr, b.size, b.alloc), b.addr, b.size, b.alloc) == PutTags(m, b)
  {
    PackTag(b.size, b.alloc);
    PackRoundTrip(m, b.addr, b.size, b.alloc);
  }

  /** Block b's tags read back, and nothing outside b changes. */
  lemma PutTagsOk(m: Mem, b: Block)
    requires b.size >= 2 * WSIZE
    ensures BlockOk(PutTags(m, b), b) && SameOutside(m, PutTags(m, b), b.addr, End(b))
  {
  }

  /** Blocks of the row other than blocks i .. j - 1 lie outside the bytes those cover. */
  lemma OutsideRun(bs: seq<Block>, fl: seq<Block>, i: int, j: int)
    requires Tiled(bs) && 0 <= i < j <= |bs|
    requires forall c {:trigger c in fl} :: c in fl ==> c in bs
    requires forall c, x {:trigger c in fl, bs[x]} :: c in fl && i <= x < j ==> c != bs[x]
    ensures forall c {:trigger c in fl} :: c in fl ==> End(c) <= bs[i].addr || End(bs[j - 1]) <= c.addr
  {
    forall c {:trigger c in fl} | c in fl ensures End(c) <= bs[i].addr || End(bs[j - 1]) <= c.addr {
      var x :| 0 <= x < |bs| && bs[x] == c;
      if x < i {
        TiledOrder(bs, x, i);
      } else if x >= j {
        TiledOrder(bs, j - 1, x);
      } else {
        assert false;
      }
    }
  }

  /** The merged block of blocks lo .. hi is well formed, and its tags are all that the writes change. */
  lemma MergedOk(s: State, v: View, lo: int, hi: int, m': Mem)
    requires Tiled(v.blocks) && Sized(v.blocks) && 1 <= lo <= hi < |v.blocks|
    requires m' == PutTags(s.mem, Merged(v.blocks, lo, hi))
    ensures var nb := Merged(v.blocks, lo, hi);
      && Tiled([nb]) && Sized([nb]) && Tagged(m', [nb])
      && SameOutside(s.mem, m', v.blocks[lo].addr, End(v.blocks[hi]))
  {
    var bs := v.blocks;
    var nb := Merged(bs, lo, hi);
    assert bs[lo] in bs && bs[hi] in bs;
    if lo < hi {
      TiledOrder(bs, lo, hi);
    }
    assert nb.size >= MIN_BLOCK_SIZE && nb.size % 8 == 0 && nb.addr % 8 == 0;
    PutTagsOk(s.mem, nb);
  }

  /** The merged block's size is a multiple of 8. */
  lemma MergedSize(bs: seq<Block>, lo: int, hi: int)
    requires Tiled(bs) && Sized(bs) && 0 <= lo <= hi < |bs|
    ensures Merged(bs, lo, hi).size % 8 == 0 && Merged(bs, lo, hi).size >= MIN_BLOCK_SIZE
  {
    assert bs[lo] in bs && bs[hi] in bs;
    if lo < hi {
      TiledOrder(bs, lo, hi);
    }
  }

  /** Blocks i .. j - 1, none of them on the list, rewritten in memory as the blocks ns. */
  lemma SpliceOff(s: State, v: View, i: int, j: int, ns: seq<Block>, m': Mem)
    requires Shape(s, v) && 1 <= i < j <= |v.blocks|
    requires forall c, x {:trigger c in v.free, v.blocks[x]} :: c in v.free && i <= x < j ==> c != v.blocks[x]
    requires Tiled(ns) && |ns| > 0 && Sized(ns) && Tagged(m', ns)
    requires ns[0].addr == v.blocks[i].addr && Stop(ns) == End(v.blocks[j - 1])
    requires SameOutside(s.mem, m', v.blocks[i].addr, End(v.blocks[j - 1]))
    ensures Shape(s.(mem := m'), View(Splice(v.blocks, i, j, ns), v.free))
    ensures forall c {:trigger c in v.free} :: c in v.free ==> End(c) <= v.blocks[i].addr || End(v.blocks[j - 1]) <= c.addr
  {
    OutsideRun(v.blocks, v.free, i, j);
    SpliceShape(s, v, i, j, ns, m');
  }

  /** Blocks lo .. hi, none of them on the list, rewritten as one free block. */
  lemma MergeTags(s: State, v: View, lo: int, hi: int, m': Mem)
    requires Shape(s, v) && 1 <= lo <= hi < |v.blocks|
    requires forall c, x {:trigger c in v.free, v.blocks[x]} :: c in v.free && lo <= x < hi + 1 ==> c != v.blocks[x]
    requires m' == PutTags(s.mem, Merged(v.blocks, lo, hi))
    ensures Shape(s.(mem := m'), View(Splice(v.blocks, lo, hi + 1, [Merged(v.blocks, lo, hi)]), v.free))
    ensures Merged(v.blocks, lo, hi) !in v.free
  {
    MergedOk(s, v, lo, hi, m');
    SpliceOff(s, v, lo, hi + 1, [Merged(v.blocks, lo, hi)], m');
  }

  /**
   * Blocks lo .. hi, none of them on the list, written over as one free
   * block and linked at the front: the shape holds for the merged row.
   */
  lemma RejoinShape(s: State, v: View, lo: int, hi: int)
    requires Shape(s, v) && 1 <= lo <= hi < |v.blocks|
    requires forall c, x {:trigger c in v.free, v.blocks[x]} :: c in v.free && lo <= x < hi + 1 ==> c != v.blocks[x]
    ensures var nb := Merged(v.blocks, lo, hi);
      var r := Rejoin(s, s.mem, nb.addr, nb.size);
      && r.1 == nb.addr
      && Shape(r.0, View(Splice(v.blocks, lo, hi + 1, [nb]), [nb] + v.free))
  {
    var bs, fl := v.blocks, v.free;
    var nb := Merged(bs, lo, hi);
    var m' := PutTags(s.mem, nb);
    MergedSize(bs, lo, hi);
    TagWrites(s.mem, nb);
    MergeTags(s, v, lo, hi, m');
    var bs' := Splice(bs, lo, hi + 1, [nb]);
    assert bs'[lo] == nb;
    LinkShape(s.(mem := m'), View(bs', fl), lo);
  }

  /** What coalesce reads around free block k: its neighbours' addresses, sizes and allocation bits. */
  lemma CoalesceReads(s: State, v: View, k: int)
    requires Shape(s, v) && 1 <= k < |v.blocks|
    ensures var bs, m, blk := v.blocks, s.mem, v.blocks[k].addr;
      && FindPrev(m, blk) == bs[k - 1].addr
      && GetAlloc(m, bs[k - 1].addr) == bs[k - 1].alloc && GetSize(m, bs[k - 1].addr) == bs[k - 1].size
      && GetSize(m, blk) == bs[k].size
      && FindNext(m, blk) == End(bs[k])
      && (k + 1 < |bs| ==>
            End(bs[k]) == bs[k + 1].addr && GetAlloc(m, bs[k + 1].addr) == bs[k + 1].alloc
            && GetSize(m, bs[k + 1].addr) == bs[k + 1].size)
      && (k + 1 == |bs| ==> GetAlloc(m, End(bs[k])))
  {
    ReadBlock(s, v, k - 1);
    ReadBlock(s, v, k);
    if k + 1 < |v.blocks| {
      ReadBlock(s, v, k + 1);
    } else {
      ReadEpilogue(s, v);
    }
  }

  /**
   * After free block k is merged, the list holds every free block once the
   * merged ones are taken out and the merged block goes on the front.
   */
  lemma MergeListed(bs: seq<Block>, fl: seq<Block>, k: int, fl': seq<Block>)
    requires Tiled(bs) && 1 <= k < |bs| && !bs[k].alloc && Listed(bs, fl, k)
    requires forall c {:trigger c in fl'} :: c in fl' <==> c in fl && c != bs[MergeLo(bs, k)] && c != bs[MergeHi(bs, k)]
    ensures Listed(Merge(bs, k), [Merged(bs, MergeLo(bs, k), MergeHi(bs, k))] + fl', -1)
    ensures forall c, x {:trigger c in fl', bs[x]} :: c in fl' && MergeLo(bs, k) <= x < MergeHi(bs, k) + 1 ==> c != bs[x]
  {
    var lo, hi := MergeLo(bs, k), MergeHi(bs, k);
    var nb := Merged(bs, lo, hi);
    var r := Merge(bs, k);
    assert |r| == |bs| - (hi - lo);
    forall x | 0 <= x < |r| && !r[x].alloc ensures r[x] in [nb] + fl' {
      if x < lo {
        assert r[x] == bs[x];
        Distinct(bs, x);
      } else if x > lo {
        assert r[x] == bs[x + hi - lo];
        Distinct(bs, x + hi - lo);
      }
    }
  }

  /** Both neighbours in use: the block is linked as it is. */
  lemma CoalesceAlone(s: State, v: View, k: int)
    requires Shape(s, v) && 1 <= k < |v.blocks| && !v.blocks[k].alloc && Listed(v.blocks, v.free, k)
    requires v.blocks[k - 1].alloc && (k + 1 == |v.blocks| || v.blocks[k + 1].alloc)
    ensures var r := Coalesce(s, v.blocks[k].addr);
      Rep(r.0, MergeView(v, k)) && r.1 == v.blocks[MergeLo(v.blocks, k)].addr
  {
    var bs, fl := v.blocks, v.free;
    var b := bs[k];
    CoalesceReads(s, v, k);
    LinkShape(s, v, k);
    assert Merged(bs, k, k) == b;
    SpliceSelf(bs, k);
    WithoutAbsent(fl, b);
    MergeListed(bs, fl, k, fl);
  }

  /**
   * The tail of the merging cases: once the free neighbours are off the
   * list, rewriting the merged block and linking it gives the merged view.
   */
  lemma RejoinRefines(s: State, v: View, k: int, m1: Mem)
    requires Shape(s, v) && 1 <= k < |v.blocks| && !v.blocks[k].alloc && Listed(v.blocks, v.free, k)
    requires var lo, hi := MergeLo(v.blocks, k), MergeHi(v.blocks, k);
      Shape(s.(mem := m1), View(v.blocks, Without(Without(v.free, v.blocks[lo]), v.blocks[hi])))
    ensures var nb := Merged(v.blocks, MergeLo(v.blocks, k), MergeHi(v.blocks, k));
      Rep(Rejoin(s, m1, nb.addr, nb.size).0, MergeView(v, k))
  {
    var bs, fl := v.blocks, v.free;
    var lo, hi := MergeLo(bs, k), MergeHi(bs, k);
    var fl1 := Without(Without(fl, bs[lo]), bs[hi]);
    MergeListed(bs, fl, k, fl1);
    RejoinShape(s.(mem := m1), View(bs, fl1), lo, hi);
  }

  /** remove_blk on a listed block: the shape holds with the block taken off the list. */
  lemma UnlinkBlock(s: State, v: View, b: Block)
    requires Shape(s, v) && b in v.free
    ensures Shape(s.(mem := RemoveBlk(s.mem, b.addr)), View(v.blocks, Without(v.free, b)))
  {
    var t :| 0 <= t < |v.free| && v.free[t] == b;
    UnlinkShape(s, v, t);
    WithoutAt(v.free, t);
  }

  /** With the block before in use and the one after free, coalesce takes the second branch. */
  lemma CoalesceNextIs(s: State, blk: int, p: int, n: int)
    requires FindPrev(s.mem, blk) == p && FindNext(s.mem, blk) == n
    requires GetAlloc(s.mem, p) && !GetAlloc(s.mem, n)
    ensures Coalesce(s, blk) == Rejoin(s, RemoveBlk(s.mem, n), blk, GetSize(s.mem, blk) + GetSize(s.mem, n))
  {
  }

  /** With the block before free and the one after in use, coalesce takes the third branch. */
  lemma CoalescePrevIs(s: State, blk: int, p: int, n: int)
    requires FindPrev(s.mem, blk) == p && FindNext(s.mem, blk) == n
    requires !GetAlloc(s.mem, p) && GetAlloc(s.mem, n)
    ensures Coalesce(s, blk) == Rejoin(s, RemoveBlk(s.mem, p), p, GetSize(s.mem, blk) + GetSize(s.mem, p))
  {
  }

  /** With both neighbours free, coalesce takes the last branch. */
  lemma CoalesceBothIs(s: State, blk: int, p: int, n: int)
    requires FindPrev(s.mem, blk) == p && FindNext(s.mem, blk) == n
    requires !GetAlloc(s.mem, p) && !GetAlloc(s.mem, n)
    ensures Coalesce(s, blk) ==
      Rejoin(s, RemoveBlk(RemoveBlk(s.mem, p), n), p, GetSize(s.mem, blk) + GetSize(s.mem, p) + GetSize(s.mem, n))
  {
  }

  lemma NextRejoins(s: State, blk: int, p: int, n: int, m1: Mem, size: int)
    requires FindPrev(s.mem, blk) == p && FindNext(s.mem, blk) == n
    requires GetAlloc(s.mem, p) && !GetAlloc(s.mem, n)
    requires m1 == RemoveBlk(s.mem, n) && size == GetSize(s.mem, blk) + GetSize(s.mem, n)
    ensures Coalesce(s, blk) == Rejoin(s, m1, blk, size)
  {
    CoalesceNextIs(s, blk, p, n);
  }

  lemma PrevRejoins(s: State, blk: int, p: int, n: int, m1: Mem, size: int)
    requires FindPrev(s.mem, blk) == p && FindNext(s.mem, blk) == n
    requires !GetAlloc(s.mem, p) && GetAlloc(s.mem, n)
    requires m1 == RemoveBlk(s.mem, p) && size == GetSize(s.mem, blk) + GetSize(s.mem, p)
    ensures Coalesce(s, blk) == Rejoin(s, m1, p, size)
  {
    CoalescePrevIs(s, blk, p, n);
  }

  lemma BothRejoins(s: State, blk: int, p: int, n: int, m2: Mem, size: int)
    requires FindPrev(s.mem, blk) == p && FindNext(s.mem, blk) == n
    requires !GetAlloc(s.mem, p) && !GetAlloc(s.mem, n)
    requires m2 == RemoveBlk(RemoveBlk(s.mem, p), n)
    requires size == GetSize(s.mem, blk) + GetSize(s.mem, p) + GetSize(s.mem, n)
    ensures Coalesce(s, blk) == Rejoin(s, m2, p, size)
  {
    CoalesceBothIs(s, blk, p, n);
  }

  /** The block after is free: it leaves the list and the two merge. */
  lemma CoalesceNext(s: State, v: View, k: int)
    requires Shape(s, v) && 1 <= k < |v.blocks| - 1 && !v.blocks[k].alloc && Listed(v.blocks, v.free, k)
    requires v.blocks[k - 1].alloc && !v.blocks[k + 1].alloc
    ensures var r := Coalesce(s, v.blocks[k].addr);
      Rep(r.0, MergeView(v, k)) && r.1 == v.blocks[MergeLo(v.blocks, k)].addr
  {
    var bs, fl := v.blocks, v.free;
    var b, n := bs[k], bs[k + 1];
    var m1 := RemoveBlk(s.mem, n.addr);
    var lo, hi := MergeLo(bs, k), MergeHi(bs, k);
    var nb := Merged(bs, lo, hi);
    assert Coalesce(s, b.addr) == Rejoin(s, m1, nb.addr, nb.size) by {
      CoalesceReads(s, v, k);
      assert lo == k && hi == k + 1;
      assert nb == Block(b.addr, End(n) - b.addr, false);
      NextRejoins(s, b.addr, bs[k - 1].addr, n.addr, m1, nb.size);
    }
    var fl1 := Without(Without(fl, bs[lo]), bs[hi]);
    assert Shape(s.(mem := m1), View(bs, fl1)) by {
      assert lo == k && hi == k + 1;
      UnlinkBlock(s, v, n);
      WithoutAbsent(fl, b);
      assert fl1 == Without(fl, n);
      ShapeList(s.(mem := m1), bs, Without(fl, n), fl1);
    }
    RejoinRefines(s, v, k, m1);
    CoalesceLands(s, v, k, m1);
  }

  /** The block before is free: it leaves the list and absorbs this one. */
  lemma CoalescePrev(s: State, v: View, k: int)
    requires Shape(s, v) && 1 <= k < |v.blocks| && !v.blocks[k].alloc && Listed(v.blocks, v.free, k)
    requires !v.blocks[k - 1].alloc && (k + 1 == |v.blocks| || v.blocks[k + 1].alloc)
    ensures var r := Coalesce(s, v.blocks[k].addr);
      Rep(r.0, MergeView(v, k)) && r.1 == v.blocks[MergeLo(v.blocks, k)].addr
  {
    var bs, fl := v.blocks, v.free;
    var p, b := bs[k - 1], bs[k];
    var m1 := RemoveBlk(s.mem, p.addr);
    var lo, hi := MergeLo(bs, k), MergeHi(bs, k);
    var nb := Merged(bs, lo, hi);
    assert Coalesce(s, b.addr) == Rejoin(s, m1, nb.addr, nb.size) by {
      CoalesceReads(s, v, k);
      assert lo == k - 1 && hi == k;
      assert nb == Block(p.addr, End(b) - p.addr, false);
      PrevRejoins(s, b.addr, p.addr, End(b), m1, nb.size);
    }
    var fl1 := Without(Without(fl, bs[lo]), bs[hi]);
    assert Shape(s.(mem := m1), View(bs, fl1)) by {
      assert lo == k - 1 && hi == k;
      UnlinkBlock(s, v, p);
      WithoutAbsent(Without(fl, p), b);
      assert fl1 == Without(fl, p);
      ShapeList(s.(mem := m1), bs, Without(fl, p), fl1);
    }
    RejoinRefines(s, v, k, m1);
    CoalesceLands(s, v, k, m1);
  }

  /** Both neighbours free: both leave the list and the three merge. */
  lemma CoalesceBoth(s: State, v: View, k: int)
    requires Shape(s, v) && 1 <= k < |v.blocks| - 1 && !v.blocks[k].alloc && Listed(v.blocks, v.free, k)
    requires !v.blocks[k - 1].alloc && !v.blocks[k + 1].alloc
    ensures var r := Coalesce(s, v.blocks[k].addr);
      Rep(r.0, MergeView(v, k)) && r.1 == v.blocks[MergeLo(v.blocks, k)].addr
  {
    var bs, fl := v.blocks, v.free;
    var p, n := bs[k - 1], bs[k + 1];
    var m1 := RemoveBlk(s.mem, p.addr);
    var m2 := RemoveBlk(m1, n.addr);
    var lo, hi := MergeLo(bs, k), MergeHi(bs, k);
    var nb := Merged(bs, lo, hi);
    assert Coalesce(s, bs[k].addr) == Rejoin(s, m2, nb.addr, nb.size) by {
      CoalesceReads(s, v, k);
      assert lo == k - 1 && hi == k + 1;
      assert nb == Block(p.addr, End(n) - p.addr, false);
      BothRejoins(s, bs[k].addr, p.addr, n.addr, m2, nb.size);
    }
    var fl1 := Without(Without(fl, bs[lo]), bs[hi]);
    assert Shape(s.(mem := m2), View(bs, fl1)) by {
      assert lo == k - 1 && hi == k + 1;
      UnlinkBlock(s, v, p);
      Distinct(bs, k + 1);
      UnlinkBlock(s.(mem := m1), View(bs, Without(fl, p)), n);
    }
    RejoinRefines(s, v, k, m2);
    CoalesceLands(s, v, k, m2);
  }

  /** Once coalesce is known to rejoin the merged block, what rejoin leaves is what coalesce leaves. */
  lemma CoalesceLands(s: State, v: View, k: int, m1: Mem)
    requires 1 <= k < |v.blocks|
    requires var nb := Merged(v.blocks, MergeLo(v.blocks, k), MergeHi(v.blocks, k));
      Coalesce(s, v.blocks[k].addr) == Rejoin(s, m1, nb.addr, nb.size)
    requires var nb := Merged(v.blocks, MergeLo(v.blocks, k), MergeHi(v.blocks, k));
      Rep(Rejoin(s, m1, nb.addr, nb.size).0, MergeView(v, k))
    ensures Rep(Coalesce(s, v.blocks[k].addr).0, MergeView(v, k))
  {
  }

  /**
   * coalesce refines merging: given a free block k that the list does not
   * yet hold, it leaves a consistent heap for the merged view and returns
   * the merged block.
   */
  lemma CoalesceRefines(s: State, v: View, k: int)
    requires Shape(s, v) && 1 <= k < |v.blocks| && !v.blocks[k].alloc && Listed(v.blocks, v.free, k)
    ensures var r := Coalesce(s, v.blocks[k].addr);
      Rep(r.0, MergeView(v, k)) && r.1 == v.blocks[MergeLo(v.blocks, k)].addr
  {
    var bs := v.blocks;
    var nextFree := k + 1 < |bs| && !bs[k + 1].alloc;
    if bs[k - 1].alloc && !nextFree {
      CoalesceAlone(s, v, k);
    } else if bs[k - 1].alloc {
      CoalesceNext(s, v, k);
    } else if !nextFree {
      CoalescePrev(s, v, k);
    } else {
      CoalesceBoth(s, v, k);
    }
  }

  // ---------------------------------------------------------------------------
  // place

  /** Block b cut for a request of asize bytes: split when the rest can hold a minimum block. */
  function Carve(b: Block, asize: int): (r: seq<Block>)
    ensures |r| == 1 || |r| == 2
  {
    if b.size - asize < MIN_BLOCK_SIZE then [b.(alloc := true)]
    else [Block(b.addr, asize, true), Block(b.addr + asize, b.size - asize, false)]
  }

  /** Block k used for asize bytes; a split-off rest goes on the front of the list. */
  function PlaceView(v: View, k: int, asize: int): View
    requires 0 <= k < |v.blocks|
  {
    var b := v.blocks[k];
    var cs := Carve(b, asize);
    View(Splice(v.blocks, k, k + 1, cs), cs[1..] + Without(v.free, b))
  }

  /**
   * place(blk, size): take a free blk off the list; if it is too small,
   * stop there; otherwise mark it allocated, splitting off and linking the
   * rest when that can hold a minimum block.
   */
  function Place(s: State, blk: int, size: int): State {
    var m := if GetAlloc(s.mem, blk) then s.mem else RemoveBlk(s.mem, blk);
    var curr := GetSize(m, blk);
    if curr < size then s.(mem := m)
    else if curr - size < MIN_BLOCK_SIZE then s.(mem := WriteFooter(WriteHeader(m, blk, curr, true), blk, curr, true))
    else Split(s, m, blk, size, curr)
  }

  /** The splitting branch of place: blk allocated with size bytes, the rest free and linked. */
  function Split(s: State, m: Mem, blk: int, size: int, curr: int): State {
    var m1 := WriteFooter(WriteHeader(m, blk, size, true), blk, size, true);
    var rest := FindNext(m1, blk);
    var m2 := WriteFooter(WriteHeader(m1, rest, curr - size, false), rest, curr - size, false);
    s.(mem := LinkBlk(m2, s.head, rest))
  }

  /** The split's writes: both pieces tagged, the rest found right after the first piece. */
  lemma SplitWrites(m: Mem, b: Block, asize: int)
    requires b.size % 8 == 0 && asize % 8 == 0 && asize >= MIN_BLOCK_SIZE
    ensures var a, r := Block(b.addr, asize, true), Block(b.addr + asize, b.size - asize, false);
      var m1 := WriteFooter(WriteHeader(m, b.addr, asize, true), b.addr, asize, true);
      && m1 == PutTags(m, a)
      && FindNext(m1, b.addr) == r.addr
      && WriteFooter(WriteHeader(m1, r.addr, r.size, false), r.addr, r.size, false) == PutTags(m1, r)
  {
    var a, r := Block(b.addr, asize, true), Block(b.addr + asize, b.size - asize, false);
    TagWrites(m, a);
    ReadTag(PutTags(m, a), b.addr, a);
    TagWrites(PutTags(m, a), r);
  }

  /** The splitting branch's state: both pieces tagged, the rest linked after the prologue. */
  lemma SplitIs(s: State, m: Mem, b: Block, asize: int)
    requires b.size % 8 == 0 && asize % 8 == 0 && asize >= MIN_BLOCK_SIZE
    ensures var a, r := Block(b.addr, asize, true), Block(b.addr + asize, b.size - asize, false);
      Split(s, m, b.addr, asize, b.size) == s.(mem := LinkBlk(PutTags(PutTags(m, a), r), s.head, r.addr))
  {
    SplitWrites(m, b, asize);
  }

  /** The state place leaves when it splits block b. */
  lemma PlaceSplitState(s: State, b: Block, asize: int, m1: Mem)
    requires m1 == if GetAlloc(s.mem, b.addr) then s.mem else RemoveBlk(s.mem, b.addr)
    requires GetSize(m1, b.addr) == b.size && b.size % 8 == 0 && asize % 8 == 0
    requires asize >= MIN_BLOCK_SIZE && b.size - asize >= MIN_BLOCK_SIZE
    ensures var a, r := Block(b.addr, asize, true), Block(b.addr + asize, b.size - asize, false);
      Place(s, b.addr, asize) == s.(mem := LinkBlk(PutTags(PutTags(m1, a), r), s.head, r.addr))
  {
    PlaceSplitIs(s, b.addr, asize, m1);
    SplitIs(s, m1, b, asize);
  }

  /** The whole-block branch of place on block k, off the list: the row holds it allocated as nb. */
  lemma PlaceWholeShape(s: State, v: View, k: int, nb: Block, m': Mem)
    requires Shape(s, v) && 1 <= k < |v.blocks| && v.blocks[k] !in v.free
    requires nb == v.blocks[k].(alloc := true) && m' == PutTags(s.mem, nb)
    ensures Shape(s.(mem := m'), View(Splice(v.blocks, k, k + 1, [nb]), v.free))
  {
    assert v.blocks[k] in v.blocks;
    PutTagsOk(s.mem, nb);
    assert Tiled([nb]) && Sized([nb]) && Tagged(m', [nb]);
    SpliceOff(s, v, k, k + 1, [nb], m');
  }

  /** The split's pieces are well formed, tagged in the new memory, and cover exactly block b. */
  lemma SplitOk(m: Mem, b: Block, asize: int, m2: Mem)
    requires b.size % 8 == 0 && b.addr % 8 == 0 && asize % 8 == 0 && asize >= MIN_BLOCK_SIZE && b.size - asize >= MIN_BLOCK_SIZE
    requires m2 == PutTags(PutTags(m, Block(b.addr, asize, true)), Block(b.addr + asize, b.size - asize, false))
    ensures var ns := [Block(b.addr, asize, true), Block(b.addr + asize, b.size - asize, false)];
      && Tiled(ns) && Sized(ns) && Tagged(m2, ns) && Stop(ns) == End(b)
      && SameOutside(m, m2, b.addr, End(b))
  {
    var a, r := Block(b.addr, asize, true), Block(b.addr + asize, b.size - asize, false);
    var m1 := PutTags(m, a);
    PutTagsOk(m, a);
    PutTagsOk(m1, r);
    assert Load(m2, a.addr) == Load(m1, a.addr);
    assert Load(m2, End(a) - WSIZE) == Load(m1, End(a) - WSIZE);
  }

  /** The splitting branch of place on block k, off the list: both pieces in the row, the rest linked. */
  lemma PlaceSplitShape(s: State, v: View, k: int, asize: int, m2: Mem, s': State, v': View)
    requires Shape(s, v) && 1 <= k < |v.blocks| && v.blocks[k] !in v.free
    requires asize % 8 == 0 && asize >= MIN_BLOCK_SIZE && v.blocks[k].size - asize >= MIN_BLOCK_SIZE
    requires var b := v.blocks[k];
      var r := Block(b.addr + asize, b.size - asize, false);
      && m2 == PutTags(PutTags(s.mem, Block(b.addr, asize, true)), r)
      && s' == s.(mem := LinkBlk(m2, s.head, r.addr))
      && v' == View(Splice(v.blocks, k, k + 1, [Block(b.addr, asize, true), r]), [r] + v.free)
    ensures Shape(s', v')
  {
    var bs, fl := v.blocks, v.free;
    var b := bs[k];
    var a, r := Block(b.addr, asize, true), Block(b.addr + asize, b.size - asize, false);
    assert b in bs;
    SplitOk(s.mem, b, asize, m2);
    SpliceOff(s, v, k, k + 1, [a, r], m2);
    var bs' := Splice(bs, k, k + 1, [a, r]);
    assert bs'[k + 1] == r;
    LinkShape(s.(mem := m2), View(bs', fl), k + 1);
  }

  /** Shape carries over between equal states. */
  lemma ShapeList(s: State, bs: seq<Block>, fl: seq<Block>, fl': seq<Block>)
    requires fl' == fl
    ensures Shape(s, View(bs, fl)) ==> Shape(s, View(bs, fl'))
  {
  }

  lemma ShapeSame(s: State, s': State, v: View)
    requires s' == s
    ensures Shape(s, v) ==> Shape(s', v)
  {
  }


  /** place on a block that is too small for the request stops after taking it off the list. */
  lemma PlaceShortIs(s: State, blk: int, size: int, m1: Mem)
    requires m1 == if GetAlloc(s.mem, blk) then s.mem else RemoveBlk(s.mem, blk)
    requires GetSize(m1, blk) < size
    ensures Place(s, blk, size) == s.(mem := m1)
  {
  }

  /** place on a block whose rest would be below the minimum block marks the whole block allocated. */
  lemma PlaceWholeIs(s: State, blk: int, size: int, m1: Mem)
    requires m1 == if GetAlloc(s.mem, blk) then s.mem else RemoveBlk(s.mem, blk)
    requires size <= GetSize(m1, blk) < size + MIN_BLOCK_SIZE
    ensures Place(s, blk, size) ==
      s.(mem := WriteFooter(WriteHeader(m1, blk, GetSize(m1, blk), true), blk, GetSize(m1, blk), true))
  {
  }

  /** place on a block with room for a minimum block to spare splits it. */
  lemma PlaceSplitIs(s: State, blk: int, size: int, m1: Mem)
    requires m1 == if GetAlloc(s.mem, blk) then s.mem else RemoveBlk(s.mem, blk)
    requires GetSize(m1, blk) - size >= MIN_BLOCK_SIZE
    ensures Place(s, blk, size) == Split(s, m1, blk, size, GetSize(m1, blk))
  {
  }

  /** Block k off the list: taken off when free, and never on it when in use. */
  lemma Detach(s: State, v: View, k: int)
    requires Shape(s, v) && 1 <= k < |v.blocks| && (v.blocks[k].alloc || v.blocks[k] in v.free)
    ensures var b := v.blocks[k];
      var m1 := if GetAlloc(s.mem, b.addr) then s.mem else RemoveBlk(s.mem, b.addr);
      && Shape(s.(mem := m1), View(v.blocks, Without(v.free, b)))
      && GetSize(m1, b.addr) == b.size
      && (b.alloc ==> m1 == s.mem && Without(v.free, b) == v.free)
  {
    var b := v.blocks[k];
    ReadBlock(s, v, k);
    if b.alloc {
      assert b !in v.free;
      WithoutAbsent(v.free, b);
    } else {
      var m1 := RemoveBlk(s.mem, b.addr);
      UnlinkBlock(s, v, b);
      ReadBlock(s.(mem := m1), View(v.blocks, Without(v.free, b)), k);
    }
  }

  /** After place, the list holds every free block: the old ones but block k, and the split-off rest. */
  lemma PlaceListed(bs: seq<Block>, fl: seq<Block>, k: int, asize: int)
    requires Tiled(bs) && 1 <= k < |bs| && Listed(bs, fl, -1)
    ensures var cs := Carve(bs[k], asize);
      Listed(Splice(bs, k, k + 1, cs), cs[1..] + Without(fl, bs[k]), -1)
  {
    var cs := Carve(bs[k], asize);
    var r := Splice(bs, k, k + 1, cs);
    var fl' := cs[1..] + Without(fl, bs[k]);
    forall x | 0 <= x < |r| && !r[x].alloc ensures r[x] in fl' {
      if x < k {
        assert r[x] == bs[x];
        Distinct(bs, x);
      } else if x >= k + |cs| {
        assert r[x] == bs[x - |cs| + 1];
        Distinct(bs, x - |cs| + 1);
      } else {
        assert r[x] == cs[x - k];
        assert x - k == 1;
        assert cs[1..][0] == r[x];
      }
    }
  }

  /** The carved view spelled out for each branch of place. */
  lemma PlaceViewIs(v: View, k: int, asize: int)
    requires 0 <= k < |v.blocks|
    ensures var b := v.blocks[k];
      b.size - asize < MIN_BLOCK_SIZE ==>
        PlaceView(v, k, asize) == View(Splice(v.blocks, k, k + 1, [b.(alloc := true)]), Without(v.free, b))
    ensures var b := v.blocks[k];
      var r := Block(b.addr + asize, b.size - asize, false);
      b.size - asize >= MIN_BLOCK_SIZE ==>
        PlaceView(v, k, asize) == View(Splice(v.blocks, k, k + 1, [Block(b.addr, asize, true), r]), [r] + Without(v.free, v.blocks[k]))
  {
    var b := v.blocks[k];
    if b.size - asize < MIN_BLOCK_SIZE {
      assert Carve(b, asize)[1..] == [];
      assert [] + Without(v.free, b) == Without(v.free, b);
    }
  }

  /** place with no room to split, from block k off the list. */
  lemma PlaceWhole(s: State, v: View, k: int, asize: int, m1: Mem)
    requires 1 <= k < |v.blocks| && asize % 8 == 0 && MIN_BLOCK_SIZE <= asize <= v.blocks[k].size
    requires v.blocks[k].size - asize < MIN_BLOCK_SIZE
    requires var b := v.blocks[k];
      && m1 == (if GetAlloc(s.mem, b.addr) then s.mem else RemoveBlk(s.mem, b.addr))
      && Shape(s.(mem := m1), View(v.blocks, Without(v.free, b))) && GetSize(m1, b.addr) == b.size
    ensures Shape(Place(s, v.blocks[k].addr, asize), PlaceView(v, k, asize))
  {
    var b := v.blocks[k];
    var nb := b.(alloc := true);
    PlaceWholeIs(s, b.addr, asize, m1);
    TagWrites(m1, nb);
    PlaceWholeShape(s.(mem := m1), View(v.blocks, Without(v.free, b)), k, nb, PutTags(m1, nb));
    PlaceViewIs(v, k, asize);
  }

  /** place with room to split, from block k off the list. */
  lemma PlaceSplit(s: State, v: View, k: int, asize: int, m1: Mem)
    requires 1 <= k < |v.blocks| && asize % 8 == 0 && MIN_BLOCK_SIZE <= asize <= v.blocks[k].size
    requires v.blocks[k].size - asize >= MIN_BLOCK_SIZE
    requires var b := v.blocks[k];
      && m1 == (if GetAlloc(s.mem, b.addr) then s.mem else RemoveBlk(s.mem, b.addr))
      && Shape(s.(mem := m1), View(v.blocks, Without(v.free, b))) && GetSize(m1, b.addr) == b.size
    ensures Shape(Place(s, v.blocks[k].addr, asize), PlaceView(v, k, asize))
  {
    var b := v.blocks[k];
    assert b in v.blocks;
    var a, r := Block(b.addr, asize, true), Block(b.addr + asize, b.size - asize, false);
    var m2 := PutTags(PutTags(m1, a), r);
    var s' := s.(mem := LinkBlk(m2, s.head, r.addr));
    PlaceViewIs(v, k, asize);
    PlaceSplitShape(s.(mem := m1), View(v.blocks, Without(v.free, b)), k, asize, m2, s', PlaceView(v, k, asize));
    PlaceSplitState(s, b, asize, m1);
    ShapeSame(s', Place(s, b.addr, asize), PlaceView(v, k, asize));
  }

  /**
   * place refines carving: for a request of asize bytes (a multiple of 8,
   * at least the minimum) that block k can hold, the heap stays consistent
   * for the view with block k carved.
   */
  lemma PlaceRefines(s: State, v: View, k: int, asize: int)
    requires Rep(s, v) && 1 <= k < |v.blocks|
    requires asize % 8 == 0 && MIN_BLOCK_SIZE <= asize <= v.blocks[k].size
    ensures Rep(Place(s, v.blocks[k].addr, asize), PlaceView(v, k, asize))
  {
    var b := v.blocks[k];
    var m1 := if GetAlloc(s.mem, b.addr) then s.mem else RemoveBlk(s.mem, b.addr);
    assert b.alloc || b in v.free;
    Detach(s, v, k);
    PlaceListed(v.blocks, v.free, k, asize);
    if b.size - asize < MIN_BLOCK_SIZE {
      PlaceWhole(s, v, k, asize, m1);
    } else {
      PlaceSplit(s, v, k, asize, m1);
    }
  }

  /**
   * place on a block too small for the request returns early, after
   * remove_blk: a free block is left off the list, so the list no longer
   * holds every free block.
   */
  lemma PlaceTooSmall(s: State, v: View, k: int, asize: int)
    requires Rep(s, v) && 1 <= k < |v.blocks| && v.blocks[k].size < asize
    ensures var s' := Place(s, v.blocks[k].addr, asize);
      var fl' := Without(v.free, v.blocks[k]);
      && Shape(s', View(v.blocks, fl'))
      && Listed(v.blocks, fl', if v.blocks[k].alloc then -1 else k)
      && (v.blocks[k].alloc ==> s' == s && fl' == v.free)
  {
    var b := v.blocks[k];
    var m1 := if GetAlloc(s.mem, b.addr) then s.mem else RemoveBlk(s.mem, b.addr);
    assert b.alloc || b in v.free;
    Detach(s, v, k);
    PlaceShortIs(s, b.addr, asize, m1);
    forall x | 0 <= x < |v.blocks| && !v.blocks[x].alloc && x != k
      ensures v.blocks[x] in Without(v.free, b)
    {
      Distinct(v.blocks, k);
    }
  }

  // ---------------------------------------------------------------------------
  // extend_heap

  /** extend_heap's rounding of a byte count up to a multiple of 8, in size_t arithmetic. */
  function RoundUp(size: int): int {
    WSIZE * (((size + WSIZE - 1) % Two64) / WSIZE)
  }

  /**
   * extend_heap(size): ask mem_sbrk for the rounded size; the old epilogue
   * becomes the header of a new free block, a new epilogue follows it and
   * takes the old one's place at the end of the list, and the block is
   * coalesced.  The result is the coalesced block, or 0 (NULL) when
   * mem_sbrk refuses.
   */
  function ExtendHeap(s: State, size: int, grant: bool): (State, int) {
    var bytes := RoundUp(size);
    var bp := Sbrk(s.brk, bytes, grant);
    if bp == -1 then (s, 0) else Coalesce(Chunk(s, bp, bytes), bp - 3 * WSIZE)
  }

  /** The stores extend_heap makes once mem_sbrk has returned bp, and the moved break. */
  function Chunk(s: State, bp: int, bytes: int): State {
    var blk := bp - 3 * WSIZE;
    var eprev := PrevOf(s.mem, blk);
    var m1 := WriteFooter(WriteHeader(s.mem, blk, bytes, false), blk, bytes, false);
    var m2 := m1[blk + 2 * WSIZE := 0][blk + WSIZE := 0];
    var epi := FindNext(m2, blk);
    var m3 := WriteHeader(m2, epi, 0, true)[epi + WSIZE := eprev][epi + 2 * WSIZE := 0];
    s.(mem := m3[eprev + 2 * WSIZE := epi], brk := s.brk + bytes)
  }

  /** Those stores for the new block b, with eprev the node before the old epilogue. */
  function ChunkMem(m: Mem, b: Block, eprev: int): Mem {
    var e := End(b);
    PutTags(m, b)[b.addr + 16 := 0][b.addr + 8 := 0][e := 1][e + 8 := eprev][e + 16 := 0][eprev + 16 := e]
  }

  /** The row and the list after extend_heap: a free block of the new size appended and coalesced. */
  function ExtendView(v: View, bytes: int): View
    requires |v.blocks| > 0
  {
    MergeView(View(v.blocks + [Block(Stop(v.blocks), bytes, false)], v.free), |v.blocks|)
  }

  lemma ChunkWrites(s: State, bp: int, bytes: int)
    requires bytes % 8 == 0 && bytes >= MIN_BLOCK_SIZE
    ensures var b := Block(bp - 3 * WSIZE, bytes, false);
      Chunk(s, bp, bytes) == s.(mem := ChunkMem(s.mem, b, PrevOf(s.mem, b.addr)), brk := s.brk + bytes)
  {
    var b := Block(bp - 3 * WSIZE, bytes, false);
    TagWrites(s.mem, b);
    var m2 := PutTags(s.mem, b)[b.addr + 16 := 0][b.addr + 8 := 0];
    ReadTag(m2, b.addr, b);
    PackAllocated(0);
  }

  /** Moving the chain's last node to e: the node before it points at e, and e back at it. */
  lemma Retail(m: Mem, m': Mem, ns: seq<int>, e: int)
    requires Linked(m, ns) && e != 0
    requires forall t :: 0 <= t < |ns| - 1 ==> PrevOf(m', ns[t]) == PrevOf(m, ns[t])
    requires forall t :: 0 <= t < |ns| - 2 ==> NextOf(m', ns[t]) == NextOf(m, ns[t])
    requires NextOf(m', ns[|ns| - 2]) == e && PrevOf(m', e) == ns[|ns| - 2] && NextOf(m', e) == 0
    ensures Linked(m', ns[..|ns| - 1] + [e])
  {
    var n := |ns|;
    var r := ns[..n - 1] + [e];
    assert |r| == n && r[n - 1] == e && r[0] == ns[0] && r[n - 2] == ns[n - 2];
    forall i | 0 < i < n ensures Step(m', r, i) {
      if i < n - 1 {
        assert r[i - 1] == ns[i - 1] && r[i] == ns[i];
        assert Step(m, ns, i);
      }
    }
    forall i | 0 <= i < n ensures r[i] != 0 {
      if i < n - 1 {
        assert r[i] == ns[i];
      }
    }
  }

  /** The list with a new epilogue is the old one with its last node replaced. */
  lemma NodesRetail(head: int, fl: seq<Block>, e: int, e': int)
    ensures var ns := Nodes(head, fl, e);
      Nodes(head, fl, e') == ns[..|ns| - 1] + [e']
  {
    var ns := Nodes(head, fl, e);
    assert Nodes(head, fl, e') == ns[..|ns| - 1] + [e'];
  }

  /** Every list node but the epilogue is a block of the row, so its three first words lie below the epilogue. */
  lemma NodesBelow(bs: seq<Block>, fl: seq<Block>)
    requires Tiled(bs) && Sized(bs) && |bs| > 0
    requires forall b {:trigger b in fl} :: b in fl ==> b in bs
    ensures var ns := Nodes(bs[0].addr, fl, Stop(bs));
      forall t :: 0 <= t < |ns| - 1 ==> bs[0].addr <= ns[t] && ns[t] + 3 * WSIZE < Stop(bs)
  {
    var ns := Nodes(bs[0].addr, fl, Stop(bs));
    Within(bs);
    forall t | 0 <= t < |ns| - 1 ensures bs[0].addr <= ns[t] && ns[t] + 3 * WSIZE < Stop(bs) {
      var c := if t == 0 then bs[0] else fl[t - 1];
      assert c in bs by {
        if t > 0 {
          assert fl[t - 1] in fl;
        }
      }
      assert ns[t] == c.addr;
    }
  }

  /** The node before the epilogue on the list: the prologue, or the last listed block. */
  lemma LastNode(s: State, v: View)
    requires Shape(s, v)
    ensures var c := if |v.free| == 0 then v.blocks[0] else v.free[|v.free| - 1];
      && c in v.blocks && PrevOf(s.mem, Stop(v.blocks)) == c.addr
      && PrevOf(s.mem, Stop(v.blocks)) == Nodes(s.head, v.free, Stop(v.blocks))[|v.free|]
  {
    var ns := Nodes(s.head, v.free, Stop(v.blocks));
    assert Step(s.mem, ns, |ns| - 1);
    assert v.blocks[0] in v.blocks;
    if |v.free| > 0 {
      assert v.free[|v.free| - 1] in v.free;
    }
  }

  /** What extend_heap's stores leave in memory: the new block's tags, the new epilogue, eprev's next link. */
  ghost predicate ChunkLoads(m: Mem, b: Block, eprev: int, m': Mem) {
    && (forall x {:trigger Load(m', x)} :: x < b.addr && x != eprev + 16 ==> Load(m', x) == Load(m, x))
    && Load(m', b.addr) == Tag(b) && Load(m', End(b) - WSIZE) == Tag(b)
    && Load(m', End(b)) == 1 && Load(m', End(b) + 8) == eprev && Load(m', End(b) + 16) == 0
    && Load(m', eprev + 16) == End(b)
  }

  lemma ChunkMemLoads(m: Mem, b: Block, eprev: int)
    requires eprev + 16 < b.addr && b.size >= MIN_BLOCK_SIZE
    ensures ChunkLoads(m, b, eprev, ChunkMem(m, b, eprev))
  {
  }

  /** After extend_heap's stores the row has the new free block b appended, with the new epilogue after it. */
  lemma ChunkRow(m: Mem, bs: seq<Block>, c: Block, b: Block, m': Mem)
    requires Tiled(bs) && Sized(bs) && Tagged(m, bs) && |bs| > 0 && c in bs
    requires b == Block(Stop(bs), b.size, false) && b.size % 8 == 0 && b.size >= MIN_BLOCK_SIZE
    requires ChunkLoads(m, b, c.addr, m')
    ensures Tiled(bs + [b]) && Stop(bs + [b]) == End(b)
    ensures Sized(bs + [b]) && Tagged(m', bs + [b]) && Load(m', End(b)) == 1
  {
    Inside(bs, c, c.addr + 16);
    AppendTiled(bs, b);
    Within(bs);
    assert bs[|bs| - 1] in bs;
    var r := bs + [b];
    forall d {:trigger d in r} | d in r
      ensures d.size >= MIN_BLOCK_SIZE && d.size % 8 == 0 && d.addr % 8 == 0 && BlockOk(m', d)
    {
      if d != b {
        assert d in bs;
        assert Load(m', d.addr) == Load(m, d.addr);
        assert Load(m', End(d) - WSIZE) == Load(m, End(d) - WSIZE);
      }
    }
  }

  /** After extend_heap's stores the chain runs through the same nodes to the new epilogue. */
  lemma ChunkList(m: Mem, ns: seq<int>, b: Block, m': Mem)
    requires Linked(m, ns) && Apart(ns) && b.size >= MIN_BLOCK_SIZE && 0 < b.addr
    requires forall t :: 0 <= t < |ns| - 1 ==> ns[t] + 3 * WSIZE < b.addr
    requires ChunkLoads(m, b, ns[|ns| - 2], m')
    ensures Linked(m', ns[..|ns| - 1] + [End(b)])
  {
    var n := |ns|;
    forall t | 0 <= t < n - 1 ensures PrevOf(m', ns[t]) == PrevOf(m, ns[t]) {
      if t < n - 2 {
        assert Far(ns[t], ns[n - 2]);
      }
    }
    forall t | 0 <= t < n - 2 ensures NextOf(m', ns[t]) == NextOf(m, ns[t]) {
      assert Far(ns[t], ns[n - 2]);
    }
    Retail(m, m', ns, End(b));
  }

  /**
   * extend_heap's stores before it coalesces: the heap holds the row with a
   * free block of the new size appended, the list unchanged, and the new
   * block the one free block not on it.
   */
  lemma ChunkShape(s: State, v: View, bytes: int, s': State)
    requires Rep(s, v) && bytes % 8 == 0 && bytes >= MIN_BLOCK_SIZE && s.brk + bytes <= HeapLimit
    requires var b := Block(Stop(v.blocks), bytes, false);
      s' == s.(mem := ChunkMem(s.mem, b, PrevOf(s.mem, b.addr)), brk := s.brk + bytes)
    ensures var bs' := v.blocks + [Block(Stop(v.blocks), bytes, false)];
      Shape(s', View(bs', v.free)) && Listed(bs', v.free, |v.blocks|)
  {
    var bs, fl := v.blocks, v.free;
    var b := Block(Stop(bs), bytes, false);
    var bs' := bs + [b];
    var ns := Nodes(s.head, fl, Stop(bs));
    LastNode(s, v);
    var c := if |fl| == 0 then bs[0] else fl[|fl| - 1];
    Inside(bs, c, c.addr + 16);
    ChunkMemLoads(s.mem, b, c.addr);
    ChunkRow(s.mem, bs, c, b, s'.mem);
    assert bs[0] in bs;
    NodesApart(bs, fl);
    NodesBelow(bs, fl);
    ChunkList(s.mem, ns, b, s'.mem);
    NodesRetail(s.head, fl, Stop(bs), End(b));
    Within(bs);
    assert bs'[0] == bs[0];
    assert b !in fl;
    forall x | 0 <= x < |bs'| && !bs'[x].alloc && x != |bs|
      ensures bs'[x] in fl
    {
      assert bs'[x] == bs[x];
    }
  }

  /** Where the new block lands once coalesced: its own index, or the free last block that absorbs it. */
  function GrowLo(v: View, bytes: int): int
    requires |v.blocks| > 0
  {
    MergeLo(v.blocks + [Block(Stop(v.blocks), bytes, false)], |v.blocks|)
  }

  /**
   * The tail of extend_heap refines ExtendView: the heap holds the row with
   * the new block appended and coalesced, and the result is the block it
   * merged into.
   */
  lemma GrowRefines(s: State, v: View, bytes: int)
    requires Rep(s, v) && bytes % 8 == 0 && bytes >= MIN_BLOCK_SIZE && s.brk + bytes <= HeapLimit
    ensures var r := Coalesce(Chunk(s, s.brk, bytes), s.brk - 3 * WSIZE);
      && Rep(r.0, ExtendView(v, bytes))
      && r.1 == (v.blocks + [Block(Stop(v.blocks), bytes, false)])[GrowLo(v, bytes)].addr
  {
    var bs := v.blocks;
    var b := Block(Stop(bs), bytes, false);
    ChunkWrites(s, s.brk, bytes);
    var s1 := Chunk(s, s.brk, bytes);
    ChunkShape(s, v, bytes, s1);
    assert (bs + [b])[|bs|] == b;
    CoalesceRefines(s1, View(bs + [b], v.free), |bs|);
  }

  /**
   * extend_heap refines ExtendView for the sizes its callers pass (multiples
   * of 8, at least the minimum block): when mem_sbrk grants the bytes the
   * heap holds the row with a free block of that size appended and
   * coalesced, and the result is the block it merged into; when it refuses,
   * nothing changes and the result is NULL.
   */
  lemma ExtendRefines(s: State, v: View, size: int, grant: bool)
    requires Rep(s, v) && size % 8 == 0 && MIN_BLOCK_SIZE <= size < Two64
    ensures RoundUp(size) == size
    ensures var r := ExtendHeap(s, size, grant);
      !(grant && s.brk + size <= HeapLimit) ==> r == (s, 0)
    ensures var r := ExtendHeap(s, size, grant);
      grant && s.brk + size <= HeapLimit ==>
        && Rep(r.0, ExtendView(v, size))
        && r.1 == (v.blocks + [Block(Stop(v.blocks), size, false)])[GrowLo(v, size)].addr
  {
    RoundUpExact(size);
    if grant && s.brk + size <= HeapLimit {
      assert 0 <= s.brk by {
        Within(v.blocks);
        assert v.blocks[0] in v.blocks;
      }
      assert Sbrk(s.brk, size, grant) == s.brk;
      var r := Coalesce(Chunk(s, s.brk, size), s.brk - 3 * WSIZE);
      assert ExtendHeap(s, size, grant) == r;
      GrowRefines(s, v, size);
      RepSame(r.0, ExtendHeap(s, size, grant).0, ExtendView(v, size), ExtendView(v, size));
    }
  }

  /** A size already a multiple of 8 is its own rounding. */
  lemma RoundUpExact(size: int)
    requires size % 8 == 0 && 0 <= size < Two64
    ensures RoundUp(size) == size
  {
    assert (size + WSIZE - 1) % Two64 == size + WSIZE - 1;
  }

  /**
   * ExtendView: the heap grows by the new block's bytes at its end, the
   * blocks before the merge point stay, and the last block is free and holds
   * at least the new bytes.
   */
  lemma ExtendAt(v: View, bytes: int)
    requires Tiled(v.blocks) && |v.blocks| > 0 && v.blocks[0].alloc && 0 < bytes
    ensures var lo, ve := GrowLo(v, bytes), ExtendView(v, bytes).blocks;
      && 1 <= lo && lo == |ve| - 1 && ve[..lo] == v.blocks[..lo]
      && !ve[lo].alloc && ve[lo].size >= bytes
      && ve[lo].addr == (v.blocks + [Block(Stop(v.blocks), bytes, false)])[lo].addr
      && Stop(ve) == Stop(v.blocks) + bytes
  {
    var bs := v.blocks;
    var b := Block(Stop(bs), bytes, false);
    var bs1 := bs + [b];
    var lo := MergeLo(bs1, |bs|);
    assert bs1[|bs|] == b && bs1[|bs| - 1] == bs[|bs| - 1];
    assert MergeHi(bs1, |bs|) == |bs|;
    var ve := ExtendView(v, bytes).blocks;
    assert ve == bs1[..lo] + [Merged(bs1, lo, |bs|)];
    assert bs1[..lo] == bs[..lo];
    assert bs[|bs| - 1] in bs;
    assert ve[lo] == Merged(bs1, lo, |bs|);
  }

  // ---------------------------------------------------------------------------
  // mm_init

  /**
   * mm_init: take 7 words from mem_sbrk for the prologue (32 bytes) and the
   * epilogue (24 bytes), chain the two as the empty list, then extend the
   * heap by CHUNKSIZE bytes.  The flags say whether memlib grants each of the
   * two mem_sbrk calls.  The result is 0, or -1 when either call fails; the
   * first failure is recognised by mem_sbrk's (void *)-1.
   */
  function Init(s: State, grant1: bool, grant2: bool): (State, int) {
    var h := Sbrk(s.brk, 7 * WSIZE, grant1);
    if h == -1 then (s, -1) else Start(s.(brk := s.brk + 7 * WSIZE), h, grant2)
  }

  /** mm_init as written: it compares mem_sbrk's result with NULL, which mem_sbrk never returns. */
  function InitAsWritten(s: State, grant1: bool, grant2: bool): (State, int) {
    var h := Sbrk(s.brk, 7 * WSIZE, grant1);
    if h == 0 then (s, -1)
    else Start(if h == -1 then s else s.(brk := s.brk + 7 * WSIZE), h, grant2)
  }

  /** mm_init past its first mem_sbrk, with heap_head at h. */
  function Start(s: State, h: int, grant2: bool): (State, int) {
    var e := ExtendHeap(Prologue(s, h), CHUNKSIZE, grant2);
    (e.0, if e.1 == 0 then -1 else 0)
  }

  /** The stores that lay out the prologue and the epilogue and chain them. */
  function Prologue(s: State, h: int): State {
    var m1 := WriteFooter(WriteHeader(s.mem, h, MIN_BLOCK_SIZE, true), h, MIN_BLOCK_SIZE, true);
    var m2 := m1[h + WSIZE := 0];
    var epi := FindNext(m2, h);
    var m3 := WriteHeader(m2, epi, 0, true)[epi + WSIZE := h][epi + 2 * WSIZE := 0];
    s.(mem := m3[h + 2 * WSIZE := epi], head := h)
  }

  /** The heap right after mm_init: the prologue and one free block of CHUNKSIZE bytes, on the list. */
  function InitView(h: int): View {
    var b := Block(h + MIN_BLOCK_SIZE, CHUNKSIZE, false);
    View([Block(h, MIN_BLOCK_SIZE, true), b], [b])
  }

  lemma PrologueWrites(s: State, h: int)
    ensures Prologue(s, h).head == h
    ensures var pro := Block(h, MIN_BLOCK_SIZE, true);
      var e := h + MIN_BLOCK_SIZE;
      Prologue(s, h).mem == PutTags(s.mem, pro)[h + 8 := 0][e := 1][e + 8 := h][e + 16 := 0][h + 16 := e]
  {
    var pro := Block(h, MIN_BLOCK_SIZE, true);
    TagWrites(s.mem, pro);
    ReadTag(PutTags(s.mem, pro)[h + 8 := 0], h, pro);
    PackAllocated(0);
  }

  /** What the prologue stores leave in memory. */
  predicate PrologueLoads(h: int, m: Mem) {
    var e := h + MIN_BLOCK_SIZE;
    && Load(m, h) == MIN_BLOCK_SIZE + 1 && Load(m, h + 24) == MIN_BLOCK_SIZE + 1
    && Load(m, h + 8) == 0 && Load(m, h + 16) == e
    && Load(m, e) == 1 && Load(m, e + 8) == h && Load(m, e + 16) == 0
  }

  lemma PrologueMemLoads(m: Mem, h: int)
    ensures var e := h + MIN_BLOCK_SIZE;
      PrologueLoads(h, PutTags(m, Block(h, MIN_BLOCK_SIZE, true))[h + 8 := 0][e := 1][e + 8 := h][e + 16 := 0][h + 16 := e])
  {
  }

  /** A heap whose memory holds the prologue stores is the prologue alone, with the list empty. */
  lemma PrologueRep(s: State, h: int)
    requires 0 < h && h % 8 == 0 && s.head == h && s.brk == h + 7 * WSIZE && s.brk <= HeapLimit
    requires PrologueLoads(h, s.mem)
    ensures Rep(s, View([Block(h, MIN_BLOCK_SIZE, true)], []))
  {
    var pro := Block(h, MIN_BLOCK_SIZE, true);
    var bs := [pro];
    assert Tiled(bs) && Stop(bs) == h + MIN_BLOCK_SIZE;
    assert forall b {:trigger b in bs} :: b in bs ==> b == pro;
    var ns := Nodes(h, [], Stop(bs));
    assert ns == [h, h + MIN_BLOCK_SIZE];
    assert Step(s.mem, ns, 1);
  }

  /** Rep carries over between equal states and views. */
  lemma RepSame(s: State, s': State, v: View, v': View)
    requires s' == s && v' == v
    ensures Rep(s, v) ==> Rep(s', v')
  {
  }

  /** Extending the lone prologue by CHUNKSIZE gives the initial heap. */
  lemma InitViewIs(h: int)
    ensures ExtendView(View([Block(h, MIN_BLOCK_SIZE, true)], []), CHUNKSIZE) == InitView(h)
  {
    var v1 := View([Block(h, MIN_BLOCK_SIZE, true)], []);
    var b := Block(h + MIN_BLOCK_SIZE, CHUNKSIZE, false);
    var bs1 := v1.blocks + [b];
    assert MergeLo(bs1, 1) == 1 && MergeHi(bs1, 1) == 1;
    assert Merged(bs1, 1, 1) == b;
    assert Merge(bs1, 1) == bs1;
  }

  /** mm_init once its first mem_sbrk is granted. */
  lemma InitGranted(s: State, grant2: bool)
    requires 0 <= s.brk && s.brk + 7 * WSIZE <= HeapLimit
    ensures var e := ExtendHeap(Prologue(s.(brk := s.brk + 7 * WSIZE), s.brk), CHUNKSIZE, grant2);
      Init(s, true, grant2) == (e.0, if e.1 == 0 then -1 else 0)
  {
  }

  /**
   * mm_init refines InitView: with both mem_sbrk calls granted the heap holds
   * the prologue and one free CHUNKSIZE block on the list and the result is
   * 0; when the second is refused the result is -1 and the heap is the
   * prologue alone; when the first is refused nothing changes and the result
   * is -1.
   */
  lemma InitRefines(s: State, grant1: bool, grant2: bool)
    requires 0 < s.brk && s.brk % 8 == 0
    ensures var r := Init(s, grant1, grant2);
      !(grant1 && s.brk + 7 * WSIZE <= HeapLimit) ==> r == (s, -1)
    ensures var r := Init(s, grant1, grant2);
      grant1 && s.brk + 7 * WSIZE <= HeapLimit && !(grant2 && s.brk + 7 * WSIZE + CHUNKSIZE <= HeapLimit) ==>
        r.1 == -1 && Rep(r.0, View([Block(s.brk, MIN_BLOCK_SIZE, true)], []))
    ensures var r := Init(s, grant1, grant2);
      grant1 && grant2 && s.brk + 7 * WSIZE + CHUNKSIZE <= HeapLimit ==>
        r.1 == 0 && Rep(r.0, InitView(s.brk))
  {
    if grant1 && s.brk + 7 * WSIZE <= HeapLimit {
      var h := s.brk;
      var s1 := Prologue(s.(brk := s.brk + 7 * WSIZE), h);
      var v1 := View([Block(h, MIN_BLOCK_SIZE, true)], []);
      PrologueWrites(s.(brk := s.brk + 7 * WSIZE), h);
      PrologueMemLoads(s.mem, h);
      PrologueRep(s1, h);
      ExtendRefines(s1, v1, CHUNKSIZE, grant2);
      InitGranted(s, grant2);
      var e := ExtendHeap(s1, CHUNKSIZE, grant2);
      if grant2 && s1.brk + CHUNKSIZE <= HeapLimit {
        InitViewIs(h);
        RepSame(e.0, Init(s, grant1, grant2).0, ExtendView(v1, CHUNKSIZE), InitView(h));
      } else {
        RepSame(e.0, Init(s, grant1, grant2).0, v1, v1);
      }
    }
  }

  /** coalesce and extend_heap write memory only: heap_head stays. */
  lemma ExtendKeepsHead(s: State, size: int, grant: bool)
    ensures ExtendHeap(s, size, grant).0.head == s.head
  {
    var bytes := RoundUp(size);
    var bp := Sbrk(s.brk, bytes, grant);
    if bp != -1 {
      var s1 := Chunk(s, bp, bytes);
      assert s1.head == s.head;
      var c := Coalesce(s1, bp - 3 * WSIZE);
      assert c.0.head == s1.head;
    }
  }

  /**
   * mm_init as written, when the first mem_sbrk is refused: the NULL test
   * lets (void *)-1 through, so it goes on with heap_head at -1 and stores
   * the prologue there, where the corrected Init returns -1 untouched.
   */
  lemma InitAsWrittenCarriesOn(s: State, grant2: bool)
    ensures InitAsWritten(s, false, grant2) == Start(s, -1, grant2)
    ensures InitAsWritten(s, false, grant2).0.head == -1
    ensures Init(s, false, grant2) == (s, -1)
  {
    ExtendKeepsHead(Prologue(s, -1), CHUNKSIZE, grant2);
  }

  // ---------------------------------------------------------------------------
  // first_fit

  /** What first_fit reads at list node i: the prologue and the epilogue are in use, the blocks between are free. */
  lemma NodeAt(s: State, v: View, i: int)
    requires Shape(s, v) && 0 <= i < |v.free| + 2
    ensures var ns := Nodes(s.head, v.free, Stop(v.blocks));
      && ns[i] != 0
      && GetAlloc(s.mem, ns[i]) == (i == 0 || i == |ns| - 1)
      && (0 < i < |ns| - 1 ==> GetSize(s.mem, ns[i]) == v.free[i - 1].size)
      && NextOf(s.mem, ns[i]) == (if i + 1 < |ns| then ns[i + 1] else 0)
  {
    var bs, fl := v.blocks, v.free;
    var ns := Nodes(s.head, fl, Stop(bs));
    if i + 1 < |ns| {
      assert Step(s.mem, ns, i + 1);
    }
    if i == 0 {
      assert bs[0] in bs;
      ReadTag(s.mem, s.head, bs[0]);
    } else if i == |ns| - 1 {
      ReadEpilogue(s, v);
    } else {
      var b := fl[i - 1];
      assert b in fl && ns[i] == b.addr;
      assert b in bs;
      ReadTag(s.mem, b.addr, b);
    }
  }

  /**
   * first_fit(size): walk the list from heap_head and return the first
   * block that is free and holds size bytes, or NULL.  The prologue and the
   * epilogue are in use, so this is the first listed block that is large
   * enough.
   */
  method FirstFit(s: State, size: int, ghost v: View) returns (bp: int)
    requires Shape(s, v)
    ensures var r := ListFit(v.free, size, 0);
      && (r.Some? ==> bp == v.free[r.value].addr && bp != 0)
      && (r.None? ==> bp == 0)
  {
    var m := s.mem;
    ghost var fl := v.free;
    ghost var ns := Nodes(s.head, fl, Stop(v.blocks));
    ghost var i := 0;
    bp := s.head;
    while bp != 0
      invariant 0 <= i <= |ns| && (i < |ns| ==> bp == ns[i]) && (i == |ns| ==> bp == 0)
      invariant ListFit(fl, size, if i == 0 then 0 else if i - 1 < |fl| then i - 1 else |fl|) == ListFit(fl, size, 0)
      decreases |ns| - i
    {
      NodeAt(s, v, i);
      if !GetAlloc(m, bp) && GetSize(m, bp) >= size {
        return bp;
      }
      bp := NextOf(m, bp);
      i := i + 1;
    }
  }

  // ---------------------------------------------------------------------------
  // The abstract operations and the blocks in use

  /** Placing into block k trades it for the carved block in use; every other block in use stays. */
  lemma PlaceAllocated(v: View, k: int, asize: int)
    requires Tiled(v.blocks) && 0 <= k < |v.blocks| && asize <= v.blocks[k].size
    ensures k < |PlaceView(v, k, asize).blocks|
    ensures var r := PlaceView(v, k, asize).blocks;
      Allocated(r) == Allocated(v.blocks) - {v.blocks[k]} + {r[k]}
    ensures var r := PlaceView(v, k, asize).blocks;
      !v.blocks[k].alloc ==> Allocated(r) == Allocated(v.blocks) + {r[k]}
  {
    var bs := v.blocks;
    var cs := Carve(bs[k], asize);
    var r := Splice(bs, k, k + 1, cs);
    assert PlaceView(v, k, asize).blocks == r;
    assert r[k] == cs[0];
    forall b | b in Allocated(bs) - {bs[k]} ensures b in Allocated(r) {
      var x :| 0 <= x < |bs| && bs[x] == b;
      SpliceOutside(bs, k, k + 1, cs, x);
    }
    forall b | b in Allocated(r) ensures b in Allocated(bs) - {bs[k]} || b == r[k] {
      var y :| 0 <= y < |r| && r[y] == b;
      SpliceSource(bs, k, k + 1, cs, y);
      if y < k || y >= k + |cs| {
        Distinct(bs, k);
      }
    }
  }

  /** Growing the heap leaves the blocks in use alone. */
  lemma ExtendAllocated(v: View, bytes: int)
    requires |v.blocks| > 0
    ensures Allocated(ExtendView(v, bytes).blocks) == Allocated(v.blocks)
  {
    var bs := v.blocks;
    var gs := bs + [Block(Stop(bs), bytes, false)];
    MergeKeeps(gs, |bs|);
    assert ExtendView(v, bytes).blocks == Merge(gs, |bs|);
    assert Allocated(gs) == Allocated(bs);
  }

  /** mm_free frees block k and leaves every other block in use alone. */
  lemma FreeAllocated(v: View, k: int)
    requires Tiled(v.blocks) && 1 <= k < |v.blocks| && v.blocks[k].alloc
    ensures Allocated(FreeView(v, k).blocks) == Allocated(v.blocks) - {v.blocks[k]}
  {
    var bs := v.blocks;
    var fs := bs[k := bs[k].(alloc := false)];
    Distinct(bs, k);
    MergeKeeps(fs, k);
    assert FreeView(v, k).blocks == Merge(fs, k);
    forall b | b in Allocated(bs) - {bs[k]} ensures b in Allocated(fs) {
      var i :| 0 <= i < |bs| && bs[i] == b;
      assert fs[i] == b;
    }
  }

  // ---------------------------------------------------------------------------
  // mm_malloc

  /** After placing asize bytes in block k, block k starts where it did, is in use, and holds at least asize bytes. */
  lemma PlaceAt(v: View, k: int, asize: int)
    requires 0 <= k < |v.blocks| && asize <= v.blocks[k].size
    ensures var r := PlaceView(v, k, asize).blocks;
      && k < |r| && r[k].addr == v.blocks[k].addr && r[k].alloc && asize <= r[k].size
  {
    var cs := Carve(v.blocks[k], asize);
    assert Splice(v.blocks, k, k + 1, cs)[k] == cs[0];
  }

  /** The list block first fit picks is block k of the row; placing there keeps the heap consistent. */
  lemma PlaceFound(s: State, v: View, asize: int, t: int, k: int)
    requires Rep(s, v) && asize % 8 == 0 && MIN_BLOCK_SIZE <= asize
    requires ListFit(v.free, asize, 0) == Some(t) && 1 <= k < |v.blocks| && v.blocks[k] == v.free[t]
    ensures var v' := PlaceView(v, k, asize);
      && Rep(Place(s, v.free[t].addr, asize), v')
      && k < |v'.blocks| && v'.blocks[k].addr == v.free[t].addr && v'.blocks[k].alloc && asize <= v'.blocks[k].size
      && 0 < v.free[t].addr
  {
    PlaceRefines(s, v, k, asize);
    PlaceAt(v, k, asize);
    ReadBlock(s, v, k);
  }

  /** Block t of the list is a block of the row past the prologue. */
  lemma ListedIndex(s: State, v: View, t: int) returns (k: int)
    requires Shape(s, v) && 0 <= t < |v.free|
    ensures 1 <= k < |v.blocks| && v.blocks[k] == v.free[t] && !v.blocks[k].alloc
  {
    assert v.free[t] in v.free;
    k :| 0 <= k < |v.blocks| && v.blocks[k] == v.free[t];
    assert v.blocks[0].alloc;
  }

  /** Placing into the block extend_heap returned keeps the heap consistent and uses the merged last block. */
  lemma PlaceGrown(s: State, v: View, asize: int, e: (State, int))
    requires Rep(s, v) && asize % 8 == 0 && MIN_BLOCK_SIZE <= asize < Two64
    requires e == ExtendHeap(s, asize, true) && s.brk + asize <= HeapLimit
    ensures var k := GrowLo(v, asize);
      var v' := PlaceView(ExtendView(v, asize), k, asize);
      && Rep(Place(e.0, e.1, asize), v')
      && 1 <= k < |v'.blocks| && v'.blocks[k].addr == e.1 && v'.blocks[k].alloc && asize <= v'.blocks[k].size
      && 0 < e.1
  {
    var k := GrowLo(v, asize);
    var ve := ExtendView(v, asize);
    assert v.blocks[0] in v.blocks;
    ExtendRefines(s, v, asize, true);
    ExtendAt(v, asize);
    PlaceRefines(e.0, ve, k, asize);
    PlaceAt(ve, k, asize);
    ReadBlock(e.0, ve, k);
  }

  /**
   * mm_malloc(size), with requests too large for calc_real_size's
   * arithmetic refused.  A zero or oversized request gives NULL and changes
   * nothing.  Otherwise the first listed block large enough is placed;
   * failing that the heap grows by the block size and the merged last block
   * is placed; when memlib refuses, the result is NULL and nothing changes.
   * A non-NULL result is the payload of an allocated block with room for
   * size bytes, and the heap encodes the view the abstract operations give.
   */
  method Malloc(s: State, size: int, grant: bool, ghost v: View) returns (s': State, p: int, ghost v': View, ghost k: int)
    requires Rep(s, v) && 0 <= size <= SizeMax
    ensures Rep(s', v')
    ensures p == 0 ==> s' == s && v' == v
    ensures size == 0 || SizeMax - 23 < size ==> p == 0
    ensures p != 0 ==> 1 <= k < |v'.blocks| && p == BlockToPayload(v'.blocks[k].addr) && v'.blocks[k].alloc
                       && size + 2 * WSIZE <= v'.blocks[k].size
                       && Allocated(v'.blocks) == Allocated(v.blocks) + {v'.blocks[k]}
    ensures s'.head == s.head
    ensures 0 < size <= SizeMax - 23 && ListFit(v.free, RealSize(size), 0).Some? ==>
      var t := ListFit(v.free, RealSize(size), 0).value;
      p != 0 && 1 <= k < |v.blocks| && v.blocks[k] == v.free[t] && v' == PlaceView(v, k, RealSize(size))
    ensures 0 < size <= SizeMax - 23 && ListFit(v.free, RealSize(size), 0).None? ==>
      && (p == 0 <==> !(grant && s.brk + RealSize(size) <= HeapLimit))
      && (p != 0 ==> k == GrowLo(v, RealSize(size)) && v' == PlaceView(ExtendView(v, RealSize(size)), k, RealSize(size)))
  {
    if size == 0 || SizeMax - 23 < size {
      return s, 0, v, 0;
    }
    var asize := RealSize(size);
    var bp := FirstFit(s, asize, v);
    if bp != 0 {
      s', p, v', k := PlaceFit(s, asize, bp, v);
    } else {
      s', p, v', k := GrowAndPlace(s, asize, grant, v);
    }
  }

  /** mm_malloc when first fit found block bp: place there and return its payload. */
  method PlaceFit(s: State, asize: int, bp: int, ghost v: View) returns (s': State, p: int, ghost v': View, ghost k: int)
    requires Rep(s, v) && asize % 8 == 0 && MIN_BLOCK_SIZE <= asize
    requires ListFit(v.free, asize, 0).Some? && bp == v.free[ListFit(v.free, asize, 0).value].addr
    ensures var t := ListFit(v.free, asize, 0).value;
      && Rep(s', v') && 1 <= k < |v.blocks| && v.blocks[k] == v.free[t] && v' == PlaceView(v, k, asize)
      && k < |v'.blocks| && p == BlockToPayload(v'.blocks[k].addr) && v'.blocks[k].alloc && asize <= v'.blocks[k].size
      && p != 0 && s'.head == s.head && Allocated(v'.blocks) == Allocated(v.blocks) + {v'.blocks[k]}
    ensures p != 0 && s'.head == s.head
  {
    ghost var t := ListFit(v.free, asize, 0).value;
    k := ListedIndex(s, v, t);
    PlaceFound(s, v, asize, t, k);
    PlaceAllocated(v, k, asize);
    PlaceKeepsHead(s, bp, asize);
    s' := Place(s, bp, asize);
    v' := PlaceView(v, k, asize);
    p := BlockToPayload(bp);
    RepSame(Place(s, v.free[t].addr, asize), s', v', v');
  }

  /** place writes memory only: heap_head and the break stay. */
  lemma PlaceKeepsHead(s: State, blk: int, size: int)
    ensures Place(s, blk, size).head == s.head && Place(s, blk, size).brk == s.brk
  {
  }

  /** extend_heap returns NULL exactly when memlib refuses the bytes. */
  lemma ExtendNull(s: State, v: View, size: int, grant: bool)
    requires Rep(s, v) && size % 8 == 0 && MIN_BLOCK_SIZE <= size < Two64
    ensures (ExtendHeap(s, size, grant).1 == 0) == !(grant && s.brk + size <= HeapLimit)
  {
    ExtendRefines(s, v, size, grant);
    if grant && s.brk + size <= HeapLimit {
      var e := ExtendHeap(s, size, grant);
      assert v.blocks[0] in v.blocks;
      ExtendAt(v, size);
      ReadBlock(e.0, ExtendView(v, size), GrowLo(v, size));
    }
  }

  /** mm_malloc when no listed block fits: extend the heap by asize bytes and place in the merged last block. */
  method GrowAndPlace(s: State, asize: int, grant: bool, ghost v: View) returns (s': State, p: int, ghost v': View, ghost k: int)
    requires Rep(s, v) && asize % 8 == 0 && MIN_BLOCK_SIZE <= asize < Two64
    ensures Rep(s', v')
    ensures p == 0 <==> !(grant && s.brk + asize <= HeapLimit)
    ensures p == 0 ==> s' == s && v' == v
    ensures p != 0 ==> && k == GrowLo(v, asize) && v' == PlaceView(ExtendView(v, asize), k, asize)
                       && 1 <= k < |v'.blocks| && p == BlockToPayload(v'.blocks[k].addr) && v'.blocks[k].alloc
                       && asize <= v'.blocks[k].size && Allocated(v'.blocks) == Allocated(v.blocks) + {v'.blocks[k]}
    ensures s'.head == s.head
  {
    ExtendRefines(s, v, asize, grant);
    ExtendNull(s, v, asize, grant);
    var e := ExtendHeap(s, asize, grant);
    if e.1 == 0 {
      return s, 0, v, 0;
    }
    PlaceGrown(s, v, asize, e);
    k := GrowLo(v, asize);
    ExtendKeepsHead(s, asize, grant);
    ExtendAt(v, asize);
    ExtendAllocated(v, asize);
    PlaceAllocated(ExtendView(v, asize), k, asize);
    s' := Place(e.0, e.1, asize);
    v' := PlaceView(ExtendView(v, asize), k, asize);
    p := BlockToPayload(e.1);
    RepSame(Place(e.0, e.1, asize), s', v', v');
  }

  // ---------------------------------------------------------------------------
  // mm_free

  /** mm_free(payload): NULL is ignored; otherwise the block is retagged free and coalesced. */
  function Free(s: State, p: int): State {
    if p == 0 then s
    else
      var blk := PayloadToBlock(p);
      var size := GetSize(s.mem, blk);
      Coalesce(s.(mem := WriteFooter(WriteHeader(s.mem, blk, size, false), blk, size, false)), blk).0
  }

  /** Block k marked free, then merged with the free blocks on either side. */
  function FreeView(v: View, k: int): View
    requires 1 <= k < |v.blocks|
  {
    MergeView(View(v.blocks[k := v.blocks[k].(alloc := false)], v.free), k)
  }

  /**
   * mm_free refines FreeView: freeing block k, one in use, of a heap that
   * encodes v gives a heap that encodes v with block k free and merged with
   * its free neighbours, the merged block at the front of the list.
   */
  lemma FreeRefines(s: State, v: View, k: int)
    requires Rep(s, v) && 1 <= k < |v.blocks| && v.blocks[k].alloc
    ensures Rep(Free(s, BlockToPayload(v.blocks[k].addr)), FreeView(v, k))
  {
    var bs := v.blocks;
    var b := bs[k];
    var fb := b.(alloc := false);
    var m' := PutTags(s.mem, fb);
    ReadBlock(s, v, k);
    FreeIs(s, fb);
    UnmarkShape(s, v, k, m');
    var v1 := View(bs[k := fb], v.free);
    CoalesceRefines(s.(mem := m'), v1, k);
    RepSame(Coalesce(s.(mem := m'), b.addr).0, Free(s, BlockToPayload(b.addr)), MergeView(v1, k), FreeView(v, k));
  }

  /** mm_free at a block whose header reads its size: coalesce on memory with the block's tags rewritten free. */
  lemma FreeIs(s: State, fb: Block)
    requires 0 < fb.addr && fb.size % 8 == 0 && GetSize(s.mem, fb.addr) == fb.size && !fb.alloc
    ensures Free(s, BlockToPayload(fb.addr)) == Coalesce(s.(mem := PutTags(s.mem, fb)), fb.addr).0
  {
    TagWrites(s.mem, fb);
  }

  /** Block k, in use, retagged free: the shape holds with block k free and not yet listed. */
  lemma UnmarkShape(s: State, v: View, k: int, m': Mem)
    requires Rep(s, v) && 1 <= k < |v.blocks| && v.blocks[k].alloc
    requires m' == PutTags(s.mem, v.blocks[k].(alloc := false))
    ensures var v1 := View(v.blocks[k := v.blocks[k].(alloc := false)], v.free);
      && Shape(s.(mem := m'), v1) && Listed(v1.blocks, v1.free, k) && !v1.blocks[k].alloc
  {
    var bs := v.blocks;
    var fb := bs[k].(alloc := false);
    assert Merged(bs, k, k) == fb;
    MergeTags(s, v, k, k, m');
    SpliceUpdate(bs, k, fb);
  }

  // ---------------------------------------------------------------------------
  // mm_realloc: growing into the free neighbours

  /** The bytes block k and its free neighbours cover. */
  function Room(bs: seq<Block>, k: int): int
    requires 1 <= k < |bs|
  {
    Merged(bs, MergeLo(bs, k), MergeHi(bs, k)).size
  }

  /** Block k, in use, joined with its free neighbours into one block in use; they leave the list. */
  function AbsorbView(v: View, k: int): View
    requires 1 <= k < |v.blocks|
  {
    var bs := v.blocks;
    var lo, hi := MergeLo(bs, k), MergeHi(bs, k);
    View(Splice(bs, lo, hi + 1, [Merged(bs, lo, hi).(alloc := true)]), Without(Without(v.free, bs[lo]), bs[hi]))
  }

  /** test_size in mm_realloc: blk's size plus the sizes of the free blocks on either side. */
  function TestSize(m: Mem, blk: int): int {
    var prev := FindPrev(m, blk);
    var next := FindNext(m, blk);
    GetSize(m, blk) + (if GetAlloc(m, prev) then 0 else GetSize(m, prev)) + (if GetAlloc(m, next) then 0 else GetSize(m, next))
  }

  /**
   * The branch of mm_realloc taken when test_size covers the request: the
   * free neighbours leave the list, the joined block (starting at the block
   * before when that one is free) gets tags in use, and place cuts it.
   * Returns the state and the joined block; the final branch, with both
   * neighbours in use, returns NULL.
   */
  function Absorb(s: State, blk: int, size: int): (State, int) {
    var m := s.mem;
    var prev := FindPrev(m, blk);
    var next := FindNext(m, blk);
    var test := TestSize(m, blk);
    if GetAlloc(m, prev) && !GetAlloc(m, next) then Enlarge(s, RemoveBlk(m, next), blk, test, size)
    else if !GetAlloc(m, prev) then
      var m1 := RemoveBlk(m, prev);
      Enlarge(s, if GetAlloc(m, next) then m1 else RemoveBlk(m1, next), prev, test, size)
    else (s, 0)
  }

  /** The tail of both joining branches: header and footer in use with test_size bytes, then place. */
  function Enlarge(s: State, m: Mem, blk: int, test: int, size: int): (State, int) {
    (Place(s.(mem := WriteFooter(WriteHeader(m, blk, test, true), blk, test, true)), blk, size), blk)
  }

  /** test_size read from memory is the room block k and its free neighbours cover. */
  lemma TestSizeIs(s: State, v: View, k: int)
    requires Shape(s, v) && 1 <= k < |v.blocks|
    ensures TestSize(s.mem, v.blocks[k].addr) == Room(v.blocks, k)
  {
    CoalesceReads(s, v, k);
    assert End(v.blocks[k - 1]) == v.blocks[k].addr;
  }

  /** Blocks lo .. hi, none of them listed, rewritten as one block in use. */
  lemma AbsorbTags(s: State, v: View, lo: int, hi: int, m': Mem)
    requires Shape(s, v) && 1 <= lo <= hi < |v.blocks|
    requires forall c, x {:trigger c in v.free, v.blocks[x]} :: c in v.free && lo <= x < hi + 1 ==> c != v.blocks[x]
    requires m' == PutTags(s.mem, Merged(v.blocks, lo, hi).(alloc := true))
    ensures Shape(s.(mem := m'), View(Splice(v.blocks, lo, hi + 1, [Merged(v.blocks, lo, hi).(alloc := true)]), v.free))
  {
    var bs := v.blocks;
    var nb := Merged(bs, lo, hi).(alloc := true);
    MergedSize(bs, lo, hi);
    assert bs[lo] in bs && bs[hi] in bs;
    if lo < hi {
      TiledOrder(bs, lo, hi);
    }
    PutTagsOk(s.mem, nb);
    SpliceOff(s, v, lo, hi + 1, [nb], m');
  }

  /** After joining, the list holds every free block: the old ones but the joined neighbours. */
  lemma AbsorbListed(bs: seq<Block>, fl: seq<Block>, k: int, fl': seq<Block>)
    requires Tiled(bs) && Members(bs, fl) && 1 <= k < |bs| && bs[k].alloc && Listed(bs, fl, -1)
    requires forall c {:trigger c in fl'} :: c in fl' <==> c in fl && c != bs[MergeLo(bs, k)] && c != bs[MergeHi(bs, k)]
    ensures var lo, hi := MergeLo(bs, k), MergeHi(bs, k);
      Listed(Splice(bs, lo, hi + 1, [Merged(bs, lo, hi).(alloc := true)]), fl', -1)
    ensures forall c, x {:trigger c in fl', bs[x]} :: c in fl' && MergeLo(bs, k) <= x < MergeHi(bs, k) + 1 ==> c != bs[x]
  {
    var lo, hi := MergeLo(bs, k), MergeHi(bs, k);
    var r := Splice(bs, lo, hi + 1, [Merged(bs, lo, hi).(alloc := true)]);
    assert |r| == |bs| - (hi - lo);
    forall x | 0 <= x < |r| && !r[x].alloc ensures r[x] in fl' {
      if x < lo {
        assert r[x] == bs[x];
        Distinct(bs, x);
      } else if x > lo {
        assert r[x] == bs[x + hi - lo];
        Distinct(bs, x + hi - lo);
      }
    }
    forall c, x | c in fl' && lo <= x < hi + 1 ensures c != bs[x] {
      if x == k {
        assert c in fl;
      }
    }
  }

  /**
   * The tail of the joining branches: once the free neighbours are off the
   * list, writing the joined block in use and placing the request in it
   * gives the joined view, cut.
   */
  lemma EnlargeRefines(s: State, v: View, k: int, m1: Mem, asize: int)
    requires Rep(s, v) && 1 <= k < |v.blocks| && v.blocks[k].alloc
    requires var lo, hi := MergeLo(v.blocks, k), MergeHi(v.blocks, k);
      Shape(s.(mem := m1), View(v.blocks, Without(Without(v.free, v.blocks[lo]), v.blocks[hi])))
    requires asize % 8 == 0 && MIN_BLOCK_SIZE <= asize <= Room(v.blocks, k)
    ensures var nb := Merged(v.blocks, MergeLo(v.blocks, k), MergeHi(v.blocks, k));
      Rep(Enlarge(s, m1, nb.addr, nb.size, asize).0, PlaceView(AbsorbView(v, k), MergeLo(v.blocks, k), asize))
  {
    var bs, fl := v.blocks, v.free;
    var lo, hi := MergeLo(bs, k), MergeHi(bs, k);
    var fl1 := Without(Without(fl, bs[lo]), bs[hi]);
    var nb := Merged(bs, lo, hi).(alloc := true);
    var m2 := PutTags(m1, nb);
    AbsorbListed(bs, fl, k, fl1);
    MergedSize(bs, lo, hi);
    TagWrites(m1, nb);
    AbsorbTags(s.(mem := m1), View(bs, fl1), lo, hi, m2);
    var av := AbsorbView(v, k);
    assert av.blocks[lo] == nb;
    PlaceRefines(s.(mem := m2), av, lo, asize);
    RepSame(Place(s.(mem := m2), nb.addr, asize), Enlarge(s, m1, nb.addr, nb.size, asize).0, PlaceView(av, lo, asize), PlaceView(av, lo, asize));
  }

  /** With the block before in use and the one after free, the first joining branch is taken. */
  lemma AbsorbNextIs(s: State, blk: int, p: int, n: int, size: int)
    requires FindPrev(s.mem, blk) == p && FindNext(s.mem, blk) == n
    requires GetAlloc(s.mem, p) && !GetAlloc(s.mem, n)
    ensures Absorb(s, blk, size) == Enlarge(s, RemoveBlk(s.mem, n), blk, TestSize(s.mem, blk), size)
  {
  }

  /** With the block before free and the one after in use, the second branch joins only the block before. */
  lemma AbsorbPrevIs(s: State, blk: int, p: int, n: int, size: int)
    requires FindPrev(s.mem, blk) == p && FindNext(s.mem, blk) == n
    requires !GetAlloc(s.mem, p) && GetAlloc(s.mem, n)
    ensures Absorb(s, blk, size) == Enlarge(s, RemoveBlk(s.mem, p), p, TestSize(s.mem, blk), size)
  {
  }

  /** With both neighbours free, the second branch joins both. */
  lemma AbsorbBothIs(s: State, blk: int, p: int, n: int, size: int)
    requires FindPrev(s.mem, blk) == p && FindNext(s.mem, blk) == n
    requires !GetAlloc(s.mem, p) && !GetAlloc(s.mem, n)
    ensures Absorb(s, blk, size) == Enlarge(s, RemoveBlk(RemoveBlk(s.mem, p), n), p, TestSize(s.mem, blk), size)
  {
  }

  /** The block after is free: it leaves the list and joins block k. */
  lemma AbsorbNext(s: State, v: View, k: int, asize: int)
    requires Rep(s, v) && 1 <= k < |v.blocks| - 1 && v.blocks[k].alloc
    requires v.blocks[k - 1].alloc && !v.blocks[k + 1].alloc
    requires asize % 8 == 0 && MIN_BLOCK_SIZE <= asize <= Room(v.blocks, k)
    ensures var r := Absorb(s, v.blocks[k].addr, asize);
      r.1 == v.blocks[k].addr && Rep(r.0, PlaceView(AbsorbView(v, k), k, asize))
  {
    var bs, fl := v.blocks, v.free;
    var b, n := bs[k], bs[k + 1];
    var m1 := RemoveBlk(s.mem, n.addr);
    CoalesceReads(s, v, k);
    TestSizeIs(s, v, k);
    AbsorbNextIs(s, b.addr, bs[k - 1].addr, n.addr, asize);
    assert n in fl;
    UnlinkBlock(s, v, n);
    assert b !in fl;
    WithoutAbsent(fl, b);
    EnlargeRefines(s, v, k, m1, asize);
  }

  /** The block before is free and the one after in use: the block before leaves the list and absorbs block k. */
  lemma AbsorbPrev(s: State, v: View, k: int, asize: int)
    requires Rep(s, v) && 1 <= k < |v.blocks| && v.blocks[k].alloc
    requires !v.blocks[k - 1].alloc && (k + 1 == |v.blocks| || v.blocks[k + 1].alloc)
    requires asize % 8 == 0 && MIN_BLOCK_SIZE <= asize <= Room(v.blocks, k)
    ensures var r := Absorb(s, v.blocks[k].addr, asize);
      r.1 == v.blocks[k - 1].addr && Rep(r.0, PlaceView(AbsorbView(v, k), k - 1, asize))
  {
    var bs, fl := v.blocks, v.free;
    var p, b := bs[k - 1], bs[k];
    var m1 := RemoveBlk(s.mem, p.addr);
    CoalesceReads(s, v, k);
    TestSizeIs(s, v, k);
    AbsorbPrevIs(s, b.addr, p.addr, End(b), asize);
    assert MergeLo(bs, k) == k - 1 && MergeHi(bs, k) == k;
    assert p in fl;
    UnlinkBlock(s, v, p);
    assert b !in Without(fl, p);
    WithoutAbsent(Without(fl, p), b);
    EnlargeRefines(s, v, k, m1, asize);
  }

  /** Both neighbours free: both leave the list and the three join. */
  lemma AbsorbBoth(s: State, v: View, k: int, asize: int)
    requires Rep(s, v) && 1 <= k < |v.blocks| - 1 && v.blocks[k].alloc
    requires !v.blocks[k - 1].alloc && !v.blocks[k + 1].alloc
    requires asize % 8 == 0 && MIN_BLOCK_SIZE <= asize <= Room(v.blocks, k)
    ensures var r := Absorb(s, v.blocks[k].addr, asize);
      r.1 == v.blocks[k - 1].addr && Rep(r.0, PlaceView(AbsorbView(v, k), k - 1, asize))
  {
    var bs, fl := v.blocks, v.free;
    var p, n := bs[k - 1], bs[k + 1];
    var m1 := RemoveBlk(s.mem, p.addr);
    var m2 := RemoveBlk(m1, n.addr);
    CoalesceReads(s, v, k);
    TestSizeIs(s, v, k);
    AbsorbBothIs(s, bs[k].addr, p.addr, n.addr, asize);
    assert p in fl && n in fl;
    UnlinkBlock(s, v, p);
    Distinct(bs, k + 1);
    UnlinkBlock(s.(mem := m1), View(bs, Without(fl, p)), n);
    EnlargeRefines(s, v, k, m2, asize);
  }

  /**
   * Growing in place refines joining: for block k in use that is too small
   * for asize bytes while it and its free neighbours have room, the joined
   * block, cut for the request, starts at the first block joined.
   */
  lemma AbsorbRefines(s: State, v: View, k: int, asize: int)
    requires Rep(s, v) && 1 <= k < |v.blocks| && v.blocks[k].alloc
    requires asize % 8 == 0 && MIN_BLOCK_SIZE <= asize && v.blocks[k].size < asize <= Room(v.blocks, k)
    ensures var r := Absorb(s, v.blocks[k].addr, asize);
      var lo := MergeLo(v.blocks, k);
      r.1 == v.blocks[lo].addr && Rep(r.0, PlaceView(AbsorbView(v, k), lo, asize))
  {
    var bs := v.blocks;
    if bs[k - 1].alloc {
      AbsorbNext(s, v, k, asize);
    } else if k + 1 == |bs| || bs[k + 1].alloc {
      AbsorbPrev(s, v, k, asize);
    } else {
      AbsorbBoth(s, v, k, asize);
    }
  }

  /** Cutting the joined block keeps every other block in use, and the cut block is in use with room for asize bytes. */
  lemma AbsorbAt(v: View, k: int, asize: int)
    requires Tiled(v.blocks) && 1 <= k < |v.blocks| && v.blocks[k].alloc && asize <= Room(v.blocks, k)
    ensures var lo, r := MergeLo(v.blocks, k), PlaceView(AbsorbView(v, k), MergeLo(v.blocks, k), asize).blocks;
      && lo < |r| && r[lo].addr == v.blocks[lo].addr && r[lo].alloc && asize <= r[lo].size
      && Allocated(v.blocks) - {v.blocks[k]} <= Allocated(r)
  {
    var bs := v.blocks;
    var lo, hi := MergeLo(bs, k), MergeHi(bs, k);
    var nb := Merged(bs, lo, hi).(alloc := true);
    var av := AbsorbView(v, k);
    assert av.blocks == bs[..lo] + [nb] + bs[hi + 1..];
    assert av.blocks[lo] == nb;
    PlaceAt(av, lo, asize);
    var cs := Carve(nb, asize);
    var r := PlaceView(av, lo, asize).blocks;
    forall b | b in Allocated(bs) - {bs[k]} ensures b in Allocated(r) {
      var x :| 0 <= x < |bs| && bs[x] == b;
      SpliceOutside(bs, lo, hi + 1, [nb], x);
      var y := Shifted(x, lo, hi + 1, 1);
      SpliceOutside(av.blocks, lo, lo + 1, cs, y);
    }
  }

  /** A block of a row sits at some index. */
  lemma IndexOf(bs: seq<Block>, b: Block) returns (i: int)
    requires b in bs
    ensures 0 <= i < |bs| && bs[i] == b
  {
    i :| 0 <= i < |bs| && bs[i] == b;
  }

  // ---------------------------------------------------------------------------
  // mm_realloc

  /** mm_realloc when the block already holds the request: place cuts it where it is. */
  method Shrink(s: State, blk: int, asize: int, ghost v: View, ghost k: int) returns (s': State, ghost v': View)
    requires Rep(s, v) && 1 <= k < |v.blocks| && blk == v.blocks[k].addr && v.blocks[k].alloc
    requires asize % 8 == 0 && MIN_BLOCK_SIZE <= asize <= v.blocks[k].size
    ensures s'.head == s.head && s'.brk == s.brk
    ensures Rep(s', v') && v' == PlaceView(v, k, asize)
    ensures k < |v'.blocks| && v'.blocks[k].addr == blk && v'.blocks[k].alloc && asize <= v'.blocks[k].size
    ensures Allocated(v.blocks) - {v.blocks[k]} <= Allocated(v'.blocks)
  {
    PlaceRefines(s, v, k, asize);
    PlaceAt(v, k, asize);
    PlaceAllocated(v, k, asize);
    s' := Place(s, blk, asize);
    v' := PlaceView(v, k, asize);
    RepSame(Place(s, v.blocks[k].addr, asize), s', v', v');
  }

  /** mm_realloc when block blk and its free neighbours have room: join them, then place. */
  method GrowInPlace(s: State, blk: int, asize: int, ghost v: View, ghost k: int) returns (s': State, b: int, ghost v': View)
    requires Rep(s, v) && 1 <= k < |v.blocks| && blk == v.blocks[k].addr && v.blocks[k].alloc
    requires asize % 8 == 0 && MIN_BLOCK_SIZE <= asize && v.blocks[k].size < asize <= Room(v.blocks, k)
    ensures b == v.blocks[MergeLo(v.blocks, k)].addr
    ensures var lo := MergeLo(v.blocks, k);
      && Rep(s', v') && b == v.blocks[lo].addr && v' == PlaceView(AbsorbView(v, k), lo, asize)
      && lo < |v'.blocks| && v'.blocks[lo].addr == b && v'.blocks[lo].alloc && asize <= v'.blocks[lo].size
      && Allocated(v.blocks) - {v.blocks[k]} <= Allocated(v'.blocks)
  {
    var r := Absorb(s, blk, asize);
    ghost var lo := MergeLo(v.blocks, k);
    AbsorbRefines(s, v, k, asize);
    AbsorbAt(v, k, asize);
    s', b := r.0, r.1;
    v' := PlaceView(AbsorbView(v, k), lo, asize);
  }

  /**
   * mm_realloc when there is no room in place: mm_malloc a new block for
   * asize bytes, then mm_free the old one.  The copy of the payload is not
   * modelled.  Returns mm_malloc's result.
   */
  method Move(s: State, ptr: int, asize: int, grant: bool, ghost v: View, ghost k: int)
    returns (s': State, q: int, ghost v': View, ghost j: int)
    requires Rep(s, v) && 1 <= k < |v.blocks| && ptr == BlockToPayload(v.blocks[k].addr) && v.blocks[k].alloc
    requires MIN_BLOCK_SIZE <= asize && v.blocks[k].size < asize <= SizeMax
    ensures Rep(s', v')
    ensures q == 0 ==> s' == s
    ensures q == 0 ==> v' == v
    ensures q != 0 ==> && 1 <= j < |v'.blocks| && q == BlockToPayload(v'.blocks[j].addr) && v'.blocks[j].alloc
                       && asize + 2 * WSIZE <= v'.blocks[j].size
                       && Allocated(v'.blocks) == Allocated(v.blocks) - {v.blocks[k]} + {v'.blocks[j]}
  {
    var s1, q1, v1, j1 := Malloc(s, asize, grant, v);
    if q1 == 0 {
      return s, 0, v, 0;
    }
    ghost var b := v.blocks[k];
    Distinct(v.blocks, k);
    assert b in Allocated(v.blocks) && v1.blocks[0] == v.blocks[0];
    ghost var k1;
    k1, j := FreeMoved(s1, v1, b, v1.blocks[j1], Allocated(v.blocks));
    s' := Free(s1, ptr);
    q := q1;
    v' := FreeView(v1, k1);
  }

  /**
   * Freeing block b, in use and not the prologue, after the move: the heap
   * stays consistent, b is no longer in use, and the new block n keeps its
   * place among the blocks in use.
   */
  lemma FreeMoved(s: State, v: View, b: Block, n: Block, before: set<Block>) returns (k: int, j: int)
    requires Rep(s, v) && b in before && b != v.blocks[0]
    requires Allocated(v.blocks) == before + {n} && n != b && n.size > MIN_BLOCK_SIZE
    ensures 1 <= k < |v.blocks| && v.blocks[k] == b
    ensures var v' := FreeView(v, k);
      && Rep(Free(s, BlockToPayload(b.addr)), v') && 1 <= j < |v'.blocks| && v'.blocks[j] == n
      && Allocated(v'.blocks) == before - {b} + {n}
  {
    k := IndexOf(v.blocks, b);
    FreeRefines(s, v, k);
    FreeAllocated(v, k);
    var v' := FreeView(v, k);
    assert n in Allocated(v'.blocks);
    j := IndexOf(v'.blocks, n);
  }

  /**
   * The body of mm_realloc past its NULL and zero tests, for the payload of
   * block k; requests too large for calc_real_size's arithmetic are refused.
   * moved says the block moved: that branch returns mm_malloc's result.
   */
  method Resize(s: State, ptr: int, size: int, grant: bool, ghost v: View, ghost k: int)
    returns (s': State, p: int, moved: bool, ghost v': View, ghost j: int)
    requires Rep(s, v) && 0 < size <= SizeMax
    requires 1 <= k < |v.blocks| && ptr == BlockToPayload(v.blocks[k].addr)
    ensures Rep(s', v')
    ensures p == 0 ==> s' == s && v' == v && !moved
    ensures p != 0 ==> && 1 <= j < |v'.blocks| && p == BlockToPayload(v'.blocks[j].addr) && v'.blocks[j].alloc
                       && size + 2 * WSIZE <= v'.blocks[j].size
                       && Allocated(v.blocks) - {v.blocks[k]} <= Allocated(v'.blocks)
    ensures !v.blocks[k].alloc || SizeMax - 23 < size ==> p == 0
    ensures v.blocks[k].alloc && size <= SizeMax - 23 ==>
      var rs := RealSize(size);
      && (rs <= v.blocks[k].size ==> p == ptr && !moved && v' == PlaceView(v, k, rs))
      && (v.blocks[k].size < rs <= Room(v.blocks, k) ==>
            && p == BlockToPayload(v.blocks[MergeLo(v.blocks, k)].addr) && !moved
            && v' == PlaceView(AbsorbView(v, k), MergeLo(v.blocks, k), rs))
      && (Room(v.blocks, k) < rs ==>
            && moved == (p != 0)
            && (p != 0 ==> Allocated(v'.blocks) == Allocated(v.blocks) - {v.blocks[k]} + {v'.blocks[j]}))
  {
    var blk := PayloadToBlock(ptr);
    ReadBlock(s, v, k);
    if !GetAlloc(s.mem, blk) {
      return s, 0, false, v, 0;
    }
    if SizeMax - 23 < size {
      return s, 0, false, v, 0;
    }
    var rs := RealSize(size);
    var oldSize := GetSize(s.mem, blk);
    if oldSize >= rs {
      s', v' := Shrink(s, blk, rs, v, k);
      return s', ptr, false, v', k;
    }
    TestSizeIs(s, v, k);
    var test := TestSize(s.mem, blk);
    if test >= rs {
      ReadBlock(s, v, MergeLo(v.blocks, k));
      var b;
      s', b, v' := GrowInPlace(s, blk, rs, v, k);
      return s', BlockToPayload(b), false, v', MergeLo(v.blocks, k);
    }
    s', p, v', j := Move(s, ptr, rs, grant, v, k);
    moved := p != 0;
  }

  /**
   * mm_realloc(ptr, size) with realloc(ptr, 0) releasing the block through
   * mm_free and the moving branch returning mm_malloc's payload.  ptr is
   * NULL or the payload of block k; a block freed by realloc(ptr, 0) must
   * be in use.
   */
  method Realloc(s: State, ptr: int, size: int, grant: bool, ghost v: View, ghost k: int)
    returns (s': State, p: int, ghost v': View, ghost j: int)
    requires Rep(s, v) && 0 <= size <= SizeMax
    requires ptr == 0 || (1 <= k < |v.blocks| && ptr == BlockToPayload(v.blocks[k].addr) && (size == 0 ==> v.blocks[k].alloc))
    ensures Rep(s', v')
    ensures p != 0 ==> && 1 <= j < |v'.blocks| && p == BlockToPayload(v'.blocks[j].addr) && v'.blocks[j].alloc
                       && size + 2 * WSIZE <= v'.blocks[j].size
    ensures ptr == 0 && p == 0 ==> s' == s
    ensures ptr == 0 && p == 0 ==> v' == v
    ensures ptr != 0 && size == 0 ==> p == 0 && s' == Free(s, ptr)
    ensures ptr != 0 && size == 0 ==> v' == FreeView(v, k) && v.blocks[k] !in Allocated(v'.blocks)
    ensures ptr != 0 && size != 0 && p == 0 ==> s' == s
    ensures ptr != 0 && size != 0 && p == 0 ==> v' == v
    ensures ptr != 0 && size != 0 && p != 0 ==> Allocated(v.blocks) - {v.blocks[k]} <= Allocated(v'.blocks)
  {
    if ptr == 0 {
      s', p, v', j := Malloc(s, size, grant, v);
      return;
    }
    if size == 0 {
      FreeRefines(s, v, k);
      FreeAllocated(v, k);
      return Free(s, ptr), 0, FreeView(v, k), 0;
    }
    var moved;
    s', p, moved, v', j := Resize(s, ptr, size, grant, v, k);
  }

  /**
   * mm_realloc as written.  realloc(ptr, 0) calls free, which the driver
   * build defines as mm_free, so the block is released as in Realloc.  The
   * moving branch applies block_to_payload to mm_malloc's result, which is
   * already a payload, so the pointer returned lies 8 bytes into the new
   * payload.
   */
  method ReallocAsWritten(s: State, ptr: int, size: int, grant: bool, ghost v: View, ghost k: int)
    returns (s': State, p: int, ghost v': View, ghost j: int)
    requires Rep(s, v) && 0 <= size <= SizeMax
    requires ptr == 0 || (1 <= k < |v.blocks| && ptr == BlockToPayload(v.blocks[k].addr) && (size == 0 ==> v.blocks[k].alloc))
    ensures Rep(s', v')
    ensures ptr != 0 && size == 0 ==> p == 0 && s' == Free(s, ptr)
    ensures ptr != 0 && size == 0 ==> v' == FreeView(v, k) && v.blocks[k] !in Allocated(v'.blocks)
    ensures ptr != 0 && 0 < size <= SizeMax - 23 && v.blocks[k].alloc && Room(v.blocks, k) < RealSize(size) && p != 0 ==>
      1 <= j < |v'.blocks| && v'.blocks[j].alloc && p == BlockToPayload(v'.blocks[j].addr) + WSIZE
  {
    if ptr == 0 {
      s', p, v', j := Malloc(s, size, grant, v);
      return;
    }
    if size == 0 {
      FreeRefines(s, v, k);
      FreeAllocated(v, k);
      return Free(s, ptr), 0, FreeView(v, k), 0;
    }
    var moved;
    s', p, moved, v', j := Resize(s, ptr, size, grant, v, k);
    if moved {
      p := BlockToPayload(p);
    }
  }

  /**
   * The pointer the moving branch returns as written, 8 bytes past block
   * j's payload, is the payload of no block: it lies inside block j's first
   * 16 bytes.
   */
  lemma MovedPointerStray(s: State, v: View, j: int)
    requires Shape(s, v) && 0 <= j < |v.blocks|
    ensures forall i :: 0 <= i < |v.blocks| ==> BlockToPayload(v.blocks[i].addr) != BlockToPayload(v.blocks[j].addr) + WSIZE
  {
    var bs := v.blocks;
    forall i | 0 <= i < |bs| ensures bs[i].addr != bs[j].addr + WSIZE {
      assert bs[i] in bs && bs[j] in bs;
      if i < j {
        TiledOrder(bs, i, j);
      } else if j < i {
        TiledOrder(bs, j, i);
      }
    }
  }

  /** Both neighbours in use: test_size is the block's own size, so the branch returning NULL is never reached. */
  lemma AbsorbNullDead(s: State, v: View, k: int)
    requires Shape(s, v) && 1 <= k < |v.blocks|
    requires v.blocks[k - 1].alloc && (k + 1 == |v.blocks| || v.blocks[k + 1].alloc)
    ensures TestSize(s.mem, v.blocks[k].addr) == v.blocks[k].size
  {
    TestSizeIs(s, v, k);
  }

  // ---------------------------------------------------------------------------
  // mm_checkheap

  /** In a consistent heap the list is as long as the row has free blocks. */
  lemma ListCountsFree(s: State, v: View)
    requires Rep(s, v)
    ensures |v.free| == FreeCount(v.blocks)
  {
    var bs, fl := v.blocks, v.free;
    forall i, j | 0 <= i < j < |bs| ensures bs[i] != bs[j] {
      Distinct(bs, j);
    }
    FreeCountCard(bs);
    ListCard(fl);
    assert (set c | c in fl) == FreeSet(bs) by {
      forall c | c in FreeSet(bs) ensures c in fl {
        var x :| 0 <= x < |bs| && bs[x] == c;
      }
    }
  }

  /** What mm_checkheap's list walk reads at node i: the links back and forth. */
  lemma NodeLinks(s: State, v: View, i: int)
    requires Shape(s, v) && 0 < i < |v.free| + 2
    ensures var ns := Nodes(s.head, v.free, Stop(v.blocks));
      NextOf(s.mem, ns[i - 1]) == ns[i] && PrevOf(s.mem, ns[i]) == ns[i - 1]
  {
    assert Step(s.mem, Nodes(s.head, v.free, Stop(v.blocks)), i);
  }

  /**
   * mm_checkheap's walk of the free list: from the prologue, check that
   * each node and the one before point at each other, until a NULL next
   * pointer; count the nodes after the prologue and check the last is the
   * epilogue.  On a consistent heap every check passes and the count is
   * the list's length.
   */
  method WalkList(s: State, ghost v: View) returns (ok: bool, listCnt: int)
    requires Shape(s, v)
    ensures ok && listCnt == |v.free|
  {
    var m := s.mem;
    ghost var ns := Nodes(s.head, v.free, Stop(v.blocks));
    NodeAt(s, v, 0);
    ok := true;
    listCnt := 0;
    var prev, curr := s.head, NextOf(m, s.head);
    ghost var i := 1;
    while curr != 0
      invariant 1 <= i <= |ns| && prev == ns[i - 1]
      invariant (i < |ns| ==> curr == ns[i]) && (i == |ns| ==> curr == 0)
      invariant listCnt == i - 1 && ok
      decreases |ns| - i
    {
      NodeAt(s, v, i);
      NodeLinks(s, v, i);
      listCnt := listCnt + 1;
      ok := ok && NextOf(m, prev) == curr && PrevOf(m, curr) == prev;
      prev, curr := curr, NextOf(m, curr);
      i := i + 1;
    }
    listCnt := listCnt - 1;
    ReadEpilogue(s, v);
    ok := ok && GetSize(m, prev) == 0;
  }

  /**
   * mm_checkheap's walk of the heap: from the block after the prologue to
   * the epilogue, count the blocks whose alloc bit is clear.
   */
  method WalkHeap(s: State, ghost v: View) returns (freeCnt: int)
    requires Shape(s, v)
    ensures freeCnt == FreeCount(v.blocks)
  {
    var m := s.mem;
    ghost var bs := v.blocks;
    ReadBlock(s, v, 0);
    freeCnt := 0;
    var ptr := FindNext(m, s.head);
    ghost var x := 1;
    while GetSize(m, ptr) > 0
      invariant 1 <= x <= |bs| && ptr == (if x < |bs| then bs[x].addr else Stop(bs))
      invariant freeCnt == FreeCount(bs[..x])
      decreases |bs| - x
    {
      if x == |bs| {
        ReadEpilogue(s, v);
        assert false;
      }
      ReadBlock(s, v, x);
      assert bs[..x + 1][..x] == bs[..x];
      if !GetAlloc(m, ptr) {
        freeCnt := freeCnt + 1;
      }
      ptr := FindNext(m, ptr);
      x := x + 1;
    }
    if x < |bs| {
      ReadBlock(s, v, x);
      assert false;
    }
    assert bs[..x] == bs;
  }

  /**
   * mm_checkheap: on a NULL heap_head it returns at once; otherwise it
   * checks the prologue's header, previous pointer and footer, walks the
   * list, walks the heap, and checks the two counts agree.  ok says every
   * check passed; on a consistent heap they all pass and both counts are
   * the number of free blocks.
   */
  method CheckHeap(s: State, ghost v: View) returns (ok: bool, listCnt: int, freeCnt: int)
    requires s.head == 0 || Rep(s, v)
    ensures ok
    ensures s.head != 0 ==> listCnt == |v.free| && freeCnt == FreeCount(v.blocks)
  {
    if s.head == 0 {
      return true, 0, 0;
    }
    var m := s.mem;
    ReadBlock(s, v, 0);
    NodeAt(s, v, 0);
    ok := GetSize(m, s.head) == MIN_BLOCK_SIZE && PrevOf(m, s.head) == 0
      && SizeField(Load(m, s.head + 3 * WSIZE)) == MIN_BLOCK_SIZE;
    var listed;
    listed, listCnt := WalkList(s, v);
    freeCnt := WalkHeap(s, v);
    ListCountsFree(s, v);
    ok := ok && listed && freeCnt == listCnt;
  }
}

=== FILE: final.dfy ===
/**
 * labs/malloclab/mm-final.c: segregated free lists kept in ascending order
 * of size, with allocated blocks carrying a header only.
 *
 * Words are 4 bytes and pointers 8.  The heap starts with the eight list
 * heads (Buckets), a padding word, an 8-byte allocated prologue (a header
 * and a padding word) and ends with a size-0 allocated epilogue header.
 * A header holds pack(size, prev_alloc, alloc): bit 0 says the block is in
 * use, bit 1 says the block before it is.  Only a free block has a footer,
 * and only a clear bit 1 sends coalesce looking for it.  A free block of
 * size s sits in the list find_size_class_index(s) picks, after every
 * block there that is smaller.
 *
 * State is the memory, size_class_start and memlib's break.  View is the
 * row of blocks, prologue first, the bit 1 each header holds, and the
 * eight lists in list order.  A set bit may be stale: coalesce and mm_free
 * leave it set when the block before becomes free, and the block is then
 * never merged with that one.  A clear bit is always true, and the
 * footer it points at holds the size of the block before.  Rep ties memory
 * to the view; the lemmas show how coalesce moves the view.  place and
 * extend_heap are in FinalOps, mm_init, first_fit, mm_malloc and mm_free in
 * FinalApi, mm_realloc in FinalRealloc and mm_checkheap in FinalCheck.
 */
module Final {
  import opened Twos
  import opened Heap
  import opened Buckets

  const CHUNKSIZE: int := 4096

  /** UPPER_0: class 0 takes blocks of up to 32 bytes. */
  const UPPER_0: int := 32

  /** The memory, size_class_start and the break. */
  datatype State = State(mem: Mem, start: int, brk: int)

  // ---------------------------------------------------------------------------
  // The helpers

  /** pack(size, prev_alloc, alloc): the size with bit 1 set when the block before is in use and bit 0 when this one is. */
  function Pack(size: int, prevAlloc: bool, alloc: bool): int {
    var w := if prevAlloc then Or(size, 2) else size;
    if alloc then Or(w, 1) else w
  }

  function ExtractSize(m: Mem, p: int): int {
    SizeField(Load(m, p))
  }

  function ExtractPrevAlloc(m: Mem, p: int): bool {
    PrevAllocBit(Load(m, p))
  }

  function ExtractAlloc(m: Mem, p: int): bool {
    AllocBit(Load(m, p))
  }

  /** write_header stores the packed tag in the header word. */
  function WriteHeader(m: Mem, h: int, size: int, prevAlloc: bool, alloc: bool): Mem {
    Store32(m, h, Pack(size, prevAlloc, alloc))
  }

  /** write_footer finds the footer from the size the header holds now. */
  function WriteFooter(m: Mem, h: int, size: int, prevAlloc: bool, alloc: bool): Mem {
    Store32(m, h + ExtractSize(m, h) - WSIZE, Pack(size, prevAlloc, alloc))
  }

  /** header_to_payload: the payload starts one word past the header. */
  function HeaderToPayload(h: int): int {
    h + WSIZE
  }

  /** payload_to_header: the header is the word before the payload. */
  function PayloadToHeader(p: int): int {
    p - WSIZE
  }

  /** The two offsets undo each other. */
  lemma PayloadInverse(h: int, p: int)
    ensures PayloadToHeader(HeaderToPayload(h)) == h && HeaderToPayload(PayloadToHeader(p)) == p
  {
  }

  function NextNeighbor(m: Mem, h: int): int {
    h + ExtractSize(m, h)
  }

  /** header_prev_neighbor steps back by the size in the word before h, the footer of the block before. */
  function PrevNeighbor(m: Mem, h: int): int {
    h - ExtractSize(m, h - WSIZE)
  }

  /** The class of a free block of size `size`: link_blk classifies by the whole block size. */
  function ClassOf(size: int): (c: int)
    ensures 0 <= c < CLASSES
  {
    ClassIndex(UPPER_0, size)
  }

  /** The word a header holds: the size, plus 2 when the block before is in use, plus 1 when this one is. */
  function Tag(size: int, prevAlloc: bool, alloc: bool): int {
    size + (if prevAlloc then 2 else 0) + (if alloc then 1 else 0)
  }

  lemma PackTag(size: int, prevAlloc: bool, alloc: bool)
    requires size % 8 == 0
    ensures Pack(size, prevAlloc, alloc) == Tag(size, prevAlloc, alloc)
  {
    OrFlags(size);
  }

  lemma ReadTag(m: Mem, a: int, size: int, prevAlloc: bool, alloc: bool)
    requires Load(m, a) == Tag(size, prevAlloc, alloc) && size % 8 == 0
    ensures ExtractSize(m, a) == size && ExtractPrevAlloc(m, a) == prevAlloc && ExtractAlloc(m, a) == alloc
  {
    TagFields(size, prevAlloc, alloc);
  }

  /**
   * extract_size, extract_prev_alloc and extract_alloc read back what
   * write_header stored, for a size that is a multiple of 8 and fits the
   * 32-bit word, and the arithmetic they are modelled with agrees with
   * SIZE_MASK, PREV_ALLOC_MASK and ALLOC_MASK.
   */
  lemma PackRoundTrip(m: Mem, h: int, size: int, prevAlloc: bool, alloc: bool)
    requires size % 8 == 0 && 0 <= size < Word32
    ensures var m' := WriteHeader(m, h, size, prevAlloc, alloc);
      && ExtractSize(m', h) == size && ExtractPrevAlloc(m', h) == prevAlloc && ExtractAlloc(m', h) == alloc
    ensures var w := Pack(size, prevAlloc, alloc);
      && And(w, Not(7)) == size && (And(w, 2) != 0) == prevAlloc && (And(w, 1) != 0) == alloc
  {
    PackTag(size, prevAlloc, alloc);
    var w := Pack(size, prevAlloc, alloc);
    ReadTag(WriteHeader(m, h, size, prevAlloc, alloc), h, size, prevAlloc, alloc);
    TagFields(size, prevAlloc, alloc);
    SizeFieldMask(w);
    PrevAllocBitMask(w);
    AllocBitMask(w);
  }

  // ---------------------------------------------------------------------------
  // calc_real_size

  /**
   * The block size for a request of n bytes: 24 for up to 20 bytes,
   * otherwise 24 plus the bytes past 20 rounded up to 8.  An allocated
   * block keeps only its header, so it must hold n + 4 bytes; the result
   * is the least multiple of 8 that is at least 24 and does.
   */
  function CalcRealSize(n: int): (r: int)
    requires 0 <= n
    ensures r % 8 == 0 && r >= MIN_BLOCK_SIZE && r >= n + WSIZE
    ensures r == MIN_BLOCK_SIZE || r - DSIZE < n + WSIZE
  {
    var minPayload := 2 * DSIZE + WSIZE;
    if n <= minPayload then MIN_BLOCK_SIZE
    else MIN_BLOCK_SIZE + DSIZE * ((n - minPayload + DSIZE - 1) / DSIZE)
  }

  /** The same computation in size_t arithmetic, each step wrapping at 2^64. */
  function CalcRealSizeAsWritten(n: int): int
    requires 0 <= n <= SizeMax
  {
    var minPayload := 2 * DSIZE + WSIZE;
    if n <= minPayload then MIN_BLOCK_SIZE
    else (MIN_BLOCK_SIZE + (DSIZE * (((n - minPayload + DSIZE - 1) % Two64) / DSIZE)) % Two64) % Two64
  }

  /** Up to SIZE_MAX - 11 nothing wraps and the two agree. */
  lemma CalcRealSizeAgrees(n: int)
    requires 0 <= n <= SizeMax - 11
    ensures CalcRealSizeAsWritten(n) == CalcRealSize(n)
  {
    if n > 20 {
      assert (n - 13) % Two64 == n - 13;
      var q := (n - 13) / 8;
      assert 8 * q <= n - 13;
      assert (8 * q) % Two64 == 8 * q;
      assert (24 + 8 * q) % Two64 == 24 + 8 * q;
    }
  }

  /** For malloc(SIZE_MAX) the block size wraps round to 8, and for malloc(SIZE_MAX - 10) to 0. */
  lemma CalcRealSizeWraps()
    ensures CalcRealSizeAsWritten(SizeMax) == 8
    ensures CalcRealSizeAsWritten(SizeMax - 10) == 0
  {
    var n := SizeMax;
    assert (n - 13) % Two64 == n - 13;
    assert (n - 13) / 8 == Two64 / 8 - 2;
    assert (8 * (Two64 / 8 - 2)) % Two64 == Two64 - 16;
    var n' := SizeMax - 10;
    assert (n' - 13) % Two64 == n' - 13;
    assert (n' - 13) / 8 == Two64 / 8 - 3;
    assert (8 * (Two64 / 8 - 3)) % Two64 == Two64 - 24;
  }

  // ---------------------------------------------------------------------------
  // Sorted lists

  /** A list in ascending order of size, as link_blk keeps every list. */
  predicate Sorted(fl: seq<Block>) {
    forall i, j :: 0 <= i < j < |fl| ==> fl[i].size <= fl[j].size
  }

  /** Where link_blk puts a block of size `size`: before the first entry at least as large, or at the end. */
  function Pos(fl: seq<Block>, size: int): (t: int)
    ensures 0 <= t <= |fl|
    ensures forall i :: 0 <= i < t ==> fl[i].size < size
    ensures t < |fl| ==> size <= fl[t].size
  {
    if fl == [] || size <= fl[0].size then 0 else 1 + Pos(fl[1..], size)
  }

  /** The list with b put in at Pos. */
  function InsertSorted(fl: seq<Block>, b: Block): seq<Block> {
    fl[..Pos(fl, b.size)] + [b] + fl[Pos(fl, b.size)..]
  }

  /** Entry k of the list with b put in at Pos. */
  lemma InsertSortedAt(fl: seq<Block>, b: Block, k: int)
    requires 0 <= k <= |fl|
    ensures |InsertSorted(fl, b)| == |fl| + 1
    ensures var t := Pos(fl, b.size);
      InsertSorted(fl, b)[k] == if k < t then fl[k] else if k == t then b else fl[k - 1]
  {
  }

  /** The list with b put in holds b and what it held before. */
  lemma InsertSortedHas(fl: seq<Block>, b: Block)
    ensures forall x {:trigger x in InsertSorted(fl, b)} :: x in InsertSorted(fl, b) <==> x in fl || x == b
  {
    var t := Pos(fl, b.size);
    assert fl == fl[..t] + fl[t..];
  }

  /** Putting b in at Pos keeps a sorted list sorted, and adds b and nothing else. */
  lemma InsertSortedIs(fl: seq<Block>, b: Block)
    requires Sorted(fl)
    ensures Sorted(InsertSorted(fl, b))
    ensures multiset(InsertSorted(fl, b)) == multiset(fl) + multiset{b}
  {
    var t := Pos(fl, b.size);
    var r := InsertSorted(fl, b);
    forall i, j | 0 <= i < j < |r| ensures r[i].size <= r[j].size {
      InsertSortedAt(fl, b, i);
      InsertSortedAt(fl, b, j);
      if i < t && t < j {
        assert fl[i].size < b.size <= fl[t].size <= fl[j - 1].size;
      } else if i == t && t < j - 1 {
        assert b.size <= fl[t].size <= fl[j - 1].size;
      }
    }
    assert fl == fl[..t] + fl[t..];
    calc {
      multiset(r);
      multiset(fl[..t]) + multiset{b} + multiset(fl[t..]);
      multiset(fl) + multiset{b};
    }
  }

  // ---------------------------------------------------------------------------
  // link_blk

  /**
   * link_blk's walk: from node prev, step on while the next node is
   * smaller than size, and return the node the block goes after.  The walk
   * gives up after fuel steps; ChainShort shows that a consistent heap's
   * lists are shorter than the fuel link_blk passes.
   */
  function Walk(m: Mem, prev: int, size: int, fuel: nat): int
    decreases fuel
  {
    var curr := NextOf(m, prev);
    if fuel == 0 || curr == 0 || size <= ExtractSize(m, curr) then prev
    else Walk(m, curr, size, fuel - 1)
  }

  /**
   * link_blk(h): put h into the list its size picks, in front of the first
   * block at least as large: at the head when that is the first block or
   * the list is empty, otherwise after the node the walk stops at.
   */
  function LinkBlk(m: Mem, start: int, h: int): Mem {
    var size := ExtractSize(m, h);
    var slot := Slot(start, ClassOf(size));
    var first := LoadPtr(m, slot);
    if first == 0 || size <= ExtractSize(m, first) then Push(m, slot, h)
    else
      var prev := Walk(m, first, size, HeapLimit);
      InsertAfter(m, prev, h, NextOf(m, prev))
  }

  /** Started at entry i - 1 of a list whose entries before i are all smaller, the walk stops at the entry before Pos. */
  lemma {:induction false} WalkIs(m: Mem, slot: int, fl: seq<Block>, size: int, i: int, fuel: nat)
    requires Chain(m, slot, Addrs(fl)) && 0 < i <= Pos(fl, size)
    requires forall j :: 0 <= j < |fl| ==> 0 < fl[j].addr && ExtractSize(m, fl[j].addr) == fl[j].size
    requires |fl| - i <= fuel
    ensures Walk(m, fl[i - 1].addr, size, fuel) == fl[Pos(fl, size) - 1].addr
    decreases |fl| - i
  {
    var ns := Addrs(fl);
    assert Node(m, slot, ns, i - 1);
    assert NextOf(m, fl[i - 1].addr) == if i < |fl| then fl[i].addr else 0;
    if i < Pos(fl, size) {
      WalkIs(m, slot, fl, size, i + 1, fuel - 1);
    }
  }

  // ---------------------------------------------------------------------------
  // The view

  /**
   * The row of blocks, prologue first; the prev-alloc bit each header
   * holds, with one more for the epilogue header; and the eight lists in
   * list order.
   */
  datatype View = View(blocks: seq<Block>, bits: seq<bool>, lists: seq<seq<Block>>)

  /** The footer of block b holds its size; write_footer may have set bit 1 as well. */
  predicate FootOk(m: Mem, b: Block) {
    Load(m, End(b) - WSIZE) == b.size || Load(m, End(b) - WSIZE) == b.size + 2
  }

  /** Header i holds the size and flag of block i and the prev-alloc bit the view records for it. */
  predicate HeadOk(m: Mem, v: View, i: int)
    requires 0 <= i < |v.blocks| && i < |v.bits|
  {
    Load(m, v.blocks[i].addr) == Tag(v.blocks[i].size, v.bits[i], v.blocks[i].alloc)
  }

  /** A clear prev-alloc bit at header i is true: the block before is free and its footer holds its size. */
  predicate BitOk(m: Mem, v: View, i: int)
    requires 0 <= i < |v.bits| && i <= |v.blocks|
  {
    !v.bits[i] ==> 0 < i && !v.blocks[i - 1].alloc && FootOk(m, v.blocks[i - 1])
  }

  /**
   * The heads at start, the prologue right after the padding word, and
   * tiled blocks below the heap limit; every block past the prologue has
   * room for a free block's header, links and footer.
   */
  predicate Laid(start: int, bs: seq<Block>) {
    && Heads(start) && |bs| > 0 && bs[0] == Block(HeadsEnd(start) + WSIZE, DSIZE, true)
    && Tiled(bs) && Sized(bs) && Stop(bs) + WSIZE <= HeapLimit
    && (forall b {:trigger b in bs} :: b in bs && b != bs[0] ==> b.size >= MIN_BLOCK_SIZE)
  }

  /**
   * The blocks laid out, each header as the view says, the epilogue header
   * right after the last block, every clear bit true, and the break one
   * word past the epilogue.
   */
  ghost predicate Row(s: State, v: View) {
    && Laid(s.start, v.blocks) && |v.bits| == |v.blocks| + 1
    && (forall i :: 0 <= i < |v.blocks| ==> HeadOk(s.mem, v, i))
    && Load(s.mem, Stop(v.blocks)) == Tag(0, v.bits[|v.blocks|], true)
    && (forall i :: 0 <= i <= |v.blocks| ==> BitOk(s.mem, v, i))
    && s.brk == Stop(v.blocks) + WSIZE
  }

  /** fl holds free blocks of bs of class c, none twice. */
  predicate Members(bs: seq<Block>, fl: seq<Block>, c: int) {
    && (forall i, j :: 0 <= i < j < |fl| ==> fl[i] != fl[j])
    && (forall b {:trigger b in fl} :: b in fl ==> b in bs && !b.alloc && ClassOf(b.size) == c)
  }

  /** List c: its members in ascending order of size, threaded from head slot c. */
  predicate Bucket(m: Mem, start: int, bs: seq<Block>, ls: seq<seq<Block>>, c: int)
    requires 0 <= c < |ls|
  {
    Members(bs, ls[c], c) && Sorted(ls[c]) && Chain(m, Slot(start, c), Addrs(ls[c]))
  }

  predicate Threaded(m: Mem, start: int, bs: seq<Block>, ls: seq<seq<Block>>) {
    |ls| == CLASSES && forall c :: 0 <= c < CLASSES ==> Bucket(m, start, bs, ls, c)
  }

  /**
   * Every free block of bs is in the list of its class, except block gap,
   * when gap names one (a block being freed or placed), which no list holds.
   */
  predicate Listed(bs: seq<Block>, ls: seq<seq<Block>>, gap: int) {
    && |ls| == CLASSES
    && (0 <= gap < |bs| ==> forall c :: 0 <= c < CLASSES ==> bs[gap] !in ls[c])
    && (forall k :: 0 <= k < |bs| && !bs[k].alloc && k != gap ==> bs[k] in ls[ClassOf(bs[k].size)])
  }

  ghost predicate Shape(s: State, v: View) {
    Row(s, v) && Threaded(s.mem, s.start, v.blocks, v.lists)
  }

  /** The heap is consistent: its shape, and the lists hold exactly the free blocks. */
  ghost predicate Rep(s: State, v: View) {
    Shape(s, v) && Listed(v.blocks, v.lists, -1)
  }

  // ---------------------------------------------------------------------------
  // Reading the row

  /** What the helpers read at block k, and where it ends. */
  lemma ReadBlock(s: State, v: View, k: int)
    requires Row(s, v) && 0 <= k < |v.blocks|
    ensures var b := v.blocks[k];
      && ExtractSize(s.mem, b.addr) == b.size && ExtractAlloc(s.mem, b.addr) == b.alloc
      && ExtractPrevAlloc(s.mem, b.addr) == v.bits[k]
      && b.size % 8 == 0 && b.size >= DSIZE && (!b.alloc ==> b.size >= MIN_BLOCK_SIZE) && b.addr % 8 == 4
      && HeadsEnd(s.start) < b.addr && End(b) <= Stop(v.blocks) && Stop(v.blocks) + WSIZE <= HeapLimit
      && End(b) == (if k + 1 < |v.blocks| then v.blocks[k + 1].addr else Stop(v.blocks))
  {
    var bs := v.blocks;
    assert HeadOk(s.mem, v, k);
    assert bs[k] in bs && bs[0] in bs;
    ReadTag(s.mem, bs[k].addr, bs[k].size, v.bits[k], bs[k].alloc);
    Within(bs);
  }

  /** The epilogue header reads as size 0, allocated, with the bit the view records. */
  lemma ReadEpilogue(s: State, v: View)
    requires Row(s, v)
    ensures ExtractSize(s.mem, Stop(v.blocks)) == 0 && ExtractAlloc(s.mem, Stop(v.blocks))
    ensures ExtractPrevAlloc(s.mem, Stop(v.blocks)) == v.bits[|v.blocks|]
  {
    ReadTag(s.mem, Stop(v.blocks), 0, v.bits[|v.blocks|], true);
  }

  /** The size a footer holds. */
  lemma ReadFoot(m: Mem, b: Block)
    requires FootOk(m, b) && b.size % 8 == 0
    ensures ExtractSize(m, End(b) - WSIZE) == b.size
  {
    TagFields(b.size, false, false);
    TagFields(b.size, true, false);
  }

  /** Behind a clear bit at header i, header_prev_neighbor finds block i - 1, which is free. */
  lemma ReadBehind(s: State, v: View, i: int)
    requires Row(s, v) && 0 < i <= |v.blocks| && !v.bits[i]
    ensures var a := if i < |v.blocks| then v.blocks[i].addr else Stop(v.blocks);
      PrevNeighbor(s.mem, a) == v.blocks[i - 1].addr && !v.blocks[i - 1].alloc
  {
    var bs := v.blocks;
    assert BitOk(s.mem, v, i);
    assert bs[i - 1] in bs;
    ReadFoot(s.mem, bs[i - 1]);
  }

  /** Every header, every block's last word and the epilogue header read the same in m' as in m. */
  ghost predicate TagsKept(m: Mem, m': Mem, bs: seq<Block>) {
    && (forall c {:trigger c in bs} :: c in bs ==>
          Load(m', c.addr) == Load(m, c.addr) && Load(m', End(c) - WSIZE) == Load(m, End(c) - WSIZE))
    && (|bs| > 0 ==> Load(m', Stop(bs)) == Load(m, Stop(bs)))
  }

  /** The row survives any change of memory that leaves every header, every footer word and the epilogue alone. */
  lemma RowKept(s: State, v: View, m': Mem)
    requires Row(s, v) && TagsKept(s.mem, m', v.blocks)
    ensures Row(s.(mem := m'), v)
  {
    var bs := v.blocks;
    forall i | 0 <= i < |bs| ensures HeadOk(m', v, i) {
      assert HeadOk(s.mem, v, i) && bs[i] in bs;
    }
    forall i | 0 <= i <= |bs| ensures BitOk(m', v, i) {
      assert BitOk(s.mem, v, i);
      if i > 0 {
        assert bs[i - 1] in bs;
      }
    }
  }

  // ---------------------------------------------------------------------------
  // Lists of free blocks

  /** The addresses of distinct free blocks of the row are spread out above the heads. */
  lemma FreeSpread(start: int, bs: seq<Block>, fl: seq<Block>)
    requires Laid(start, bs)
    requires forall i, j :: 0 <= i < j < |fl| ==> fl[i] != fl[j]
    requires forall b {:trigger b in fl} :: b in fl ==> b in bs && !b.alloc
    ensures Spread(HeadsEnd(start), Addrs(fl))
  {
    var ns := Addrs(fl);
    Within(bs);
    assert bs[0] in bs;
    forall i | 0 <= i < |ns| ensures HeadsEnd(start) <= ns[i] && ns[i] + 20 <= HeapLimit {
      assert fl[i] in fl;
    }
    forall i, j | 0 <= i < j < |ns| ensures Far(ns[i], ns[j]) {
      assert fl[i] in fl && fl[j] in fl;
      FreeFar(bs, fl[i], fl[j]);
    }
  }

  /** A sub-list of a list of distinct members is one too. */
  lemma MembersDrop(bs: seq<Block>, fl: seq<Block>, c: int, t: int)
    requires Members(bs, fl, c) && 0 <= t < |fl|
    ensures Members(bs, Drop(fl, t), c)
  {
    var r := Drop(fl, t);
    forall i, j | 0 <= i < j < |r| ensures r[i] != r[j] {
      var i' := if i < t then i else i + 1;
      var j' := if j < t then j else j + 1;
      assert r[i] == fl[i'] && r[j] == fl[j'];
    }
    forall b {:trigger b in r} | b in r ensures b in bs && !b.alloc && ClassOf(b.size) == c {
      assert b in fl;
    }
  }

  /** Dropping an entry keeps a list sorted. */
  lemma SortedDrop(fl: seq<Block>, t: int)
    requires Sorted(fl) && 0 <= t < |fl|
    ensures Sorted(Drop(fl, t))
  {
    var r := Drop(fl, t);
    assert forall i :: 0 <= i < |r| ==> r[i] == if i < t then fl[i] else fl[i + 1];
  }

  /** Putting in a free block of the class that the list lacks keeps its members distinct. */
  lemma MembersInsert(bs: seq<Block>, fl: seq<Block>, c: int, b: Block)
    requires Members(bs, fl, c) && b in bs && !b.alloc && ClassOf(b.size) == c && b !in fl
    ensures Members(bs, InsertSorted(fl, b), c)
  {
    var r := InsertSorted(fl, b);
    var t := Pos(fl, b.size);
    forall k | 0 <= k < |r| ensures r[k] == if k < t then fl[k] else if k == t then b else fl[k - 1] {
      InsertSortedAt(fl, b, k);
    }
    forall i, j | 0 <= i < j < |r| ensures r[i] != r[j] {
      if i != t && j != t {
        var i' := if i < t then i else i - 1;
        var j' := if j < t then j else j - 1;
        assert r[i] == fl[i'] && r[j] == fl[j'];
      } else if i == t {
        assert r[j] in fl;
      } else {
        assert r[i] in fl;
      }
    }
    forall x {:trigger x in r} | x in r ensures x in bs && !x.alloc && ClassOf(x.size) == c {
      var k :| 0 <= k < |r| && r[k] == x;
      if k != t {
        assert x in fl;
      }
    }
  }

  /** The addresses of the list with b put in at t. */
  lemma AddrsInsert(fl: seq<Block>, b: Block, t: int)
    requires 0 <= t <= |fl|
    ensures Addrs(fl[..t] + [b] + fl[t..]) == Addrs(fl)[..t] + [b.addr] + Addrs(fl)[t..]
  {
    var a, c := Addrs(fl[..t] + [b] + fl[t..]), Addrs(fl)[..t] + [b.addr] + Addrs(fl)[t..];
    assert |a| == |c|;
    forall i | 0 <= i < |a| ensures a[i] == c[i] {
      if i < t {
        assert (fl[..t] + [b] + fl[t..])[i] == fl[i];
      } else if i > t {
        assert (fl[..t] + [b] + fl[t..])[i] == fl[i - 1];
      }
    }
  }

  /** Taking out a block the list does not hold leaves it shorter by at least one. */
  lemma {:induction false} WithoutShorter(fl: seq<Block>, b: Block)
    requires b in fl
    ensures |Without(fl, b)| < |fl|
  {
    if fl[0] != b {
      assert b in fl[1..];
      WithoutShorter(fl[1..], b);
    } else {
      WithoutLength(fl[1..], b);
    }
  }

  lemma {:induction false} WithoutLength(fl: seq<Block>, b: Block)
    ensures |Without(fl, b)| <= |fl|
  {
    if fl != [] {
      WithoutLength(fl[1..], b);
    }
  }

  /** A list of distinct blocks of bs has no more entries than bs. */
  lemma {:induction false} DistinctShorter(fl: seq<Block>, bs: seq<Block>)
    requires forall i, j :: 0 <= i < j < |fl| ==> fl[i] != fl[j]
    requires forall b {:trigger b in fl} :: b in fl ==> b in bs
    ensures |fl| <= |bs|
  {
    if fl != [] {
      var rest := Without(bs, fl[0]);
      assert fl[0] in fl;
      WithoutShorter(bs, fl[0]);
      forall b {:trigger b in fl[1..]} | b in fl[1..] ensures b in rest {
        var i :| 0 <= i < |fl[1..]| && fl[1..][i] == b;
        assert fl[i + 1] == b && fl[0] != fl[i + 1];
        assert b in fl;
      }
      forall i, j | 0 <= i < j < |fl[1..]| ensures fl[1..][i] != fl[1..][j] {
        assert fl[1..][i] == fl[i + 1] && fl[1..][j] == fl[j + 1];
      }
      DistinctShorter(fl[1..], rest);
    }
  }

  /** A tiled row of blocks at least 8 bytes long has at most one block per 8 bytes it spans. */
  lemma {:induction false} RowShort(bs: seq<Block>)
    requires |bs| > 0 && Tiled(bs) && forall b {:trigger b in bs} :: b in bs ==> b.size >= DSIZE
    ensures bs[0].addr + DSIZE * |bs| <= Stop(bs)
  {
    if |bs| > 1 {
      var r := bs[..|bs| - 1];
      assert forall b {:trigger b in r} :: b in r ==> b in bs;
      assert forall k :: 0 <= k < |r| ==> r[k] == bs[k];
      RowShort(r);
      assert Stop(r) == End(bs[|bs| - 2]) == bs[|bs| - 1].addr;
    }
    assert bs[|bs| - 1] in bs;
  }

  /** A list of a consistent heap has fewer entries than the walk's fuel. */
  lemma ListShort(start: int, bs: seq<Block>, fl: seq<Block>)
    requires Laid(start, bs)
    requires forall i, j :: 0 <= i < j < |fl| ==> fl[i] != fl[j]
    requires forall b {:trigger b in fl} :: b in fl ==> b in bs
    ensures |fl| < HeapLimit
  {
    DistinctShorter(fl, bs);
    RowShort(bs);
  }

  // ---------------------------------------------------------------------------
  // remove_blk on the shape

  /** Unlinking the node at h, between p and n, leaves every tag in place when none lies among their link words. */
  lemma UnlinkRowAt(s: State, v: View, h: int, p: int, n: int)
    requires Row(s, v) && PrevOf(s.mem, h) == p && NextOf(s.mem, h) == n
    requires 0 < p < Word32 && 0 <= h < Word32 && 0 <= n < Word32
    requires OffTags(v.blocks, h)
    requires if p < HeadsEnd(s.start) then p + WSIZE < HeadsEnd(s.start) else OffTags(v.blocks, p)
    requires n != 0 ==> OffTags(v.blocks, n)
    ensures Row(s.(mem := Unlink(s.mem, s.start, h)), v)
    ensures TagsKept(s.mem, Unlink(s.mem, s.start, h), v.blocks)
  {
    var bs := v.blocks;
    var m' := Unlink(s.mem, s.start, h);
    Within(bs);
    assert bs[0] in bs;
    forall x {:trigger x in bs} | x in bs
      ensures Load(m', x.addr) == Load(s.mem, x.addr) && Load(m', End(x) - WSIZE) == Load(s.mem, End(x) - WSIZE)
    {
      UnlinkFrame(s.mem, s.start, h, x.addr);
      UnlinkFrame(s.mem, s.start, h, End(x) - WSIZE);
    }
    UnlinkFrame(s.mem, s.start, h, Stop(bs));
    RowKept(s, v, m');
  }

  /** Unlinking entry t of list c leaves every tag in place. */
  lemma UnlinkRow(s: State, v: View, c: int, t: int)
    requires Shape(s, v) && 0 <= c < CLASSES && 0 <= t < |v.lists[c]|
    ensures Row(s.(mem := Unlink(s.mem, s.start, v.lists[c][t].addr)), v)
    ensures TagsKept(s.mem, Unlink(s.mem, s.start, v.lists[c][t].addr), v.blocks)
  {
    var bs := v.blocks;
    var fl := v.lists[c];
    assert Bucket(s.mem, s.start, bs, v.lists, c);
    var ns := Addrs(fl);
    assert Node(s.mem, Slot(s.start, c), ns, t);
    assert fl[t] in fl;
    TagsOff(bs, fl[t]);
    if t > 0 {
      assert fl[t - 1] in fl;
      TagsOff(bs, fl[t - 1]);
    }
    if t + 1 < |fl| {
      assert fl[t + 1] in fl;
      TagsOff(bs, fl[t + 1]);
    }
    Within(bs);
    UnlinkRowAt(s, v, fl[t].addr, PrevOf(s.mem, fl[t].addr), NextOf(s.mem, fl[t].addr));
  }

  /** remove_blk on entry t of list c: the shape holds with the entry taken out. */
  lemma UnlinkShape(s: State, v: View, c: int, t: int)
    requires Shape(s, v) && 0 <= c < CLASSES && 0 <= t < |v.lists[c]|
    ensures Shape(s.(mem := Unlink(s.mem, s.start, v.lists[c][t].addr)), v.(lists := v.lists[c := Drop(v.lists[c], t)]))
    ensures TagsKept(s.mem, Unlink(s.mem, s.start, v.lists[c][t].addr), v.blocks)
  {
    var bs := v.blocks;
    var ls := v.lists;
    var m' := Unlink(s.mem, s.start, v.lists[c][t].addr);
    var ls' := ls[c := Drop(ls[c], t)];
    var ns := Addrs(ls[c]);
    assert Bucket(s.mem, s.start, bs, ls, c);
    FreeSpread(s.start, bs, ls[c]);
    UnlinkChain(s.mem, s.start, c, ns, t);
    AddrsDrop(ls[c], t);
    MembersDrop(bs, ls[c], c, t);
    SortedDrop(ls[c], t);
    assert Bucket(m', s.start, bs, ls', c);
    forall d | 0 <= d < CLASSES && d != c ensures Bucket(m', s.start, bs, ls', d) {
      assert Bucket(s.mem, s.start, bs, ls, d);
      FreeSpread(s.start, bs, ls[d]);
      ListsApart(bs, ls[c], ls[d]);
      UnlinkOther(s.mem, s.start, c, ns, t, d, Addrs(ls[d]));
    }
    assert Threaded(m', s.start, bs, ls');
    UnlinkRow(s, v, c, t);
    var v' := v.(lists := ls');
    assert v'.blocks == bs && v'.bits == v.bits;
    RowLists(s.(mem := m'), v, ls');
  }

  /** The row does not depend on the lists. */
  lemma RowLists(s: State, v: View, ls: seq<seq<Block>>)
    requires Row(s, v)
    ensures Row(s, v.(lists := ls))
  {
    var v' := v.(lists := ls);
    assert forall i :: 0 <= i < |v.blocks| ==> HeadOk(s.mem, v', i) == HeadOk(s.mem, v, i);
    assert forall i :: 0 <= i <= |v.blocks| ==> BitOk(s.mem, v', i) == BitOk(s.mem, v, i);
  }

  /** remove_blk on a listed block: the shape holds with the block taken out of every list. */
  lemma UnlinkBlock(s: State, v: View, b: Block)
    requires Shape(s, v) && b in v.lists[ClassOf(b.size)]
    ensures Shape(s.(mem := Unlink(s.mem, s.start, b.addr)), v.(lists := Strip(v.lists, b)))
    ensures TagsKept(s.mem, Unlink(s.mem, s.start, b.addr), v.blocks)
  {
    var ls := v.lists;
    var c := ClassOf(b.size);
    var t :| 0 <= t < |ls[c]| && ls[c][t] == b;
    assert Bucket(s.mem, s.start, v.blocks, ls, c);
    UnlinkShape(s, v, c, t);
    WithoutAt(ls[c], t);
    forall d | 0 <= d < CLASSES && d != c ensures Without(ls[d], b) == ls[d] {
      assert Bucket(s.mem, s.start, v.blocks, ls, d);
      WithoutAbsent(ls[d], b);
    }
    assert ls[c := Drop(ls[c], t)] == Strip(ls, b);
  }

  // ---------------------------------------------------------------------------
  // link_blk on the shape

  /** The sizes link_blk reads along list c; no node is NULL. */
  lemma ListReads(s: State, v: View, c: int)
    requires Shape(s, v) && 0 <= c < CLASSES
    ensures forall j :: 0 <= j < |v.lists[c]| ==>
      0 < v.lists[c][j].addr && ExtractSize(s.mem, v.lists[c][j].addr) == v.lists[c][j].size
  {
    var fl := v.lists[c];
    assert Bucket(s.mem, s.start, v.blocks, v.lists, c);
    forall j | 0 <= j < |fl| ensures 0 < fl[j].addr && ExtractSize(s.mem, fl[j].addr) == fl[j].size {
      assert fl[j] in fl;
      var x :| 0 <= x < |v.blocks| && v.blocks[x] == fl[j];
      ReadBlock(s, v, x);
    }
  }

  /** The stores link_blk makes for a node of the given size heading for list fl: a push when it goes first, otherwise an insertion after entry Pos - 1. */
  lemma LinkIs(m: Mem, start: int, fl: seq<Block>, h: int, size: int)
    requires ExtractSize(m, h) == size && Chain(m, Slot(start, ClassOf(size)), Addrs(fl)) && |fl| < HeapLimit
    requires forall j :: 0 <= j < |fl| ==> 0 < fl[j].addr && ExtractSize(m, fl[j].addr) == fl[j].size
    ensures var t := Pos(fl, size); var slot := Slot(start, ClassOf(size));
      && (t == 0 ==> LinkBlk(m, start, h) == Push(m, slot, h))
      && (t > 0 ==> LinkBlk(m, start, h) == InsertAfter(m, fl[t - 1].addr, h, if t < |fl| then fl[t].addr else 0))
  {
    if Pos(fl, size) == 0 {
      LinkFirst(m, start, fl, h, size);
    } else {
      LinkAfter(m, start, fl, h, size);
    }
  }

  /** link_blk pushes when the block goes first. */
  lemma LinkFirst(m: Mem, start: int, fl: seq<Block>, h: int, size: int)
    requires ExtractSize(m, h) == size && Chain(m, Slot(start, ClassOf(size)), Addrs(fl))
    requires forall j :: 0 <= j < |fl| ==> 0 < fl[j].addr && ExtractSize(m, fl[j].addr) == fl[j].size
    requires Pos(fl, size) == 0
    ensures LinkBlk(m, start, h) == Push(m, Slot(start, ClassOf(size)), h)
  {
    if |fl| > 0 {
      assert LoadPtr(m, Slot(start, ClassOf(size))) == fl[0].addr;
    }
  }

  /** link_blk inserts after entry Pos - 1 otherwise. */
  lemma LinkAfter(m: Mem, start: int, fl: seq<Block>, h: int, size: int)
    requires ExtractSize(m, h) == size && Chain(m, Slot(start, ClassOf(size)), Addrs(fl)) && |fl| < HeapLimit
    requires forall j :: 0 <= j < |fl| ==> 0 < fl[j].addr && ExtractSize(m, fl[j].addr) == fl[j].size
    requires Pos(fl, size) > 0
    ensures var t := Pos(fl, size);
      LinkBlk(m, start, h) == InsertAfter(m, fl[t - 1].addr, h, if t < |fl| then fl[t].addr else 0)
  {
    var t := Pos(fl, size);
    var slot := Slot(start, ClassOf(size));
    assert LoadPtr(m, slot) == fl[0].addr;
    WalkIs(m, slot, fl, size, 1, HeapLimit);
    assert Node(m, slot, Addrs(fl), t - 1);
  }

  /** The stores link_blk makes for block k: a push when it goes first, otherwise an insertion after entry Pos - 1. */
  lemma LinkAt(s: State, v: View, k: int)
    requires Shape(s, v) && 0 <= k < |v.blocks| && !v.blocks[k].alloc
    ensures var b := v.blocks[k]; var c := ClassOf(b.size); var fl := v.lists[c]; var t := Pos(fl, b.size);
      && (t == 0 ==> LinkBlk(s.mem, s.start, b.addr) == Push(s.mem, Slot(s.start, c), b.addr))
      && (t > 0 ==> LinkBlk(s.mem, s.start, b.addr) == InsertAfter(s.mem, fl[t - 1].addr, b.addr, if t < |fl| then fl[t].addr else 0))
  {
    var b := v.blocks[k];
    var c := ClassOf(b.size);
    var fl := v.lists[c];
    ReadBlock(s, v, k);
    ListReads(s, v, c);
    assert Bucket(s.mem, s.start, v.blocks, v.lists, c);
    ListShort(s.start, v.blocks, fl);
    LinkIs(s.mem, s.start, fl, b.addr, b.size);
  }

  /** Lists of different classes hold no block in common. */
  lemma ClassesApart(s: State, v: View, fl: seq<Block>, c: int, d: int)
    requires Shape(s, v) && 0 <= d < CLASSES && c != d
    requires forall x {:trigger x in fl} :: x in fl ==> x in v.blocks && !x.alloc && ClassOf(x.size) == c
    ensures Spread(HeadsEnd(s.start), Addrs(v.lists[d])) && Apart(Addrs(fl), Addrs(v.lists[d]))
  {
    var gl := v.lists[d];
    assert Bucket(s.mem, s.start, v.blocks, v.lists, d);
    FreeSpread(s.start, v.blocks, gl);
    assert forall x {:trigger x in fl} :: x in fl ==> x !in gl;
    ListsApart(v.blocks, fl, gl);
  }

  /** link_blk on free block k, in no list: list c gets it at Pos, and every other list stays threaded. */
  lemma LinkThreaded(s: State, v: View, k: int)
    requires Shape(s, v) && 0 <= k < |v.blocks| && !v.blocks[k].alloc
    requires forall d :: 0 <= d < CLASSES ==> v.blocks[k] !in v.lists[d]
    ensures var b := v.blocks[k]; var c := ClassOf(b.size);
      Threaded(LinkBlk(s.mem, s.start, b.addr), s.start, v.blocks, v.lists[c := InsertSorted(v.lists[c], b)])
  {
    var bs := v.blocks;
    var ls := v.lists;
    var b := bs[k];
    var c := ClassOf(b.size);
    var fl := ls[c];
    var t := Pos(fl, b.size);
    var fl' := InsertSorted(fl, b);
    var ls' := ls[c := fl'];
    var m' := LinkBlk(s.mem, s.start, b.addr);
    var ns := Addrs(fl);
    LinkAt(s, v, k);
    assert Bucket(s.mem, s.start, bs, ls, c);
    assert b in bs;
    MembersInsert(bs, fl, c, b);
    InsertSortedIs(fl, b);
    FreeSpread(s.start, bs, fl');
    AddrsInsert(fl, b, t);
    if t == 0 {
      assert ns[..0] + [b.addr] + ns[0..] == [b.addr] + ns;
      PushChain(s.mem, s.start, c, ns, b.addr);
    } else {
      InsertChain(s.mem, s.start, c, ns, t, b.addr);
    }
    assert Bucket(m', s.start, bs, ls', c);
    forall d | 0 <= d < CLASSES && d != c ensures Bucket(m', s.start, bs, ls', d) {
      assert Bucket(s.mem, s.start, bs, ls, d);
      ClassesApart(s, v, fl', c, d);
      if t == 0 {
        PushOther(s.mem, s.start, c, ns, b.addr, d, Addrs(ls[d]));
      } else {
        InsertOther(s.mem, s.start, c, ns, t, b.addr, d, Addrs(ls[d]));
      }
    }
  }

  /** Pushing the node at h onto the list at slot leaves every tag in place when none lies among the link words. */
  lemma PushRowAt(s: State, v: View, slot: int, h: int)
    requires Row(s, v) && 0 <= slot && slot + DSIZE <= HeadsEnd(s.start) && 0 <= h < Word32
    requires 0 <= LoadPtr(s.mem, slot) < Word32
    requires OffTags(v.blocks, h) && (LoadPtr(s.mem, slot) != 0 ==> OffTags(v.blocks, LoadPtr(s.mem, slot)))
    ensures Row(s.(mem := Push(s.mem, slot, h)), v)
    ensures TagsKept(s.mem, Push(s.mem, slot, h), v.blocks)
  {
    var bs := v.blocks;
    var m' := Push(s.mem, slot, h);
    Within(bs);
    assert bs[0] in bs;
    forall x {:trigger x in bs} | x in bs
      ensures Load(m', x.addr) == Load(s.mem, x.addr) && Load(m', End(x) - WSIZE) == Load(s.mem, End(x) - WSIZE)
    {
      PushFrame(s.mem, slot, h, x.addr);
      PushFrame(s.mem, slot, h, End(x) - WSIZE);
    }
    PushFrame(s.mem, slot, h, Stop(bs));
    RowKept(s, v, m');
  }

  /** Inserting the node at h after p leaves every tag in place when none lies among the link words. */
  lemma InsertRowAt(s: State, v: View, p: int, h: int, curr: int)
    requires Row(s, v) && 0 <= p < Word32 && 0 <= h < Word32 && 0 <= curr < Word32
    requires OffTags(v.blocks, h) && OffTags(v.blocks, p) && (curr != 0 ==> OffTags(v.blocks, curr))
    ensures Row(s.(mem := InsertAfter(s.mem, p, h, curr)), v)
    ensures TagsKept(s.mem, InsertAfter(s.mem, p, h, curr), v.blocks)
  {
    var bs := v.blocks;
    var m' := InsertAfter(s.mem, p, h, curr);
    forall x {:trigger x in bs} | x in bs
      ensures Load(m', x.addr) == Load(s.mem, x.addr) && Load(m', End(x) - WSIZE) == Load(s.mem, End(x) - WSIZE)
    {
      InsertFrame(s.mem, p, h, curr, x.addr);
      InsertFrame(s.mem, p, h, curr, End(x) - WSIZE);
    }
    InsertFrame(s.mem, p, h, curr, Stop(bs));
    RowKept(s, v, m');
  }

  /** link_blk on free block k, in no list: the shape holds with it in its class's list at Pos. */
  lemma LinkShape(s: State, v: View, k: int)
    requires Shape(s, v) && 0 <= k < |v.blocks| && !v.blocks[k].alloc
    requires forall d :: 0 <= d < CLASSES ==> v.blocks[k] !in v.lists[d]
    ensures var b := v.blocks[k]; var c := ClassOf(b.size);
      Shape(s.(mem := LinkBlk(s.mem, s.start, b.addr)), v.(lists := v.lists[c := InsertSorted(v.lists[c], b)]))
    ensures TagsKept(s.mem, LinkBlk(s.mem, s.start, v.blocks[k].addr), v.blocks)
  {
    var b := v.blocks[k];
    var c := ClassOf(b.size);
    LinkThreaded(s, v, k);
    LinkRow(s, v, k);
    RowLists(s.(mem := LinkBlk(s.mem, s.start, b.addr)), v, v.lists[c := InsertSorted(v.lists[c], b)]);
  }

  /** link_blk on free block k: the row holds and the tags are kept. */
  lemma LinkRow(s: State, v: View, k: int)
    requires Shape(s, v) && 0 <= k < |v.blocks| && !v.blocks[k].alloc
    ensures Row(s.(mem := LinkBlk(s.mem, s.start, v.blocks[k].addr)), v)
    ensures TagsKept(s.mem, LinkBlk(s.mem, s.start, v.blocks[k].addr), v.blocks)
  {
    var b := v.blocks[k];
    var c := ClassOf(b.size);
    var fl := v.lists[c];
    var t := Pos(fl, b.size);
    LinkAt(s, v, k);
    LinkOffs(s, v, k);
    if t == 0 {
      PushRowAt(s, v, Slot(s.start, c), b.addr);
    } else {
      InsertRowAt(s, v, fl[t - 1].addr, b.addr, if t < |fl| then fl[t].addr else 0);
    }
  }

  /** The words link_blk writes for free block k, and the neighbours it links to, lie off every tag. */
  lemma LinkOffs(s: State, v: View, k: int)
    requires Shape(s, v) && 0 <= k < |v.blocks| && !v.blocks[k].alloc
    ensures var b := v.blocks[k]; var c := ClassOf(b.size); var fl := v.lists[c]; var t := Pos(fl, b.size);
      var head := LoadPtr(s.mem, Slot(s.start, c));
      && 0 <= b.addr < Word32 && OffTags(v.blocks, b.addr) && Slot(s.start, c) + DSIZE <= HeadsEnd(s.start)
      && 0 <= head < Word32 && (head != 0 ==> OffTags(v.blocks, head))
      && (t > 0 ==> 0 <= fl[t - 1].addr < Word32 && OffTags(v.blocks, fl[t - 1].addr))
      && (0 < t < |fl| ==> 0 <= fl[t].addr < Word32 && OffTags(v.blocks, fl[t].addr))
  {
    var bs := v.blocks;
    var b := bs[k];
    var c := ClassOf(b.size);
    var fl := v.lists[c];
    var t := Pos(fl, b.size);
    ReadBlock(s, v, k);
    assert Bucket(s.mem, s.start, bs, v.lists, c);
    FreeSpread(s.start, bs, fl);
    assert b in bs;
    TagsOff(bs, b);
    if |fl| > 0 {
      assert fl[0] in fl;
      TagsOff(bs, fl[0]);
    }
    if t > 0 {
      assert fl[t - 1] in fl;
      TagsOff(bs, fl[t - 1]);
      if t < |fl| {
        assert fl[t] in fl;
        TagsOff(bs, fl[t]);
      }
    }
  }

  // ---------------------------------------------------------------------------
  // Rewriting a run of blocks

  /** The header bits of a splice: the new run's bits between the kept ones. */
  lemma SpliceBits(bits: seq<bool>, i: int, j: int, nbits: seq<bool>, y: int)
    requires 0 <= i <= j <= |bits| && 0 <= y < |bits| - (j - i) + |nbits|
    ensures var r := bits[..i] + nbits + bits[j..];
      r[y] == if y < i then bits[y] else if y < i + |nbits| then nbits[y - i] else bits[y - |nbits| + (j - i)]
  {
  }

  /** A word outside the rewritten bytes reads the same. */
  lemma KeptFoot(m: Mem, m': Mem, b: Block, lo: int, hi: int)
    requires FootOk(m, b) && b.size >= WSIZE && (End(b) <= lo || hi <= b.addr)
    requires SameOutside(m, m', lo, hi)
    ensures FootOk(m', b)
  {
    assert Load(m', End(b) - WSIZE) == Load(m, End(b) - WSIZE);
  }

  /**
   * Blocks i .. j - 1 replaced by blocks ns covering the same bytes, with
   * memory changed only inside those bytes: the row holds with header bits
   * nbits for the new blocks when each new header is exact, the first keeps
   * its bit, every clear bit inside the run sits behind a free block with
   * its footer, and so does the bit of the block after the run.
   */
  lemma SpliceRow(s: State, v: View, i: int, j: int, ns: seq<Block>, nbits: seq<bool>, m': Mem)
    requires Row(s, v) && 1 <= i < j <= |v.blocks|
    requires Tiled(ns) && |ns| > 0 && Sized(ns) && ns[0].addr == v.blocks[i].addr && Stop(ns) == End(v.blocks[j - 1])
    requires forall x :: 0 <= x < |ns| ==> ns[x].size >= MIN_BLOCK_SIZE
    requires |nbits| == |ns| && nbits[0] == v.bits[i]
    requires SameOutside(s.mem, m', v.blocks[i].addr, End(v.blocks[j - 1]))
    requires forall x :: 0 <= x < |ns| ==> Load(m', ns[x].addr) == Tag(ns[x].size, nbits[x], ns[x].alloc)
    requires forall x :: 0 < x < |ns| && !nbits[x] ==> !ns[x - 1].alloc && FootOk(m', ns[x - 1])
    requires !v.bits[j] ==> !ns[|ns| - 1].alloc && FootOk(m', ns[|ns| - 1])
    ensures Row(s.(mem := m'), View(Splice(v.blocks, i, j, ns), v.bits[..i] + nbits + v.bits[j..], v.lists))
  {
    var bs, bits := v.blocks, v.bits;
    var r := Splice(bs, i, j, ns);
    var v' := View(r, bits[..i] + nbits + bits[j..], v.lists);
    SpliceLaid(s.start, bs, i, j, ns);
    SpliceHeads(s, v, i, j, ns, nbits, m');
    SpliceBitsOk(s, v, i, j, ns, nbits, m');
    SpliceStop(s.start, bs, bits, i, j, ns, nbits, s.mem, m');
    RowFrom(s.(mem := m'), v');
  }

  /** The parts of Row, assembled. */
  lemma RowFrom(s: State, v: View)
    requires Laid(s.start, v.blocks) && |v.bits| == |v.blocks| + 1
    requires forall i :: 0 <= i < |v.blocks| ==> HeadOk(s.mem, v, i)
    requires Load(s.mem, Stop(v.blocks)) == Tag(0, v.bits[|v.blocks|], true)
    requires forall i :: 0 <= i <= |v.blocks| ==> BitOk(s.mem, v, i)
    requires s.brk == Stop(v.blocks) + WSIZE
    ensures Row(s, v)
  { }

  /** A splice inside the blocks keeps the epilogue header where it was, with its bit. */
  lemma SpliceStop(start: int, bs: seq<Block>, bits: seq<bool>, i: int, j: int, ns: seq<Block>, nbits: seq<bool>, m: Mem, m': Mem)
    requires Laid(start, bs) && |bits| == |bs| + 1 && 1 <= i < j <= |bs|
    requires |ns| > 0 && |nbits| == |ns| && Stop(Splice(bs, i, j, ns)) == Stop(bs)
    requires SameOutside(m, m', bs[i].addr, End(bs[j - 1]))
    ensures var r := Splice(bs, i, j, ns); var rbits := bits[..i] + nbits + bits[j..];
      |rbits| == |r| + 1 && rbits[|r|] == bits[|bs|] && Load(m', Stop(r)) == Load(m, Stop(bs))
  {
    var r := Splice(bs, i, j, ns);
    SpliceBits(bits, i, j, nbits, |r|);
    Within(bs);
    assert bs[j - 1] in bs;
    assert End(bs[j - 1]) <= Stop(bs);
  }

  lemma SpliceLaid(start: int, bs: seq<Block>, i: int, j: int, ns: seq<Block>)
    requires Laid(start, bs) && 1 <= i < j <= |bs|
    requires Tiled(ns) && |ns| > 0 && Sized(ns) && ns[0].addr == bs[i].addr && Stop(ns) == End(bs[j - 1])
    requires forall x :: 0 <= x < |ns| ==> ns[x].size >= MIN_BLOCK_SIZE
    ensures Laid(start, Splice(bs, i, j, ns)) && Stop(Splice(bs, i, j, ns)) == Stop(bs)
  {
    var r := Splice(bs, i, j, ns);
    var d := |ns| - (j - i);
    SpliceTiled(bs, i, j, ns);
    assert r[0] == bs[0];
    forall b {:trigger b in r} | b in r
      ensures b.size % 8 == 0 && b.size >= DSIZE && (!b.alloc ==> b.size >= MIN_BLOCK_SIZE) && b.addr % 8 == 4
      ensures b != r[0] ==> b.size >= MIN_BLOCK_SIZE
    {
      var x :| 0 <= x < |r| && r[x] == b;
      SpliceSource(bs, i, j, ns, x);
      if i <= x < i + |ns| {
        assert ns[x - i] in ns;
      } else if x < i {
        assert bs[x] in bs;
      } else {
        assert bs[x - d] in bs;
      }
    }
  }

  lemma SpliceHeads(s: State, v: View, i: int, j: int, ns: seq<Block>, nbits: seq<bool>, m': Mem)
    requires Row(s, v) && 1 <= i < j <= |v.blocks| && |nbits| == |ns|
    requires SameOutside(s.mem, m', v.blocks[i].addr, End(v.blocks[j - 1]))
    requires forall x :: 0 <= x < |ns| ==> Load(m', ns[x].addr) == Tag(ns[x].size, nbits[x], ns[x].alloc)
    ensures var v' := View(Splice(v.blocks, i, j, ns), v.bits[..i] + nbits + v.bits[j..], v.lists);
      |v'.bits| == |v'.blocks| + 1 && forall y :: 0 <= y < |v'.blocks| ==> HeadOk(m', v', y)
  {
    var bs, bits := v.blocks, v.bits;
    var r := Splice(bs, i, j, ns);
    var v' := View(r, bits[..i] + nbits + bits[j..], v.lists);
    var d := |ns| - (j - i);
    forall y | 0 <= y < |r| ensures HeadOk(m', v', y) {
      SpliceSource(bs, i, j, ns, y);
      SpliceBits(bits, i, j, nbits, y);
      if y < i {
        assert HeadOk(s.mem, v, y) && bs[y] in bs;
        TiledOrder(bs, y, i);
      } else if y >= i + |ns| {
        assert HeadOk(s.mem, v, y - d) && bs[y - d] in bs && bs[j - 1] in bs;
        if y - d > j - 1 {
          TiledOrder(bs, j - 1, y - d);
        }
      }
    }
  }

  lemma SpliceBitsOk(s: State, v: View, i: int, j: int, ns: seq<Block>, nbits: seq<bool>, m': Mem)
    requires Row(s, v) && 1 <= i < j <= |v.blocks|
    requires |ns| > 0 && |nbits| == |ns| && nbits[0] == v.bits[i]
    requires SameOutside(s.mem, m', v.blocks[i].addr, End(v.blocks[j - 1]))
    requires forall x :: 0 < x < |ns| && !nbits[x] ==> !ns[x - 1].alloc && FootOk(m', ns[x - 1])
    requires !v.bits[j] ==> !ns[|ns| - 1].alloc && FootOk(m', ns[|ns| - 1])
    ensures var v' := View(Splice(v.blocks, i, j, ns), v.bits[..i] + nbits + v.bits[j..], v.lists);
      |v'.bits| == |v'.blocks| + 1 && forall y :: 0 <= y <= |v'.blocks| ==> BitOk(m', v', y)
  {
    var bs, bits := v.blocks, v.bits;
    var r := Splice(bs, i, j, ns);
    var v' := View(r, bits[..i] + nbits + bits[j..], v.lists);
    var d := |ns| - (j - i);
    var lo, hi := bs[i].addr, End(bs[j - 1]);
    forall y | 0 <= y <= |r| ensures BitOk(m', v', y) {
      SpliceBits(bits, i, j, nbits, y);
      if y <= i {
        assert BitOk(s.mem, v, y);
        if y > 0 {
          assert r[y - 1] == bs[y - 1] && bs[y - 1] in bs;
          TiledOrder(bs, y - 1, i);
          if !bits[y] {
            KeptFoot(s.mem, m', bs[y - 1], lo, hi);
          }
        }
      } else if y < i + |ns| {
        assert r[y - 1] == ns[y - 1 - i];
      } else if y == i + |ns| {
        assert r[y - 1] == ns[|ns| - 1];
      } else {
        assert BitOk(s.mem, v, y - d);
        assert r[y - 1] == bs[y - 1 - d] && bs[y - 1 - d] in bs;
        TiledOrder(bs, j - 1, y - 1 - d);
        if !bits[y - d] {
          KeptFoot(s.mem, m', bs[y - 1 - d], lo, hi);
        }
      }
    }
  }

  /** Listed blocks clear of the run are still blocks of the spliced row. */
  lemma SpliceMembers(bs: seq<Block>, fl: seq<Block>, c: int, i: int, j: int, ns: seq<Block>)
    requires Tiled(bs) && Members(bs, fl, c) && 0 <= i < j <= |bs|
    requires forall b {:trigger b in fl} :: b in fl ==> End(b) <= bs[i].addr || End(bs[j - 1]) <= b.addr
    ensures Members(Splice(bs, i, j, ns), fl, c)
  {
    var r := Splice(bs, i, j, ns);
    forall b {:trigger b in fl} | b in fl ensures b in r {
      var x :| 0 <= x < |bs| && bs[x] == b;
      if x < i {
        assert r[x] == b;
      } else if x >= j {
        assert r[x - (j - i) + |ns|] == b;
      } else {
        assert bs[i] in bs && bs[x] in bs && bs[j - 1] in bs;
        if x > i {
          TiledOrder(bs, i, x);
        }
        if x < j - 1 {
          TiledOrder(bs, x, j - 1);
        }
      }
    }
  }

  /** The lists, which hold none of blocks i .. j - 1, stay threaded when memory changes only inside those blocks. */
  lemma SpliceThreaded(s: State, v: View, i: int, j: int, ns: seq<Block>, m': Mem)
    requires Shape(s, v) && 1 <= i < j <= |v.blocks| && Unlisted(v.blocks, v.lists, i, j)
    requires SameOutside(s.mem, m', v.blocks[i].addr, End(v.blocks[j - 1]))
    ensures Threaded(m', s.start, Splice(v.blocks, i, j, ns), v.lists)
    ensures Clear(v.lists, v.blocks[i].addr, End(v.blocks[j - 1]))
  {
    var bs := v.blocks;
    var ls := v.lists;
    var lo, hi := bs[i].addr, End(bs[j - 1]);
    forall c, b {:trigger b in ls[c]} | 0 <= c < |ls| && b in ls[c] ensures b in bs {
      assert Bucket(s.mem, s.start, bs, ls, c);
    }
    OutsideRun(bs, ls, i, j);
    Within(bs);
    assert bs[0] in bs && bs[i] in bs;
    forall c | 0 <= c < CLASSES ensures Bucket(m', s.start, Splice(bs, i, j, ns), ls, c) {
      assert Bucket(s.mem, s.start, bs, ls, c);
      assert forall b {:trigger b in ls[c]} :: b in ls[c] ==> b in bs && !b.alloc;
      SpliceMembers(bs, ls[c], c, i, j, ns);
      Sizes(bs, ls[c]);
      ChainOutside(s.mem, m', s.start, c, ls[c], lo, hi);
    }
  }

  /** Free blocks of the row are at least the minimum size. */
  lemma Sizes(bs: seq<Block>, fl: seq<Block>)
    requires Sized(bs) && forall b {:trigger b in fl} :: b in fl ==> b in bs && !b.alloc
    ensures forall b {:trigger b in fl} :: b in fl ==> b.size >= MIN_BLOCK_SIZE
  {
  }

  /** A word past the link words of block k, or any word of an allocated block k, is off every free block's links. */
  lemma InteriorOff(bs: seq<Block>, k: int, x: int)
    requires Tiled(bs) && Sized(bs) && 0 <= k < |bs| && bs[k].addr + 20 <= x < End(bs[k])
    ensures forall c {:trigger c in bs} :: c in bs && !c.alloc ==> Off(x, c.addr)
  {
    forall c {:trigger c in bs} | c in bs && !c.alloc ensures Off(x, c.addr) {
      var y :| 0 <= y < |bs| && bs[y] == c;
      if y < k {
        TiledOrder(bs, y, k);
      } else if y > k {
        TiledOrder(bs, k, y);
      }
    }
  }

  /** link_blk on free block k writes only head slots and link words of free blocks. */
  lemma LinkFrame(s: State, v: View, k: int, x: int)
    requires Shape(s, v) && 0 <= k < |v.blocks| && !v.blocks[k].alloc
    requires forall d :: 0 <= d < CLASSES ==> v.blocks[k] !in v.lists[d]
    requires HeadsEnd(s.start) <= x && forall c {:trigger c in v.blocks} :: c in v.blocks && !c.alloc ==> Off(x, c.addr)
    ensures Load(LinkBlk(s.mem, s.start, v.blocks[k].addr), x) == Load(s.mem, x)
  {
    var bs := v.blocks;
    var b := bs[k];
    var c := ClassOf(b.size);
    var fl := v.lists[c];
    var t := Pos(fl, b.size);
    LinkAt(s, v, k);
    ReadBlock(s, v, k);
    assert Bucket(s.mem, s.start, bs, v.lists, c);
    FreeSpread(s.start, bs, fl);
    assert b in bs;
    if t == 0 {
      if |fl| > 0 {
        assert fl[0] in fl;
      }
      PushFrame(s.mem, Slot(s.start, c), b.addr, x);
    } else {
      assert fl[t - 1] in fl;
      if t < |fl| {
        assert fl[t] in fl;
      }
      InsertFrame(s.mem, fl[t - 1].addr, b.addr, if t < |fl| then fl[t].addr else 0, x);
    }
  }

  // ---------------------------------------------------------------------------
  // Single header writes

  /** The header word of block i, or of the epilogue when i is past the last block. */
  function HeaderAt(bs: seq<Block>, i: int): int
    requires 0 < |bs| && 0 <= i <= |bs|
  {
    if i < |bs| then bs[i].addr else Stop(bs)
  }

  /** write_header(a, extract_size(a), bit, extract_alloc(a)): header a with its prev-alloc bit replaced. */
  function SetBit(m: Mem, a: int, bit: bool): Mem {
    WriteHeader(m, a, ExtractSize(m, a), bit, ExtractAlloc(m, a))
  }

  /** Headers sit at 4 mod 8 and footers at 0 mod 8, so no footer is a header. */
  lemma TagAlign(bs: seq<Block>)
    requires Tiled(bs) && Sized(bs) && |bs| > 0
    ensures forall c {:trigger c in bs} :: c in bs ==> c.addr % 8 == 4 && (End(c) - WSIZE) % 8 == 0
    ensures forall i :: 0 <= i <= |bs| ==> HeaderAt(bs, i) % 8 == 4
  {
    forall c | c in bs ensures c.addr % 8 == 4 && (End(c) - WSIZE) % 8 == 0 {
      EndAlign(c);
    }
    forall i | 0 <= i <= |bs| ensures HeaderAt(bs, i) % 8 == 4 {
      if i < |bs| {
        assert bs[i] in bs;
      } else {
        assert bs[|bs| - 1] in bs;
        EndAlign(bs[|bs| - 1]);
      }
    }
  }

  /** A block at 4 mod 8 whose size is a multiple of 8 ends at 4 mod 8, with its last word at 0 mod 8. */
  lemma EndAlign(c: Block)
    requires c.addr % 8 == 4 && c.size % 8 == 0
    ensures End(c) % 8 == 4 && (End(c) - WSIZE) % 8 == 0
  { }

  /** Distinct headers sit at distinct words. */
  lemma HeadersApart(bs: seq<Block>, i: int, j: int)
    requires Tiled(bs) && |bs| > 0 && 0 <= i < j <= |bs|
    ensures HeaderAt(bs, i) < HeaderAt(bs, j)
  {
    assert bs[i] in bs;
    if j < |bs| {
      TiledOrder(bs, i, j);
    } else {
      Within(bs);
    }
  }

  /**
   * Rewriting the prev-alloc bit of header i, a block's or the epilogue's,
   * keeps the row, with the view's bit changed, when the bit is set or the
   * block before is free with its footer in place.
   */
  lemma BitRow(s: State, v: View, i: int, bit: bool)
    requires Row(s, v) && 0 < i <= |v.blocks|
    requires !bit ==> !v.blocks[i - 1].alloc && FootOk(s.mem, v.blocks[i - 1])
    ensures Row(s.(mem := SetBit(s.mem, HeaderAt(v.blocks, i), bit)), v.(bits := v.bits[i := bit]))
    ensures Load(SetBit(s.mem, HeaderAt(v.blocks, i), bit), HeaderAt(v.blocks, i))
      == Tag(if i < |v.blocks| then v.blocks[i].size else 0, bit, i == |v.blocks| || v.blocks[i].alloc)
  {
    var bs := v.blocks;
    var a := HeaderAt(bs, i);
    var size, alloc := if i < |bs| then bs[i].size else 0, i == |bs| || bs[i].alloc;
    if i < |bs| {
      ReadBlock(s, v, i);
    } else {
      ReadEpilogue(s, v);
    }
    if i < |bs| {
      assert HeadOk(s.mem, v, i);
    }
    SetBitIs(s.mem, a, size, v.bits[i], alloc, bit);
    var m' := s.mem[a := Tag(size, bit, alloc)];
    var v' := v.(bits := v.bits[i := bit]);
    BitHeads(s, v, i, m', v');
    BitFeet(s, v, i, m', v');
  }

  /** SetBit changes one word. */
  lemma SetBitAt(m: Mem, a: int, bit: bool)
    ensures SetBit(m, a, bit) == m[a := Load(SetBit(m, a, bit), a)]
  {
  }

  /** What SetBit stores over a header holding a tag. */
  lemma SetBitIs(m: Mem, a: int, size: int, prevAlloc: bool, alloc: bool, bit: bool)
    requires Load(m, a) == Tag(size, prevAlloc, alloc) && size % 8 == 0 && 0 <= size < Word32 - 8
    ensures SetBit(m, a, bit) == m[a := Tag(size, bit, alloc)]
  {
    assert ExtractSize(m, a) == size && ExtractAlloc(m, a) == alloc by {
      ReadTag(m, a, size, prevAlloc, alloc);
    }
    assert SetBit(m, a, bit) == Store32(m, a, Pack(size, bit, alloc));
    StoreTag(m, a, size, bit, alloc);
  }

  /** write_header stores the tag itself: it fits the word. */
  lemma StoreTag(m: Mem, a: int, size: int, prevAlloc: bool, alloc: bool)
    requires size % 8 == 0 && 0 <= size < Word32 - 8
    ensures Store32(m, a, Pack(size, prevAlloc, alloc)) == m[a := Tag(size, prevAlloc, alloc)]
  {
    PackTag(size, prevAlloc, alloc);
    var w := Tag(size, prevAlloc, alloc);
    assert 0 <= w < Word32;
    assert w % Word32 == w;
  }

  lemma BitHeads(s: State, v: View, i: int, m': Mem, v': View)
    requires Row(s, v) && 0 < i <= |v.blocks|
    requires v' == v.(bits := v'.bits) && |v'.bits| == |v.bits| && forall y :: 0 <= y < |v.bits| && y != i ==> v'.bits[y] == v.bits[y]
    requires m' == s.mem[HeaderAt(v.blocks, i) := Tag(if i < |v.blocks| then v.blocks[i].size else 0, v'.bits[i], i == |v.blocks| || v.blocks[i].alloc)]
    ensures forall y :: 0 <= y < |v.blocks| ==> HeadOk(m', v', y)
    ensures Load(m', Stop(v.blocks)) == Tag(0, v'.bits[|v.blocks|], true)
  {
    var bs := v.blocks;
    forall y | 0 <= y < |bs| ensures HeadOk(m', v', y) {
      assert HeadOk(s.mem, v, y);
      if y < i {
        HeadersApart(bs, y, i);
      } else if y > i {
        HeadersApart(bs, i, y);
      }
    }
    if i < |bs| {
      HeadersApart(bs, i, |bs|);
    }
  }

  lemma BitFeet(s: State, v: View, i: int, m': Mem, v': View)
    requires Row(s, v) && 0 < i <= |v.blocks|
    requires v' == v.(bits := v'.bits) && |v'.bits| == |v.bits| && forall y :: 0 <= y < |v.bits| && y != i ==> v'.bits[y] == v.bits[y]
    requires !v'.bits[i] ==> !v.blocks[i - 1].alloc && FootOk(s.mem, v.blocks[i - 1])
    requires m' == s.mem[HeaderAt(v.blocks, i) := Load(m', HeaderAt(v.blocks, i))]
    ensures forall y :: 0 <= y <= |v.blocks| ==> BitOk(m', v', y)
  {
    var bs := v.blocks;
    TagAlign(bs);
    forall y | 0 <= y <= |bs| ensures BitOk(m', v', y) {
      assert BitOk(s.mem, v, y);
      if y > 0 {
        assert bs[y - 1] in bs;
      }
    }
  }

  /** The same write keeps the lists threaded: a header is no link word. */
  lemma BitShape(s: State, v: View, i: int, bit: bool)
    requires Shape(s, v) && 0 < i <= |v.blocks|
    requires !bit ==> !v.blocks[i - 1].alloc && FootOk(s.mem, v.blocks[i - 1])
    ensures Shape(s.(mem := SetBit(s.mem, HeaderAt(v.blocks, i), bit)), v.(bits := v.bits[i := bit]))
  {
    var bs := v.blocks;
    var a := HeaderAt(bs, i);
    var m' := SetBit(s.mem, a, bit);
    BitRow(s, v, i, bit);
    Within(bs);
    assert bs[0] in bs;
    if i < |bs| {
      assert bs[i] in bs;
    }
    assert m' == s.mem[a := Load(m', a)];
    forall c | 0 <= c < CLASSES ensures Bucket(m', s.start, bs, v.lists, c) {
      var fl := v.lists[c];
      assert Bucket(s.mem, s.start, bs, v.lists, c);
      forall t | 0 <= t < |fl| ensures forall x :: Addrs(fl)[t] + 4 <= x < Addrs(fl)[t] + 20 ==> Load(m', x) == Load(s.mem, x) {
        assert fl[t] in fl;
        TagsOff(bs, fl[t]);
      }
      ChainKept(s.mem, m', Slot(s.start, c), Addrs(fl));
    }
  }

  /** A store strictly inside block k, past its link words and before its last word, changes nothing the shape reads. */
  lemma ScratchShape(s: State, v: View, k: int, x: int, w: int)
    requires Shape(s, v) && 0 <= k < |v.blocks| && v.blocks[k].addr + 20 <= x < End(v.blocks[k]) - WSIZE
    ensures Shape(s.(mem := s.mem[x := w]), v)
  {
    var bs := v.blocks;
    var m' := s.mem[x := w];
    Within(bs);
    assert bs[0] in bs && bs[k] in bs;
    forall c {:trigger c in bs} | c in bs ensures c.addr != x && End(c) - WSIZE != x {
      var y :| 0 <= y < |bs| && bs[y] == c;
      if y < k {
        TiledOrder(bs, y, k);
      } else if y > k {
        TiledOrder(bs, k, y);
      }
    }
    RowKept(s, v, m');
    InteriorOff(bs, k, x);
    forall c | 0 <= c < CLASSES ensures Bucket(m', s.start, bs, v.lists, c) {
      var fl := v.lists[c];
      assert Bucket(s.mem, s.start, bs, v.lists, c);
      forall t | 0 <= t < |fl| ensures forall y :: Addrs(fl)[t] + 4 <= y < Addrs(fl)[t] + 20 ==> Load(m', y) == Load(s.mem, y) {
        assert fl[t] in fl;
      }
      ChainKept(s.mem, m', Slot(s.start, c), Addrs(fl));
    }
  }

  // ---------------------------------------------------------------------------
  // coalesce

  /** write_header then write_footer for a free block at h. */
  function Retag(m: Mem, h: int, size: int, prevAlloc: bool): Mem {
    WriteFooter(WriteHeader(m, h, size, prevAlloc, false), h, size, prevAlloc, false)
  }

  /** The tail of each merging case: header, footer, then link_blk. */
  function Rejoin(m: Mem, start: int, h: int, size: int, prevAlloc: bool): Mem {
    LinkBlk(Retag(m, h, size, prevAlloc), start, h)
  }

  /** Retag leaves the free block's tag in its first and last word. */
  lemma RetagIs(m: Mem, h: int, size: int, prevAlloc: bool)
    requires size % 8 == 0 && DSIZE <= size < Word32 - 8
    ensures Retag(m, h, size, prevAlloc) == m[h := Tag(size, prevAlloc, false)][h + size - WSIZE := Tag(size, prevAlloc, false)]
  {
    StoreTag(m, h, size, prevAlloc, false);
    var m1 := m[h := Tag(size, prevAlloc, false)];
    ReadTag(m1, h, size, prevAlloc, false);
    StoreTag(m1, h + size - WSIZE, size, prevAlloc, false);
  }

  /**
   * coalesce(h): read the block after h and h's prev-alloc bit; take the
   * free neighbours off their lists, write the merged block's header and
   * footer, link it, and, when the block after was merged, clear the
   * prev-alloc bit of the header one block past h.  With the block before
   * merged too, h's header was not rewritten, so that header is the old
   * next block's, inside the merged block, and the header after the merged
   * block keeps its bit.  Returns the merged block.
   */
  function Coalesce(s: State, h: int): (State, int) {
    var m := s.mem;
    var next := NextNeighbor(m, h);
    var nextAlloc := ExtractAlloc(m, next);
    var nextSize := ExtractSize(m, next);
    var prevAlloc := ExtractPrevAlloc(m, h);
    var size := ExtractSize(m, h);
    if prevAlloc && nextAlloc then (s.(mem := LinkBlk(m, s.start, h)), h)
    else if prevAlloc then (s.(mem := Relink(Unlink(m, s.start, next), s.start, h, h, size + nextSize, prevAlloc)), h)
    else
      var prev := PrevNeighbor(m, h);
      var prevSize := ExtractSize(m, prev);
      if nextAlloc then
        var m1 := Unlink(m, s.start, prev);
        (s.(mem := Rejoin(m1, s.start, prev, size + prevSize, ExtractPrevAlloc(m1, prev))), prev)
      else
        var m1 := Unlink(Unlink(m, s.start, prev), s.start, next);
        (s.(mem := Relink(m1, s.start, prev, h, size + (prevSize + nextSize), ExtractPrevAlloc(m1, prev))), prev)
  }

  /**
   * The tail of the cases that merge the block after: rejoin the merged
   * block at first, then clear the prev-alloc bit of the header one block
   * past h, as h's header now reads.
   */
  function Relink(m: Mem, start: int, first: int, h: int, size: int, prevAlloc: bool): Mem {
    var m1 := Rejoin(m, start, first, size, prevAlloc);
    SetBit(m1, NextNeighbor(m1, h), false)
  }

  /** coalesce changes only memory. */
  lemma CoalesceKeeps(s: State, h: int)
    ensures Coalesce(s, h).0 == s.(mem := Coalesce(s, h).0.mem)
  {
  }

  /** The first block coalesce merges: block k, or the one before when k's prev-alloc bit is clear. */
  function MergeFrom(v: View, k: int): int
    requires 0 <= k < |v.bits|
  {
    if v.bits[k] then k else k - 1
  }

  /**
   * Free block k merged with the block before when its bit is clear and
   * with the block after when that one is free.  The merged header keeps
   * the first block's bit; the bit after it is cleared only when the block
   * after was merged and the block before was not.  The merged block goes
   * in its class's list in size order.
   */
  function MergeView(v: View, k: int): View
    requires 1 <= k < |v.blocks| && |v.bits| == |v.blocks| + 1 && |v.lists| == CLASSES
  {
    var bs := v.blocks;
    var lo, hi := MergeFrom(v, k), MergeHi(bs, k);
    var nb := Merged(bs, lo, hi);
    var bits := v.bits[..lo] + [v.bits[lo]] + v.bits[hi + 1..];
    var ls := Strip(Strip(v.lists, bs[lo]), bs[hi]);
    View(Splice(bs, lo, hi + 1, [nb]),
         if lo == k && hi == k + 1 then bits[lo + 1 := false] else bits,
         ls[ClassOf(nb.size) := InsertSorted(ls[ClassOf(nb.size)], nb)])
  }

  /** Block k is free and no list holds it, while every other free block is listed: what mm_free and extend_heap hand to coalesce. */
  ghost predicate Freed(s: State, v: View, k: int) {
    Shape(s, v) && 1 <= k < |v.blocks| && !v.blocks[k].alloc && Listed(v.blocks, v.lists, k)
  }

  /** What coalesce reads around block k. */
  lemma CoalesceReads(s: State, v: View, k: int)
    requires Row(s, v) && 1 <= k < |v.blocks|
    ensures var bs, m, h := v.blocks, s.mem, v.blocks[k].addr;
      && ExtractSize(m, h) == bs[k].size && ExtractPrevAlloc(m, h) == v.bits[k]
      && NextNeighbor(m, h) == HeaderAt(bs, k + 1)
      && ExtractAlloc(m, HeaderAt(bs, k + 1)) == (k + 1 == |bs| || bs[k + 1].alloc)
      && (k + 1 < |bs| ==> ExtractSize(m, bs[k + 1].addr) == bs[k + 1].size)
      && (!v.bits[k] ==> PrevNeighbor(m, h) == bs[k - 1].addr && !bs[k - 1].alloc && ExtractSize(m, bs[k - 1].addr) == bs[k - 1].size)
  {
    ReadBlock(s, v, k);
    if k + 1 < |v.blocks| {
      ReadBlock(s, v, k + 1);
    } else {
      ReadEpilogue(s, v);
    }
    if !v.bits[k] {
      ReadBehind(s, v, k);
      ReadBlock(s, v, k - 1);
    }
  }

  /**
   * After free block k, which no list holds, is merged with blocks lo .. hi
   * around it, every free block of the merged row is in the list of its
   * class, and no list holds a block of the run once the run's first and
   * last blocks are taken out.
   */
  lemma MergeListed(bs: seq<Block>, ls: seq<seq<Block>>, k: int, lo: int, hi: int)
    requires Tiled(bs) && 1 <= k < |bs| && !bs[k].alloc && Listed(bs, ls, k)
    requires (lo == k || (lo == k - 1 && !bs[k - 1].alloc)) && hi == MergeHi(bs, k)
    ensures var ls1 := Strip(Strip(ls, bs[lo]), bs[hi]); var nb := Merged(bs, lo, hi);
      && Listed(Splice(bs, lo, hi + 1, [nb]), ls1[ClassOf(nb.size) := InsertSorted(ls1[ClassOf(nb.size)], nb)], -1)
      && Unlisted(bs, ls1, lo, hi + 1)
  {
    var nb := Merged(bs, lo, hi);
    var ls1 := Strip(Strip(ls, bs[lo]), bs[hi]);
    var c := ClassOf(nb.size);
    var ls' := ls1[c := InsertSorted(ls1[c], nb)];
    var r := Splice(bs, lo, hi + 1, [nb]);
    assert |r| == |bs| - (hi - lo);
    MergeUnlisted(bs, ls, k, lo, hi);
    InsertSortedHas(ls1[c], nb);
    forall x | 0 <= x < |r| && !r[x].alloc ensures r[x] in ls'[ClassOf(r[x].size)] {
      SpliceSource(bs, lo, hi + 1, [nb], x);
      if x != lo {
        var y := if x < lo then x else x + hi - lo;
        MergeKept(bs, ls, k, lo, hi, y);
      }
    }
  }

  /** No list holds a block of the run once its first and last blocks are taken out. */
  lemma MergeUnlisted(bs: seq<Block>, ls: seq<seq<Block>>, k: int, lo: int, hi: int)
    requires Tiled(bs) && 1 <= k < |bs| && !bs[k].alloc && Listed(bs, ls, k)
    requires (lo == k || (lo == k - 1 && !bs[k - 1].alloc)) && hi == MergeHi(bs, k)
    ensures Unlisted(bs, Strip(Strip(ls, bs[lo]), bs[hi]), lo, hi + 1)
  { }

  /** A free block outside the run stays in its class's list once the run's first and last blocks are taken out. */
  lemma MergeKept(bs: seq<Block>, ls: seq<seq<Block>>, k: int, lo: int, hi: int, y: int)
    requires Tiled(bs) && 1 <= k < |bs| && !bs[k].alloc && Listed(bs, ls, k)
    requires (lo == k || (lo == k - 1 && !bs[k - 1].alloc)) && hi == MergeHi(bs, k)
    requires 0 <= y < |bs| && (y < lo || hi < y) && !bs[y].alloc
    ensures bs[y] in Strip(Strip(ls, bs[lo]), bs[hi])[ClassOf(bs[y].size)]
  {
    Distinct(bs, y);
  }

  /** The block that covers lo .. hi, when lo is free, is a well-sized free block inside the heap. */
  lemma MergedSized(start: int, bs: seq<Block>, lo: int, hi: int)
    requires Laid(start, bs) && 1 <= lo <= hi < |bs| && !bs[lo].alloc
    ensures var nb := Merged(bs, lo, hi);
      && Tiled([nb]) && Sized([nb]) && Stop([nb]) == End(bs[hi])
      && MIN_BLOCK_SIZE <= nb.size < Word32 - 8 && nb.size % 8 == 0 && HeadsEnd(start) < nb.addr
  {
    var nb := Merged(bs, lo, hi);
    assert bs[lo] in bs && bs[hi] in bs && bs[0] in bs;
    if lo < hi {
      TiledOrder(bs, lo, hi);
    }
    TiledOrder(bs, 0, lo);
    Within(bs);
    assert nb in [nb] ==> nb == nb;
  }

  /** Blocks lo .. hi written over as one free block whose header keeps block lo's bit: the row holds for the merged row. */
  lemma RetagRow(s: State, v: View, lo: int, hi: int)
    requires Row(s, v) && 1 <= lo <= hi < |v.blocks| && !v.blocks[lo].alloc
    ensures var nb := Merged(v.blocks, lo, hi);
      var m' := Retag(s.mem, nb.addr, nb.size, v.bits[lo]);
      && Row(s.(mem := m'), View(Splice(v.blocks, lo, hi + 1, [nb]), v.bits[..lo] + [v.bits[lo]] + v.bits[hi + 1..], v.lists))
      && FootOk(m', nb) && SameOutside(s.mem, m', v.blocks[lo].addr, End(v.blocks[hi]))
  {
    var bs := v.blocks;
    var nb := Merged(bs, lo, hi);
    var m' := Retag(s.mem, nb.addr, nb.size, v.bits[lo]);
    MergedSized(s.start, bs, lo, hi);
    RetagFacts(s.mem, nb.addr, nb.size, v.bits[lo]);
    MergeRow(s, v, lo, hi, m');
  }

  /** Any memory that holds the merged block's header and footer and changes nothing else keeps the row. */
  lemma MergeRow(s: State, v: View, lo: int, hi: int, m': Mem)
    requires Row(s, v) && 1 <= lo <= hi < |v.blocks| && !v.blocks[lo].alloc
    requires var nb := Merged(v.blocks, lo, hi);
      && SameOutside(s.mem, m', nb.addr, End(nb)) && Load(m', nb.addr) == Tag(nb.size, v.bits[lo], false) && FootOk(m', nb)
    ensures Row(s.(mem := m'), View(Splice(v.blocks, lo, hi + 1, [Merged(v.blocks, lo, hi)]), v.bits[..lo] + [v.bits[lo]] + v.bits[hi + 1..], v.lists))
  {
    MergedSized(s.start, v.blocks, lo, hi);
    SpliceOne(s, v, lo, hi + 1, Merged(v.blocks, lo, hi), v.bits[lo], m');
  }

  /** Retag writes header and footer of a free block and nothing else. */
  lemma RetagFacts(m: Mem, h: int, size: int, prevAlloc: bool)
    requires size % 8 == 0 && DSIZE <= size < Word32 - 8
    ensures var m' := Retag(m, h, size, prevAlloc);
      && SameOutside(m, m', h, h + size) && Load(m', h) == Tag(size, prevAlloc, false)
      && FootOk(m', Block(h, size, false))
  {
    RetagIs(m, h, size, prevAlloc);
  }

  /** SpliceRow for a single new block. */
  lemma SpliceOne(s: State, v: View, i: int, j: int, nb: Block, bit: bool, m': Mem)
    requires Row(s, v) && 1 <= i < j <= |v.blocks|
    requires nb.addr == v.blocks[i].addr && End(nb) == End(v.blocks[j - 1]) && bit == v.bits[i]
    requires nb.size % 8 == 0 && nb.size >= MIN_BLOCK_SIZE
    requires SameOutside(s.mem, m', nb.addr, End(nb))
    requires Load(m', nb.addr) == Tag(nb.size, bit, nb.alloc)
    requires !v.bits[j] ==> !nb.alloc && FootOk(m', nb)
    ensures Row(s.(mem := m'), View(Splice(v.blocks, i, j, [nb]), v.bits[..i] + [bit] + v.bits[j..], v.lists))
  {
    assert v.blocks[i] in v.blocks;
    assert forall b {:trigger b in [nb]} :: b in [nb] ==> b == nb;
    SpliceRow(s, v, i, j, [nb], [bit], m');
  }

  /**
   * Blocks lo .. hi, which no list holds, written over as one free block
   * whose header keeps block lo's bit: the shape holds for the merged row,
   * and the merged block has its footer and is in no list.
   */
  lemma RetagShape(s: State, v: View, lo: int, hi: int)
    requires Shape(s, v) && 1 <= lo <= hi < |v.blocks| && !v.blocks[lo].alloc && Unlisted(v.blocks, v.lists, lo, hi + 1)
    ensures var nb := Merged(v.blocks, lo, hi);
      var m' := Retag(s.mem, nb.addr, nb.size, v.bits[lo]);
      && Shape(s.(mem := m'), View(Splice(v.blocks, lo, hi + 1, [nb]), v.bits[..lo] + [v.bits[lo]] + v.bits[hi + 1..], v.lists))
      && FootOk(m', nb) && (forall c :: 0 <= c < CLASSES ==> nb !in v.lists[c])
  {
    var bs := v.blocks;
    var nb := Merged(bs, lo, hi);
    var m' := Retag(s.mem, nb.addr, nb.size, v.bits[lo]);
    RetagRow(s, v, lo, hi);
    SpliceThreaded(s, v, lo, hi + 1, [nb], m');
    assert nb.size > 0 by {
      MergedSized(s.start, bs, lo, hi);
    }
    assert forall c :: 0 <= c < CLASSES ==> nb !in v.lists[c];
  }

  /** Retag and link_blk on blocks lo .. hi, which no list holds: the shape holds for the merged row with the merged block listed. */
  lemma RejoinShape(s: State, v: View, lo: int, hi: int)
    requires Shape(s, v) && 1 <= lo <= hi < |v.blocks| && !v.blocks[lo].alloc && Unlisted(v.blocks, v.lists, lo, hi + 1)
    ensures var nb := Merged(v.blocks, lo, hi);
      var m' := Rejoin(s.mem, s.start, nb.addr, nb.size, v.bits[lo]);
      var c := ClassOf(nb.size);
      && Shape(s.(mem := m'), View(Splice(v.blocks, lo, hi + 1, [nb]), v.bits[..lo] + [v.bits[lo]] + v.bits[hi + 1..],
                                   v.lists[c := InsertSorted(v.lists[c], nb)]))
      && FootOk(m', nb)
  {
    var bs := v.blocks;
    var nb := Merged(bs, lo, hi);
    var m2 := Retag(s.mem, nb.addr, nb.size, v.bits[lo]);
    var v2 := View(Splice(bs, lo, hi + 1, [nb]), v.bits[..lo] + [v.bits[lo]] + v.bits[hi + 1..], v.lists);
    RetagShape(s, v, lo, hi);
    assert v2.blocks[lo] == nb;
    LinkShape(s.(mem := m2), v2, lo);
    assert nb in v2.blocks;
  }

  /** Retag and link_blk leave the words of the merged block past its link words and before its footer alone. */
  lemma RejoinFrame(s: State, v: View, lo: int, hi: int, y: int)
    requires Shape(s, v) && 1 <= lo <= hi < |v.blocks| && !v.blocks[lo].alloc && Unlisted(v.blocks, v.lists, lo, hi + 1)
    requires v.blocks[lo].addr + 20 <= y < End(v.blocks[hi]) - WSIZE
    ensures var nb := Merged(v.blocks, lo, hi);
      Load(Rejoin(s.mem, s.start, nb.addr, nb.size, v.bits[lo]), y) == Load(s.mem, y)
  {
    var bs := v.blocks;
    var nb := Merged(bs, lo, hi);
    var m2 := Retag(s.mem, nb.addr, nb.size, v.bits[lo]);
    var v2 := View(Splice(bs, lo, hi + 1, [nb]), v.bits[..lo] + [v.bits[lo]] + v.bits[hi + 1..], v.lists);
    RetagShape(s, v, lo, hi);
    MergedSized(s.start, bs, lo, hi);
    RetagIs(s.mem, nb.addr, nb.size, v.bits[lo]);
    assert v2.blocks[lo] == nb;
    InteriorOff(v2.blocks, lo, y);
    LinkFrame(s.(mem := m2), v2, lo, y);
  }

  /** Both neighbours in use, as the bit and the next header say: the block is linked as it is. */
  lemma CoalesceAlone(s: State, v: View, k: int)
    requires Freed(s, v, k) && v.bits[k] && MergeHi(v.blocks, k) == k
    ensures var r := Coalesce(s, v.blocks[k].addr);
      Rep(r.0, MergeView(v, k)) && r.1 == v.blocks[k].addr
  {
    var bs := v.blocks;
    var b := bs[k];
    CoalesceReads(s, v, k);
    LinkShape(s, v, k);
    assert Merged(bs, k, k) == b;
    SpliceSelf(bs, k);
    assert v.bits[..k] + [v.bits[k]] + v.bits[k + 1..] == v.bits;
    StripAbsent(v.lists, b);
    MergeListed(bs, v.lists, k, k, k);
  }

  /** Only the block after is free: both are rewritten as one and linked, and the header after them has its bit cleared. */
  lemma CoalesceNext(s: State, v: View, k: int)
    requires Freed(s, v, k) && v.bits[k] && MergeHi(v.blocks, k) == k + 1
    ensures var r := Coalesce(s, v.blocks[k].addr);
      Rep(r.0, MergeView(v, k)) && r.1 == v.blocks[k].addr
  {
    var bs, ls := v.blocks, v.lists;
    var h := bs[k].addr;
    var nx := bs[k + 1];
    var nb := Merged(bs, k, k + 1);
    var m1 := Unlink(s.mem, s.start, nx.addr);
    var m2 := Rejoin(m1, s.start, h, nb.size, v.bits[k]);
    var ls1 := Strip(ls, nx);
    var c := ClassOf(nb.size);
    var v2 := View(Splice(bs, k, k + 2, [nb]), v.bits[..k] + [v.bits[k]] + v.bits[k + 2..], ls1[c := InsertSorted(ls1[c], nb)]);
    var v3 := v2.(bits := v2.bits[k + 1 := false]);
    assert Coalesce(s, h) == (s.(mem := SetBit(m2, NextNeighbor(m2, h), false)), h) by {
      CoalesceReads(s, v, k);
    }
    assert MergeView(v, k) == v3 by {
      StripAbsent(ls, bs[k]);
    }
    assert Shape(s.(mem := m2), v2) && FootOk(m2, nb) by {
      assert nx in ls[ClassOf(nx.size)];
      UnlinkBlock(s, v, nx);
      StripAbsent(ls, bs[k]);
      MergeListed(bs, ls, k, k, k + 1);
      RejoinShape(s.(mem := m1), v.(lists := ls1), k, k + 1);
    }
    assert v2.blocks[k] == nb;
    assert NextNeighbor(m2, h) == HeaderAt(v2.blocks, k + 1) by {
      ReadBlock(s.(mem := m2), v2, k);
    }
    BitShape(s.(mem := m2), v2, k + 1, false);
    assert Listed(v3.blocks, v3.lists, -1) by {
      StripAbsent(ls, bs[k]);
      MergeListed(bs, ls, k, k, k + 1);
    }
  }

  /** Only the block before is free: it is unlinked, and the two are rewritten as one, with its bit, and linked. */
  lemma CoalescePrev(s: State, v: View, k: int)
    requires Freed(s, v, k) && !v.bits[k] && MergeHi(v.blocks, k) == k
    ensures var r := Coalesce(s, v.blocks[k].addr);
      Rep(r.0, MergeView(v, k)) && r.1 == v.blocks[k - 1].addr
  {
    var bs, ls := v.blocks, v.lists;
    var pv := bs[k - 1];
    CoalesceReads(s, v, k);
    ReadBlock(s, v, k - 1);
    assert pv in ls[ClassOf(pv.size)];
    UnlinkBlock(s, v, pv);
    var m1 := Unlink(s.mem, s.start, pv.addr);
    var ls1 := Strip(ls, pv);
    assert pv in bs;
    assert Load(m1, pv.addr) == Load(s.mem, pv.addr);
    StripAbsent(ls1, bs[k]);
    MergeListed(bs, ls, k, k - 1, k);
    RejoinShape(s.(mem := m1), v.(lists := ls1), k - 1, k);
  }

  /** Both neighbours taken off their lists: the shape holds without them, and the headers of the first two blocks are untouched. */
  lemma BothUnlinked(s: State, v: View, k: int)
    requires Freed(s, v, k) && !v.bits[k] && MergeHi(v.blocks, k) == k + 1
    ensures var bs := v.blocks; var m1 := Unlink(Unlink(s.mem, s.start, bs[k - 1].addr), s.start, bs[k + 1].addr);
      && Shape(s.(mem := m1), v.(lists := Strip(Strip(v.lists, bs[k - 1]), bs[k + 1])))
      && Load(m1, bs[k - 1].addr) == Load(s.mem, bs[k - 1].addr) && Load(m1, bs[k].addr) == Load(s.mem, bs[k].addr)
  {
    var bs, ls := v.blocks, v.lists;
    var pv, nx := bs[k - 1], bs[k + 1];
    ReadBehind(s, v, k);
    assert pv in ls[ClassOf(pv.size)] && nx in ls[ClassOf(nx.size)];
    UnlinkBlock(s, v, pv);
    Distinct(bs, k + 1);
    assert nx in Strip(ls, pv)[ClassOf(nx.size)];
    UnlinkBlock(s.(mem := Unlink(s.mem, s.start, pv.addr)), v.(lists := Strip(ls, pv)), nx);
    assert pv in bs && bs[k] in bs;
  }

  /** What coalesce does at h when both neighbours are free, from the words it reads. */
  lemma CoalesceBothIs(s: State, h: int, nx: int, pv: int, size: int, bit: bool, m1: Mem)
    requires !ExtractPrevAlloc(s.mem, h) && NextNeighbor(s.mem, h) == nx && !ExtractAlloc(s.mem, nx) && PrevNeighbor(s.mem, h) == pv
    requires size == ExtractSize(s.mem, h) + (ExtractSize(s.mem, pv) + ExtractSize(s.mem, nx))
    requires m1 == Unlink(Unlink(s.mem, s.start, pv), s.start, nx) && ExtractPrevAlloc(m1, pv) == bit
    ensures Coalesce(s, h) == (s.(mem := Relink(m1, s.start, pv, h, size, bit)), pv)
  {
    var m := s.mem;
    assert ExtractPrevAlloc(m, h) == false && ExtractAlloc(m, NextNeighbor(m, h)) == false;
    var n1 := Unlink(Unlink(m, s.start, PrevNeighbor(m, h)), s.start, NextNeighbor(m, h));
    assert n1 == m1;
  }

  /** The merged view for a block with both neighbours free. */
  lemma BothView(v: View, k: int)
    requires 1 <= k && k + 1 < |v.blocks| && |v.bits| == |v.blocks| + 1 && |v.lists| == CLASSES
    requires !v.bits[k] && MergeHi(v.blocks, k) == k + 1
    ensures var bs := v.blocks; var nb := Merged(bs, k - 1, k + 1); var ls1 := Strip(Strip(v.lists, bs[k - 1]), bs[k + 1]);
      MergeView(v, k) == View(Splice(bs, k - 1, k + 2, [nb]), v.bits[..k - 1] + [v.bits[k - 1]] + v.bits[k + 2..],
                              ls1[ClassOf(nb.size) := InsertSorted(ls1[ClassOf(nb.size)], nb)])
  {
  }

  /** After the rewrite, the header of the old block k still leads to the old block after it. */
  lemma BothNext(s: State, v: View, k: int)
    requires Shape(s, v) && 2 <= k && k + 1 < |v.blocks| && !v.blocks[k - 1].alloc && Unlisted(v.blocks, v.lists, k - 1, k + 2)
    ensures var nb := Merged(v.blocks, k - 1, k + 1);
      NextNeighbor(Rejoin(s.mem, s.start, nb.addr, nb.size, v.bits[k - 1]), v.blocks[k].addr) == v.blocks[k + 1].addr
  {
    ReadBlock(s, v, k - 1);
    ReadBlock(s, v, k);
    ReadBlock(s, v, k + 1);
    RejoinFrame(s, v, k - 1, k + 1, v.blocks[k].addr);
  }

  /** Clearing the bit in the old next block's header, now a word inside the merged block, keeps the shape. */
  lemma BothScratch(s: State, v2: View, k: int, a: int)
    requires Shape(s, v2) && 0 <= k - 1 < |v2.blocks| && v2.blocks[k - 1].addr + 20 <= a < End(v2.blocks[k - 1]) - WSIZE
    ensures Shape(s.(mem := SetBit(s.mem, a, false)), v2)
  {
    SetBitAt(s.mem, a, false);
    ScratchShape(s, v2, k - 1, a, Load(SetBit(s.mem, a, false), a));
  }

  /** Blocks k - 1 .. k + 1, which no list holds, rejoined as one and the bit in the old header of block k + 1 cleared: the shape holds for the merged row. */
  lemma BothShape(s: State, v: View, k: int)
    requires Shape(s, v) && 2 <= k && k + 1 < |v.blocks| && !v.blocks[k - 1].alloc && Unlisted(v.blocks, v.lists, k - 1, k + 2)
    ensures var bs := v.blocks; var nb := Merged(bs, k - 1, k + 1); var c := ClassOf(nb.size);
      Shape(s.(mem := Relink(s.mem, s.start, nb.addr, bs[k].addr, nb.size, v.bits[k - 1])),
            View(Splice(bs, k - 1, k + 2, [nb]), v.bits[..k - 1] + [v.bits[k - 1]] + v.bits[k + 2..], v.lists[c := InsertSorted(v.lists[c], nb)]))
  {
    var bs := v.blocks;
    var nb := Merged(bs, k - 1, k + 1);
    var c := ClassOf(nb.size);
    var m2 := Rejoin(s.mem, s.start, nb.addr, nb.size, v.bits[k - 1]);
    var v2 := View(Splice(bs, k - 1, k + 2, [nb]), v.bits[..k - 1] + [v.bits[k - 1]] + v.bits[k + 2..], v.lists[c := InsertSorted(v.lists[c], nb)]);
    RejoinShape(s, v, k - 1, k + 1);
    BothNext(s, v, k);
    ReadBlock(s, v, k - 1);
    ReadBlock(s, v, k);
    ReadBlock(s, v, k + 1);
    assert v2.blocks[k - 1] == nb;
    BothScratch(s.(mem := m2), v2, k, bs[k + 1].addr);
  }

  /** The shape carries over to equal arguments. */
  lemma ShapeSame(s: State, v: View, s': State, v': View)
    requires s == s' && v == v'
    ensures Shape(s, v) ==> Shape(s', v')
  {
  }

  /** Both neighbours free: both are unlinked, the three are rewritten as one and linked, and a scratch word inside is rewritten. */
  lemma CoalesceBoth(s: State, v: View, k: int)
    requires Freed(s, v, k) && !v.bits[k] && MergeHi(v.blocks, k) == k + 1
    ensures var r := Coalesce(s, v.blocks[k].addr);
      Rep(r.0, MergeView(v, k)) && r.1 == v.blocks[k - 1].addr
  {
    var bs, ls := v.blocks, v.lists;
    var pv, nx := bs[k - 1], bs[k + 1];
    var nb := Merged(bs, k - 1, k + 1);
    var m1 := Unlink(Unlink(s.mem, s.start, pv.addr), s.start, nx.addr);
    var ls1 := Strip(Strip(ls, pv), nx);
    var c := ClassOf(nb.size);
    var v2 := View(Splice(bs, k - 1, k + 2, [nb]), v.bits[..k - 1] + [v.bits[k - 1]] + v.bits[k + 2..], ls1[c := InsertSorted(ls1[c], nb)]);
    var s2 := s.(mem := Relink(m1, s.start, pv.addr, bs[k].addr, nb.size, v.bits[k - 1]));
    CoalesceReads(s, v, k);
    ReadBlock(s, v, k - 1);
    ReadBlock(s, v, k);
    assert bs[0].alloc;
    BothUnlinked(s, v, k);
    MergeListed(bs, ls, k, k - 1, k + 1);
    CoalesceBothIs(s, bs[k].addr, nx.addr, pv.addr, nb.size, v.bits[k - 1], m1);
    BothView(v, k);
    BothShape(s.(mem := m1), v.(lists := ls1), k);
    ShapeSame(s.(mem := m1).(mem := s2.mem), View(Splice(bs, k - 1, k + 2, [nb]), v.bits[..k - 1] + [v.bits[k - 1]] + v.bits[k + 2..], ls1[c := InsertSorted(ls1[c], nb)]), s2, v2);
  }

  /**
   * coalesce on a free block no list holds, every other free block being
   * listed: the heap is consistent again for the merged view, and the
   * block returned is the merged one.
   */
  lemma CoalesceRefines(s: State, v: View, k: int)
    requires Freed(s, v, k)
    ensures var r := Coalesce(s, v.blocks[k].addr); var v' := MergeView(v, k);
      && Rep(r.0, v') && r.0.start == s.start && r.0.brk == s.brk
      && 0 <= MergeFrom(v, k) < |v'.blocks| && r.1 == v'.blocks[MergeFrom(v, k)].addr
  {
    var bs := v.blocks;
    var lo, hi := MergeFrom(v, k), MergeHi(bs, k);
    CoalesceKeeps(s, bs[k].addr);
    if !v.bits[k] {
      ReadBehind(s, v, k);
    }
    assert Splice(bs, lo, hi + 1, [Merged(bs, lo, hi)])[lo] == Merged(bs, lo, hi);
    if v.bits[k] && hi == k {
      CoalesceAlone(s, v, k);
    } else if v.bits[k] {
      CoalesceNext(s, v, k);
    } else if hi == k {
      CoalescePrev(s, v, k);
    } else {
      CoalesceBoth(s, v, k);
    }
  }
}

=== FILE: final_api.dfy ===
/**
 * labs/malloclab/mm-final.c, mm_init, first_fit, mm_malloc and mm_free,
 * over the State and View of Final and the place and extend_heap of
 * FinalOps.  mm_realloc is in FinalRealloc and mm_checkheap in FinalCheck.
 */
module FinalApi {
  import opened Twos
  import opened Heap
  import opened Buckets
  import opened Final
  import opened FinalOps

  // ---------------------------------------------------------------------------
  // mm_init

  /**
   * mm_init's stores once mem_sbrk has returned p: the eight NULL heads, a
   * zero padding word, the prologue header (8 bytes, both bits set), a
   * zero padding word where a footer would be, and the epilogue header
   * with its prev-alloc bit set; size_class_start becomes p.
   */
  function Prologue(s: State, p: int): State {
    var m1 := ClearHeads(s.mem, p, 0);
    var pro := HeadsEnd(p) + WSIZE;
    var m2 := WriteHeader(Store32(m1, HeadsEnd(p), 0), pro, DSIZE, true, true);
    var m3 := Store32(m2, pro + WSIZE, 0);
    s.(mem := WriteHeader(m3, pro + DSIZE, 0, true, true), start := p)
  }

  /**
   * mm_init: take 10 double words from mem_sbrk for the heads, padding,
   * prologue and epilogue, then extend the heap by CHUNKSIZE bytes.  The
   * flags say whether memlib grants each of the two mem_sbrk calls.  When
   * the first is refused size_class_start holds (void *)-1, as mem_sbrk
   * returned it.  The result is 0, or -1 when either call fails.
   */
  function Init(s: State, grant1: bool, grant2: bool): (State, int) {
    var p := Sbrk(s.brk, 10 * DSIZE, grant1);
    if p == -1 then (s.(start := -1), -1)
    else
      var e := ExtendHeap(Prologue(s.(brk := s.brk + 10 * DSIZE), p), CHUNKSIZE, grant2);
      (e.0, if e.1 == 0 then -1 else 0)
  }

  /** The prologue alone, with the heads at p: both bits set and every list empty. */
  function PrologueView(p: int): View {
    View([Block(HeadsEnd(p) + WSIZE, DSIZE, true)], [true, true], NoLists())
  }

  /** The heap mm_init leaves: the prologue, then one free chunk, alone in its list. */
  function InitView(p: int): View {
    var b := Block(HeadsEnd(p) + 3 * WSIZE, CHUNKSIZE, false);
    View([Block(HeadsEnd(p) + WSIZE, DSIZE, true), b], [true, true, false], NoLists()[ClassOf(CHUNKSIZE) := [b]])
  }

  /** mm_init's stores after the loop, spelled out. */
  lemma PrologueWrites(s: State, p: int)
    ensures var pro := HeadsEnd(p) + WSIZE;
      && Prologue(s, p).mem == ClearHeads(s.mem, p, 0)[HeadsEnd(p) := 0][pro := Tag(DSIZE, true, true)][pro + WSIZE := 0][pro + DSIZE := Tag(0, true, true)]
      && Prologue(s, p).start == p && Prologue(s, p).brk == s.brk
  {
    var m1 := ClearHeads(s.mem, p, 0);
    var pro := HeadsEnd(p) + WSIZE;
    var m2 := m1[HeadsEnd(p) := 0];
    assert Store32(m1, HeadsEnd(p), 0) == m2;
    StoreTag(m2, pro, DSIZE, true, true);
    var m3 := m2[pro := Tag(DSIZE, true, true)][pro + WSIZE := 0];
    assert Store32(m2[pro := Tag(DSIZE, true, true)], pro + WSIZE, 0) == m3;
    StoreTag(m3, pro + DSIZE, 0, true, true);
  }

  /** What mm_init's stores leave: NULL heads, the prologue header and the epilogue. */
  lemma PrologueLoads(m1: Mem, p: int)
    requires Heads(p) && forall c :: 0 <= c < CLASSES ==> LoadPtr(m1, Slot(p, c)) == 0
    ensures var pro := HeadsEnd(p) + WSIZE;
      var m := m1[HeadsEnd(p) := 0][pro := Tag(DSIZE, true, true)][pro + WSIZE := 0][pro + DSIZE := Tag(0, true, true)];
      && (forall c :: 0 <= c < CLASSES ==> LoadPtr(m, Slot(p, c)) == 0)
      && Load(m, pro) == Tag(DSIZE, true, true) && Load(m, pro + DSIZE) == Tag(0, true, true)
  {
    var pro := HeadsEnd(p) + WSIZE;
    var m := m1[HeadsEnd(p) := 0][pro := Tag(DSIZE, true, true)][pro + WSIZE := 0][pro + DSIZE := Tag(0, true, true)];
    forall c | 0 <= c < CLASSES ensures LoadPtr(m, Slot(p, c)) == 0 {
      assert LoadPtr(m1, Slot(p, c)) == 0;
    }
  }

  /** A state whose heads are NULL and which holds the prologue and the epilogue, with the break after it, is the prologue view. */
  lemma PrologueState(s: State, p: int)
    requires Heads(p) && p + 10 * DSIZE <= HeapLimit && s.start == p && s.brk == p + 10 * DSIZE
    requires forall c :: 0 <= c < CLASSES ==> LoadPtr(s.mem, Slot(p, c)) == 0
    requires Load(s.mem, HeadsEnd(p) + WSIZE) == Tag(DSIZE, true, true)
    requires Load(s.mem, HeadsEnd(p) + 3 * WSIZE) == Tag(0, true, true)
    ensures Rep(s, PrologueView(p))
  {
    var v := PrologueView(p);
    var bs := v.blocks;
    assert forall b {:trigger b in bs} :: b in bs ==> b == bs[0];
    assert HeadOk(s.mem, v, 0);
    forall c | 0 <= c < CLASSES ensures Bucket(s.mem, s.start, bs, v.lists, c) {
      assert Chain(s.mem, Slot(p, c), Addrs(v.lists[c]));
    }
    RowFrom(s, v);
  }

  /** After mm_init's stores the heap holds the prologue alone, every list empty. */
  lemma PrologueRep(s: State, p: int)
    requires Heads(p) && p + 10 * DSIZE <= HeapLimit
    ensures var s1 := Prologue(s.(brk := p + 10 * DSIZE), p);
      Rep(s1, PrologueView(p)) && s1.start == p && s1.brk == p + 10 * DSIZE
  {
    var s0 := s.(brk := p + 10 * DSIZE);
    ClearHeadsLoads(s0.mem, p, 0);
    PrologueWrites(s0, p);
    PrologueLoads(ClearHeads(s0.mem, p, 0), p);
    PrologueState(Prologue(s0, p), p);
  }

  /** Extending the lone prologue by a chunk gives InitView. */
  lemma InitViewIs(p: int)
    ensures ExtendView(PrologueView(p), CHUNKSIZE) == InitView(p)
  {
    var v := PrologueView(p);
    var b := Block(HeadsEnd(p) + 3 * WSIZE, CHUNKSIZE, false);
    var cv := ChunkView(v, CHUNKSIZE);
    var bs := cv.blocks;
    assert bs[1] == b;
    assert MergeFrom(cv, 1) == 1 && MergeHi(bs, 1) == 1;
    assert Merged(bs, 1, 1) == b;
    SpliceSelf(bs, 1);
    StripAbsent(NoLists(), b);
    assert InsertSorted(NoLists()[ClassOf(CHUNKSIZE)], b) == [b];
    assert cv.bits[..1] + [cv.bits[1]] + cv.bits[2..] == [true, true, false];
  }

  lemma ChunkSize()
    ensures RoundUp(CHUNKSIZE) == CHUNKSIZE
  {
    RoundUpIs(CHUNKSIZE);
  }

  /** With the first request granted, mm_init extends the heap from the prologue state. */
  lemma InitGranted(s: State, grant1: bool, grant2: bool)
    requires 0 < s.brk && grant1 && s.brk + 10 * DSIZE <= HeapLimit
    ensures var e := ExtendHeap(Prologue(s.(brk := s.brk + 10 * DSIZE), s.brk), CHUNKSIZE, grant2);
      Init(s, grant1, grant2) == (e.0, if e.1 == 0 then -1 else 0)
  {
    assert Sbrk(s.brk, 10 * DSIZE, grant1) == s.brk;
  }

  /** The first chunk: extend_heap on the prologue state, granted, gives InitView and a non-NULL block. */
  lemma ChunkOnPrologue(s: State, p: int, grant2: bool)
    requires Heads(p) && grant2 && p + 10 * DSIZE + CHUNKSIZE <= HeapLimit
    ensures var e := ExtendHeap(Prologue(s.(brk := p + 10 * DSIZE), p), CHUNKSIZE, grant2);
      Rep(e.0, InitView(p)) && e.1 != 0 && e.0.start == p && e.0.brk == p + 10 * DSIZE + CHUNKSIZE
  {
    var s1 := Prologue(s.(brk := p + 10 * DSIZE), p);
    PrologueRep(s, p);
    ChunkSize();
    ExtendRefines(s1, PrologueView(p), CHUNKSIZE, grant2);
    InitViewIs(p);
  }

  /** With the chunk refused, extend_heap leaves the prologue state and returns NULL. */
  lemma NoChunkOnPrologue(s: State, p: int, grant2: bool)
    requires Heads(p) && p + 10 * DSIZE <= HeapLimit && !(grant2 && p + 10 * DSIZE + CHUNKSIZE <= HeapLimit)
    ensures var s1 := Prologue(s.(brk := p + 10 * DSIZE), p);
      ExtendHeap(s1, CHUNKSIZE, grant2) == (s1, 0) && Rep(s1, PrologueView(p)) && s1.start == p
  {
    var s1 := Prologue(s.(brk := p + 10 * DSIZE), p);
    PrologueRep(s, p);
    ChunkSize();
    ExtendRefines(s1, PrologueView(p), CHUNKSIZE, grant2);
  }

  /**
   * mm_init on a heap whose break is 8-aligned: when mem_sbrk refuses the
   * first request the result is -1 and size_class_start is (void *)-1;
   * when it grants it but refuses the chunk, the heap holds the prologue
   * alone and the result is -1; when it grants both the result is 0 and
   * the heap holds the prologue and one free chunk of CHUNKSIZE bytes in
   * its list.
   */
  lemma InitRefines(s: State, grant1: bool, grant2: bool)
    requires 0 < s.brk && s.brk % 8 == 0
    ensures !(grant1 && s.brk + 10 * DSIZE <= HeapLimit) ==> Init(s, grant1, grant2) == (s.(start := -1), -1)
    ensures grant1 && s.brk + 10 * DSIZE <= HeapLimit && !(grant2 && s.brk + 10 * DSIZE + CHUNKSIZE <= HeapLimit) ==>
      var r := Init(s, grant1, grant2);
      r.1 == -1 && Rep(r.0, PrologueView(s.brk)) && r.0.start == s.brk
    ensures grant1 && grant2 && s.brk + 10 * DSIZE + CHUNKSIZE <= HeapLimit ==>
      var r := Init(s, grant1, grant2);
      r.1 == 0 && Rep(r.0, InitView(s.brk)) && r.0.start == s.brk
  {
    if grant1 && s.brk + 10 * DSIZE <= HeapLimit {
      if grant2 && s.brk + 10 * DSIZE + CHUNKSIZE <= HeapLimit {
        InitBoth(s, grant1, grant2);
      } else {
        InitNoChunk(s, grant1, grant2);
      }
    }
  }

  lemma InitBoth(s: State, grant1: bool, grant2: bool)
    requires 0 < s.brk && s.brk % 8 == 0 && grant1 && grant2 && s.brk + 10 * DSIZE + CHUNKSIZE <= HeapLimit
    ensures var r := Init(s, grant1, grant2);
      r.1 == 0 && Rep(r.0, InitView(s.brk)) && r.0.start == s.brk
  {
    var p := s.brk;
    var e := ExtendHeap(Prologue(s.(brk := p + 10 * DSIZE), p), CHUNKSIZE, grant2);
    InitGranted(s, grant1, grant2);
    ChunkOnPrologue(s, p, grant2);
    InitResult(Init(s, grant1, grant2), e, InitView(p), p);
  }

  lemma InitNoChunk(s: State, grant1: bool, grant2: bool)
    requires 0 < s.brk && s.brk % 8 == 0 && grant1 && s.brk + 10 * DSIZE <= HeapLimit
    requires !(grant2 && s.brk + 10 * DSIZE + CHUNKSIZE <= HeapLimit)
    ensures var r := Init(s, grant1, grant2);
      r.1 == -1 && Rep(r.0, PrologueView(s.brk)) && r.0.start == s.brk
  {
    var p := s.brk;
    var e := ExtendHeap(Prologue(s.(brk := p + 10 * DSIZE), p), CHUNKSIZE, grant2);
    InitGranted(s, grant1, grant2);
    NoChunkOnPrologue(s, p, grant2);
    InitResult(Init(s, grant1, grant2), e, PrologueView(p), p);
  }

  /** mm_init's result from extend_heap's. */
  lemma InitResult(r: (State, int), e: (State, int), v: View, p: int)
    requires r == (e.0, if e.1 == 0 then -1 else 0) && Rep(e.0, v) && e.0.start == p
    ensures Rep(r.0, v) && r.0.start == p && r.1 == (if e.1 == 0 then -1 else 0)
  {
  }

  // ---------------------------------------------------------------------------
  // mm_free

  /**
   * mm_free(payload): NULL is ignored; otherwise the header is written
   * twice as free with its size and prev-alloc bit, no footer is written,
   * and the block is coalesced.  The header after it keeps its set bit.
   */
  function Free(s: State, p: int): State {
    if p == 0 then s
    else
      var h := PayloadToHeader(p);
      Coalesce(s.(mem := FreeTags(s.mem, h)), h).0
  }

  /** write_header(h, size, prev_alloc, false), twice, with the size and bit h's header holds. */
  function FreeTags(m: Mem, h: int): Mem {
    var size := ExtractSize(m, h);
    var prevAlloc := ExtractPrevAlloc(m, h);
    WriteHeader(WriteHeader(m, h, size, prevAlloc, false), h, size, prevAlloc, false)
  }

  /** Block k marked free, its bits as they were; no list holds it yet. */
  function UnmarkView(v: View, k: int): View
    requires 0 <= k < |v.blocks|
  {
    View(v.blocks[k := v.blocks[k].(alloc := false)], v.bits, v.lists)
  }

  /** The view mm_free leaves: block k free and merged with its free neighbours. */
  function FreeView(v: View, k: int): View
    requires 1 <= k < |v.blocks| && |v.bits| == |v.blocks| + 1 && |v.lists| == CLASSES
  {
    MergeView(UnmarkView(v, k), k)
  }

  /** mm_free's two header writes, spelled out, for a header holding a tag: the alloc bit cleared. */
  lemma FreeTagsIs(m: Mem, h: int, size: int, prevAlloc: bool)
    requires Load(m, h) == Tag(size, prevAlloc, true) && size % 8 == 0 && 0 <= size < Word32 - 8
    ensures FreeTags(m, h) == m[h := Tag(size, prevAlloc, false)]
  {
    ReadTag(m, h, size, prevAlloc, true);
    StoreTag(m, h, size, prevAlloc, false);
    var m1 := m[h := Tag(size, prevAlloc, false)];
    StoreTag(m1, h, size, prevAlloc, false);
    assert m1[h := Tag(size, prevAlloc, false)] == m1;
  }

  /** An allocated block past the prologue, marked free, is the one free block no list holds. */
  lemma UnmarkFreed(s: State, v: View, k: int)
    requires Rep(s, v) && 1 <= k < |v.blocks| && v.blocks[k].alloc
    ensures var b := v.blocks[k];
      Freed(s.(mem := s.mem[b.addr := Tag(b.size, v.bits[k], false)]), UnmarkView(v, k), k)
  {
    var bs, ls := v.blocks, v.lists;
    var b := bs[k];
    var nb := b.(alloc := false);
    BitOk1(s, v, k);
    forall c | 0 <= c < CLASSES ensures b !in ls[c] && nb !in ls[c] {
      assert Bucket(s.mem, s.start, bs, ls, c);
      if nb in ls[c] {
        var x :| 0 <= x < |bs| && bs[x] == nb;
        if x != k {
          HeadersApart(bs, if x < k then x else k, if x < k then k else x);
        }
      }
    }
    MarkShape(s, v, k, false);
    ShapeSame(s.(mem := s.mem[b.addr := Tag(b.size, v.bits[k], false)]), v.(blocks := bs[k := nb]),
              s.(mem := s.mem[b.addr := Tag(b.size, v.bits[k], false)]), UnmarkView(v, k));
  }

  /**
   * mm_free on the payload of allocated block k: the heap is consistent
   * for FreeView, and only memory changes.
   */
  lemma FreeRefines(s: State, v: View, k: int)
    requires Rep(s, v) && 1 <= k < |v.blocks| && v.blocks[k].alloc
    ensures var r := Free(s, HeaderToPayload(v.blocks[k].addr));
      Rep(r, FreeView(v, k)) && r.start == s.start && r.brk == s.brk
  {
    var b := v.blocks[k];
    var m1 := s.mem[b.addr := Tag(b.size, v.bits[k], false)];
    FreeHead(s, v, k);
    FreeForm(s, b.addr, m1);
    FreeAt(s, v, k, Free(s, HeaderToPayload(b.addr)));
  }

  /** The header of allocated block k, rewritten by mm_free's stores. */
  lemma FreeHead(s: State, v: View, k: int)
    requires Rep(s, v) && 1 <= k < |v.blocks| && v.blocks[k].alloc
    ensures var b := v.blocks[k];
      FreeTags(s.mem, b.addr) == s.mem[b.addr := Tag(b.size, v.bits[k], false)] && 0 < b.addr
  {
    var b := v.blocks[k];
    ReadBlock(s, v, k);
    assert HeadOk(s.mem, v, k);
    FreeTagsIs(s.mem, b.addr, b.size, v.bits[k]);
  }

  /** mm_free on a non-NULL payload, with the stores it makes named m1. */
  lemma FreeForm(s: State, h: int, m1: Mem)
    requires FreeTags(s.mem, h) == m1 && 0 < h
    ensures Free(s, HeaderToPayload(h)) == Coalesce(s.(mem := m1), h).0
  {
    PayloadInverse(h, HeaderToPayload(h));
  }

  /** coalesce after block k's header is marked free. */
  lemma FreeAt(s: State, v: View, k: int, r: State)
    requires Rep(s, v) && 1 <= k < |v.blocks| && v.blocks[k].alloc
    requires var b := v.blocks[k];
      r == Coalesce(s.(mem := s.mem[b.addr := Tag(b.size, v.bits[k], false)]), b.addr).0
    ensures Rep(r, FreeView(v, k)) && r.start == s.start && r.brk == s.brk
  {
    var b := v.blocks[k];
    UnmarkFreed(s, v, k);
    CoalesceRefines(s.(mem := s.mem[b.addr := Tag(b.size, v.bits[k], false)]), UnmarkView(v, k), k);
  }

  // ---------------------------------------------------------------------------
  // Blocks in use

  /** Merging free block k with its free neighbours leaves the blocks in use alone. */
  lemma MergeAllocated(v: View, k: int)
    requires 1 <= k < |v.blocks| && |v.bits| == |v.blocks| + 1 && |v.lists| == CLASSES
    requires !v.blocks[k].alloc && (!v.bits[k] ==> !v.blocks[k - 1].alloc)
    ensures Allocated(MergeView(v, k).blocks) == Allocated(v.blocks)
  {
    var bs := v.blocks;
    SpliceFree(bs, MergeFrom(v, k), MergeHi(bs, k) + 1, [Merged(bs, MergeFrom(v, k), MergeHi(bs, k))]);
  }

  /** place keeps every block in use but the one it takes. */
  lemma PlaceAllocated(v: View, k: int, size: int)
    requires 1 <= k < |v.blocks| && |v.bits| == |v.blocks| + 1 && |v.lists| == CLASSES
    ensures Allocated(v.blocks) - {v.blocks[k]} <= Allocated(PlaceView(v, k, size).blocks)
    ensures !v.blocks[k].alloc ==> Allocated(v.blocks) <= Allocated(PlaceView(v, k, size).blocks)
  {
    var bs, b := v.blocks, v.blocks[k];
    if b.size - size < MIN_BLOCK_SIZE {
      SpliceKeeps(bs, k, k + 1, [b.(alloc := true)], b);
      assert Splice(bs, k, k + 1, [b.(alloc := true)]) == bs[k := b.(alloc := true)];
    } else {
      SplitAllocated(v, k, size);
    }
  }

  /** The splitting branch of place: the rest merges with a free block after it, and no block in use but block k goes. */
  lemma SplitAllocated(v: View, k: int, size: int)
    requires 1 <= k < |v.blocks| && |v.bits| == |v.blocks| + 1 && |v.lists| == CLASSES
    ensures var sv := SplitView(View(v.blocks, v.bits, Strip(v.lists, v.blocks[k])), k, size);
      Allocated(v.blocks) - {v.blocks[k]} <= Allocated(MergeView(sv, k + 1).blocks)
  {
    var bs, b := v.blocks, v.blocks[k];
    var sv := SplitView(View(bs, v.bits, Strip(v.lists, b)), k, size);
    SplitKeeps(bs, k, size);
    assert sv.bits[k + 1];
    MergeAllocated(sv, k + 1);
  }

  /** Cutting block k in two keeps every other block in use and leaves the rest free. */
  lemma SplitKeeps(bs: seq<Block>, k: int, size: int)
    requires 0 <= k < |bs|
    ensures |SplitBlocks(bs, k, size)| == |bs| + 1
    ensures SplitBlocks(bs, k, size)[k + 1] == Block(bs[k].addr + size, bs[k].size - size, false)
    ensures Allocated(bs) - {bs[k]} <= Allocated(SplitBlocks(bs, k, size))
  {
    var b := bs[k];
    SpliceKeeps(bs, k, k + 1, [Block(b.addr, size, true), Block(b.addr + size, b.size - size, false)], b);
  }

  /** extend_heap adds no block in use and takes none away. */
  lemma ExtendAllocated(v: View, bytes: int)
    requires |v.blocks| > 0 && |v.bits| == |v.blocks| + 1 && |v.lists| == CLASSES
    requires !v.bits[|v.blocks|] ==> !v.blocks[|v.blocks| - 1].alloc
    ensures Allocated(ExtendView(v, bytes).blocks) == Allocated(v.blocks)
  {
    var cv := ChunkView(v, bytes);
    SpliceFree(v.blocks, |v.blocks|, |v.blocks|, [Block(Stop(v.blocks), bytes, false)]);
    assert Splice(v.blocks, |v.blocks|, |v.blocks|, [Block(Stop(v.blocks), bytes, false)]) == cv.blocks;
    MergeAllocated(cv, |v.blocks|);
  }

  /** mm_free takes block k out of use and keeps every other block in use. */
  lemma FreeAllocated(v: View, k: int)
    requires 1 <= k < |v.blocks| && |v.bits| == |v.blocks| + 1 && |v.lists| == CLASSES && Tiled(v.blocks)
    requires !v.bits[k] ==> !v.blocks[k - 1].alloc
    ensures Allocated(FreeView(v, k).blocks) == Allocated(v.blocks) - {v.blocks[k]}
  {
    var bs, b := v.blocks, v.blocks[k];
    var us := UnmarkView(v, k).blocks;
    SpliceKeeps(bs, k, k + 1, [b.(alloc := false)], b);
    assert Splice(bs, k, k + 1, [b.(alloc := false)]) == us;
    Distinct(bs, k);
    forall c | c in Allocated(us) ensures c in Allocated(bs) - {b} {
      var x :| 0 <= x < |us| && us[x] == c;
      assert x != k && c == bs[x];
    }
    MergeAllocated(UnmarkView(v, k), k);
  }

  // ---------------------------------------------------------------------------
  // first_fit

  /**
   * The first class from c on whose list holds a block of at least size
   * bytes, and the first such block's position in that list.
   */
  function Fit(ls: seq<seq<Block>>, size: int, c: int): (r: Option<(int, nat)>)
    requires |ls| == CLASSES && 0 <= c <= CLASSES
    ensures r.Some? ==> c <= r.value.0 < CLASSES && r.value.1 < |ls[r.value.0]| && ls[r.value.0][r.value.1].size >= size
    ensures r.Some? ==> forall d, t :: c <= d < r.value.0 && 0 <= t < |ls[d]| ==> ls[d][t].size < size
    ensures r.Some? ==> forall t :: 0 <= t < r.value.1 ==> ls[r.value.0][t].size < size
    ensures r.None? <==> forall d, t :: c <= d < CLASSES && 0 <= t < |ls[d]| ==> ls[d][t].size < size
    decreases CLASSES - c
  {
    if c == CLASSES then None
    else match ListFit(ls[c], size, 0)
      case Some(t) => Some((c, t))
      case None => Fit(ls, size, c + 1)
  }

  /** What first_fit reads at entry t of list c: a free block of the entry's size, then the next entry or NULL. */
  lemma EntryReads(s: State, v: View, c: int, t: int)
    requires Shape(s, v) && 0 <= c < CLASSES && 0 <= t < |v.lists[c]|
    ensures var fl := v.lists[c]; var h := fl[t].addr;
      && h != 0 && !ExtractAlloc(s.mem, h) && ExtractSize(s.mem, h) == fl[t].size
      && NextOf(s.mem, h) == (if t + 1 < |fl| then fl[t + 1].addr else 0)
  {
    var fl := v.lists[c];
    assert Bucket(s.mem, s.start, v.blocks, v.lists, c);
    assert Node(s.mem, Slot(s.start, c), Addrs(fl), t);
    assert fl[t] in fl;
    var x :| 0 <= x < |v.blocks| && v.blocks[x] == fl[t];
    ReadBlock(s, v, x);
  }

  /** Head c names the first entry of list c, or is NULL. */
  lemma HeadReads(s: State, v: View, c: int)
    requires Shape(s, v) && 0 <= c < CLASSES
    ensures LoadPtr(s.mem, Slot(s.start, c)) == if |v.lists[c]| == 0 then 0 else v.lists[c][0].addr
  {
    assert Bucket(s.mem, s.start, v.blocks, v.lists, c);
  }

  /**
   * first_fit(size): from the class size picks up to the last, walk each
   * list from its head and return the first block that is free and holds
   * size bytes; NULL when there is none.  Every listed block is free, so
   * this is Fit, and the result is NULL exactly when no list from that
   * class on holds a block of size bytes.
   */
  method FirstFit(s: State, size: int, ghost v: View) returns (h: int)
    requires Shape(s, v)
    ensures var r := Fit(v.lists, size, ClassOf(size));
      && (r.Some? ==> h == v.lists[r.value.0][r.value.1].addr && h != 0)
      && (r.None? ==> h == 0)
  {
    var index := ClassOf(size);
    while index < CLASSES
      invariant ClassOf(size) <= index <= CLASSES
      invariant Fit(v.lists, size, index) == Fit(v.lists, size, ClassOf(size))
      decreases CLASSES - index
    {
      var ptr := ListFirstFit(s, size, index, v);
      if ptr != 0 {
        return ptr;
      }
      assert Fit(v.lists, size, index) == Fit(v.lists, size, index + 1);
      index := index + 1;
    }
    return 0;
  }

  /** first_fit's walk down list c: the first entry holding size bytes, or NULL when there is none. */
  method ListFirstFit(s: State, size: int, c: int, ghost v: View) returns (h: int)
    requires Shape(s, v) && 0 <= c < CLASSES
    ensures var r := ListFit(v.lists[c], size, 0);
      && (r.Some? ==> h == v.lists[c][r.value].addr && h != 0)
      && (r.None? ==> h == 0)
  {
    var m := s.mem;
    ghost var fl := v.lists[c];
    HeadReads(s, v, c);
    ListReads(s, v, c);
    var ptr := LoadPtr(m, Slot(s.start, c));
    ghost var t := 0;
    while ptr != 0
      invariant 0 <= t <= |fl| && ptr == (if t < |fl| then fl[t].addr else 0)
      invariant ListFit(fl, size, t) == ListFit(fl, size, 0)
      decreases |fl| - t
    {
      EntryReads(s, v, c, t);
      if !ExtractAlloc(m, ptr) && ExtractSize(m, ptr) >= size {
        return ptr;
      }
      ptr := NextOf(m, ptr);
      t := t + 1;
    }
    return 0;
  }

  /** A list entry is a free block of the row past the prologue. */
  lemma ListedAt(s: State, v: View, c: int, t: int) returns (k: int)
    requires Shape(s, v) && 0 <= c < CLASSES && 0 <= t < |v.lists[c]|
    ensures 1 <= k < |v.blocks| && v.blocks[k] == v.lists[c][t] && !v.blocks[k].alloc && 0 < v.blocks[k].addr
  {
    var b := v.lists[c][t];
    assert Bucket(s.mem, s.start, v.blocks, v.lists, c);
    assert b in v.lists[c];
    k :| 0 <= k < |v.blocks| && v.blocks[k] == b;
    ReadBlock(s, v, k);
  }

  // ---------------------------------------------------------------------------
  // mm_malloc

  /** Some allocated block of v has its header at h and at least n bytes. */
  predicate Holds(v: View, h: int, n: int) {
    exists k :: 0 <= k < |v.blocks| && v.blocks[k].addr == h && v.blocks[k].alloc && v.blocks[k].size >= n
  }

  /** max_size(CHUNKSIZE, size): the bytes mm_malloc asks extend_heap for. */
  function GrowBy(size: int): (r: int)
    ensures r >= CHUNKSIZE && r >= size && (r == CHUNKSIZE || r == size)
  {
    if CHUNKSIZE > size then CHUNKSIZE else size
  }

  /**
   * w is v grown by bytes at the top, merged with a free last block, and
   * then a block of size bytes placed in the merged block.
   */
  predicate GrownTo(v: View, bytes: int, size: int, w: View) {
    && |v.blocks| > 0 && |v.bits| == |v.blocks| + 1 && |v.lists| == CLASSES
    && var x, j := ExtendView(v, bytes), MergeFrom(ChunkView(v, bytes), |v.blocks|);
       1 <= j < |x.blocks| && |x.bits| == |x.blocks| + 1 && |x.lists| == CLASSES && w == PlaceView(x, j, size)
  }

  /** Placing size bytes in free block k: the heap stays consistent and block k is allocated with room for them. */
  lemma FitPlaced(s: State, v: View, k: int, size: int)
    requires Rep(s, v) && 1 <= k < |v.blocks| && !v.blocks[k].alloc
    requires size % 8 == 0 && MIN_BLOCK_SIZE <= size <= v.blocks[k].size
    ensures var r, w := Place(s, v.blocks[k].addr, size), PlaceView(v, k, size);
      Rep(r, w) && r.start == s.start && r.brk == s.brk && Holds(w, v.blocks[k].addr, size)
  {
    PlaceRefines(s, v, k, size);
    PlacedAt(v, k, size);
  }

  /** For an aligned request the bytes mm_malloc asks extend_heap for are aligned, and its rounding keeps them. */
  lemma GrowByAligned(size: int)
    requires size % 8 == 0 && 0 <= size <= SizeMax
    ensures GrowBy(size) % 8 == 0 && RoundUp(GrowBy(size)) == GrowBy(size)
  {
    RoundUpIs(GrowBy(size));
  }

  /**
   * Growing the heap by bytes and placing size bytes in the block
   * extend_heap returns: a consistent heap, the break moved by bytes, and
   * an allocated block with room for them at the header returned.
   */
  lemma GrowPlaced(s: State, v: View, bytes: int, size: int) returns (w: View)
    requires Rep(s, v) && size % 8 == 0 && MIN_BLOCK_SIZE <= size <= bytes
    requires bytes % 8 == 0 && CHUNKSIZE <= bytes && s.brk + bytes <= HeapLimit
    ensures var e := ExtendHeap(s, bytes, true); var r := Place(e.0, e.1, size);
      && 0 < e.1 && GrownTo(v, bytes, size, w) && Rep(r, w)
      && r.start == s.start && r.brk == s.brk + bytes && Holds(w, e.1, size)
    ensures Allocated(v.blocks) <= Allocated(w.blocks)
  {
    ReadBlock(s, v, 0);
    assert BitOk(s.mem, v, |v.blocks|);
    ExtendAllocated(v, bytes);
    RoundUpIs(bytes);
    ExtendRefines(s, v, bytes, true);
    GrowBlock(s, v, bytes);
    w := GrownPlaced(s, v, bytes, size, ExtendHeap(s, bytes, true));
  }

  /** GrowPlaced once extend_heap has returned e. */
  lemma GrownPlaced(s: State, v: View, bytes: int, size: int, e: (State, int)) returns (w: View)
    requires |v.blocks| > 0 && |v.bits| == |v.blocks| + 1 && |v.lists| == CLASSES
    requires size % 8 == 0 && MIN_BLOCK_SIZE <= size
    requires var x, j := ExtendView(v, bytes), MergeFrom(ChunkView(v, bytes), |v.blocks|);
      && Rep(e.0, x) && e.0.start == s.start && e.0.brk == s.brk + bytes
      && 1 <= j < |x.blocks| && e.1 == x.blocks[j].addr && 0 < e.1
      && !x.blocks[j].alloc && x.blocks[j].size >= bytes && size <= bytes
    ensures var r := Place(e.0, e.1, size);
      && GrownTo(v, bytes, size, w) && Rep(r, w)
      && r.start == s.start && r.brk == s.brk + bytes && Holds(w, e.1, size)
    ensures Allocated(ExtendView(v, bytes).blocks) <= Allocated(w.blocks)
  {
    var x, j := ExtendView(v, bytes), MergeFrom(ChunkView(v, bytes), |v.blocks|);
    FitPlaced(e.0, x, j, size);
    PlaceAllocated(x, j, size);
    w := PlaceView(x, j, size);
  }

  /**
   * mm_malloc(size): NULL for 0; otherwise place a block of
   * calc_real_size(size) bytes in the first fit, or, when none fits, in
   * the block extend_heap returns after growing the heap by
   * max(CHUNKSIZE, real size) bytes.  grant says whether memlib grants
   * that mem_sbrk.  The heap stays consistent; a non-NULL result is the
   * payload of an allocated block holding size bytes, found where
   * first_fit says or at the top of the grown heap; NULL leaves the heap
   * as it was.
   */
  method Malloc(s: State, size: int, grant: bool, ghost v: View) returns (r: State, p: int, ghost w: View)
    requires Rep(s, v) && 0 <= size <= SizeMax
    ensures Rep(r, w) && r.start == s.start
    ensures p == 0 ==> r == s && w == v
    ensures p != 0 ==> Holds(w, PayloadToHeader(p), size + WSIZE)
    ensures Allocated(v.blocks) <= Allocated(w.blocks)
    ensures size == 0 || size > SizeMax - 11 ==> p == 0
    ensures var rs := CalcRealSize(size); var f := Fit(v.lists, rs, ClassOf(rs));
      0 < size <= SizeMax - 11 && f.Some? ==>
        && p == HeaderToPayload(v.lists[f.value.0][f.value.1].addr) && r.brk == s.brk
        && exists k :: 1 <= k < |v.blocks| && v.blocks[k] == v.lists[f.value.0][f.value.1] && w == PlaceView(v, k, rs)
    ensures var rs := CalcRealSize(size); var bytes := GrowBy(rs);
      0 < size <= SizeMax - 11 && Fit(v.lists, rs, ClassOf(rs)).None? ==>
        && (p != 0 <==> grant && s.brk + bytes <= HeapLimit)
        && (p != 0 ==> r.brk == s.brk + bytes && GrownTo(v, bytes, rs, w))
  {
    if size == 0 || size > SizeMax - 11 {
      return s, 0, v;
    }
    var rs := CalcRealSize(size);
    var h := FirstFit(s, rs, v);
    if h != 0 {
      ghost var f := Fit(v.lists, rs, ClassOf(rs)).value;
      ghost var k := ListedAt(s, v, f.0, f.1);
      FitPlaced(s, v, k, rs);
      PlaceAllocated(v, k, rs);
      r, p, w := Place(s, h, rs), HeaderToPayload(h), PlaceView(v, k, rs);
      return;
    }
    var bytes := GrowBy(rs);
    GrowByAligned(rs);
    ExtendRefines(s, v, bytes, grant);
    var e := ExtendHeap(s, bytes, grant);
    if e.1 == 0 {
      return s, 0, v;
    }
    w := GrowPlaced(s, v, bytes, rs);
    r, p := Place(e.0, e.1, rs), HeaderToPayload(e.1);
  }
}

=== FILE: final_check.dfy ===
/**
 * labs/malloclab/mm-final.c, mm_checkheap: count the entries of the eight
 * lists, count the free blocks of the heap, and check the two agree.
 */
module FinalCheck {
  import opened Heap
  import opened Buckets
  import opened Final
  import opened FinalApi

  // ---------------------------------------------------------------------------
  // Counting the lists

  /** The blocks a list holds. */
  function Elems(fl: seq<Block>): set<Block> {
    set b | b in fl
  }

  /** The blocks lists 0 .. c - 1 hold. */
  function Gathered(ls: seq<seq<Block>>, c: int): set<Block>
    requires 0 <= c <= |ls|
  {
    if c == 0 then {} else Gathered(ls, c - 1) + Elems(ls[c - 1])
  }

  /** The lengths of lists 0 .. c - 1 added up. */
  function Total(ls: seq<seq<Block>>, c: int): int
    requires 0 <= c <= |ls|
  {
    if c == 0 then 0 else Total(ls, c - 1) + |ls[c - 1]|
  }

  /**
   * Lists whose entries are distinct free blocks of their own class hold,
   * together, as many blocks as their lengths add up to, each a free block
   * of a class below c.
   */
  lemma {:induction false} GatheredCard(bs: seq<Block>, ls: seq<seq<Block>>, c: int)
    requires 0 <= c <= |ls| && forall d :: 0 <= d < |ls| ==> Members(bs, ls[d], d)
    ensures |Gathered(ls, c)| == Total(ls, c)
    ensures forall b :: b in Gathered(ls, c) ==> b in bs && !b.alloc && ClassOf(b.size) < c
  {
    if c > 0 {
      GatheredCard(bs, ls, c - 1);
      assert Members(bs, ls[c - 1], c - 1);
      ListCard(ls[c - 1]);
      assert Gathered(ls, c - 1) !! Elems(ls[c - 1]);
    }
  }

  /** A block list d holds is among those lists 0 .. c - 1 hold, for d below c. */
  lemma {:induction false} GatheredHas(ls: seq<seq<Block>>, c: int, d: int, b: Block)
    requires 0 <= d < c <= |ls| && b in ls[d]
    ensures b in Gathered(ls, c)
  {
    if d < c - 1 {
      GatheredHas(ls, c - 1, d, b);
    }
  }

  /** In a consistent heap the lists together are as long as the row has free blocks. */
  lemma ListsCountFree(s: State, v: View)
    requires Rep(s, v)
    ensures Total(v.lists, CLASSES) == FreeCount(v.blocks)
  {
    var bs, ls := v.blocks, v.lists;
    forall d | 0 <= d < CLASSES ensures Members(bs, ls[d], d) {
      assert Bucket(s.mem, s.start, bs, ls, d);
    }
    GatheredCard(bs, ls, CLASSES);
    forall b | b in FreeSet(bs) ensures b in Gathered(ls, CLASSES) {
      var k :| 0 <= k < |bs| && bs[k] == b;
      GatheredHas(ls, CLASSES, ClassOf(b.size), b);
    }
    assert Gathered(ls, CLASSES) == FreeSet(bs);
    forall i, j | 0 <= i < j < |bs| ensures bs[i] != bs[j] {
      Distinct(bs, j);
    }
    FreeCountCard(bs);
  }

  /**
   * mm_checkheap's walk of list c: from the head, follow next pointers
   * until NULL, counting the entries.
   */
  method CountList(s: State, ghost v: View, c: int) returns (n: int)
    requires Shape(s, v) && 0 <= c < CLASSES
    ensures n == |v.lists[c]|
  {
    ghost var ns := Addrs(v.lists[c]);
    assert Bucket(s.mem, s.start, v.blocks, v.lists, c);
    forall i | 0 <= i < |ns| ensures ns[i] != 0 {
      var k := ListedAt(s, v, c, i);
    }
    n := 0;
    var ptr := LoadPtr(s.mem, Slot(s.start, c));
    while ptr != 0
      invariant 0 <= n <= |ns| && ptr == (if n < |ns| then ns[n] else 0)
      decreases |ns| - n
    {
      assert Node(s.mem, Slot(s.start, c), ns, n);
      n := n + 1;
      ptr := NextOf(s.mem, ptr);
    }
  }

  /**
   * mm_checkheap's walk of the heap: from the block after the prologue,
   * whose header is one word past the heads and padding, to the size-0
   * epilogue, counting the headers whose alloc bit is clear.
   */
  method CountFree(s: State, ghost v: View) returns (freeCnt: int)
    requires Row(s, v)
    ensures freeCnt == FreeCount(v.blocks)
  {
    var m := s.mem;
    ghost var bs := v.blocks;
    ReadBlock(s, v, 0);
    freeCnt := 0;
    var ptr := NextNeighbor(m, HeadsEnd(s.start) + WSIZE);
    ghost var x := 1;
    while ExtractSize(m, ptr) != 0
      invariant 1 <= x <= |bs| && ptr == HeaderAt(bs, x)
      invariant freeCnt == FreeCount(bs[..x])
      decreases |bs| - x
    {
      if x == |bs| {
        ReadEpilogue(s, v);
        assert false;
      }
      ReadBlock(s, v, x);
      assert bs[..x + 1][..x] == bs[..x];
      if !ExtractAlloc(m, ptr) {
        freeCnt := freeCnt + 1;
      }
      ptr := NextNeighbor(m, ptr);
      x := x + 1;
    }
    if x < |bs| {
      ReadBlock(s, v, x);
      assert false;
    }
    assert bs[..x] == bs;
  }

  /**
   * mm_checkheap: the entries of lists 0 .. 7 counted, the free blocks
   * counted, and the assert that the counts agree.  On a consistent heap
   * the assert holds (ok) and both counts are the number of free blocks.
   */
  method CheckHeap(s: State, ghost v: View) returns (ok: bool, listCnt: int, freeCnt: int)
    requires Rep(s, v)
    ensures ok && listCnt == FreeCount(v.blocks) && freeCnt == FreeCount(v.blocks)
  {
    listCnt := 0;
    var c := 0;
    while c < CLASSES
      invariant 0 <= c <= CLASSES && listCnt == Total(v.lists, c)
    {
      var n := CountList(s, v, c);
      listCnt := listCnt + n;
      c := c + 1;
    }
    freeCnt := CountFree(s, v);
    ListsCountFree(s, v);
    ok := listCnt == freeCnt;
  }
}

=== FILE: final_ops.dfy ===
/**
 * labs/malloclab/mm-final.c, the two operations built on coalesce: place
 * and extend_heap.  Each works on the State of Final, and each lemma shows
 * the heap consistent again for the view the operation is meant to leave.
 */
module FinalOps {
  import opened Twos
  import opened Heap
  import opened Buckets
  import opened Final

  // ---------------------------------------------------------------------------
  // place

  /**
   * place(h, size): take a free block off its list; if the block is smaller
   * than size do nothing more; if what is left over would be under the
   * minimum block, use the whole block; otherwise use the first size bytes
   * and coalesce the rest as a free block.
   */
  function Place(s: State, h: int, size: int): State {
    var inUse := ExtractAlloc(s.mem, h);
    var m := Detach(s, h);
    var curr := ExtractSize(m, h);
    var prevAlloc := ExtractPrevAlloc(m, h);
    if curr < size then s.(mem := m)
    else if curr - size < MIN_BLOCK_SIZE then s.(mem := Occupy(m, h, curr, prevAlloc, inUse))
    else
      var (m2, rest) := SplitStores(m, h, size, curr, prevAlloc);
      Coalesce(s.(mem := m2), rest).0
  }

  /** remove_blk when the block at h is free; an allocated block is in no list. */
  function Detach(s: State, h: int): Mem {
    if ExtractAlloc(s.mem, h) then s.mem else Unlink(s.mem, s.start, h)
  }

  /** The whole block in use: its header marked, and, when it was free, the prev-alloc bit of the header after it set. */
  function Occupy(m: Mem, h: int, curr: int, prevAlloc: bool, inUse: bool): Mem {
    var m1 := WriteHeader(m, h, curr, prevAlloc, true);
    if inUse then m1 else SetBit(m1, NextNeighbor(m1, h), true)
  }

  /** The first size bytes in use, and the rest a free block with header and footer; returns the rest, which coalesce takes. */
  function SplitStores(m: Mem, h: int, size: int, curr: int, prevAlloc: bool): (Mem, int) {
    var m1 := WriteHeader(m, h, size, prevAlloc, true);
    var rest := NextNeighbor(m1, h);
    (Retag(m1, rest, curr - size, true), rest)
  }

  /** Block k cut into an allocated block of size bytes and a free block after it, whose header has its bit set. */
  function SplitView(v: View, k: int, size: int): View
    requires 0 <= k < |v.blocks| && |v.bits| == |v.blocks| + 1
  {
    View(SplitBlocks(v.blocks, k, size), v.bits[..k] + [v.bits[k], true] + v.bits[k + 1..], v.lists)
  }

  /** Block k replaced by an allocated block of size bytes and a free block of the rest. */
  function SplitBlocks(bs: seq<Block>, k: int, size: int): seq<Block>
    requires 0 <= k < |bs|
  {
    Splice(bs, k, k + 1, [Block(bs[k].addr, size, true), Block(bs[k].addr + size, bs[k].size - size, false)])
  }

  /**
   * Block k in use for size bytes: out of its list, and either whole, with
   * the bit after it set, or split with the rest merged into the block
   * after it when that one is free.
   */
  function PlaceView(v: View, k: int, size: int): View
    requires 1 <= k < |v.blocks| && |v.bits| == |v.blocks| + 1 && |v.lists| == CLASSES
  {
    var b := v.blocks[k];
    var v1 := View(v.blocks, v.bits, Strip(v.lists, b));
    if b.size - size < MIN_BLOCK_SIZE then View(v.blocks[k := b.(alloc := true)], v.bits[k + 1 := true], Strip(v.lists, b))
    else MergeView(SplitView(v1, k, size), k + 1)
  }

  /**
   * Taking block k off the lists: the shape holds with it out of every
   * list, every other free block stays listed, and no tag changes.
   */
  lemma DetachShape(s: State, v: View, k: int)
    requires Rep(s, v) && 1 <= k < |v.blocks|
    ensures var b := v.blocks[k]; var m := Detach(s, b.addr);
      && Shape(s.(mem := m), View(v.blocks, v.bits, Strip(v.lists, b)))
      && Listed(v.blocks, Strip(v.lists, b), k) && TagsKept(s.mem, m, v.blocks)
      && (b.alloc ==> m == s.mem && Strip(v.lists, b) == v.lists)
  {
    var bs, ls := v.blocks, v.lists;
    var b := bs[k];
    ReadBlock(s, v, k);
    Distinct(bs, k);
    if b.alloc {
      forall c | 0 <= c < CLASSES ensures b !in ls[c] {
        assert Bucket(s.mem, s.start, bs, ls, c);
      }
      StripAbsent(ls, b);
    } else {
      UnlinkBlock(s, v, b);
    }
  }

  /** What place reads at block k once it is off the lists. */
  lemma DetachReads(s: State, v: View, k: int)
    requires Rep(s, v) && 1 <= k < |v.blocks|
    ensures var b := v.blocks[k]; var m := Detach(s, b.addr);
      && ExtractAlloc(s.mem, b.addr) == b.alloc && ExtractSize(m, b.addr) == b.size
      && ExtractPrevAlloc(m, b.addr) == v.bits[k]
  {
    DetachShape(s, v, k);
    ReadBlock(s, v, k);
    ReadBlock(s.(mem := Detach(s, v.blocks[k].addr)), View(v.blocks, v.bits, Strip(v.lists, v.blocks[k])), k);
  }

  /** Setting the prev-alloc bit of one header commutes with a store to another word. */
  lemma SetBitOver(m: Mem, h: int, w: int, a: int, bit: bool)
    requires a != h
    ensures SetBit(m[h := w], a, bit) == SetBit(m, a, bit)[h := w]
  {
    assert Load(m[h := w], a) == Load(m, a);
  }

  /** Splitting the bits around block k with its own bit changes nothing. */
  lemma BitsSame(bits: seq<bool>, k: int)
    requires 0 <= k < |bits|
    ensures bits[..k] + [bits[k]] + bits[k + 1..] == bits
  {
  }

  /** What Occupy stores over a free block's header: the bit after it set, then the header marked. */
  lemma OccupyIs(m: Mem, h: int, size: int, prevAlloc: bool)
    requires Load(m, h) == Tag(size, prevAlloc, false) && size % 8 == 0 && DSIZE <= size < Word32 - 8
    ensures Occupy(m, h, size, prevAlloc, false) == SetBit(m, h + size, true)[h := Tag(size, prevAlloc, true)]
  {
    var w := Tag(size, prevAlloc, true);
    StoreTag(m, h, size, prevAlloc, true);
    ReadTag(m[h := w], h, size, prevAlloc, true);
    SetBitOver(m, h, w, h + size, true);
  }

  /**
   * Rewriting the header of block k, which no list holds and whose
   * successor's bit is set, with a new alloc flag: the shape holds for the
   * row with that block's flag changed.
   */
  lemma MarkShape(s: State, v: View, k: int, alloc: bool)
    requires Shape(s, v) && 1 <= k < |v.blocks| && v.bits[k + 1] && Unlisted(v.blocks, v.lists, k, k + 1)
    ensures var b := v.blocks[k];
      Shape(s.(mem := s.mem[b.addr := Tag(b.size, v.bits[k], alloc)]), v.(blocks := v.blocks[k := b.(alloc := alloc)]))
  {
    MarkRow(s, v, k, alloc);
    MarkThreaded(s, v, k, alloc);
  }

  lemma MarkRow(s: State, v: View, k: int, alloc: bool)
    requires Row(s, v) && 1 <= k < |v.blocks| && v.bits[k + 1]
    ensures var b := v.blocks[k];
      Row(s.(mem := s.mem[b.addr := Tag(b.size, v.bits[k], alloc)]), v.(blocks := v.blocks[k := b.(alloc := alloc)]))
  {
    var bs, bits := v.blocks, v.bits;
    var b := bs[k];
    var nb := b.(alloc := alloc);
    ReadBlock(s, v, k);
    assert b in bs && bs[0] in bs;
    TiledOrder(bs, 0, k);
    SpliceOne(s, v, k, k + 1, nb, bits[k], s.mem[b.addr := Tag(b.size, bits[k], alloc)]);
    SpliceUpdate(bs, k, nb);
    BitsSame(bits, k);
  }

  lemma MarkThreaded(s: State, v: View, k: int, alloc: bool)
    requires Shape(s, v) && 1 <= k < |v.blocks| && Unlisted(v.blocks, v.lists, k, k + 1)
    ensures var b := v.blocks[k];
      Threaded(s.mem[b.addr := Tag(b.size, v.bits[k], alloc)], s.start, v.blocks[k := b.(alloc := alloc)], v.lists)
  {
    var b := v.blocks[k];
    var nb := b.(alloc := alloc);
    assert b in v.blocks;
    SpliceThreaded(s, v, k, k + 1, [nb], s.mem[b.addr := Tag(b.size, v.bits[k], alloc)]);
    SpliceUpdate(v.blocks, k, nb);
  }

  /** Block k, which no list holds, marked allocated: every free block is listed. */
  lemma ListedMark(bs: seq<Block>, ls: seq<seq<Block>>, k: int)
    requires 0 <= k < |bs| && Listed(bs, ls, k)
    ensures Listed(bs[k := bs[k].(alloc := true)], ls, -1)
  {
  }

  /**
   * place on free block k, off the lists, when the whole block is used:
   * the heap holds the row with block k allocated and the bit after it set.
   */
  lemma OccupyRefines(s: State, m1: Mem, bs: seq<Block>, bits: seq<bool>, ls: seq<seq<Block>>, k: int, r: State)
    requires Shape(s.(mem := m1), View(bs, bits, ls)) && 1 <= k < |bs| && !bs[k].alloc && Listed(bs, ls, k)
    requires r == s.(mem := SetBit(m1, bs[k].addr + bs[k].size, true)[bs[k].addr := Tag(bs[k].size, bits[k], true)])
    ensures Rep(r, View(bs[k := bs[k].(alloc := true)], bits[k + 1 := true], ls))
  {
    OccupyShape(s.(mem := m1), View(bs, bits, ls), k);
    ListedMark(bs, ls, k);
  }

  /** The stores of Occupy, as a bit set after block k and its header rewritten. */
  lemma OccupyShape(s: State, v: View, k: int)
    requires Shape(s, v) && 1 <= k < |v.blocks| && !v.blocks[k].alloc && Listed(v.blocks, v.lists, k)
    ensures var b := v.blocks[k];
      Shape(s.(mem := SetBit(s.mem, b.addr + b.size, true)[b.addr := Tag(b.size, v.bits[k], true)]),
            View(v.blocks[k := b.(alloc := true)], v.bits[k + 1 := true], v.lists))
  {
    var bs, bits := v.blocks, v.bits;
    var b := bs[k];
    assert HeaderAt(bs, k + 1) == b.addr + b.size;
    var s2 := s.(mem := SetBit(s.mem, HeaderAt(bs, k + 1), true));
    var v2 := v.(bits := bits[k + 1 := true]);
    BitShape(s, v, k + 1, true);
    MarkShape(s2, v2, k, true);
    var s3 := s2.(mem := s2.mem[b.addr := Tag(b.size, v2.bits[k], true)]);
    var v3 := v2.(blocks := bs[k := b.(alloc := true)]);
    ShapeSame(s3, v3, s.(mem := SetBit(s.mem, b.addr + b.size, true)[b.addr := Tag(b.size, bits[k], true)]),
      View(bs[k := b.(alloc := true)], bits[k + 1 := true], v.lists));
  }

  /** The cut of block k into an allocated block of size bytes and the rest is a tiled, sized pair covering it. */
  lemma SplitSized(s: State, v: View, k: int, size: int)
    requires Row(s, v) && 1 <= k < |v.blocks|
    requires size % 8 == 0 && MIN_BLOCK_SIZE <= size && v.blocks[k].size - size >= MIN_BLOCK_SIZE
    ensures var b := v.blocks[k]; var ns := [Block(b.addr, size, true), Block(b.addr + size, b.size - size, false)];
      && Tiled(ns) && Sized(ns) && Stop(ns) == End(b) && (forall x :: 0 <= x < |ns| ==> ns[x].size >= MIN_BLOCK_SIZE)
      && b.size < Word32 - 8 && b.size % 8 == 0 && b.addr % 8 == 4 && 0 < b.addr
  {
    ReadBlock(s, v, k);
    CutSized(v.blocks[k], size);
  }

  /** The same for any block of a multiple of 8 bytes at an address 4 past a multiple of 8. */
  lemma CutSized(b: Block, size: int)
    requires b.size % 8 == 0 && b.addr % 8 == 4
    requires size % 8 == 0 && MIN_BLOCK_SIZE <= size && b.size - size >= MIN_BLOCK_SIZE
    ensures var ns := [Block(b.addr, size, true), Block(b.addr + size, b.size - size, false)];
      && Tiled(ns) && Sized(ns) && Stop(ns) == End(b) && (forall x :: 0 <= x < |ns| ==> ns[x].size >= MIN_BLOCK_SIZE)
  {
    var ns := [Block(b.addr, size, true), Block(b.addr + size, b.size - size, false)];
    assert (b.size - size) % 8 == 0 by {
      assert b.size - size == 8 * (b.size / 8 - size / 8);
    }
    assert (b.addr + size) % 8 == 4 by {
      assert b.addr + size == 8 * (b.addr / 8 + size / 8) + 4;
    }
    assert forall c {:trigger c in ns} :: c in ns ==> c == ns[0] || c == ns[1];
  }

  /** The stores of the split, spelled out. */
  lemma SplitWrites(m: Mem, h: int, size: int, curr: int, prevAlloc: bool)
    requires size % 8 == 0 && curr % 8 == 0 && MIN_BLOCK_SIZE <= size && curr - size >= MIN_BLOCK_SIZE && curr < Word32 - 8
    ensures var m1 := WriteHeader(m, h, size, prevAlloc, true);
      && NextNeighbor(m1, h) == h + size
      && Retag(m1, h + size, curr - size, true)
         == m[h := Tag(size, prevAlloc, true)][h + size := Tag(curr - size, true, false)][h + curr - WSIZE := Tag(curr - size, true, false)]
  {
    StoreTag(m, h, size, prevAlloc, true);
    var m1 := m[h := Tag(size, prevAlloc, true)];
    ReadTag(m1, h, size, prevAlloc, true);
    assert (curr - size) % 8 == 0 by {
      assert curr - size == 8 * (curr / 8 - size / 8);
    }
    RetagIs(m1, h + size, curr - size, true);
  }

  /** What the split leaves: both headers, the rest's footer, and nothing outside the block changed. */
  lemma SplitLoads(m: Mem, h: int, size: int, curr: int, prevAlloc: bool)
    requires MIN_BLOCK_SIZE <= size && curr - size >= MIN_BLOCK_SIZE
    ensures var t := Tag(curr - size, true, false);
      var m2 := m[h := Tag(size, prevAlloc, true)][h + size := t][h + curr - WSIZE := t];
      && SameOutside(m, m2, h, h + curr) && Load(m2, h) == Tag(size, prevAlloc, true)
      && Load(m2, h + size) == t && FootOk(m2, Block(h + size, curr - size, false))
  {
  }

  /** After the cut, the rest is the one free block no list holds, and every other free block is listed. */
  lemma SplitListed(bs: seq<Block>, ls: seq<seq<Block>>, k: int, ns: seq<Block>)
    requires Tiled(bs) && 1 <= k < |bs| && Listed(bs, ls, k)
    requires forall c, b {:trigger b in ls[c]} :: 0 <= c < |ls| && b in ls[c] ==> b in bs
    requires |ns| == 2 && ns[0].alloc && !ns[1].alloc && bs[k].addr < ns[1].addr < End(bs[k])
    ensures Listed(Splice(bs, k, k + 1, ns), ls, k + 1)
  {
    var r := Splice(bs, k, k + 1, ns);
    forall c | 0 <= c < CLASSES ensures ns[1] !in ls[c] {
      if ns[1] in ls[c] {
        var y :| 0 <= y < |bs| && bs[y] == ns[1];
        assert bs[y] in bs && bs[k] in bs;
        if y < k {
          TiledOrder(bs, y, k);
        } else if y > k {
          TiledOrder(bs, k, y);
        }
      }
    }
    forall x | 0 <= x < |r| && !r[x].alloc && x != k + 1 ensures r[x] in ls[ClassOf(r[x].size)] {
      SpliceSource(bs, k, k + 1, ns, x);
    }
  }

  /** The split stores on block k, which no list holds: the shape holds for the split row. */
  lemma SplitShape(s: State, v: View, k: int, size: int, m': Mem)
    requires Shape(s, v) && 1 <= k < |v.blocks| && Unlisted(v.blocks, v.lists, k, k + 1)
    requires size % 8 == 0 && MIN_BLOCK_SIZE <= size && v.blocks[k].size - size >= MIN_BLOCK_SIZE
    requires var b := v.blocks[k];
      && SameOutside(s.mem, m', b.addr, End(b)) && Load(m', b.addr) == Tag(size, v.bits[k], true)
      && Load(m', b.addr + size) == Tag(b.size - size, true, false) && FootOk(m', Block(b.addr + size, b.size - size, false))
    ensures Shape(s.(mem := m'), SplitView(v, k, size))
  {
    SplitRow(s, v, k, size, m');
    SplitThreaded(s, v, k, size, m');
  }

  /** The split's stores, as the row needs them. */
  lemma SplitFacts(m: Mem, h: int, size: int, curr: int, prevAlloc: bool)
    requires size % 8 == 0 && curr % 8 == 0 && MIN_BLOCK_SIZE <= size && curr - size >= MIN_BLOCK_SIZE && curr < Word32 - 8
    ensures var m' := SplitStores(m, h, size, curr, prevAlloc).0;
      && SplitStores(m, h, size, curr, prevAlloc).1 == h + size
      && SameOutside(m, m', h, h + curr) && Load(m', h) == Tag(size, prevAlloc, true)
      && Load(m', h + size) == Tag(curr - size, true, false) && FootOk(m', Block(h + size, curr - size, false))
  {
    SplitWrites(m, h, size, curr, prevAlloc);
    SplitLoads(m, h, size, curr, prevAlloc);
  }

  /** Any memory holding the two headers and the rest's footer, and changed only inside block k, keeps the split row. */
  lemma SplitRow(s: State, v: View, k: int, size: int, m': Mem)
    requires Row(s, v) && 1 <= k < |v.blocks|
    requires size % 8 == 0 && MIN_BLOCK_SIZE <= size && v.blocks[k].size - size >= MIN_BLOCK_SIZE
    requires var b := v.blocks[k];
      && SameOutside(s.mem, m', b.addr, End(b)) && Load(m', b.addr) == Tag(size, v.bits[k], true)
      && Load(m', b.addr + size) == Tag(b.size - size, true, false) && FootOk(m', Block(b.addr + size, b.size - size, false))
    ensures Row(s.(mem := m'), SplitView(v, k, size))
  {
    var b := v.blocks[k];
    var ns := [Block(b.addr, size, true), Block(b.addr + size, b.size - size, false)];
    SplitSized(s, v, k, size);
    SpliceRow(s, v, k, k + 1, ns, [v.bits[k], true], m');
    var v' := View(Splice(v.blocks, k, k + 1, ns), v.bits[..k] + [v.bits[k], true] + v.bits[k + 1..], v.lists);
    assert v' == SplitView(v, k, size);
    RowSame(s.(mem := m'), v', SplitView(v, k, size));
  }

  /** Row carried across equal views. */
  lemma RowSame(s: State, v: View, v': View)
    requires Row(s, v) && v == v'
    ensures Row(s, v')
  {
  }

  /** The lists, which do not hold block k, stay threaded over the split row. */
  lemma SplitThreaded(s: State, v: View, k: int, size: int, m': Mem)
    requires Shape(s, v) && 1 <= k < |v.blocks| && Unlisted(v.blocks, v.lists, k, k + 1)
    requires SameOutside(s.mem, m', v.blocks[k].addr, End(v.blocks[k]))
    ensures Threaded(m', s.start, SplitView(v, k, size).blocks, v.lists)
  {
    var b := v.blocks[k];
    SpliceThreaded(s, v, k, k + 1, [Block(b.addr, size, true), Block(b.addr + size, b.size - size, false)], m');
  }

  /** After the split stores the rest is a free block ready for coalesce: no list holds it and every other free block is listed. */
  lemma SplitFreed(s: State, v: View, k: int, size: int, m': Mem, s': State)
    requires Shape(s, v) && 1 <= k < |v.blocks| && Listed(v.blocks, v.lists, k)
    requires s'.mem == m' && s'.start == s.start && s'.brk == s.brk
    requires size % 8 == 0 && MIN_BLOCK_SIZE <= size && v.blocks[k].size - size >= MIN_BLOCK_SIZE
    requires var b := v.blocks[k];
      && SameOutside(s.mem, m', b.addr, End(b)) && Load(m', b.addr) == Tag(size, v.bits[k], true)
      && Load(m', b.addr + size) == Tag(b.size - size, true, false) && FootOk(m', Block(b.addr + size, b.size - size, false))
    ensures Freed(s', SplitView(v, k, size), k + 1)
    ensures SplitView(v, k, size).blocks[k + 1].addr == v.blocks[k].addr + size
  {
    var bs, ls := v.blocks, v.lists;
    var b := bs[k];
    var ns := [Block(b.addr, size, true), Block(b.addr + size, b.size - size, false)];
    forall c | 0 <= c < CLASSES ensures bs[k] !in ls[c] {
    }
    SplitShape(s, v, k, size, m');
    ShapeSame(s.(mem := m'), SplitView(v, k, size), s', SplitView(v, k, size));
    forall c, x {:trigger x in ls[c]} | 0 <= c < |ls| && x in ls[c] ensures x in bs {
      assert Bucket(s.mem, s.start, bs, ls, c);
    }
    SplitListed(bs, ls, k, ns);
    assert SplitView(v, k, size).blocks[k + 1] == ns[1];
  }

  /**
   * place on block k with room to split, up to the coalesce: the detached
   * block cut in two, the rest the one free block no list holds.
   */
  lemma PlaceSplitFreed(s: State, v: View, k: int, size: int)
    requires Rep(s, v) && 1 <= k < |v.blocks|
    requires size % 8 == 0 && MIN_BLOCK_SIZE <= size && v.blocks[k].size - size >= MIN_BLOCK_SIZE
    ensures var b := v.blocks[k]; var m1 := Detach(s, b.addr);
      var st := SplitStores(m1, b.addr, size, b.size, v.bits[k]);
      var v' := SplitView(View(v.blocks, v.bits, Strip(v.lists, b)), k, size);
      && ExtractSize(m1, b.addr) == b.size && ExtractPrevAlloc(m1, b.addr) == v.bits[k]
      && Freed(s.(mem := st.0), v', k + 1) && v'.blocks[k + 1].addr == st.1
  {
    var b := v.blocks[k];
    DetachShape(s, v, k);
    DetachReads(s, v, k);
    SplitFreedAt(s, View(v.blocks, v.bits, Strip(v.lists, b)), k, size, Detach(s, b.addr));
  }

  /** The same from any memory m1 that holds block k off the lists. */
  lemma SplitFreedAt(s: State, v: View, k: int, size: int, m1: Mem)
    requires Shape(s.(mem := m1), v) && 1 <= k < |v.blocks| && Listed(v.blocks, v.lists, k)
    requires size % 8 == 0 && MIN_BLOCK_SIZE <= size && v.blocks[k].size - size >= MIN_BLOCK_SIZE
    ensures var b := v.blocks[k];
      var st := SplitStores(m1, b.addr, size, b.size, v.bits[k]);
      Freed(s.(mem := st.0), SplitView(v, k, size), k + 1) && SplitView(v, k, size).blocks[k + 1].addr == st.1
  {
    var b := v.blocks[k];
    var s1 := s.(mem := m1);
    SplitSized(s1, v, k, size);
    SplitFacts(m1, b.addr, size, b.size, v.bits[k]);
    var st := SplitStores(m1, b.addr, size, b.size, v.bits[k]);
    SplitFreed(s1, v, k, size, st.0, s.(mem := st.0));
  }

  /** place with room to split, from the coalesced rest to the result of place. */
  lemma PlaceSplitRep(s: State, h: int, size: int, m1: Mem, curr: int, prevAlloc: bool, v: View)
    requires m1 == Detach(s, h) && ExtractSize(m1, h) == curr && ExtractPrevAlloc(m1, h) == prevAlloc
    requires curr - size >= MIN_BLOCK_SIZE
    requires var st := SplitStores(m1, h, size, curr, prevAlloc);
      var r := Coalesce(s.(mem := st.0), st.1).0;
      Rep(r, v) && r.start == s.start && r.brk == s.brk
    ensures var r := Place(s, h, size);
      Rep(r, v) && r.start == s.start && r.brk == s.brk
  {
  }

  /** place on block k with room to split. */
  lemma PlaceSplit(s: State, v: View, k: int, size: int)
    requires Rep(s, v) && 1 <= k < |v.blocks|
    requires size % 8 == 0 && MIN_BLOCK_SIZE <= size && v.blocks[k].size - size >= MIN_BLOCK_SIZE
    ensures var r := Place(s, v.blocks[k].addr, size);
      Rep(r, PlaceView(v, k, size)) && r.start == s.start && r.brk == s.brk
  {
    var b := v.blocks[k];
    var m1 := Detach(s, b.addr);
    var st := SplitStores(m1, b.addr, size, b.size, v.bits[k]);
    var v' := SplitView(View(v.blocks, v.bits, Strip(v.lists, b)), k, size);
    PlaceSplitFreed(s, v, k, size);
    CoalesceRefines(s.(mem := st.0), v', k + 1);
    PlaceSplitRep(s, b.addr, size, m1, b.size, v.bits[k], PlaceView(v, k, size));
  }

  /** place with no room to split: the whole detached block taken. */
  lemma PlaceWholeIs(s: State, h: int, size: int, m1: Mem, curr: int, prevAlloc: bool)
    requires m1 == Detach(s, h) && ExtractSize(m1, h) == curr && ExtractPrevAlloc(m1, h) == prevAlloc
    requires size <= curr < size + MIN_BLOCK_SIZE
    ensures Place(s, h, size) == s.(mem := Occupy(m1, h, curr, prevAlloc, ExtractAlloc(s.mem, h)))
  {
  }

  /** place on block k with no room to split. */
  lemma PlaceWhole(s: State, v: View, k: int, size: int)
    requires Rep(s, v) && 1 <= k < |v.blocks|
    requires size % 8 == 0 && MIN_BLOCK_SIZE <= size <= v.blocks[k].size < size + MIN_BLOCK_SIZE
    ensures var r := Place(s, v.blocks[k].addr, size);
      Rep(r, PlaceView(v, k, size)) && r.start == s.start && r.brk == s.brk
  {
    if v.blocks[k].alloc {
      PlaceWholeUsed(s, v, k, size);
    } else {
      PlaceWholeFree(s, v, k, size);
    }
  }

  /** place on an allocated block with no room to split rewrites its header as it was. */
  lemma PlaceWholeUsed(s: State, v: View, k: int, size: int)
    requires Rep(s, v) && 1 <= k < |v.blocks| && v.blocks[k].alloc
    requires size % 8 == 0 && MIN_BLOCK_SIZE <= size <= v.blocks[k].size < size + MIN_BLOCK_SIZE
    ensures var r := Place(s, v.blocks[k].addr, size);
      Rep(r, PlaceView(v, k, size)) && r.start == s.start && r.brk == s.brk
  {
    var bs, bits, ls := v.blocks, v.bits, v.lists;
    var b := bs[k];
    DetachShape(s, v, k);
    DetachReads(s, v, k);
    PlaceWholeIs(s, b.addr, size, s.mem, b.size, bits[k]);
    ReadBlock(s, v, k);
    assert HeadOk(s.mem, v, k);
    StoreTag(s.mem, b.addr, b.size, bits[k], true);
    assert s.mem[b.addr := Load(s.mem, b.addr)] == s.mem;
    assert bs[k := b.(alloc := true)] == bs;
    BitOk1(s, v, k);
    assert bits[k + 1 := true] == bits;
  }

  /** place on a free block with no room to split: the block taken whole and the bit after it set. */
  lemma PlaceWholeFree(s: State, v: View, k: int, size: int)
    requires Rep(s, v) && 1 <= k < |v.blocks| && !v.blocks[k].alloc
    requires size % 8 == 0 && MIN_BLOCK_SIZE <= size <= v.blocks[k].size < size + MIN_BLOCK_SIZE
    ensures var r := Place(s, v.blocks[k].addr, size);
      Rep(r, PlaceView(v, k, size)) && r.start == s.start && r.brk == s.brk
  {
    var bs, bits, ls := v.blocks, v.bits, v.lists;
    var b := bs[k];
    var m1 := Detach(s, b.addr);
    DetachHead(s, v, k);
    PlaceFreeIs(s, b.addr, size, m1, b.size, bits[k]);
    PlaceFreeAt(s, v, k, Place(s, b.addr, size));
  }

  /** Taking free block k off its list leaves its header word as it was. */
  lemma DetachHead(s: State, v: View, k: int)
    requires Rep(s, v) && 1 <= k < |v.blocks| && !v.blocks[k].alloc
    ensures var b := v.blocks[k];
      && !ExtractAlloc(s.mem, b.addr) && Load(Detach(s, b.addr), b.addr) == Tag(b.size, v.bits[k], false)
      && b.size % 8 == 0 && DSIZE <= b.size < Word32 - 8
  {
    var b := v.blocks[k];
    var v1 := View(v.blocks, v.bits, Strip(v.lists, b));
    ReadBlock(s, v, k);
    DetachShape(s, v, k);
    ReadBlock(s.(mem := Detach(s, b.addr)), v1, k);
    assert HeadOk(Detach(s, b.addr), v1, k);
  }

  /** The two stores of a whole-block place, applied to the heap with block k off its list. */
  lemma PlaceFreeAt(s: State, v: View, k: int, r: State)
    requires Rep(s, v) && 1 <= k < |v.blocks| && !v.blocks[k].alloc
    requires var b := v.blocks[k];
      r == s.(mem := SetBit(Detach(s, b.addr), b.addr + b.size, true)[b.addr := Tag(b.size, v.bits[k], true)])
    ensures var b := v.blocks[k];
      Rep(r, View(v.blocks[k := b.(alloc := true)], v.bits[k + 1 := true], Strip(v.lists, b)))
  {
    var b := v.blocks[k];
    DetachShape(s, v, k);
    OccupyRefines(s, Detach(s, b.addr), v.blocks, v.bits, Strip(v.lists, b), k, r);
  }

  /** Rep carried across equal states and views. */
  lemma RepSame(s: State, v: View, s': State, v': View)
    requires Rep(s, v) && s == s' && v == v'
    ensures Rep(s', v')
  {
  }

  /** place on a free block with no room to split, spelled out as its two stores. */
  lemma PlaceFreeIs(s: State, h: int, size: int, m1: Mem, curr: int, prevAlloc: bool)
    requires m1 == Detach(s, h) && !ExtractAlloc(s.mem, h) && Load(m1, h) == Tag(curr, prevAlloc, false)
    requires curr % 8 == 0 && DSIZE <= curr < Word32 - 8 && size <= curr < size + MIN_BLOCK_SIZE
    ensures Place(s, h, size) == s.(mem := SetBit(m1, h + curr, true)[h := Tag(curr, prevAlloc, true)])
  {
    ReadTag(m1, h, curr, prevAlloc, false);
    OccupyIs(m1, h, curr, prevAlloc);
  }

  /**
   * place(h, size) on block k, for a size that is a multiple of 8, at least
   * the minimum block and at most the block: the heap is consistent again
   * for PlaceView, and only memory changes.
   */
  lemma PlaceRefines(s: State, v: View, k: int, size: int)
    requires Rep(s, v) && 1 <= k < |v.blocks|
    requires size % 8 == 0 && MIN_BLOCK_SIZE <= size <= v.blocks[k].size
    ensures var r := Place(s, v.blocks[k].addr, size);
      Rep(r, PlaceView(v, k, size)) && r.start == s.start && r.brk == s.brk
  {
    if v.blocks[k].size - size < MIN_BLOCK_SIZE {
      PlaceWhole(s, v, k, size);
    } else {
      PlaceSplit(s, v, k, size);
    }
  }

  /** After place, block k starts where it did, is in use, and holds at least size bytes. */
  lemma PlacedAt(v: View, k: int, size: int)
    requires 1 <= k < |v.blocks| && |v.bits| == |v.blocks| + 1 && |v.lists| == CLASSES && size <= v.blocks[k].size
    ensures var r := PlaceView(v, k, size).blocks;
      k < |r| && r[k].addr == v.blocks[k].addr && r[k].alloc && size <= r[k].size
  {
    var b := v.blocks[k];
    if b.size - size >= MIN_BLOCK_SIZE {
      var sv := SplitView(View(v.blocks, v.bits, Strip(v.lists, b)), k, size);
      assert sv.blocks[k] == Block(b.addr, size, true);
      assert sv.bits[k + 1];
      var hi := MergeHi(sv.blocks, k + 1);
      assert MergeView(sv, k + 1).blocks == Splice(sv.blocks, k + 1, hi + 1, [Merged(sv.blocks, k + 1, hi)]);
    }
  }

  /** Behind an allocated block the bit is set. */
  lemma BitOk1(s: State, v: View, k: int)
    requires Row(s, v) && 0 <= k < |v.blocks| && v.blocks[k].alloc
    ensures v.bits[k + 1]
  {
    assert BitOk(s.mem, v, k + 1);
  }

  /**
   * place(h, size) on block k when the block is smaller than size: the
   * block has still left its list, and nothing else changes.
   */
  lemma PlaceTooSmall(s: State, v: View, k: int, size: int)
    requires Rep(s, v) && 1 <= k < |v.blocks| && v.blocks[k].size < size
    ensures var r := Place(s, v.blocks[k].addr, size); var b := v.blocks[k];
      && Shape(r, View(v.blocks, v.bits, Strip(v.lists, b))) && Listed(v.blocks, Strip(v.lists, b), k)
      && (b.alloc ==> r == s)
  {
    DetachShape(s, v, k);
    DetachReads(s, v, k);
  }

  // ---------------------------------------------------------------------------
  // extend_heap

  /**
   * extend_heap(size): round size up to a multiple of 8 and ask mem_sbrk
   * for that many bytes; the old epilogue header becomes the header of a
   * free block of that size, which keeps the epilogue's prev-alloc bit and
   * gets a footer; a new epilogue header with a clear bit follows; the
   * block is coalesced.  Returns the coalesced block, or 0 (NULL) when
   * mem_sbrk refuses.
   */
  function ExtendHeap(s: State, size: int, grant: bool): (State, int) {
    var bytes := RoundUp(size);
    var ptr := Sbrk(s.brk, bytes, grant);
    if ptr == -1 then (s, 0) else Coalesce(Chunk(s, ptr, bytes), ptr - WSIZE)
  }

  /** The stores extend_heap makes once mem_sbrk has returned ptr, and the moved break. */
  function Chunk(s: State, ptr: int, bytes: int): State {
    var h := ptr - WSIZE;
    var m1 := Retag(s.mem, h, bytes, ExtractPrevAlloc(s.mem, h));
    s.(mem := WriteHeader(m1, NextNeighbor(m1, h), 0, false, true), brk := s.brk + bytes)
  }

  /** The row with a free block of `bytes` appended where the epilogue was; the new epilogue's bit is clear. */
  function ChunkView(v: View, bytes: int): View
    requires |v.blocks| > 0
  {
    View(v.blocks + [Block(Stop(v.blocks), bytes, false)], v.bits + [false], v.lists)
  }

  /** The view extend_heap leaves: the appended block coalesced with a free block before it. */
  function ExtendView(v: View, bytes: int): View
    requires |v.blocks| > 0 && |v.bits| == |v.blocks| + 1 && |v.lists| == CLASSES
  {
    MergeView(ChunkView(v, bytes), |v.blocks|)
  }

  /** extend_heap's stores spelled out: header and footer of the new block, then the new epilogue. */
  lemma ChunkWrites(s: State, v: View, bytes: int)
    requires Row(s, v) && bytes % 8 == 0 && MIN_BLOCK_SIZE <= bytes && s.brk + bytes <= HeapLimit
    ensures var h, t := Stop(v.blocks), Tag(bytes, v.bits[|v.blocks|], false);
      Chunk(s, s.brk, bytes) == s.(mem := s.mem[h := t][h + bytes - WSIZE := t][h + bytes := Tag(0, false, true)], brk := s.brk + bytes)
  {
    var h, pa := Stop(v.blocks), v.bits[|v.blocks|];
    Within(v.blocks);
    assert v.blocks[0] in v.blocks;
    ReadEpilogue(s, v);
    RetagIs(s.mem, h, bytes, pa);
    var m1 := Retag(s.mem, h, bytes, pa);
    ReadTag(m1, h, bytes, pa, false);
    StoreTag(m1, h + bytes, 0, false, true);
  }

  /**
   * Any memory holding the new block's header and footer and the new
   * epilogue, and changed nowhere else, holds the row of ChunkView.
   */
  lemma ChunkRow(s: State, v: View, bytes: int, m': Mem)
    requires Row(s, v) && bytes % 8 == 0 && MIN_BLOCK_SIZE <= bytes && s.brk + bytes <= HeapLimit
    requires var nb := Block(Stop(v.blocks), bytes, false);
      && SameOutside(s.mem, m', nb.addr, End(nb) + WSIZE)
      && Load(m', nb.addr) == Tag(bytes, v.bits[|v.blocks|], false) && FootOk(m', nb)
      && Load(m', End(nb)) == Tag(0, false, true)
    ensures Row(s.(mem := m', brk := s.brk + bytes), ChunkView(v, bytes))
  {
    var bs := v.blocks;
    var nb := Block(Stop(bs), bytes, false);
    var v' := ChunkView(v, bytes);
    var bs' := v'.blocks;
    Within(bs);
    assert bs[0] in bs;
    TagAlign(bs);
    assert HeaderAt(bs, |bs|) % 8 == 4;
    AppendTiled(bs, nb);
    forall d {:trigger d in bs'} | d in bs'
      ensures d.size % 8 == 0 && d.size >= DSIZE && (!d.alloc ==> d.size >= MIN_BLOCK_SIZE) && d.addr % 8 == 4
      ensures d != bs'[0] ==> d.size >= MIN_BLOCK_SIZE
    {
      if d != nb {
        assert d in bs;
      }
    }
    assert Laid(s.start, bs');
    forall i | 0 <= i < |bs'| ensures HeadOk(m', v', i) {
      if i < |bs| {
        assert HeadOk(s.mem, v, i) && bs[i] in bs;
      }
    }
    forall i | 0 <= i <= |bs'| ensures BitOk(m', v', i) {
      if i <= |bs| {
        assert BitOk(s.mem, v, i);
        if i > 0 {
          assert bs[i - 1] in bs;
          if !v.bits[i] {
            KeptFoot(s.mem, m', bs[i - 1], nb.addr, End(nb) + WSIZE);
          }
        }
      }
    }
    RowFrom(s.(mem := m', brk := s.brk + bytes), v');
  }

  /** The lists, which hold blocks below the old epilogue only, stay threaded and leave the new block out. */
  lemma ChunkThreaded(s: State, v: View, bytes: int, m': Mem)
    requires Rep(s, v) && bytes > 0
    requires SameOutside(s.mem, m', Stop(v.blocks), Stop(v.blocks) + bytes + WSIZE)
    ensures Threaded(m', s.start, ChunkView(v, bytes).blocks, v.lists)
    ensures Listed(ChunkView(v, bytes).blocks, v.lists, |v.blocks|)
  {
    var bs, ls := v.blocks, v.lists;
    var nb := Block(Stop(bs), bytes, false);
    var bs' := bs + [nb];
    Within(bs);
    assert bs[0] in bs;
    assert nb !in bs;
    forall c | 0 <= c < CLASSES ensures Bucket(m', s.start, bs', ls, c) && nb !in ls[c] {
      assert Bucket(s.mem, s.start, bs, ls, c);
      Sizes(bs, ls[c]);
      forall d {:trigger d in ls[c]} | d in ls[c] ensures d in bs' && (End(d) <= nb.addr || End(nb) + WSIZE <= d.addr) {
        assert d in bs;
      }
      ChainOutside(s.mem, m', s.start, c, ls[c], nb.addr, End(nb) + WSIZE);
    }
    forall k | 0 <= k < |bs'| && !bs'[k].alloc && k != |bs| ensures bs'[k] in ls[ClassOf(bs'[k].size)] {
      assert bs'[k] == bs[k];
    }
  }

  /** extend_heap's stores hand coalesce the new block, free and on no list. */
  lemma ChunkFreed(s: State, v: View, bytes: int, m': Mem)
    requires Rep(s, v) && bytes % 8 == 0 && MIN_BLOCK_SIZE <= bytes && s.brk + bytes <= HeapLimit
    requires var nb := Block(Stop(v.blocks), bytes, false);
      && SameOutside(s.mem, m', nb.addr, End(nb) + WSIZE)
      && Load(m', nb.addr) == Tag(bytes, v.bits[|v.blocks|], false) && FootOk(m', nb)
      && Load(m', End(nb)) == Tag(0, false, true)
    ensures Freed(s.(mem := m', brk := s.brk + bytes), ChunkView(v, bytes), |v.blocks|)
    ensures ChunkView(v, bytes).blocks[|v.blocks|].addr == s.brk - WSIZE
  {
    ChunkRow(s, v, bytes, m');
    ChunkThreaded(s, v, bytes, m');
  }

  /** extend_heap's stores, as Chunk makes them, hand coalesce the new block. */
  lemma ChunkAt(s: State, v: View, bytes: int)
    requires Rep(s, v) && bytes % 8 == 0 && MIN_BLOCK_SIZE <= bytes && s.brk + bytes <= HeapLimit
    ensures Freed(Chunk(s, s.brk, bytes), ChunkView(v, bytes), |v.blocks|)
    ensures ChunkView(v, bytes).blocks[|v.blocks|].addr == s.brk - WSIZE
  {
    var h, t := Stop(v.blocks), Tag(bytes, v.bits[|v.blocks|], false);
    var m' := s.mem[h := t][h + bytes - WSIZE := t][h + bytes := Tag(0, false, true)];
    ChunkWrites(s, v, bytes);
    ReadEpilogue(s, v);
    ChunkLoads(s.mem, h, bytes, t);
    ChunkFreed(s, v, bytes, m');
    FreedSame(s.(mem := m', brk := s.brk + bytes), Chunk(s, s.brk, bytes), ChunkView(v, bytes), |v.blocks|);
  }

  /** What extend_heap's three stores leave. */
  lemma ChunkLoads(m: Mem, h: int, bytes: int, t: int)
    requires bytes >= MIN_BLOCK_SIZE && (t == bytes || t == bytes + 2)
    ensures var m' := m[h := t][h + bytes - WSIZE := t][h + bytes := Tag(0, false, true)];
      && SameOutside(m, m', h, h + bytes + WSIZE) && Load(m', h) == t && FootOk(m', Block(h, bytes, false))
      && Load(m', h + bytes) == Tag(0, false, true)
  {
  }

  /** Freed carried across equal states. */
  lemma FreedSame(s: State, s': State, v: View, k: int)
    requires Freed(s, v, k) && s == s'
    ensures Freed(s', v, k)
  {
  }

  /**
   * The tail of extend_heap once mem_sbrk has granted the bytes: the heap
   * is consistent for ExtendView, the break has moved by the bytes, and
   * the result is the block the new one merged into.
   */
  lemma GrowRefines(s: State, v: View, bytes: int)
    requires Rep(s, v) && bytes % 8 == 0 && MIN_BLOCK_SIZE <= bytes && s.brk + bytes <= HeapLimit
    ensures var r := Coalesce(Chunk(s, s.brk, bytes), s.brk - WSIZE); var v' := ExtendView(v, bytes);
      && Rep(r.0, v') && r.0.start == s.start && r.0.brk == s.brk + bytes
      && 0 <= MergeFrom(ChunkView(v, bytes), |v.blocks|) < |v'.blocks|
      && r.1 == v'.blocks[MergeFrom(ChunkView(v, bytes), |v.blocks|)].addr && 0 < r.1
  {
    ChunkAt(s, v, bytes);
    CoalesceRefines(Chunk(s, s.brk, bytes), ChunkView(v, bytes), |v.blocks|);
    var r := Coalesce(Chunk(s, s.brk, bytes), s.brk - WSIZE);
    ReadBlock(r.0, ExtendView(v, bytes), MergeFrom(ChunkView(v, bytes), |v.blocks|));
  }

  /**
   * extend_heap refines ExtendView for the sizes its callers pass (above
   * the minimum block): when mem_sbrk grants the rounded bytes, the heap
   * holds the row with a free block of that size appended and coalesced,
   * and the result is the block it merged into, which is not NULL; when
   * it refuses, nothing changes and the result is NULL.
   */
  lemma ExtendRefines(s: State, v: View, size: int, grant: bool)
    requires Rep(s, v) && MIN_BLOCK_SIZE < size && size + DSIZE - 1 < Two64
    ensures var bytes := RoundUp(size);
      bytes % 8 == 0 && size <= bytes < size + DSIZE
    ensures var bytes, r := RoundUp(size), ExtendHeap(s, size, grant);
      !(grant && s.brk + bytes <= HeapLimit) ==> r == (s, 0)
    ensures var bytes, r := RoundUp(size), ExtendHeap(s, size, grant); var v' := ExtendView(v, bytes);
      grant && s.brk + bytes <= HeapLimit ==>
        && Rep(r.0, v') && r.0.start == s.start && r.0.brk == s.brk + bytes
        && 0 <= MergeFrom(ChunkView(v, bytes), |v.blocks|) < |v'.blocks|
        && r.1 == v'.blocks[MergeFrom(ChunkView(v, bytes), |v.blocks|)].addr && 0 < r.1
  {
    RoundUpIs(size);
    var bytes := RoundUp(size);
    if grant && s.brk + bytes <= HeapLimit {
      Within(v.blocks);
      assert v.blocks[0] in v.blocks;
      ExtendIs(s, size, grant);
      GrowRefines(s, v, bytes);
    }
  }

  /** When mem_sbrk grants the bytes, extend_heap coalesces the block at the old break. */
  lemma ExtendIs(s: State, size: int, grant: bool)
    requires grant && 0 <= s.brk && 0 <= RoundUp(size) && s.brk + RoundUp(size) <= HeapLimit
    ensures ExtendHeap(s, size, grant) == Coalesce(Chunk(s, s.brk, RoundUp(size)), s.brk - WSIZE)
  {
    assert Sbrk(s.brk, RoundUp(size), grant) == s.brk;
  }

  /** The block extend_heap returns: past the prologue, free, and at least as large as the bytes added. */
  lemma GrowBlock(s: State, v: View, bytes: int)
    requires Row(s, v) && bytes > 0 && |v.lists| == CLASSES
    ensures var j := MergeFrom(ChunkView(v, bytes), |v.blocks|); var r := ExtendView(v, bytes).blocks;
      1 <= j < |r|
    ensures var j := MergeFrom(ChunkView(v, bytes), |v.blocks|); var r := ExtendView(v, bytes).blocks;
      0 <= j < |r| && !r[j].alloc
    ensures var j := MergeFrom(ChunkView(v, bytes), |v.blocks|); var r := ExtendView(v, bytes).blocks;
      0 <= j < |r| && r[j].size >= bytes
  {
    var bs := v.blocks;
    var cv := ChunkView(v, bytes);
    var j := MergeFrom(cv, |bs|);
    assert MergeHi(cv.blocks, |bs|) == |bs|;
    assert BitOk(s.mem, v, |bs|);
    assert cv.blocks[|bs|] == Block(Stop(bs), bytes, false);
    assert Splice(cv.blocks, j, |bs| + 1, [Merged(cv.blocks, j, |bs|)])[j] == Merged(cv.blocks, j, |bs|);
    assert ExtendView(v, bytes).blocks == Splice(cv.blocks, j, |bs| + 1, [Merged(cv.blocks, j, |bs|)]);
    var nb := Merged(cv.blocks, j, |bs|);
    assert End(cv.blocks[|bs|]) == Stop(bs) + bytes;
    if j < |bs| {
      assert j == |bs| - 1 && !bs[j].alloc && bs[0].alloc;
      assert cv.blocks[j] == bs[j] && bs[j] in bs;
      assert End(bs[j]) == Stop(bs) && bs[j].size >= 0;
      assert nb.size == bs[j].size + bytes;
    } else {
      assert nb.size == bytes;
    }
  }
}

=== FILE: final_realloc.dfy ===
/**
 * labs/malloclab/mm-final.c, mm_realloc: shrink in place, grow in place
 * over free neighbours, or move.  The in-place growth is modelled as
 * written and corrected; the corrected form is the one the rest uses.
 */
module FinalRealloc {
  import opened Twos
  import opened Heap
  import opened Buckets
  import opened Final
  import opened FinalOps
  import opened FinalApi

  // ---------------------------------------------------------------------------
  // Growing in place

  /** test_size: the bytes of block h and of its free neighbours. */
  function Reach(m: Mem, h: int): int {
    var next := NextNeighbor(m, h);
    ExtractSize(m, h)
    + (if ExtractPrevAlloc(m, h) then 0 else ExtractSize(m, PrevNeighbor(m, h)))
    + (if ExtractAlloc(m, next) then 0 else ExtractSize(m, next))
  }

  /** remove_blk on the free neighbours of h: the one before first, then the one after. */
  function Loosen(m: Mem, start: int, h: int): Mem {
    var next := NextNeighbor(m, h);
    var m1 := if ExtractPrevAlloc(m, h) then m else Unlink(m, start, PrevNeighbor(m, h));
    if ExtractAlloc(m, next) then m1 else Unlink(m1, start, next)
  }

  /**
   * The merge branches of mm_realloc as written: the free neighbours off
   * their lists and one header, in use, over block h and them, at h when
   * the block before is in use and at the block before otherwise.  The
   * header after the merged block is left as it was.  With both
   * neighbours in use the source returns NULL, here header 0.
   */
  function AbsorbAsWritten(s: State, h: int): (State, int) {
    var m := s.mem;
    var prevAlloc := ExtractPrevAlloc(m, h);
    if prevAlloc && ExtractAlloc(m, NextNeighbor(m, h)) then (s, 0)
    else
      var lo := if prevAlloc then h else PrevNeighbor(m, h);
      var m1 := Loosen(m, s.start, h);
      var bit := if prevAlloc then prevAlloc else ExtractPrevAlloc(m1, lo);
      (s.(mem := WriteHeader(m1, lo, Reach(m, h), bit, true)), lo)
  }

  /**
   * The merge branches corrected: the header after the merged block also
   * gets its prev-alloc bit set, as place does when it takes a free block
   * whole, since the block before it is now in use.
   */
  function Absorb(s: State, h: int): (State, int) {
    var (t, lo) := AbsorbAsWritten(s, h);
    if lo == 0 then (t, lo) else (t.(mem := SetBit(t.mem, NextNeighbor(t.mem, lo), true)), lo)
  }

  /** Blocks lo .. hi of the row as one block in use, the bit after it set; the lists as they are. */
  function EncloseView(v: View, lo: int, hi: int): View
    requires 0 <= lo <= hi < |v.blocks| && |v.bits| == |v.blocks| + 1
  {
    var bs := v.blocks;
    View(Splice(bs, lo, hi + 1, [Block(bs[lo].addr, End(bs[hi]) - bs[lo].addr, true)]),
         v.bits[..lo] + [v.bits[lo], true] + v.bits[hi + 2..], v.lists)
  }

  /**
   * Block k in use merged with its free neighbours into one block in use;
   * the bit after it set; the neighbours off their lists.
   */
  function AbsorbView(v: View, k: int): View
    requires 1 <= k < |v.blocks| && |v.bits| == |v.blocks| + 1 && |v.lists| == CLASSES
  {
    var bs := v.blocks;
    var lo, hi := MergeFrom(v, k), MergeHi(bs, k);
    EncloseView(View(bs, v.bits, Strip(Strip(v.lists, bs[lo]), bs[hi])), lo, hi)
  }

  /** What mm_realloc reads around block k, which is in use: its bit, its neighbours, and test_size. */
  lemma AbsorbReads(s: State, v: View, k: int)
    requires Row(s, v) && 1 <= k < |v.blocks| && v.blocks[k].alloc
    ensures var bs, m, h := v.blocks, s.mem, v.blocks[k].addr; var lo, hi := MergeFrom(v, k), MergeHi(bs, k);
      && ExtractPrevAlloc(m, h) == v.bits[k] && ExtractSize(m, h) == bs[k].size
      && NextNeighbor(m, h) == HeaderAt(bs, k + 1)
      && ExtractAlloc(m, NextNeighbor(m, h)) == (hi == k)
      && (hi == k + 1 ==> ExtractSize(m, NextNeighbor(m, h)) == bs[k + 1].size)
      && (!v.bits[k] ==> PrevNeighbor(m, h) == bs[k - 1].addr && !bs[k - 1].alloc && ExtractSize(m, bs[k - 1].addr) == bs[k - 1].size)
      && Reach(m, h) == End(bs[hi]) - bs[lo].addr && 1 <= lo
  {
    var bs := v.blocks;
    ReadBlock(s, v, k);
    if k + 1 < |bs| {
      ReadBlock(s, v, k + 1);
    } else {
      ReadEpilogue(s, v);
    }
    if !v.bits[k] {
      ReadBehind(s, v, k);
      ReadBlock(s, v, k - 1);
      assert bs[0].alloc;
    }
  }

  /** No list holds a block in use. */
  lemma InUseUnlisted(s: State, v: View, k: int)
    requires Shape(s, v) && 0 <= k < |v.blocks| && v.blocks[k].alloc
    ensures forall c :: 0 <= c < CLASSES ==> v.blocks[k] !in v.lists[c]
  {
    forall c | 0 <= c < CLASSES ensures v.blocks[k] !in v.lists[c] {
      assert Bucket(s.mem, s.start, v.blocks, v.lists, c);
    }
  }

  /** Tags kept across two steps are kept across both. */
  lemma TagsKeptTwice(m: Mem, m1: Mem, m2: Mem, bs: seq<Block>)
    requires TagsKept(m, m1, bs) && TagsKept(m1, m2, bs)
    ensures TagsKept(m, m2, bs)
  { }

  /**
   * remove_blk on the free neighbours of block k, which is in use: the
   * shape holds with them out of every list, no tag changes, and no list
   * holds a block of the run the merge covers.
   */
  lemma LoosenShape(s: State, v: View, k: int)
    requires Rep(s, v) && 1 <= k < |v.blocks| && v.blocks[k].alloc
    ensures var bs, ls := v.blocks, v.lists; var lo, hi := MergeFrom(v, k), MergeHi(bs, k);
      var ls1, m1 := Strip(Strip(ls, bs[lo]), bs[hi]), Loosen(s.mem, s.start, bs[k].addr);
      && Shape(s.(mem := m1), View(bs, v.bits, ls1)) && TagsKept(s.mem, m1, bs) && Unlisted(bs, ls1, lo, hi + 1)
  {
    var bs, ls := v.blocks, v.lists;
    var b := bs[k];
    AbsorbReads(s, v, k);
    InUseUnlisted(s, v, k);
    StripAbsent(ls, b);
    if v.bits[k] {
      if MergeHi(bs, k) == k {
        assert Loosen(s.mem, s.start, b.addr) == s.mem;
        assert v.(lists := ls) == v;
      } else {
        var nx := bs[k + 1];
        assert nx in ls[ClassOf(nx.size)];
        UnlinkBlock(s, v, nx);
      }
    } else {
      var pv := bs[k - 1];
      assert pv in ls[ClassOf(pv.size)];
      UnlinkBlock(s, v, pv);
      var m1 := Unlink(s.mem, s.start, pv.addr);
      StripAbsent(Strip(ls, pv), b);
      if MergeHi(bs, k) == k + 1 {
        var nx := bs[k + 1];
        Distinct(bs, k + 1);
        assert nx in Strip(ls, pv)[ClassOf(nx.size)];
        UnlinkBlock(s.(mem := m1), v.(lists := Strip(ls, pv)), nx);
        TagsKeptTwice(s.mem, m1, Unlink(m1, s.start, nx.addr), bs);
      }
    }
  }

  /** The stores of a merge into one block in use: the bit of header x set, then the header at a. */
  function Stores(m: Mem, a: int, size: int, x: int, bit: bool): Mem {
    SetBit(m, x, true)[a := Tag(size, bit, true)]
  }

  /** Stores, for blocks lo .. hi of a row, keeping the bit given. */
  function Enclose(m: Mem, bs: seq<Block>, lo: int, hi: int, bit: bool): Mem
    requires 0 <= lo <= hi < |bs|
  {
    Stores(m, bs[lo].addr, End(bs[hi]) - bs[lo].addr, HeaderAt(bs, hi + 1), bit)
  }

  /**
   * Blocks lo .. hi, which no list holds, covered by one header in use
   * that keeps block lo's bit, with the bit of the header after them set:
   * the shape holds for the merged row.
   */
  lemma EncloseShape(s: State, v: View, lo: int, hi: int)
    requires Shape(s, v) && 1 <= lo <= hi < |v.blocks| && Unlisted(v.blocks, v.lists, lo, hi + 1)
    ensures Shape(s.(mem := Enclose(s.mem, v.blocks, lo, hi, v.bits[lo])), EncloseView(v, lo, hi))
  {
    BitShape(s, v, hi + 1, true);
    EncloseAt(s.(mem := SetBit(s.mem, HeaderAt(v.blocks, hi + 1), true)), v.(bits := v.bits[hi + 1 := true]), lo, hi, s.mem);
    EncloseViewIs(v, lo, hi);
  }

  /** EncloseView, as the bit after the run set and then the run covered. */
  lemma EncloseViewIs(v: View, lo: int, hi: int)
    requires 0 <= lo <= hi < |v.blocks| && |v.bits| == |v.blocks| + 1
    ensures var v2 := v.(bits := v.bits[hi + 1 := true]); var bs := v2.blocks;
      && v2.bits[lo] == v.bits[lo]
      && EncloseView(v, lo, hi) == View(Splice(bs, lo, hi + 1, [Block(bs[lo].addr, End(bs[hi]) - bs[lo].addr, true)]),
                                        v2.bits[..lo] + [v2.bits[lo]] + v2.bits[hi + 1..], v2.lists)
  {
    var v2 := v.(bits := v.bits[hi + 1 := true]);
    assert v2.bits[..lo] + [v2.bits[lo]] + v2.bits[hi + 1..] == v.bits[..lo] + [v.bits[lo], true] + v.bits[hi + 2..];
  }

  /** EncloseShape once the bit after the run is set, over the memory m0 before that store. */
  lemma EncloseAt(s: State, v: View, lo: int, hi: int, m0: Mem)
    requires Shape(s, v) && 1 <= lo <= hi < |v.blocks| && Unlisted(v.blocks, v.lists, lo, hi + 1) && v.bits[hi + 1]
    requires s.mem == SetBit(m0, HeaderAt(v.blocks, hi + 1), true)
    ensures var bs := v.blocks;
      Shape(s.(mem := Enclose(m0, bs, lo, hi, v.bits[lo])),
            View(Splice(bs, lo, hi + 1, [Block(bs[lo].addr, End(bs[hi]) - bs[lo].addr, true)]), v.bits[..lo] + [v.bits[lo]] + v.bits[hi + 1..], v.lists))
  {
    EncloseRow(s, v, lo, hi, m0);
    SpliceThreaded(s, v, lo, hi + 1, [Block(v.blocks[lo].addr, End(v.blocks[hi]) - v.blocks[lo].addr, true)], Enclose(m0, v.blocks, lo, hi, v.bits[lo]));
  }

  /** The row part of EncloseAt. */
  lemma EncloseRow(s: State, v: View, lo: int, hi: int, m0: Mem)
    requires Row(s, v) && 1 <= lo <= hi < |v.blocks| && v.bits[hi + 1]
    requires s.mem == SetBit(m0, HeaderAt(v.blocks, hi + 1), true)
    ensures var bs, m' := v.blocks, Enclose(m0, v.blocks, lo, hi, v.bits[lo]);
      && Row(s.(mem := m'), View(Splice(bs, lo, hi + 1, [Block(bs[lo].addr, End(bs[hi]) - bs[lo].addr, true)]), v.bits[..lo] + [v.bits[lo]] + v.bits[hi + 1..], v.lists))
      && SameOutside(s.mem, m', bs[lo].addr, End(bs[hi]))
  {
    EnclosedSized(s.start, v.blocks, lo, hi);
    EncloseFacts(m0, s.mem, v.blocks, lo, hi, v.bits[lo]);
    SpliceOne(s, v, lo, hi + 1, Block(v.blocks[lo].addr, End(v.blocks[hi]) - v.blocks[lo].addr, true), v.bits[lo], Enclose(m0, v.blocks, lo, hi, v.bits[lo]));
  }

  /** Enclose writes the covering header and, past the run, only the bit after it. */
  lemma EncloseFacts(m0: Mem, m1: Mem, bs: seq<Block>, lo: int, hi: int, bit: bool)
    requires 0 < lo <= hi < |bs| && bs[lo].addr < End(bs[hi]) && m1 == SetBit(m0, HeaderAt(bs, hi + 1), true)
    ensures var m' := Enclose(m0, bs, lo, hi, bit);
      && SameOutside(m1, m', bs[lo].addr, End(bs[hi]))
      && Load(m', bs[lo].addr) == Tag(End(bs[hi]) - bs[lo].addr, bit, true)
  {
  }

  /** The block in use that covers lo .. hi is well sized and inside the heap. */
  lemma EnclosedSized(start: int, bs: seq<Block>, lo: int, hi: int)
    requires Laid(start, bs) && 1 <= lo <= hi < |bs|
    ensures var nb := Block(bs[lo].addr, End(bs[hi]) - bs[lo].addr, true);
      && End(nb) == End(bs[hi]) && MIN_BLOCK_SIZE <= nb.size < Word32 - 8 && nb.size % 8 == 0 && HeadsEnd(start) < nb.addr
  {
    assert bs[lo] in bs && bs[hi] in bs && bs[0] in bs;
    if lo < hi {
      TiledOrder(bs, lo, hi);
    }
    TiledOrder(bs, 0, lo);
    Within(bs);
    TagAlign(bs);
  }

  /** Every free block outside the run stays listed once the run's first and last blocks are taken out. */
  lemma AbsorbListed(bs: seq<Block>, ls: seq<seq<Block>>, lo: int, hi: int)
    requires Tiled(bs) && Listed(bs, ls, -1) && 1 <= lo <= hi < |bs|
    ensures var nb := Block(bs[lo].addr, End(bs[hi]) - bs[lo].addr, true);
      Listed(Splice(bs, lo, hi + 1, [nb]), Strip(Strip(ls, bs[lo]), bs[hi]), -1)
  {
    var nb := Block(bs[lo].addr, End(bs[hi]) - bs[lo].addr, true);
    var r := Splice(bs, lo, hi + 1, [nb]);
    var ls1 := Strip(Strip(ls, bs[lo]), bs[hi]);
    forall x | 0 <= x < |r| && !r[x].alloc ensures r[x] in ls1[ClassOf(r[x].size)] {
      SpliceSource(bs, lo, hi + 1, [nb], x);
      var y := if x < lo then x else x + hi - lo;
      Distinct(bs, y);
    }
  }

  /**
   * What the corrected merge stores, for block k in use with a free
   * neighbour: the neighbours unlinked, the bit of the header after the
   * run set, and the header of the merged block.
   */
  lemma AbsorbIs(s: State, v: View, k: int)
    requires Row(s, v) && 1 <= k < |v.blocks| && v.blocks[k].alloc && (v.bits[k] ==> MergeHi(v.blocks, k) == k + 1)
    requires TagsKept(s.mem, Loosen(s.mem, s.start, v.blocks[k].addr), v.blocks)
    ensures var bs := v.blocks; var lo, hi := MergeFrom(v, k), MergeHi(bs, k);
      var nb := Block(bs[lo].addr, End(bs[hi]) - bs[lo].addr, true);
      var m1 := Loosen(s.mem, s.start, bs[k].addr);
      && Absorb(s, bs[k].addr) == (s.(mem := Enclose(m1, bs, lo, hi, v.bits[lo])), nb.addr)
      && nb.size == Reach(s.mem, bs[k].addr)
  {
    AbsorbReads(s, v, k);
    ReadBlock(s, v, MergeFrom(v, k));
    ReadBlock(s, v, MergeHi(v.blocks, k));
    EnclosedSized(s.start, v.blocks, MergeFrom(v, k), MergeHi(v.blocks, k));
    assert v.blocks[MergeFrom(v, k)] in v.blocks;
    AbsorbEncloses(s, v.blocks[k].addr, v.blocks, MergeFrom(v, k), MergeHi(v.blocks, k), v.bits[MergeFrom(v, k)], Loosen(s.mem, s.start, v.blocks[k].addr));
  }

  /** AbsorbWrites with the stores spelled as Enclose over blocks lo .. hi. */
  lemma AbsorbEncloses(s: State, h: int, bs: seq<Block>, lo: int, hi: int, bit: bool, m1: Mem)
    requires 0 <= lo <= hi < |bs|
    requires var m, a, size := s.mem, bs[lo].addr, End(bs[hi]) - bs[lo].addr; var pa := ExtractPrevAlloc(m, h);
      && !(pa && ExtractAlloc(m, NextNeighbor(m, h)))
      && a == (if pa then h else PrevNeighbor(m, h)) && a != 0
      && m1 == Loosen(m, s.start, h) && bit == (if pa then true else ExtractPrevAlloc(m1, a))
      && size == Reach(m, h) && size % 8 == 0 && 0 < size < Word32 - 8 && HeaderAt(bs, hi + 1) == a + size
    ensures Absorb(s, h) == (s.(mem := Enclose(m1, bs, lo, hi, bit)), bs[lo].addr)
  {
    AbsorbWrites(s, h, bs[lo].addr, End(bs[hi]) - bs[lo].addr, bit, HeaderAt(bs, hi + 1), m1);
  }

  /** Absorb's stores, from the words it reads. */
  lemma AbsorbWrites(s: State, h: int, a: int, size: int, bit: bool, x: int, m1: Mem)
    requires var m := s.mem; var pa := ExtractPrevAlloc(m, h);
      && !(pa && ExtractAlloc(m, NextNeighbor(m, h)))
      && a == (if pa then h else PrevNeighbor(m, h)) && a != 0
      && m1 == Loosen(m, s.start, h) && bit == (if pa then true else ExtractPrevAlloc(m1, a))
      && size == Reach(m, h) && size % 8 == 0 && 0 < size < Word32 - 8 && x == a + size
    ensures Absorb(s, h) == (s.(mem := Stores(m1, a, size, x, bit)), a)
  {
    var m2 := WriteHeader(m1, a, size, bit, true);
    assert AbsorbAsWritten(s, h) == (s.(mem := m2), a);
    MarkAfter(s, h, s.(mem := m2), a);
    MarkWrites(m1, a, size, bit, x);
  }

  /** The corrected merge is the merge as written plus one SetBit. */
  lemma MarkAfter(s: State, h: int, t: State, lo: int)
    requires AbsorbAsWritten(s, h) == (t, lo) && lo != 0
    ensures Absorb(s, h) == (t.(mem := SetBit(t.mem, NextNeighbor(t.mem, lo), true)), lo)
  {
  }

  /** The header write then the SetBit past it, as one map. */
  lemma MarkWrites(m1: Mem, a: int, size: int, bit: bool, x: int)
    requires size % 8 == 0 && 0 < size < Word32 - 8 && x == a + size
    ensures var m2 := WriteHeader(m1, a, size, bit, true);
      SetBit(m2, NextNeighbor(m2, a), true) == SetBit(m1, x, true)[a := Tag(size, bit, true)]
  {
    var m2 := WriteHeader(m1, a, size, bit, true);
    StoreTag(m1, a, size, bit, true);
    ReadTag(m2, a, size, bit, true);
    assert NextNeighbor(m2, a) == x;
    var tag, w := Tag(size, bit, true), Load(SetBit(m1, x, true), x);
    SetBitFrom(m1, m2, x, true);
    SetBitAt(m1, x, true);
    assert m1[a := tag][x := w] == m1[x := w][a := tag];
  }

  /** SetBit on a header that reads the same in two memories stores the same word. */
  lemma SetBitFrom(m: Mem, m': Mem, x: int, bit: bool)
    requires Load(m, x) == Load(m', x)
    ensures SetBit(m', x, bit) == m'[x := Load(SetBit(m, x, bit), x)]
  {
  }

  /** AbsorbView spelled out. */
  lemma AbsorbViewIs(v: View, k: int)
    requires 1 <= k < |v.blocks| && |v.bits| == |v.blocks| + 1 && |v.lists| == CLASSES
    ensures var bs := v.blocks; var lo, hi := MergeFrom(v, k), MergeHi(bs, k);
      AbsorbView(v, k) == View(Splice(bs, lo, hi + 1, [Block(bs[lo].addr, End(bs[hi]) - bs[lo].addr, true)]),
                               v.bits[..lo] + [v.bits[lo], true] + v.bits[hi + 2..], Strip(Strip(v.lists, bs[lo]), bs[hi]))
    ensures var bs := v.blocks; var lo, hi := MergeFrom(v, k), MergeHi(bs, k);
      lo < |AbsorbView(v, k).blocks| && AbsorbView(v, k).blocks[lo] == Block(bs[lo].addr, End(bs[hi]) - bs[lo].addr, true)
  {
  }

  /** The lists of AbsorbView hold every free block it has. */
  lemma AbsorbViewListed(v: View, k: int)
    requires 1 <= k < |v.blocks| && |v.bits| == |v.blocks| + 1 && |v.lists| == CLASSES
    requires 1 <= MergeFrom(v, k) && Tiled(v.blocks) && Listed(v.blocks, v.lists, -1)
    ensures Listed(AbsorbView(v, k).blocks, AbsorbView(v, k).lists, -1)
  {
    AbsorbListed(v.blocks, v.lists, MergeFrom(v, k), MergeHi(v.blocks, k));
  }

  /**
   * The corrected merge refines AbsorbView: block k, in use, with a free
   * neighbour, becomes one block in use over the run, which starts where
   * the header the merge returns is and holds test_size bytes.
   */
  lemma AbsorbRefines(s: State, v: View, k: int)
    requires Rep(s, v) && 1 <= k < |v.blocks| && v.blocks[k].alloc && (v.bits[k] ==> MergeHi(v.blocks, k) == k + 1)
    ensures var r, w, lo := Absorb(s, v.blocks[k].addr), AbsorbView(v, k), MergeFrom(v, k);
      && Rep(r.0, w) && r.0.start == s.start && r.0.brk == s.brk && 1 <= lo < |w.blocks|
      && r.1 == w.blocks[lo].addr && w.blocks[lo] == Block(r.1, Reach(s.mem, v.blocks[k].addr), true)
  {
    AbsorbReads(s, v, k);
    LoosenShape(s, v, k);
    AbsorbIs(s, v, k);
    AbsorbViewListed(v, k);
    AbsorbViewIs(v, k);
    EncloseShape(s.(mem := Loosen(s.mem, s.start, v.blocks[k].addr)),
      View(v.blocks, v.bits, Strip(Strip(v.lists, v.blocks[MergeFrom(v, k)]), v.blocks[MergeHi(v.blocks, k)])),
      MergeFrom(v, k), MergeHi(v.blocks, k));
  }

  // ---------------------------------------------------------------------------
  // The successor bit

  /**
   * The merge as written, for block k in use whose bit is set, with a free
   * block after it and a clear bit after that: the merged block is in use
   * at block k's header, yet the header after it still says the block
   * before it is free.
   */
  lemma AbsorbLosesBit(s: State, v: View, k: int)
    requires Rep(s, v) && 1 <= k && k + 1 < |v.blocks| && v.blocks[k].alloc && v.bits[k]
    requires !v.blocks[k + 1].alloc && !v.bits[k + 2]
    ensures var a, x := AbsorbAsWritten(s, v.blocks[k].addr), HeaderAt(v.blocks, k + 2);
      && a.1 == v.blocks[k].addr && ExtractAlloc(a.0.mem, a.1) && ExtractSize(a.0.mem, a.1) == End(v.blocks[k + 1]) - a.1
      && NextNeighbor(a.0.mem, a.1) == x && !ExtractPrevAlloc(a.0.mem, x)
  {
    AbsorbAsWrittenIs(s, v, k);
    WriteKeepsAfter(s.mem, Loosen(s.mem, s.start, v.blocks[k].addr), v.blocks[k].addr, End(v.blocks[k + 1]) - v.blocks[k].addr, HeaderAt(v.blocks, k + 2));
  }

  /** What the merge as written reads and stores around block k, whose next neighbour is free. */
  lemma AbsorbAsWrittenIs(s: State, v: View, k: int)
    requires Rep(s, v) && 1 <= k && k + 1 < |v.blocks| && v.blocks[k].alloc && v.bits[k]
    requires !v.blocks[k + 1].alloc && !v.bits[k + 2]
    ensures && HeaderAt(v.blocks, k + 2) == v.blocks[k].addr + (End(v.blocks[k + 1]) - v.blocks[k].addr)
            && (End(v.blocks[k + 1]) - v.blocks[k].addr) % 8 == 0 && 0 < End(v.blocks[k + 1]) - v.blocks[k].addr < Word32
            && !ExtractPrevAlloc(s.mem, HeaderAt(v.blocks, k + 2))
            && Load(Loosen(s.mem, s.start, v.blocks[k].addr), HeaderAt(v.blocks, k + 2)) == Load(s.mem, HeaderAt(v.blocks, k + 2))
            && AbsorbAsWritten(s, v.blocks[k].addr)
               == (s.(mem := WriteHeader(Loosen(s.mem, s.start, v.blocks[k].addr), v.blocks[k].addr, End(v.blocks[k + 1]) - v.blocks[k].addr, true, true)), v.blocks[k].addr)
  {
    AbsorbReads(s, v, k);
    LoosenShape(s, v, k);
    EnclosedSized(s.start, v.blocks, k, k + 1);
    ReadBlock(s, v, k + 1);
    if k + 2 < |v.blocks| {
      ReadBlock(s, v, k + 2);
      assert v.blocks[k + 2] in v.blocks;
    } else {
      ReadEpilogue(s, v);
    }
  }

  /** A header written in use at h, over size bytes, leaves the header at h + size as it was. */
  lemma WriteKeepsAfter(m: Mem, m1: Mem, h: int, size: int, x: int)
    requires size % 8 == 0 && 0 < size < Word32 && x == h + size && Load(m1, x) == Load(m, x)
    ensures var m2 := WriteHeader(m1, h, size, true, true);
      && ExtractAlloc(m2, h) && ExtractSize(m2, h) == size && NextNeighbor(m2, h) == x
      && ExtractPrevAlloc(m2, x) == ExtractPrevAlloc(m, x)
  {
    PackRoundTrip(m1, h, size, true, true);
  }

  /**
   * mm_realloc's merge as written followed by place, when what the merged
   * block has over the request is too small to split off: the header after
   * the block in use keeps its clear bit.  A clear bit sends the next
   * extend_heap or coalesce there looking for a footer the block in use
   * does not have.
   */
  lemma ReallocLosesBit(s: State, v: View, k: int, size: int)
    requires Rep(s, v) && 1 <= k && k + 1 < |v.blocks| && v.blocks[k].alloc && v.bits[k]
    requires !v.blocks[k + 1].alloc && !v.bits[k + 2]
    requires End(v.blocks[k + 1]) - v.blocks[k].addr - size < MIN_BLOCK_SIZE
    ensures var a, x := AbsorbAsWritten(s, v.blocks[k].addr), HeaderAt(v.blocks, k + 2);
      var r := Place(a.0, a.1, size);
      ExtractAlloc(r.mem, a.1) && !ExtractPrevAlloc(r.mem, x)
  {
    AbsorbAsWrittenIs(s, v, k);
    PlacedAsWritten(s, v.blocks[k].addr, End(v.blocks[k + 1]) - v.blocks[k].addr, HeaderAt(v.blocks, k + 2), Loosen(s.mem, s.start, v.blocks[k].addr), size);
  }

  /** The merge as written over the words it reads and stores, then place on the merged block without a split. */
  lemma PlacedAsWritten(s: State, h: int, merged: int, x: int, m1: Mem, size: int)
    requires merged % 8 == 0 && 0 < merged < Word32 && x == h + merged && merged - size < MIN_BLOCK_SIZE
    requires Load(m1, x) == Load(s.mem, x) && !ExtractPrevAlloc(s.mem, x)
    requires AbsorbAsWritten(s, h) == (s.(mem := WriteHeader(m1, h, merged, true, true)), h)
    ensures var a := AbsorbAsWritten(s, h);
      var r := Place(a.0, a.1, size);
      ExtractAlloc(r.mem, a.1) && !ExtractPrevAlloc(r.mem, x)
  {
    WriteKeepsAfter(s.mem, m1, h, merged, x);
    PlaceKeepsAfter(AbsorbAsWritten(s, h).0, h, size, x);
  }

  /**
   * place on a block already in use whose excess is too small to split:
   * the block stays in use and the header after it is left alone.
   */
  lemma PlaceKeepsAfter(t: State, a: int, size: int, x: int)
    requires ExtractAlloc(t.mem, a) && ExtractSize(t.mem, a) - size < MIN_BLOCK_SIZE
    requires ExtractSize(t.mem, a) % 8 == 0 && 0 < ExtractSize(t.mem, a) < Word32 && x == a + ExtractSize(t.mem, a)
    ensures ExtractAlloc(Place(t, a, size).mem, a) && Load(Place(t, a, size).mem, x) == Load(t.mem, x)
  {
    PackRoundTrip(t.mem, a, ExtractSize(t.mem, a), ExtractPrevAlloc(t.mem, a), true);
  }

  /** The corrected merge in the same heap: the header after the merged block has its bit set. */
  lemma AbsorbKeepsBit(s: State, v: View, k: int)
    requires Rep(s, v) && 1 <= k && k + 1 < |v.blocks| && v.blocks[k].alloc && v.bits[k]
    requires !v.blocks[k + 1].alloc && !v.bits[k + 2]
    ensures var a, x := Absorb(s, v.blocks[k].addr), HeaderAt(v.blocks, k + 2);
      a.1 == v.blocks[k].addr && ExtractAlloc(a.0.mem, a.1) && ExtractPrevAlloc(a.0.mem, x)
  {
    var bs := v.blocks;
    AbsorbReads(s, v, k);
    AbsorbRefines(s, v, k);
    AbsorbViewIs(v, k);
    var a, w := Absorb(s, bs[k].addr), AbsorbView(v, k);
    ReadBlock(a.0, w, k);
    if k + 2 < |bs| {
      SpliceOutside(bs, k, k + 2, [w.blocks[k]], k + 2);
      ReadBlock(a.0, w, k + 1);
    } else {
      ReadEpilogue(a.0, w);
    }
  }

  // ---------------------------------------------------------------------------
  // mm_realloc

  /** test_size in view terms: from the first block the merge takes to the end of the last. */
  function Room(v: View, k: int): int
    requires 1 <= k < |v.blocks| && |v.bits| == |v.blocks| + 1
  {
    End(v.blocks[MergeHi(v.blocks, k)]) - v.blocks[MergeFrom(v, k)].addr
  }

  /** The merge keeps every block in use but block k, and none of them is the merged block. */
  lemma AbsorbAllocated(v: View, k: int)
    requires 1 <= k < |v.blocks| && |v.bits| == |v.blocks| + 1 && |v.lists| == CLASSES && Tiled(v.blocks)
    requires !v.bits[k] ==> !v.blocks[k - 1].alloc
    ensures var lo, x := MergeFrom(v, k), AbsorbView(v, k).blocks;
      lo < |x| && Allocated(v.blocks) - {v.blocks[k]} <= Allocated(x) - {x[lo]}
  {
    var bs := v.blocks;
    var lo, hi := MergeFrom(v, k), MergeHi(bs, k);
    var nb := Block(bs[lo].addr, End(bs[hi]) - bs[lo].addr, true);
    AbsorbViewIs(v, k);
    forall c | c in Allocated(bs) - {bs[k]} ensures c in Allocated(AbsorbView(v, k).blocks) - {nb} {
      var y :| 0 <= y < |bs| && bs[y] == c;
      SpliceOutside(bs, lo, hi + 1, [nb], y);
      assert bs[lo] in bs;
      if y < lo {
        TiledOrder(bs, y, lo);
      } else {
        TiledOrder(bs, lo, y);
      }
    }
  }

  /**
   * The corrected merge, then place, for block k in use when test_size
   * covers the request and the block alone does not: a consistent heap
   * whose block at the merged header is in use with room for size bytes,
   * every other block in use kept.
   */
  lemma AbsorbPlaced(s: State, v: View, k: int, size: int)
    requires Rep(s, v) && 1 <= k < |v.blocks| && v.blocks[k].alloc
    requires size % 8 == 0 && MIN_BLOCK_SIZE <= size && v.blocks[k].size < size <= Room(v, k)
    ensures var a, x, lo := Absorb(s, v.blocks[k].addr), AbsorbView(v, k), MergeFrom(v, k);
      && 1 <= lo < |x.blocks| && |x.bits| == |x.blocks| + 1 && |x.lists| == CLASSES && a.1 == v.blocks[lo].addr
      && var r, w := Place(a.0, a.1, size), PlaceView(x, lo, size);
         && Rep(r, w) && r.start == s.start && r.brk == s.brk && Holds(w, a.1, size)
         && Allocated(v.blocks) - {v.blocks[k]} <= Allocated(w.blocks)
  {
    AbsorbReads(s, v, k);
    AbsorbRefines(s, v, k);
    AbsorbViewIs(v, k);
    var a, x, lo := Absorb(s, v.blocks[k].addr), AbsorbView(v, k), MergeFrom(v, k);
    PlaceRefines(a.0, x, lo, size);
    PlacedAt(x, lo, size);
    PlaceAllocated(x, lo, size);
    assert BitOk(s.mem, v, k);
    AbsorbAllocated(v, k);
  }

  /** A block in use with room for n bytes has room for fewer. */
  lemma HoldsLess(v: View, h: int, n: int, n': int)
    requires Holds(v, h, n) && n' <= n
    ensures Holds(v, h, n')
  {
  }

  /** Two rows over the same heads start with the same prologue. */
  lemma SamePrologue(s: State, v: View, r: State, w: View)
    requires Row(s, v) && Row(r, w) && r.start == s.start
    ensures v.blocks[0] == w.blocks[0]
  {
  }

  /**
   * Block k, past the prologue, too small for calc_real_size(size): it
   * holds fewer than size + 4 bytes, since the real size is the least
   * multiple of 8 from 24 up that holds them.
   */
  lemma TooSmall(s: State, v: View, k: int, size: int)
    requires Row(s, v) && 1 <= k < |v.blocks| && 0 <= size && v.blocks[k].size < CalcRealSize(size)
    ensures v.blocks[k].size < size + WSIZE && v.blocks[k] != v.blocks[0]
  {
    Distinct(v.blocks, k);
    ReadBlock(s, v, k);
    assert v.blocks[k] in v.blocks;
  }

  /** Every block's header lies past the heads, so no payload is NULL; block k lies within the run the merge takes. */
  lemma HeaderFacts(s: State, v: View, k: int)
    requires Row(s, v) && 1 <= k < |v.blocks|
    ensures 0 < v.blocks[k].addr && HeaderToPayload(v.blocks[k].addr) != 0 && v.blocks[k].size <= Room(v, k)
  {
    var bs := v.blocks;
    ReadBlock(s, v, k);
    if k + 1 < |bs| {
      assert bs[k + 1] in bs && bs[k + 1].addr == End(bs[k]);
    }
    if !v.bits[k] {
      assert BitOk(s.mem, v, k);
      assert bs[k - 1] in bs && bs[k].addr == End(bs[k - 1]);
    }
  }

  /** place(h, size) on block k in use, big enough: the shrink in place. */
  lemma InPlace(s: State, v: View, k: int, size: int)
    requires Rep(s, v) && 1 <= k < |v.blocks| && size % 8 == 0 && MIN_BLOCK_SIZE <= size <= v.blocks[k].size
    ensures var r, w := Place(s, v.blocks[k].addr, size), PlaceView(v, k, size);
      && Rep(r, w) && r.start == s.start && r.brk == s.brk && Holds(w, v.blocks[k].addr, size)
      && Allocated(v.blocks) - {v.blocks[k]} <= Allocated(w.blocks)
  {
    PlaceRefines(s, v, k, size);
    PlacedAt(v, k, size);
    PlaceAllocated(v, k, size);
  }

  /**
   * mm_free on block b of a consistent heap, b in use and not the
   * prologue: b leaves use, and every other block in use stays.
   */
  lemma FreeOld(s: State, v: View, b: Block) returns (k: int)
    requires Rep(s, v) && b in Allocated(v.blocks) && b != v.blocks[0]
    ensures 1 <= k < |v.blocks| && v.blocks[k] == b
    ensures var r, w := Free(s, HeaderToPayload(b.addr)), FreeView(v, k);
      && Rep(r, w) && r.start == s.start && Allocated(w.blocks) == Allocated(v.blocks) - {b}
  {
    k :| 0 <= k < |v.blocks| && v.blocks[k] == b;
    assert BitOk(s.mem, v, k);
    FreeRefines(s, v, k);
    FreeAllocated(v, k);
  }

  /** A block in use with room for more than b holds is not b, so it outlives b's release. */
  lemma StillHolds(v: View, w: View, h: int, n: int, b: Block)
    requires Holds(v, h, n) && Allocated(v.blocks) - {b} <= Allocated(w.blocks) && b.size < n
    ensures Holds(w, h, n)
  {
    var j :| 0 <= j < |v.blocks| && v.blocks[j].addr == h && v.blocks[j].alloc && v.blocks[j].size >= n;
    assert v.blocks[j] != b && v.blocks[j] in Allocated(v.blocks);
    assert v.blocks[j] in Allocated(w.blocks);
    assert v.blocks[j] in w.blocks;
    var x :| 0 <= x < |w.blocks| && w.blocks[x] == v.blocks[j];
  }

  /**
   * The moving branch: mm_malloc(size), then mm_free on the old payload;
   * NULL from mm_malloc leaves everything as it was.  The data copy is not
   * modelled.
   */
  method Move(s: State, p: int, size: int, grant: bool, ghost v: View, ghost k: int) returns (r: State, q: int, ghost w: View)
    requires Rep(s, v) && 0 < size <= SizeMax
    requires 1 <= k < |v.blocks| && p == HeaderToPayload(v.blocks[k].addr) && v.blocks[k].alloc && v.blocks[k].size < size + WSIZE
    ensures Rep(r, w) && r.start == s.start
    ensures q == 0 ==> r == s && w == v
    ensures q != 0 ==> && Holds(w, PayloadToHeader(q), size + WSIZE) && v.blocks[k] !in Allocated(w.blocks)
                       && Allocated(v.blocks) - {v.blocks[k]} <= Allocated(w.blocks)
  {
    var r1, q1, w1 := Malloc(s, size, grant, v);
    if q1 == 0 {
      return s, 0, v;
    }
    SamePrologue(s, v, r1, w1);
    Distinct(v.blocks, k);
    assert v.blocks[k] in Allocated(v.blocks);
    ghost var k1 := FreeOld(r1, w1, v.blocks[k]);
    StillHolds(w1, FreeView(w1, k1), PayloadToHeader(q1), size + WSIZE, v.blocks[k]);
    r, q, w := Free(r1, p), q1, FreeView(w1, k1);
  }

  /** The shrink in place: place on block k, which is in use and holds the real size. */
  method Shrink(s: State, p: int, size: int, ghost v: View, ghost k: int) returns (r: State, q: int, ghost w: View)
    requires Rep(s, v) && 0 < size && 1 <= k < |v.blocks| && p == HeaderToPayload(v.blocks[k].addr)
    requires CalcRealSize(size) <= v.blocks[k].size
    ensures Rep(r, w) && r.start == s.start && r.brk == s.brk && q == p && q != 0 && w == PlaceView(v, k, CalcRealSize(size))
    ensures Holds(w, PayloadToHeader(q), size + WSIZE) && Allocated(v.blocks) - {v.blocks[k]} <= Allocated(w.blocks)
  {
    var rs := CalcRealSize(size);
    HeaderFacts(s, v, k);
    InPlace(s, v, k, rs);
    HoldsLess(PlaceView(v, k, rs), v.blocks[k].addr, rs, size + WSIZE);
    r, q, w := Place(s, PayloadToHeader(p), rs), p, PlaceView(v, k, rs);
  }

  /** The growth in place: the corrected merge over block k, which is in use, then place. */
  method Grow(s: State, p: int, size: int, ghost v: View, ghost k: int) returns (r: State, q: int, ghost w: View)
    requires Rep(s, v) && 0 < size && 1 <= k < |v.blocks| && p == HeaderToPayload(v.blocks[k].addr) && v.blocks[k].alloc
    requires v.blocks[k].size < CalcRealSize(size) <= Room(v, k)
    ensures Rep(r, w) && r.start == s.start && r.brk == s.brk && 1 <= MergeFrom(v, k) && q != 0
    ensures q == HeaderToPayload(v.blocks[MergeFrom(v, k)].addr) && w == PlaceView(AbsorbView(v, k), MergeFrom(v, k), CalcRealSize(size))
    ensures Holds(w, PayloadToHeader(q), size + WSIZE) && Allocated(v.blocks) - {v.blocks[k]} <= Allocated(w.blocks)
  {
    var rs := CalcRealSize(size);
    AbsorbPlaced(s, v, k, rs);
    HeaderFacts(s, v, MergeFrom(v, k));
    var a := Absorb(s, PayloadToHeader(p));
    HoldsLess(PlaceView(AbsorbView(v, k), MergeFrom(v, k), rs), a.1, rs, size + WSIZE);
    r, q, w := Place(a.0, a.1, rs), HeaderToPayload(a.1), PlaceView(AbsorbView(v, k), MergeFrom(v, k), rs);
  }

  /**
   * mm_realloc past its NULL and zero tests, for the payload of block k:
   * NULL for a block not in use; place in place when the block is big
   * enough; the corrected merge and place when test_size is; otherwise
   * move.  Requests too large for calc_real_size's arithmetic are refused.
   */
  method Resize(s: State, p: int, size: int, grant: bool, ghost v: View, ghost k: int) returns (r: State, q: int, ghost w: View)
    requires Rep(s, v) && 0 < size <= SizeMax
    requires 1 <= k < |v.blocks| && p == HeaderToPayload(v.blocks[k].addr)
    ensures Rep(r, w) && r.start == s.start
    ensures q == 0 ==> r == s && w == v
    ensures q != 0 ==> Holds(w, PayloadToHeader(q), size + WSIZE) && Allocated(v.blocks) - {v.blocks[k]} <= Allocated(w.blocks)
    ensures !v.blocks[k].alloc || SizeMax - 11 < size ==> q == 0
    ensures v.blocks[k].alloc && size <= SizeMax - 11 ==>
      var rs := CalcRealSize(size);
      && (rs <= v.blocks[k].size ==> q == p && r.brk == s.brk && w == PlaceView(v, k, rs))
      && (v.blocks[k].size < rs <= Room(v, k) ==>
            && 1 <= MergeFrom(v, k) && q == HeaderToPayload(v.blocks[MergeFrom(v, k)].addr) && r.brk == s.brk
            && w == PlaceView(AbsorbView(v, k), MergeFrom(v, k), rs))
      && (Room(v, k) < rs && q != 0 ==> v.blocks[k] !in Allocated(w.blocks))
  {
    var h := PayloadToHeader(p);
    ReadBlock(s, v, k);
    HeaderFacts(s, v, k);
    if !ExtractAlloc(s.mem, h) || SizeMax - 11 < size {
      return s, 0, v;
    }
    var rs := CalcRealSize(size);
    if ExtractSize(s.mem, h) >= rs {
      r, q, w := Shrink(s, p, size, v, k);
      return;
    }
    AbsorbReads(s, v, k);
    if Reach(s.mem, h) >= rs {
      r, q, w := Grow(s, p, size, v, k);
      return;
    }
    TooSmall(s, v, k, size);
    r, q, w := Move(s, p, size, grant, v, k);
  }

  /**
   * mm_realloc(p, size): mm_malloc(size) for NULL; mm_free(p) and NULL for
   * size 0; Resize otherwise.  p is NULL or the payload of block k; a
   * block freed by realloc(p, 0) must be in use.  The heap stays
   * consistent, a non-NULL result has room for size bytes, and every block
   * in use other than block k stays in use.
   */
  method Realloc(s: State, p: int, size: int, grant: bool, ghost v: View, ghost k: int) returns (r: State, q: int, ghost w: View)
    requires Rep(s, v) && 0 <= size <= SizeMax
    requires p == 0 || (1 <= k < |v.blocks| && p == HeaderToPayload(v.blocks[k].addr) && (size == 0 ==> v.blocks[k].alloc))
    ensures Rep(r, w) && r.start == s.start
    ensures q != 0 ==> Holds(w, PayloadToHeader(q), size + WSIZE)
    ensures q == 0 && (p == 0 || size != 0) ==> r == s && w == v
    ensures p == 0 ==> Allocated(v.blocks) <= Allocated(w.blocks)
    ensures p != 0 ==> Allocated(v.blocks) - {v.blocks[k]} <= Allocated(w.blocks)
    ensures p != 0 && size == 0 ==> q == 0 && r == Free(s, p) && w == FreeView(v, k) && v.blocks[k] !in Allocated(w.blocks)
  {
    if p == 0 {
      r, q, w := Malloc(s, size, grant, v);
      return;
    }
    if size == 0 {
      FreeRefines(s, v, k);
      assert BitOk(s.mem, v, k);
      FreeAllocated(v, k);
      return Free(s, p), 0, FreeView(v, k);
    }
    r, q, w := Resize(s, p, size, grant, v, k);
  }
}

=== FILE: heap.dfy ===
/**
 * What the four allocators of labs/malloclab share: a word-addressed memory,
 * the grow-or-fail primitive mem_sbrk, the bit layout of a boundary tag
 * (size in the high bits, flags in the low three), and the abstract view of
 * a heap as a row of blocks that tile it.
 */
module Heap {
  import opened Twos

  datatype Option<T> = None | Some(value: T)

  // ---------------------------------------------------------------------------
  // Memory

  /** Memory as a map from byte address to the word stored there. */
  type Mem = map<int, int>

  /** The word at address a; an address never written reads as 0. */
  function Load(m: Mem, a: int): int {
    if a in m then m[a] else 0
  }

  /** m' agrees with m at every address outside [lo, hi). */
  ghost predicate SameOutside(m: Mem, m': Mem, lo: int, hi: int) {
    forall x {:trigger Load(m', x)} :: x < lo || hi <= x ==> Load(m', x) == Load(m, x)
  }

  /** 2^32: one more than the largest 32-bit word. */
  const Word32: int := 0x1_0000_0000

  /** The largest size_t. */
  const SizeMax: int := Two64 - 1

  /** `*(uint32_t *)a = v`: the store keeps the low 32 bits of v. */
  function Store32(m: Mem, a: int, v: int): Mem {
    m[a := v % Word32]
  }

  /** `*(void **)a = p` in a heap of 4-byte words: the pointer's low and high halves. */
  function StorePtr(m: Mem, a: int, p: int): Mem {
    m[a := p % Word32][a + 4 := (p / Word32) % Word32]
  }

  /** `*(void **)a` in a heap of 4-byte words. */
  function LoadPtr(m: Mem, a: int): int {
    Load(m, a) + Word32 * Load(m, a + 4)
  }

  /** A pointer below 2^32 reads back as stored. */
  lemma PtrRoundTrip(m: Mem, a: int, p: int)
    requires 0 <= p < Word32
    ensures LoadPtr(StorePtr(m, a, p), a) == p
    ensures forall x {:trigger Load(StorePtr(m, a, p), x)} :: x != a && x != a + 4 ==> Load(StorePtr(m, a, p), x) == Load(m, x)
  {
  }

  /**
   * The heap never grows past 2^32 bytes, so every block size fits the
   * 32-bit boundary tags and every pointer fits its low half.
   */
  const HeapLimit: int := Word32

  /**
   * memlib's `mem_sbrk(incr)` on a heap whose break is at brk: the old break,
   * or -1 when the request is refused.  `grant` says whether the system has
   * memory to give; the heap also never grows past HeapLimit.
   */
  function Sbrk(brk: int, incr: int, grant: bool): (r: int)
    ensures grant && 0 <= incr && brk + incr <= HeapLimit ==> r == brk
    ensures !(grant && 0 <= incr && brk + incr <= HeapLimit) ==> r == -1
  {
    if grant && 0 <= incr && brk + incr <= HeapLimit then brk else -1
  }

  // ---------------------------------------------------------------------------
  // Boundary tags

  /**
   * The size field of a tag, `w & ~0x7`, written as w with its low three bits
   * cleared; SizeFieldMask shows the two agree on every word.
   */
  function SizeField(w: int): int {
    w - w % 8
  }

  /** The allocated bit, `w & 0x1` (AllocBitMask). */
  function AllocBit(w: int): bool {
    w % 2 == 1
  }

  /** `w & 0x2`, the bit mm-final.c keeps for "the block before is allocated" (PrevAllocBitMask). */
  function PrevAllocBit(w: int): bool {
    (w / 2) % 2 == 1
  }

  /** `x | y` adds y when y only has bits that x leaves clear. */
  lemma {:induction false} OrLow(x: int, y: int, k: nat)
    requires x % Pow2(k) == 0 && 0 <= y < Pow2(k)
    ensures Or(x, y) == x + y
    decreases k
  {
    if k == 0 {
      OrIdentities(x);
    } else {
      var p := Pow2(k - 1);
      assert Pow2(k) == 2 * p;
      var q := x / (2 * p);
      assert x == 2 * p * q;
      DivUnique(x, 2, p * q, 0);
      DivUnique(p * q, p, q, 0);
      assert y / 2 < p;
      OrLow(x / 2, y / 2, k - 1);
      BitwiseStep(OrOp, x, y);
      var z := Or(x, y);
      assert z == 2 * (z / 2) + z % 2;
    }
  }

  /** `x & -2^k` clears the low k bits. */
  lemma {:induction false} AndHigh(x: int, k: nat)
    ensures And(x, -Pow2(k)) == x - x % Pow2(k)
    decreases k
  {
    if k == 0 {
      AndMinusOne(x);
      BitwiseComm(AndOp, x, -1);
    } else {
      var p := Pow2(k - 1);
      assert Pow2(k) == 2 * p;
      assert -2 * p < -1;
      assert (-2 * p) / 2 == -p && (-2 * p) % 2 == 0;
      AndHigh(x / 2, k - 1);
      assert And(x, -2 * p) == 2 * And(x / 2, -p);
      DivUnique(x, 2 * p, (x / 2) / p, 2 * ((x / 2) % p) + x % 2);
    }
  }

  /** `w & 0x2` is bit 1 of w. */
  lemma AndTwo(w: int)
    ensures And(w, 2) == 2 * ((w / 2) % 2)
  {
    assert And(w, 2) == 2 * And(w / 2, 1);
    AndLowMask(w / 2, 1);
    assert Pow2(1) == 2;
  }

  lemma SizeFieldMask(w: int)
    ensures SizeField(w) == And(w, Not(7))
  {
    assert Not(7) == -Pow2(3) by { Pow2Half(); }
    AndHigh(w, 3);
    assert Pow2(3) == 8;
  }

  lemma AllocBitMask(w: int)
    ensures AllocBit(w) == (And(w, 1) != 0)
  {
    AndOne(w);
  }

  lemma PrevAllocBitMask(w: int)
    ensures PrevAllocBit(w) == (And(w, 2) != 0)
  {
    AndTwo(w);
  }

  /** The fields of a tag that holds size s with flag bits 2p + a. */
  lemma TagFields(s: int, p: bool, a: bool)
    requires s % 8 == 0
    ensures var w := s + (if p then 2 else 0) + (if a then 1 else 0);
      SizeField(w) == s && AllocBit(w) == a && PrevAllocBit(w) == p
  {
    var w := s + (if p then 2 else 0) + (if a then 1 else 0);
    var f := (if p then 2 else 0) + (if a then 1 else 0);
    DivUnique(w, 8, s / 8, f);
    DivUnique(w, 2, s / 2 + (if p then 1 else 0), if a then 1 else 0);
    DivUnique(s / 2 + (if p then 1 else 0), 2, s / 4, if p then 1 else 0);
  }

  /** Sums and differences of multiples of 8 are multiples of 8. */
  lemma Mul8(x: int, y: int)
    requires x % 8 == 0 && y % 8 == 0
    ensures (x + y) % 8 == 0 && (x - y) % 8 == 0
  {
    DivUnique(x + y, 8, x / 8 + y / 8, 0);
    DivUnique(x - y, 8, x / 8 - y / 8, 0);
  }

  /** Setting flag bits on a multiple of 8 adds them. */
  lemma OrFlags(s: int)
    requires s % 8 == 0
    ensures Or(s, 1) == s + 1 && Or(s, 2) == s + 2 && Or(s + 2, 1) == s + 3
  {
    assert Pow2(1) == 2 && Pow2(2) == 4 && Pow2(3) == 8;
    OrLow(s, 1, 3);
    OrLow(s, 2, 3);
    OrLow(s + 2, 1, 1);
  }

  // ---------------------------------------------------------------------------
  // Blocks

  /** A block of the heap: where it starts, how many bytes it spans, whether it is in use. */
  datatype Block = Block(addr: int, size: int, alloc: bool)

  function End(b: Block): int {
    b.addr + b.size
  }

  /** Every block is non-empty and starts where the one before it ends. */
  predicate Tiled(bs: seq<Block>) {
    && (forall b {:trigger b in bs} :: b in bs ==> b.size > 0)
    && (forall k :: 0 < k < |bs| ==> bs[k].addr == End(bs[k - 1]))
  }

  /** The first byte after the last block. */
  function Stop(bs: seq<Block>): int
    requires |bs| > 0
  {
    End(bs[|bs| - 1])
  }

  /** The first block of a free list, from position lo on, with at least size bytes. */
  function ListFit(fl: seq<Block>, size: int, lo: nat): (r: Option<nat>)
    requires lo <= |fl|
    ensures r.Some? ==> lo <= r.value < |fl| && fl[r.value].size >= size
    ensures r.Some? ==> forall t :: lo <= t < r.value ==> fl[t].size < size
    ensures r.None? ==> forall t :: lo <= t < |fl| ==> fl[t].size < size
    decreases |fl| - lo
  {
    if lo == |fl| then None
    else if fl[lo].size >= size then Some(lo)
    else ListFit(fl, size, lo + 1)
  }

  /** The number of free blocks in a row. */
  function FreeCount(bs: seq<Block>): (r: nat)
    ensures r <= |bs|
  {
    if |bs| == 0 then 0 else FreeCount(bs[..|bs| - 1]) + (if bs[|bs| - 1].alloc then 0 else 1)
  }

  /** The free blocks of a row. */
  function FreeSet(bs: seq<Block>): set<Block> {
    set b | b in bs && !b.alloc
  }

  /** In a row without repeats, counting the free blocks counts the set of them. */
  lemma {:induction false} FreeCountCard(bs: seq<Block>)
    requires forall i, j :: 0 <= i < j < |bs| ==> bs[i] != bs[j]
    ensures FreeCount(bs) == |FreeSet(bs)|
  {
    if |bs| > 0 {
      var init, b := bs[..|bs| - 1], bs[|bs| - 1];
      FreeCountCard(init);
      assert bs == init + [b];
      assert b !in init by {
        forall c | c in init ensures c != b {
          var i :| 0 <= i < |init| && init[i] == c;
          assert bs[i] == c;
        }
      }
      if b.alloc {
        assert FreeSet(bs) == FreeSet(init);
      } else {
        assert FreeSet(bs) == FreeSet(init) + {b};
      }
    }
  }

  /** A list without repeats has as many entries as distinct blocks. */
  lemma {:induction false} ListCard(fl: seq<Block>)
    requires forall i, j :: 0 <= i < j < |fl| ==> fl[i] != fl[j]
    ensures |set b | b in fl| == |fl|
  {
    if |fl| > 0 {
      var init, b := fl[..|fl| - 1], fl[|fl| - 1];
      ListCard(init);
      assert fl == init + [b];
      assert b !in init by {
        forall c | c in init ensures c != b {
          var i :| 0 <= i < |init| && init[i] == c;
          assert fl[i] == c;
        }
      }
      assert (set c | c in fl) == (set c | c in init) + {b};
    }
  }

  lemma {:induction false} TiledOrder(bs: seq<Block>, i: int, j: int)
    requires Tiled(bs) && 0 <= i < j < |bs|
    ensures End(bs[i]) <= bs[j].addr
    decreases j - i
  {
    if j > i + 1 {
      TiledOrder(bs, i, j - 1);
      assert bs[j - 1] in bs;
    }
  }

  /** Blocks before block i end where it starts or earlier. */
  lemma Before(bs: seq<Block>, i: int)
    requires Tiled(bs) && 0 <= i < |bs|
    ensures forall b :: b in bs[..i] ==> End(b) <= bs[i].addr
  {
    forall b | b in bs[..i] ensures End(b) <= bs[i].addr {
      var k :| 0 <= k < i && bs[k] == b;
      TiledOrder(bs, k, i);
    }
  }

  /** Blocks from j on start where block j - 1 ends or later. */
  lemma After(bs: seq<Block>, j: int)
    requires Tiled(bs) && 0 < j <= |bs|
    ensures forall b {:trigger b in bs[j..]} :: b in bs[j..] ==> End(bs[j - 1]) <= b.addr
  {
    forall b {:trigger b in bs[j..]} | b in bs[j..] ensures End(bs[j - 1]) <= b.addr {
      var k :| j <= k < |bs| && bs[k] == b;
      TiledOrder(bs, j - 1, k);
    }
  }

  /** Every block lies between the start of the first and the end of the last. */
  lemma Within(bs: seq<Block>)
    requires Tiled(bs) && |bs| > 0
    ensures forall b {:trigger b in bs} :: b in bs ==> bs[0].addr <= b.addr && End(b) <= Stop(bs)
  {
    forall b {:trigger b in bs} | b in bs ensures bs[0].addr <= b.addr && End(b) <= Stop(bs) {
      var k :| 0 <= k < |bs| && bs[k] == b;
      assert bs[0] in bs && bs[|bs| - 1] in bs;
      if k > 0 {
        TiledOrder(bs, 0, k);
      }
      if k < |bs| - 1 {
        TiledOrder(bs, k, |bs| - 1);
      }
    }
  }

  /** Tiled blocks are distinct: block k appears nowhere else in the row. */
  lemma Distinct(bs: seq<Block>, k: int)
    requires Tiled(bs) && 0 <= k < |bs|
    ensures forall i :: 0 <= i < |bs| && i != k ==> bs[i] != bs[k]
  {
    forall i | 0 <= i < |bs| && i != k ensures bs[i] != bs[k] {
      assert bs[i] in bs && bs[k] in bs;
      if i < k {
        TiledOrder(bs, i, k);
      } else {
        TiledOrder(bs, k, i);
      }
    }
  }

  /** Blocks i .. j - 1 replaced by ns. */
  function Splice(bs: seq<Block>, i: int, j: int, ns: seq<Block>): seq<Block>
    requires 0 <= i <= j <= |bs|
  {
    bs[..i] + ns + bs[j..]
  }

  /** Where block x lands when blocks i .. j - 1 are replaced by n blocks. */
  function Shifted(x: int, i: int, j: int, n: int): int {
    if x < i then x else x - (j - i) + n
  }

  /** A block outside the replaced range survives the splice, at its shifted index. */
  lemma SpliceOutside(bs: seq<Block>, i: int, j: int, ns: seq<Block>, x: int)
    requires 0 <= i <= j <= |bs| && 0 <= x < |bs| && (x < i || j <= x)
    ensures var y := Shifted(x, i, j, |ns|);
      0 <= y < |Splice(bs, i, j, ns)| && Splice(bs, i, j, ns)[y] == bs[x]
  {
    if x >= j {
      assert Splice(bs, i, j, ns)[Shifted(x, i, j, |ns|)] == bs[j..][x - j];
    }
  }

  /** Every block after a splice comes from before it or from the blocks put in. */
  lemma SpliceSource(bs: seq<Block>, i: int, j: int, ns: seq<Block>, y: int)
    requires 0 <= i <= j <= |bs| && 0 <= y < |Splice(bs, i, j, ns)|
    ensures var r := Splice(bs, i, j, ns);
      || (y < i && r[y] == bs[y])
      || (i <= y < i + |ns| && r[y] == ns[y - i])
      || (i + |ns| <= y && j <= y - |ns| + (j - i) < |bs| && r[y] == bs[y - |ns| + (j - i)])
  {
    var r := Splice(bs, i, j, ns);
    if y >= i + |ns| {
      assert r[y] == bs[j..][y - i - |ns|];
    }
  }

  /** Splicing a block back in its own place changes nothing. */
  lemma SpliceSelf(bs: seq<Block>, k: int)
    requires 0 <= k < |bs|
    ensures Splice(bs, k, k + 1, [bs[k]]) == bs
  {
    SpliceUpdate(bs, k, bs[k]);
    assert bs[k := bs[k]] == bs;
  }

  /** Splicing one block in place of block k replaces block k and nothing else. */
  lemma SpliceUpdate(bs: seq<Block>, k: int, b: Block)
    requires 0 <= k < |bs|
    ensures Splice(bs, k, k + 1, [b]) == bs[k := b]
  {
    var r := Splice(bs, k, k + 1, [b]);
    assert |r| == |bs|;
    forall i | 0 <= i < |bs| ensures r[i] == bs[k := b][i] {
      if i < k {
        assert r[i] == bs[..k][i];
      } else if i > k {
        assert r[i] == bs[k + 1..][i - k - 1];
      }
    }
  }

  /** A block appended where the heap stops keeps it tiled. */
  lemma AppendTiled(bs: seq<Block>, nb: Block)
    requires Tiled(bs) && |bs| > 0 && nb.addr == Stop(bs) && nb.size > 0
    ensures Tiled(bs + [nb]) && Stop(bs + [nb]) == End(nb)
  {
    var r := bs + [nb];
    forall b {:trigger b in r} | b in r ensures b.size > 0 {
      if b != nb {
        assert b in bs;
      }
    }
    forall k | 0 < k < |r| ensures r[k].addr == End(r[k - 1]) {
      if k < |bs| {
        assert r[k] == bs[k] && r[k - 1] == bs[k - 1];
      }
    }
  }

  /** Replacing a run of blocks by blocks that cover the same bytes keeps the heap tiled. */
  lemma SpliceTiled(bs: seq<Block>, i: int, j: int, ns: seq<Block>)
    requires Tiled(bs) && 0 <= i < j <= |bs| && Tiled(ns) && |ns| > 0
    requires ns[0].addr == bs[i].addr && Stop(ns) == End(bs[j - 1])
    ensures var r := Splice(bs, i, j, ns);
      Tiled(r) && |r| == |bs| - (j - i) + |ns| && r[0].addr == bs[0].addr && Stop(r) == Stop(bs)
  {
    var r := Splice(bs, i, j, ns);
    var d := |ns| - (j - i);
    forall k | 0 < k < i ensures r[k].addr == End(r[k - 1]) {
      assert r[k] == bs[k] && r[k - 1] == bs[k - 1];
    }
    forall k | i <= k < i + |ns| && 0 < k ensures r[k].addr == End(r[k - 1]) {
      assert r[k] == ns[k - i];
      if k > i {
        assert r[k - 1] == ns[k - i - 1];
      } else {
        assert r[k - 1] == bs[i - 1];
      }
    }
    forall k | i + |ns| <= k < |r| ensures r[k].addr == End(r[k - 1]) {
      assert r[k] == bs[k - d];
      if k > i + |ns| {
        assert r[k - 1] == bs[k - d - 1];
      } else {
        assert r[k - 1] == ns[|ns| - 1];
      }
    }
    forall b {:trigger b in r} | b in r ensures b.size > 0 {
      var x :| 0 <= x < |r| && r[x] == b;
      if x < i {
        assert r[x] == bs[x] && bs[x] in bs;
      } else if x < i + |ns| {
        assert r[x] == ns[x - i] && ns[x - i] in ns;
      } else {
        assert r[x] == bs[x - d] && bs[x - d] in bs;
      }
    }
    if j == |bs| {
      assert r[|r| - 1] == ns[|ns| - 1];
    } else {
      assert r[|r| - 1] == bs[|bs| - 1];
    }
    if i == 0 {
      assert r[0] == ns[0];
    } else {
      assert r[0] == bs[0];
    }
  }

  /** The blocks in use. */
  function Allocated(bs: seq<Block>): set<Block> {
    set b | b in bs && b.alloc
  }

  /** A splice that only touches free blocks and adds free blocks leaves the blocks in use alone. */
  lemma SpliceFree(bs: seq<Block>, i: int, j: int, ns: seq<Block>)
    requires 0 <= i <= j <= |bs|
    requires forall k :: i <= k < j ==> !bs[k].alloc
    requires forall b :: b in ns ==> !b.alloc
    ensures Allocated(Splice(bs, i, j, ns)) == Allocated(bs)
  {
    var r := Splice(bs, i, j, ns);
    forall b | b in Allocated(bs) ensures b in Allocated(r) {
      var k :| 0 <= k < |bs| && bs[k] == b;
      if k < i {
        assert b in bs[..i];
      } else {
        assert b in bs[j..];
      }
    }
    forall b | b in Allocated(r) ensures b in Allocated(bs) {
      assert b in bs[..i] || b in ns || b in bs[j..];
    }
  }

  /** A splice whose replaced blocks are free, but for block b, keeps every other block in use. */
  lemma SpliceKeeps(bs: seq<Block>, i: int, j: int, ns: seq<Block>, b: Block)
    requires 0 <= i <= j <= |bs|
    requires forall k :: i <= k < j ==> !bs[k].alloc || bs[k] == b
    ensures Allocated(bs) - {b} <= Allocated(Splice(bs, i, j, ns))
  {
    forall c | c in Allocated(bs) - {b} ensures c in Allocated(Splice(bs, i, j, ns)) {
      var x :| 0 <= x < |bs| && bs[x] == c;
      SpliceOutside(bs, i, j, ns, x);
    }
  }

  /** Free block k joins the free neighbour before it, if there is one. */
  function MergeLo(bs: seq<Block>, k: int): int
    requires 1 <= k < |bs|
  {
    if bs[k - 1].alloc then k else k - 1
  }

  /** Free block k joins the free neighbour after it, if there is one. */
  function MergeHi(bs: seq<Block>, k: int): int
    requires 0 <= k < |bs|
  {
    if k + 1 < |bs| && !bs[k + 1].alloc then k + 1 else k
  }

  /** The free block that covers blocks lo .. hi. */
  function Merged(bs: seq<Block>, lo: int, hi: int): Block
    requires 0 <= lo <= hi < |bs|
  {
    Block(bs[lo].addr, End(bs[hi]) - bs[lo].addr, false)
  }

  /** Free block k merged with the free blocks on either side of it. */
  function Merge(bs: seq<Block>, k: int): seq<Block>
    requires 1 <= k < |bs|
  {
    var lo, hi := MergeLo(bs, k), MergeHi(bs, k);
    Splice(bs, lo, hi + 1, [Merged(bs, lo, hi)])
  }

  /** No two neighbouring blocks are both free. */
  predicate Coalesced(bs: seq<Block>) {
    forall k :: 0 < k < |bs| ==> bs[k - 1].alloc || bs[k].alloc
  }

  /** Merging leaves the blocks in use alone. */
  lemma MergeKeeps(bs: seq<Block>, k: int)
    requires 1 <= k < |bs| && !bs[k].alloc
    ensures Allocated(Merge(bs, k)) == Allocated(bs)
  {
    SpliceFree(bs, MergeLo(bs, k), MergeHi(bs, k) + 1, [Merged(bs, MergeLo(bs, k), MergeHi(bs, k))]);
  }

  /**
   * When every neighbouring pair not involving block k has a block in use,
   * merging the free block k leaves no two free blocks side by side.
   */
  lemma MergeCoalesced(bs: seq<Block>, k: int)
    requires 1 <= k < |bs| && !bs[k].alloc
    requires forall j :: 0 < j < |bs| && j != k && j != k + 1 ==> bs[j - 1].alloc || bs[j].alloc
    ensures Coalesced(Merge(bs, k))
  {
    var lo, hi := MergeLo(bs, k), MergeHi(bs, k);
    var r := Merge(bs, k);
    assert |r| == |bs| - (hi - lo);
    forall j | 0 < j < |r| ensures r[j - 1].alloc || r[j].alloc {
      if j < lo {
        assert r[j - 1] == bs[j - 1] && r[j] == bs[j];
      } else if j == lo {
        assert r[j - 1] == bs[lo - 1];
      } else if j == lo + 1 {
        assert r[j] == bs[hi + 1];
      } else {
        assert r[j - 1] == bs[j - 1 + hi - lo] && r[j] == bs[j + hi - lo];
      }
    }
  }

  // ---------------------------------------------------------------------------
  // Free lists as sequences of blocks

  /** The list with block b taken out. */
  function Without(fl: seq<Block>, b: Block): (r: seq<Block>)
    ensures forall c {:trigger c in r} :: c in r <==> c in fl && c != b
  {
    if fl == [] then [] else (if fl[0] == b then [] else [fl[0]]) + Without(fl[1..], b)
  }

  /** Taking out a block the list does not hold leaves it as it is. */
  lemma {:induction false} WithoutAbsent(fl: seq<Block>, b: Block)
    requires b !in fl
    ensures Without(fl, b) == fl
  {
    if fl != [] {
      assert fl[0] in fl;
      assert forall c :: c in fl[1..] ==> c in fl;
      WithoutAbsent(fl[1..], b);
      assert [fl[0]] + fl[1..] == fl;
    }
  }

  /** Taking out entry t of a list without repeats drops exactly that entry. */
  lemma {:induction false} WithoutAt(fl: seq<Block>, t: int)
    requires 0 <= t < |fl| && forall i, j :: 0 <= i < j < |fl| ==> fl[i] != fl[j]
    ensures Without(fl, fl[t]) == fl[..t] + fl[t + 1..]
  {
    if t == 0 {
      assert fl[1..] == fl[t + 1..];
      assert fl[t] !in fl[1..] by {
        forall c | c in fl[1..] ensures c != fl[0] {
          var i :| 0 <= i < |fl[1..]| && fl[1..][i] == c;
          assert fl[i + 1] == c;
        }
      }
      WithoutAbsent(fl[1..], fl[t]);
    } else {
      var tl := fl[1..];
      assert tl[t - 1] == fl[t];
      WithoutAt(tl, t - 1);
      assert fl[0] != fl[t];
      assert [fl[0]] + (tl[..t - 1] + tl[t..]) == fl[..t] + fl[t + 1..];
    }
  }
}

=== FILE: implicit.dfy ===
/**
 * labs/malloclab/mm-implicit-free-list.c: an implicit free list searched by
 * next fit.
 *
 * Every block has a 4-byte header and a 4-byte footer holding PACK(size,
 * alloc) and is named by its payload pointer bp, four bytes past its header.
 * The heap starts with an 8-byte allocated prologue block, whose payload
 * pointer is heap_listp, and ends with a size-0 allocated epilogue header in
 * the last word below the break.  The rover next_fit_start always names a
 * block, or the epilogue.
 *
 * State is the memory, the two globals and memlib's break.  Each C function
 * is a function (or, where it loops, a method) on State that reads and
 * writes words in the order the C code does, the macros re-reading memory
 * each time.  View is the row of blocks that memory encodes; Rep ties the
 * two, and the lemmas show each operation moves the View the way the
 * abstract operations MergeFree, PlaceView, ExtendView and FreeView say.
 */
module Implicit {
  import opened Twos
  import opened Heap

  const WSIZE: int := 4
  const DSIZE: int := 8
  const CHUNKSIZE: int := 2048

  /** The memory, heap_listp, next_fit_start and the break. */
  datatype State = State(mem: Mem, heapListp: int, nextFit: int, brk: int)

  // ---------------------------------------------------------------------------
  // The macros

  function Pack(size: int, alloc: int): int {
    Or(size, alloc)
  }

  function Put(m: Mem, p: int, val: int): Mem {
    Store32(m, p, val)
  }

  function GetSize(m: Mem, p: int): int {
    SizeField(Load(m, p))
  }

  function GetAlloc(m: Mem, p: int): bool {
    AllocBit(Load(m, p))
  }

  function Hdrp(bp: int): int {
    bp - WSIZE
  }

  function Ftrp(m: Mem, bp: int): int {
    bp + GetSize(m, Hdrp(bp)) - DSIZE
  }

  function NextBlkp(m: Mem, bp: int): int {
    bp + GetSize(m, bp - WSIZE)
  }

  function PrevBlkp(m: Mem, bp: int): int {
    bp - GetSize(m, bp - DSIZE)
  }

  /** GET_SIZE and GET_ALLOC read back what PUT(p, PACK(size, alloc)) stored. */
  lemma PackRoundTrip(m: Mem, p: int, size: int, alloc: int)
    requires size % 8 == 0 && 0 <= size < Word32 && (alloc == 0 || alloc == 1)
    ensures GetSize(Put(m, p, Pack(size, alloc)), p) == size
    ensures GetAlloc(Put(m, p, Pack(size, alloc)), p) == (alloc == 1)
  {
    PutTag(m, p, size, alloc);
    ReadTag(Put(m, p, Pack(size, alloc)), p, Block(p, size, alloc == 1));
  }

  // ---------------------------------------------------------------------------
  // Adjusted block size

  /**
   * The block size mm_malloc asks for: payload plus header and footer,
   * rounded up to a multiple of 8, and at least 16.  A request this large
   * would wrap size_t; mm_malloc refuses it first.
   */
  function ASize(n: int): (r: int)
    requires 0 <= n <= SizeMax - 15
    ensures r % 8 == 0 && r >= 2 * DSIZE && r >= n + DSIZE
    ensures r - 8 < 2 * DSIZE || r - 8 < n + DSIZE
    ensures r <= SizeMax
  {
    if n <= DSIZE then 2 * DSIZE else DSIZE * ((n + DSIZE + (DSIZE - 1)) / DSIZE)
  }

  /** The same computation in size_t arithmetic, for every request mm_malloc accepts. */
  function ASizeAsWritten(n: int): int
    requires 0 <= n <= SizeMax
  {
    if n <= DSIZE then 2 * DSIZE else (DSIZE * (((n + DSIZE + (DSIZE - 1)) % Two64) / DSIZE)) % Two64
  }

  /** Below the wrap the two agree. */
  lemma ASizeAgrees(n: int)
    requires 0 <= n <= SizeMax - 15
    ensures ASizeAsWritten(n) == ASize(n)
  {
    if n > DSIZE {
      assert (n + 15) % Two64 == n + 15;
    }
  }

  /** For mm_malloc(SIZE_MAX) the rounding wraps and the block size comes out as 8 bytes. */
  lemma ASizeWraps()
    ensures ASizeAsWritten(SizeMax) == 8
  {
    assert (SizeMax + 15) % Two64 == 14;
  }

  // ---------------------------------------------------------------------------
  // The view

  /** The row of blocks, prologue first, and the index of the block the rover names (|blocks| for the epilogue). */
  datatype View = View(blocks: seq<Block>, next: nat)

  /** The tag PACK(size, alloc) of a block. */
  function Tag(b: Block): int {
    b.size + (if b.alloc then 1 else 0)
  }

  /** Block b is well formed and its header and footer both hold its tag. */
  predicate BlockOk(m: Mem, b: Block) {
    && b.size >= DSIZE && b.size % 8 == 0
    && Load(m, b.addr) == Tag(b)
    && Load(m, End(b) - WSIZE) == Tag(b)
  }

  /** The payload pointer of block i; for i == |bs|, the pointer one word past the epilogue header. */
  function Bp(bs: seq<Block>, i: int): int
    requires |bs| > 0 && 0 <= i <= |bs|
  {
    (if i < |bs| then bs[i].addr else Stop(bs)) + WSIZE
  }

  /** The memory of s encodes the row v. */
  ghost predicate Rep(s: State, v: View) {
    var bs := v.blocks;
    && DSIZE <= s.heapListp && s.heapListp % 8 == 0
    && |bs| > 0 && bs[0] == Block(s.heapListp - WSIZE, DSIZE, true)
    && Tiled(bs)
    && (forall b {:trigger b in bs} :: b in bs ==> BlockOk(s.mem, b) && b.addr % 8 == 4)
    && Stop(bs) == s.brk - WSIZE && Load(s.mem, s.brk - WSIZE) == 1
    && s.brk % 8 == 0 && s.brk <= HeapLimit
    && v.next <= |bs|
    && s.nextFit == Bp(bs, v.next)
  }

  lemma ReadTag(m: Mem, a: int, b: Block)
    requires Load(m, a) == Tag(b) && b.size % 8 == 0
    ensures GetSize(m, a) == b.size && GetAlloc(m, a) == b.alloc
  {
    TagFields(b.size, false, b.alloc);
  }

  /** What the macros read at block k, and where its neighbours are. */
  lemma ReadBlock(s: State, v: View, k: int)
    requires Rep(s, v) && 0 <= k < |v.blocks|
    ensures var b := v.blocks[k];
      && GetSize(s.mem, b.addr) == b.size && GetAlloc(s.mem, b.addr) == b.alloc
      && GetSize(s.mem, End(b) - WSIZE) == b.size && GetAlloc(s.mem, End(b) - WSIZE) == b.alloc
      && b.size >= DSIZE && b.size % 8 == 0
      && v.blocks[0].addr <= b.addr && End(b) <= s.brk - WSIZE
      && End(b) == (if k + 1 < |v.blocks| then v.blocks[k + 1].addr else s.brk - WSIZE)
  {
    var bs := v.blocks;
    assert bs[k] in bs;
    ReadTag(s.mem, bs[k].addr, bs[k]);
    ReadTag(s.mem, End(bs[k]) - WSIZE, bs[k]);
    Within(bs);
  }

  /** The epilogue header reads as size 0, allocated. */
  lemma ReadEpilogue(s: State, v: View)
    requires Rep(s, v)
    ensures GetSize(s.mem, s.brk - WSIZE) == 0 && GetAlloc(s.mem, s.brk - WSIZE)
  {
    TagFields(0, false, true);
  }

  /** Payload pointers increase with the block index. */
  lemma BpOrder(bs: seq<Block>, i: int, j: int)
    requires Tiled(bs) && |bs| > 0 && 0 <= i < j <= |bs|
    ensures Bp(bs, i) < Bp(bs, j)
  {
    assert bs[i] in bs;
    if j < |bs| {
      TiledOrder(bs, i, j);
    } else if i < |bs| - 1 {
      TiledOrder(bs, i, |bs| - 1);
      assert bs[|bs| - 1] in bs;
    }
  }

  /** A store of a tag holding size v at address a, for size below 2^32. */
  lemma PutTag(m: Mem, a: int, size: int, alloc: int)
    requires size % 8 == 0 && 0 <= size < Word32 && (alloc == 0 || alloc == 1)
    ensures Load(Put(m, a, Pack(size, alloc)), a) == size + alloc
    ensures forall x {:trigger Load(Put(m, a, Pack(size, alloc)), x)} :: x != a ==> Load(Put(m, a, Pack(size, alloc)), x) == Load(m, x)
  {
    PackValue(size, alloc);
  }

  /** PACK of a multiple of 8 below 2^32 and a 0/1 flag is their sum, which a 32-bit word holds unchanged. */
  lemma PackValue(size: int, alloc: int)
    requires size % 8 == 0 && 0 <= size < Word32 && (alloc == 0 || alloc == 1)
    ensures Pack(size, alloc) == size + alloc && (size + alloc) % Word32 == size + alloc
  {
    if alloc == 1 {
      PackAllocated(size);
    } else {
      PackFree(size);
    }
    TagFits(size, alloc);
  }

  lemma PackAllocated(size: int)
    requires size % 8 == 0
    ensures Pack(size, 1) == size + 1
  {
    OrFlags(size);
  }

  lemma PackFree(size: int)
    ensures Pack(size, 0) == size
  {
    OrIdentities(size);
  }

  lemma TagFits(size: int, alloc: int)
    requires size % 8 == 0 && 0 <= size < Word32 && (alloc == 0 || alloc == 1)
    ensures 0 <= size + alloc < Word32 && (size + alloc) % Word32 == size + alloc
  {
  }

  /**
   * Replacing blocks i .. j - 1 by blocks ns that cover the same bytes, with
   * memory changed only inside those bytes and every new block's tags in
   * place, gives a state that encodes the spliced row.
   */
  lemma SpliceRep(s: State, v: View, i: int, j: int, ns: seq<Block>, s': State, next': nat)
    requires Rep(s, v) && 1 <= i < j <= |v.blocks|
    requires Tiled(ns) && |ns| > 0
    requires ns[0].addr == v.blocks[i].addr && Stop(ns) == End(v.blocks[j - 1])
    requires forall b {:trigger b in ns} :: b in ns ==> BlockOk(s'.mem, b) && b.addr % 8 == 4
    requires SameOutside(s.mem, s'.mem, v.blocks[i].addr, End(v.blocks[j - 1]))
    requires next' <= |v.blocks| - (j - i) + |ns|
    requires s'.heapListp == s.heapListp && s'.brk == s.brk
    requires s'.nextFit == Bp(Splice(v.blocks, i, j, ns), next')
    ensures |Splice(v.blocks, i, j, ns)| > 0
    ensures Rep(s', View(Splice(v.blocks, i, j, ns), next'))
  {
    var bs := v.blocks;
    SpliceTiled(bs, i, j, ns);
    Within(bs);
    assert bs[j - 1] in bs;
    SpliceBlocksOk(s.mem, s'.mem, bs, i, j, ns);
  }

  /** Blocks kept by a splice keep their tags when memory changes only inside the replaced bytes. */
  lemma SpliceBlocksOk(m: Mem, m': Mem, bs: seq<Block>, i: int, j: int, ns: seq<Block>)
    requires Tiled(bs) && 0 <= i < j <= |bs|
    requires forall b {:trigger b in bs} :: b in bs ==> BlockOk(m, b) && b.addr % 8 == 4
    requires forall b {:trigger b in ns} :: b in ns ==> BlockOk(m', b) && b.addr % 8 == 4
    requires SameOutside(m, m', bs[i].addr, End(bs[j - 1]))
    ensures forall b {:trigger b in Splice(bs, i, j, ns)} :: b in Splice(bs, i, j, ns) ==> BlockOk(m', b) && b.addr % 8 == 4
  {
    var r := Splice(bs, i, j, ns);
    var d := |ns| - (j - i);
    forall b {:trigger b in r} | b in r ensures BlockOk(m', b) && b.addr % 8 == 4 {
      var x :| 0 <= x < |r| && r[x] == b;
      if x < i {
        assert r[x] == bs[x] && bs[x] in bs;
        TiledOrder(bs, x, i);
        KeptBlockOk(m, m', b, bs[i].addr, End(bs[j - 1]));
      } else if x < i + |ns| {
        assert r[x] == ns[x - i] && ns[x - i] in ns;
      } else {
        assert r[x] == bs[x - d] && bs[x - d] in bs;
        TiledOrder(bs, j - 1, x - d);
        KeptBlockOk(m, m', b, bs[i].addr, End(bs[j - 1]));
      }
    }
  }

  lemma KeptBlockOk(m: Mem, m': Mem, b: Block, lo: int, hi: int)
    requires BlockOk(m, b) && (End(b) <= lo || hi <= b.addr)
    requires SameOutside(m, m', lo, hi)
    ensures BlockOk(m', b)
  {
    assert Load(m', b.addr) == Load(m, b.addr);
    assert Load(m', End(b) - WSIZE) == Load(m, End(b) - WSIZE);
  }

  // ---------------------------------------------------------------------------
  // Abstract operations on the view

  /** The rover index after blocks lo .. hi merge: one naming a swallowed block names the merged one for a merge of blocks lo .. hi. */
  function MergedNext(next: nat, lo: int, hi: int): nat
    requires 0 <= lo <= hi
  {
    if next <= lo then next else if next <= hi then lo else next - (hi - lo)
  }

  /** Block k merged with the free blocks on either side of it. */
  function MergeFree(v: View, k: int): View
    requires 1 <= k < |v.blocks|
  {
    var lo, hi := MergeLo(v.blocks, k), MergeHi(v.blocks, k);
    View(Splice(v.blocks, lo, hi + 1, [Merged(v.blocks, lo, hi)]), MergedNext(v.next, lo, hi))
  }

  /** The blocks place leaves in block b: asize bytes in use, and the rest as a free block when it is 16 bytes or more. */
  function Carve(b: Block, asize: int): seq<Block> {
    if b.size - asize >= 2 * DSIZE then [Block(b.addr, asize, true), Block(b.addr + asize, b.size - asize, false)]
    else [b.(alloc := true)]
  }

  /** Block k with asize bytes taken from its front; a block too small is left alone. */
  function PlaceView(v: View, k: int, asize: int): View
    requires 0 <= k < |v.blocks|
  {
    var b := v.blocks[k];
    if b.size < asize then v
    else View(Splice(v.blocks, k, k + 1, Carve(b, asize)), if v.next > k then v.next + |Carve(b, asize)| - 1 else v.next)
  }

  /** A free block of the given size appended at the end, merged with a free last block. */
  function ExtendView(v: View, size: int): View
    requires |v.blocks| > 0 && v.next <= |v.blocks|
  {
    MergeFree(View(v.blocks + [Block(Stop(v.blocks), size, false)], v.next), |v.blocks|)
  }

  /** Where the new chunk lands in ExtendView: its own index, or the free block before it that absorbs it. */
  function GrowLo(v: View, size: int): int
    requires |v.blocks| > 0
  {
    MergeLo(v.blocks + [Block(Stop(v.blocks), size, false)], |v.blocks|)
  }

  /** extend_heap's result e encodes ExtendView and returns the payload of the block the chunk merged into. */
  ghost predicate Grown(v: View, size: int, e: (State, int))
    requires |v.blocks| > 0 && v.next <= |v.blocks|
  {
    && Rep(e.0, ExtendView(v, size))
    && GrowLo(v, size) < |ExtendView(v, size).blocks|
    && e.1 == Bp(ExtendView(v, size).blocks, GrowLo(v, size)) && e.1 != 0
  }

  /** Block k marked free and merged with its free neighbours. */
  function FreeView(v: View, k: int): View
    requires 1 <= k < |v.blocks| && v.next <= |v.blocks|
  {
    MergeFree(View(v.blocks[k := v.blocks[k].(alloc := false)], v.next), k)
  }

  predicate Fits(b: Block, asize: int) {
    !b.alloc && asize <= b.size
  }

  /** The first block in lo .. hi - 1 that fits. */
  function FirstFit(bs: seq<Block>, asize: int, lo: nat, hi: nat): (r: Option<nat>)
    requires lo <= hi <= |bs|
    ensures r.Some? ==> lo <= r.value < hi && Fits(bs[r.value], asize)
    ensures r.Some? ==> forall i :: lo <= i < r.value ==> !Fits(bs[i], asize)
    ensures r.None? ==> forall i :: lo <= i < hi ==> !Fits(bs[i], asize)
    decreases hi - lo
  {
    if lo == hi then None
    else if Fits(bs[lo], asize) then Some(lo)
    else FirstFit(bs, asize, lo + 1, hi)
  }

  /** Next fit: the first fitting block from the rover to the end, else from the start up to the rover. */
  function NextFit(v: View, asize: int): Option<nat>
    requires v.next <= |v.blocks|
  {
    var r := FirstFit(v.blocks, asize, v.next, |v.blocks|);
    if r.Some? then r else FirstFit(v.blocks, asize, 0, v.next)
  }

  /** No block, from the rover round to it again, fits when next fit finds none. */
  lemma NextFitNone(v: View, asize: int)
    requires v.next <= |v.blocks|
    ensures NextFit(v, asize).None? <==> forall i :: 0 <= i < |v.blocks| ==> !Fits(v.blocks[i], asize)
  {
    if NextFit(v, asize).None? {
      forall i | 0 <= i < |v.blocks| ensures !Fits(v.blocks[i], asize) {
        if i < v.next {
          assert FirstFit(v.blocks, asize, 0, v.next).None?;
        }
      }
    }
  }
}

=== FILE: implicit_coalesce.dfy ===
/**
 * labs/malloclab/mm-implicit-free-list.c: coalesce, over the State and View
 * of Implicit, and the proof that each of its four cases moves the View as
 * MergeFree says.
 */
module ImplicitCoalesce {
  import opened Twos
  import opened Heap
  import opened Implicit

  /** coalesce(bp): merge the free block at bp with free neighbours; the result is the merged block's bp. */
  function Coalesce(s: State, bp: int): (State, int) {
    var m := s.mem;
    var prevAlloc := GetAlloc(m, Ftrp(m, PrevBlkp(m, bp)));
    var nextAlloc := GetAlloc(m, Hdrp(NextBlkp(m, bp)));
    var size := GetSize(m, Hdrp(bp));
    if prevAlloc && nextAlloc then (s, bp)
    else
      var mb :=
        if prevAlloc && !nextAlloc then JoinNext(m, bp, size)
        else if !prevAlloc && nextAlloc then JoinPrev(m, bp, size)
        else JoinBoth(m, bp, size);
      Finish(s, mb)
  }

  /** The end of coalesce: a rover inside the merged block is moved to its start. */
  function Finish(s: State, mb: (Mem, int)): (State, int) {
    var nfs := if s.nextFit > mb.1 && s.nextFit < NextBlkp(mb.0, mb.1) then mb.1 else s.nextFit;
    (s.(mem := mb.0, nextFit := nfs), mb.1)
  }

  /** Case 2 of coalesce: the block after bp is free. */
  function JoinNext(m: Mem, bp: int, size: int): (Mem, int) {
    var size' := size + GetSize(m, Hdrp(NextBlkp(m, bp)));
    var m1 := Put(m, Hdrp(bp), Pack(size', 0));
    (Put(m1, Ftrp(m1, bp), Pack(size', 0)), bp)
  }

  /** Case 3 of coalesce: the block before bp is free. */
  function JoinPrev(m: Mem, bp: int, size: int): (Mem, int) {
    var size' := size + GetSize(m, Hdrp(PrevBlkp(m, bp)));
    var m1 := Put(m, Ftrp(m, bp), Pack(size', 0));
    var m2 := Put(m1, Hdrp(PrevBlkp(m1, bp)), Pack(size', 0));
    (m2, PrevBlkp(m2, bp))
  }

  /** Case 4 of coalesce: both neighbours are free. */
  function JoinBoth(m: Mem, bp: int, size: int): (Mem, int) {
    var size' := size + GetSize(m, Hdrp(PrevBlkp(m, bp))) + GetSize(m, Ftrp(m, NextBlkp(m, bp)));
    var m1 := Put(m, Hdrp(PrevBlkp(m, bp)), Pack(size', 0));
    var m2 := Put(m1, Ftrp(m1, NextBlkp(m1, bp)), Pack(size', 0));
    (m2, PrevBlkp(m2, bp))
  }

  /** m' is m with the header and footer of b set to its tag and nothing else changed. */
  ghost predicate Tagged(m: Mem, m': Mem, b: Block) {
    && Load(m', b.addr) == Tag(b) && Load(m', End(b) - WSIZE) == Tag(b)
    && forall x {:trigger Load(m', x)} :: x != b.addr && x != End(b) - WSIZE ==> Load(m', x) == Load(m, x)
  }

  /** The bytes from block lo to block hi are fewer than 2^32. */
  lemma Span(s: State, v: View, lo: int, hi: int)
    requires Rep(s, v) && 0 <= lo <= hi < |v.blocks|
    ensures BlockOk(s.mem, v.blocks[lo]) && BlockOk(s.mem, v.blocks[hi])
    ensures v.blocks[lo].addr % 8 == 4 && v.blocks[hi].addr % 8 == 4
    ensures 0 <= v.blocks[lo].addr && End(v.blocks[hi]) < Word32
  {
    var bs := v.blocks;
    assert bs[lo] in bs && bs[hi] in bs;
    Within(bs);
  }

  /** The tags coalesce reads around block b, with p before it and n (or the epilogue) after it. */
  lemma Neighbours(m: Mem, p: Block, b: Block, n: Option<Block>)
    requires BlockOk(m, p) && BlockOk(m, b) && End(p) == b.addr
    requires n.Some? ==> BlockOk(m, n.value) && End(b) == n.value.addr
    requires n.None? ==> Load(m, End(b)) == 1
    ensures var bp := b.addr + WSIZE;
      && PrevBlkp(m, bp) == p.addr + WSIZE
      && GetAlloc(m, Ftrp(m, PrevBlkp(m, bp))) == p.alloc
      && GetSize(m, Hdrp(PrevBlkp(m, bp))) == p.size
      && NextBlkp(m, bp) == End(b) + WSIZE
      && GetAlloc(m, Hdrp(NextBlkp(m, bp))) == (n.None? || n.value.alloc)
      && GetSize(m, Hdrp(bp)) == b.size
      && (n.Some? ==> GetSize(m, Hdrp(NextBlkp(m, bp))) == n.value.size)
      && (n.Some? ==> Ftrp(m, NextBlkp(m, bp)) == End(n.value) - WSIZE)
      && (n.Some? ==> GetSize(m, Ftrp(m, NextBlkp(m, bp))) == n.value.size)
  {
    ReadTag(m, End(p) - WSIZE, p);
    ReadTag(m, p.addr, p);
    ReadTag(m, b.addr, b);
    if n.Some? {
      ReadTag(m, n.value.addr, n.value);
      ReadTag(m, End(n.value) - WSIZE, n.value);
    } else {
      TagFields(0, false, true);
    }
  }

  /** Header and footer of a free block of size S written at a1 and a2. */
  function TagFree(m: Mem, a1: int, a2: int, S: int): Mem {
    Put(Put(m, a1, Pack(S, 0)), a2, Pack(S, 0))
  }

  lemma TagFreeWrites(m: Mem, nb: Block)
    requires !nb.alloc && nb.size % 8 == 0 && DSIZE <= nb.size < Word32
    ensures var m' := TagFree(m, nb.addr, End(nb) - WSIZE, nb.size);
      Tagged(m, m', nb) && NextBlkp(m', nb.addr + WSIZE) == nb.addr + WSIZE + nb.size
  {
    var S := nb.size;
    PutTag(m, nb.addr, S, 0);
    PutTag(Put(m, nb.addr, Pack(S, 0)), End(nb) - WSIZE, S, 0);
    TagFields(S, false, false);
  }

  /** What coalesce writes, and returns, in each case. */
  lemma JoinNextMem(m: Mem, p: Block, b: Block, n: Block, nb: Block)
    requires BlockOk(m, p) && BlockOk(m, b) && BlockOk(m, n) && End(p) == b.addr && End(b) == n.addr
    requires End(n) - b.addr < Word32 && nb == Block(b.addr, End(n) - b.addr, false)
    ensures JoinNext(m, b.addr + WSIZE, b.size) == (TagFree(m, nb.addr, End(nb) - WSIZE, nb.size), nb.addr + WSIZE)
  {
    var bp, size := b.addr + WSIZE, b.size;
    var nx := NextBlkp(m, bp);
    ReadTag(m, bp - WSIZE, b);
    ReadTag(m, Hdrp(nx), n);
    var size' := size + GetSize(m, Hdrp(nx));
    assert size' == nb.size;
    Mul8(b.size, n.size);
    var m1 := Put(m, Hdrp(bp), Pack(size', 0));
    PutTag(m, Hdrp(bp), size', 0);
    ReadTag(m1, Hdrp(bp), nb);
    var f := Ftrp(m1, bp);
    assert f == End(nb) - WSIZE;
    assert JoinNext(m, bp, size) == (Put(m1, f, Pack(size', 0)), bp);
  }

  lemma JoinPrevMem(m: Mem, p: Block, b: Block, n: Option<Block>, nb: Block)
    requires BlockOk(m, p) && BlockOk(m, b) && End(p) == b.addr
    requires n.Some? ==> BlockOk(m, n.value) && End(b) == n.value.addr
    requires n.None? ==> Load(m, End(b)) == 1
    requires End(b) - p.addr < Word32 && nb == Block(p.addr, End(b) - p.addr, false)
    ensures JoinPrev(m, b.addr + WSIZE, b.size) == (TagFree(m, nb.addr, End(nb) - WSIZE, nb.size), nb.addr + WSIZE)
  {
    var bp, size := b.addr + WSIZE, b.size;
    ReadTag(m, bp - DSIZE, p);
    var pb := PrevBlkp(m, bp);
    assert pb == p.addr + WSIZE;
    ReadTag(m, Hdrp(pb), p);
    var size' := size + GetSize(m, Hdrp(pb));
    assert size' == nb.size;
    Mul8(p.size, b.size);
    ReadTag(m, Hdrp(bp), b);
    var f := Ftrp(m, bp);
    assert f == End(b) - WSIZE;
    var m1 := Put(m, f, Pack(size', 0));
    PutTag(m, f, size', 0);
    assert Load(m1, bp - DSIZE) == Load(m, bp - DSIZE);
    var pb1 := PrevBlkp(m1, bp);
    assert pb1 == pb;
    var m2 := Put(m1, Hdrp(pb1), Pack(size', 0));
    PutTag(m1, Hdrp(pb1), size', 0);
    assert Load(m2, bp - DSIZE) == Load(m, bp - DSIZE);
    var r := PrevBlkp(m2, bp);
    assert r == pb;
    assert JoinPrev(m, bp, size) == (m2, r);
    assert m2 == TagFree(m, nb.addr, End(nb) - WSIZE, nb.size);
  }

  lemma JoinBothMem(m: Mem, p: Block, b: Block, n: Block, nb: Block)
    requires BlockOk(m, p) && BlockOk(m, b) && BlockOk(m, n) && End(p) == b.addr && End(b) == n.addr
    requires End(n) - p.addr < Word32 && nb == Block(p.addr, End(n) - p.addr, false)
    ensures JoinBoth(m, b.addr + WSIZE, b.size) == (TagFree(m, nb.addr, End(nb) - WSIZE, nb.size), nb.addr + WSIZE)
  {
    var bp, size := b.addr + WSIZE, b.size;
    ReadTag(m, bp - DSIZE, p);
    var pb := PrevBlkp(m, bp);
    assert pb == p.addr + WSIZE;
    ReadTag(m, Hdrp(pb), p);
    ReadTag(m, bp - WSIZE, b);
    var nx := NextBlkp(m, bp);
    assert nx == n.addr + WSIZE;
    ReadTag(m, Hdrp(nx), n);
    assert Ftrp(m, nx) == End(n) - WSIZE;
    ReadTag(m, Ftrp(m, nx), n);
    var size' := size + GetSize(m, Hdrp(pb)) + GetSize(m, Ftrp(m, nx));
    assert size' == nb.size;
    Mul8(p.size, b.size);
    Mul8(p.size + b.size, n.size);
    var m1 := Put(m, Hdrp(pb), Pack(size', 0));
    PutTag(m, Hdrp(pb), size', 0);
    assert Load(m1, bp - WSIZE) == Load(m, bp - WSIZE);
    var nx1 := NextBlkp(m1, bp);
    assert nx1 == nx;
    assert Load(m1, Hdrp(nx1)) == Load(m, Hdrp(nx));
    var f := Ftrp(m1, nx1);
    assert f == End(n) - WSIZE;
    var m2 := Put(m1, f, Pack(size', 0));
    PutTag(m1, f, size', 0);
    assert Load(m2, bp - DSIZE) == Load(m, bp - DSIZE);
    var r := PrevBlkp(m2, bp);
    assert r == pb;
    assert JoinBoth(m, bp, size) == (m2, r);
  }


  /** The rover after a merge of blocks lo .. hi: coalesce's pointer test moves it exactly as MergeFree does. */
  lemma RoverAfterMerge(bs: seq<Block>, lo: int, hi: int, next: nat)
    requires Tiled(bs) && 0 <= lo <= hi < |bs| && next <= |bs|
    ensures var nb := Merged(bs, lo, hi);
      var r := Splice(bs, lo, hi + 1, [nb]);
      && |r| > 0 && MergedNext(next, lo, hi) <= |r|
      && Bp(r, MergedNext(next, lo, hi)) == RoverTest(Bp(bs, next), nb)
  {
    var nb := Merged(bs, lo, hi);
    var r := Splice(bs, lo, hi + 1, [nb]);
    assert bs[lo] in bs && bs[hi] in bs;
    if lo < hi {
      TiledOrder(bs, lo, hi);
    }
    assert Tiled([nb]);
    SpliceTiled(bs, lo, hi + 1, [nb]);
    if next < lo {
      assert r[next] == bs[next];
      BpOrder(bs, next, lo);
    } else if next == lo {
      assert r[lo] == nb;
    } else if next <= hi {
      BpOrder(bs, lo, next);
      if next < hi {
        TiledOrder(bs, next, hi);
      }
      assert bs[next] in bs;
      assert r[lo] == nb;
    } else {
      var d := hi - lo;
      assert |r| == |bs| - d;
      if next < |bs| {
        assert r[next - d] == bs[next];
        TiledOrder(bs, hi, next);
      } else {
        assert Stop(r) == Stop(bs);
        if hi < |bs| - 1 {
          TiledOrder(bs, hi, |bs| - 1);
          assert bs[|bs| - 1] in bs;
        }
      }
    }
  }

  /** The free block coalesce builds around b: p before it, n (or the epilogue) after it. */
  function Around(p: Block, b: Block, n: Option<Block>): Block {
    var lo := if p.alloc then b.addr else p.addr;
    var hi := if n.Some? && !n.value.alloc then End(n.value) else End(b);
    Block(lo, hi - lo, false)
  }

  /** The pointer test at the end of coalesce, for the merged block nb. */
  function RoverTest(nextFit: int, nb: Block): int {
    if nextFit > nb.addr + WSIZE && nextFit < nb.addr + WSIZE + nb.size then nb.addr + WSIZE else nextFit
  }

  /** What coalesce returns once a case has written the merged block nb. */
  function Joined(s: State, nb: Block): (State, int) {
    (s.(mem := TagFree(s.mem, nb.addr, End(nb) - WSIZE, nb.size), nextFit := RoverTest(s.nextFit, nb)), nb.addr + WSIZE)
  }

  /** coalesce once its reads are known and case 2 has written the merged block nb. */
  lemma FinishNext(s: State, bp: int, size: int, nb: Block)
    requires GetAlloc(s.mem, Ftrp(s.mem, PrevBlkp(s.mem, bp))) && !GetAlloc(s.mem, Hdrp(NextBlkp(s.mem, bp)))
    requires GetSize(s.mem, Hdrp(bp)) == size
    requires JoinNext(s.mem, bp, size) == (TagFree(s.mem, nb.addr, End(nb) - WSIZE, nb.size), nb.addr + WSIZE)
    requires NextBlkp(TagFree(s.mem, nb.addr, End(nb) - WSIZE, nb.size), nb.addr + WSIZE) == nb.addr + WSIZE + nb.size
    ensures Coalesce(s, bp) == Joined(s, nb)
  {
    assert Coalesce(s, bp) == Finish(s, JoinNext(s.mem, bp, size));
    FinishJoined(s, JoinNext(s.mem, bp, size), nb);
  }

  /** coalesce once its reads are known and case 3 has written the merged block nb. */
  lemma FinishPrev(s: State, bp: int, size: int, nb: Block)
    requires !GetAlloc(s.mem, Ftrp(s.mem, PrevBlkp(s.mem, bp))) && GetAlloc(s.mem, Hdrp(NextBlkp(s.mem, bp)))
    requires GetSize(s.mem, Hdrp(bp)) == size
    requires JoinPrev(s.mem, bp, size) == (TagFree(s.mem, nb.addr, End(nb) - WSIZE, nb.size), nb.addr + WSIZE)
    requires NextBlkp(TagFree(s.mem, nb.addr, End(nb) - WSIZE, nb.size), nb.addr + WSIZE) == nb.addr + WSIZE + nb.size
    ensures Coalesce(s, bp) == Joined(s, nb)
  {
    assert Coalesce(s, bp) == Finish(s, JoinPrev(s.mem, bp, size));
    FinishJoined(s, JoinPrev(s.mem, bp, size), nb);
  }

  /** coalesce once its reads are known and case 4 has written the merged block nb. */
  lemma FinishBoth(s: State, bp: int, size: int, nb: Block)
    requires !GetAlloc(s.mem, Ftrp(s.mem, PrevBlkp(s.mem, bp))) && !GetAlloc(s.mem, Hdrp(NextBlkp(s.mem, bp)))
    requires GetSize(s.mem, Hdrp(bp)) == size
    requires JoinBoth(s.mem, bp, size) == (TagFree(s.mem, nb.addr, End(nb) - WSIZE, nb.size), nb.addr + WSIZE)
    requires NextBlkp(TagFree(s.mem, nb.addr, End(nb) - WSIZE, nb.size), nb.addr + WSIZE) == nb.addr + WSIZE + nb.size
    ensures Coalesce(s, bp) == Joined(s, nb)
  {
    assert Coalesce(s, bp) == Finish(s, JoinBoth(s.mem, bp, size));
    FinishJoined(s, JoinBoth(s.mem, bp, size), nb);
  }

  lemma FinishJoined(s: State, mb: (Mem, int), nb: Block)
    requires mb == (TagFree(s.mem, nb.addr, End(nb) - WSIZE, nb.size), nb.addr + WSIZE)
    requires NextBlkp(mb.0, mb.1) == nb.addr + WSIZE + nb.size
    ensures Finish(s, mb) == Joined(s, nb)
  {
  }

  lemma HypNext(m: Mem, p: Block, b: Block, n: Block)
    requires BlockOk(m, p) && BlockOk(m, b) && BlockOk(m, n) && End(p) == b.addr && End(b) == n.addr
    requires 0 <= p.addr && End(n) - p.addr < Word32
    requires p.alloc && !n.alloc
    ensures var bp, nb := b.addr + WSIZE, Around(p, b, Some(n));
      && GetAlloc(m, Ftrp(m, PrevBlkp(m, bp))) && !GetAlloc(m, Hdrp(NextBlkp(m, bp)))
      && GetSize(m, Hdrp(bp)) == b.size
      && JoinNext(m, bp, b.size) == (TagFree(m, nb.addr, End(nb) - WSIZE, nb.size), nb.addr + WSIZE)
      && NextBlkp(TagFree(m, nb.addr, End(nb) - WSIZE, nb.size), nb.addr + WSIZE) == nb.addr + WSIZE + nb.size
  {
    var bp := b.addr + WSIZE;
    var nb := Around(p, b, Some(n));
    assert nb.size == b.size + n.size;
    Mul8(b.size, n.size);
    TagFreeWrites(m, nb);
    Neighbours(m, p, b, Some(n));
    JoinNextMem(m, p, b, n, nb);
  }

  /** Case 2 of coalesce. */
  lemma CoalesceNext(s: State, p: Block, b: Block, n: Block)
    requires BlockOk(s.mem, p) && BlockOk(s.mem, b) && BlockOk(s.mem, n) && End(p) == b.addr && End(b) == n.addr
    requires 0 <= p.addr && End(n) - p.addr < Word32
    requires p.alloc && !n.alloc
    ensures Coalesce(s, b.addr + WSIZE) == Joined(s, Around(p, b, Some(n)))
  {
    HypNext(s.mem, p, b, n);
    FinishNext(s, b.addr + WSIZE, b.size, Around(p, b, Some(n)));
  }

  lemma HypPrev(m: Mem, p: Block, b: Block, n: Option<Block>)
    requires BlockOk(m, p) && BlockOk(m, b) && End(p) == b.addr
    requires n.Some? ==> BlockOk(m, n.value) && End(b) == n.value.addr
    requires n.None? ==> Load(m, End(b)) == 1
    requires 0 <= p.addr && End(b) - p.addr < Word32
    requires !p.alloc && (n.None? || n.value.alloc)
    ensures var bp, nb := b.addr + WSIZE, Around(p, b, n);
      && !GetAlloc(m, Ftrp(m, PrevBlkp(m, bp))) && GetAlloc(m, Hdrp(NextBlkp(m, bp)))
      && GetSize(m, Hdrp(bp)) == b.size
      && JoinPrev(m, bp, b.size) == (TagFree(m, nb.addr, End(nb) - WSIZE, nb.size), nb.addr + WSIZE)
      && NextBlkp(TagFree(m, nb.addr, End(nb) - WSIZE, nb.size), nb.addr + WSIZE) == nb.addr + WSIZE + nb.size
  {
    var nb := Around(p, b, n);
    assert nb.size == p.size + b.size;
    Mul8(p.size, b.size);
    TagFreeWrites(m, nb);
    Neighbours(m, p, b, n);
    JoinPrevMem(m, p, b, n, nb);
  }

  /** Case 3 of coalesce. */
  lemma CoalescePrev(s: State, p: Block, b: Block, n: Option<Block>)
    requires BlockOk(s.mem, p) && BlockOk(s.mem, b) && End(p) == b.addr
    requires n.Some? ==> BlockOk(s.mem, n.value) && End(b) == n.value.addr
    requires n.None? ==> Load(s.mem, End(b)) == 1
    requires 0 <= p.addr && End(b) - p.addr < Word32
    requires !p.alloc && (n.None? || n.value.alloc)
    ensures Coalesce(s, b.addr + WSIZE) == Joined(s, Around(p, b, n))
  {
    HypPrev(s.mem, p, b, n);
    FinishPrev(s, b.addr + WSIZE, b.size, Around(p, b, n));
  }

  lemma HypBoth(m: Mem, p: Block, b: Block, n: Block)
    requires BlockOk(m, p) && BlockOk(m, b) && BlockOk(m, n) && End(p) == b.addr && End(b) == n.addr
    requires 0 <= p.addr && End(n) - p.addr < Word32
    requires !p.alloc && !n.alloc
    ensures var bp, nb := b.addr + WSIZE, Around(p, b, Some(n));
      && !GetAlloc(m, Ftrp(m, PrevBlkp(m, bp))) && !GetAlloc(m, Hdrp(NextBlkp(m, bp)))
      && GetSize(m, Hdrp(bp)) == b.size
      && JoinBoth(m, bp, b.size) == (TagFree(m, nb.addr, End(nb) - WSIZE, nb.size), nb.addr + WSIZE)
      && NextBlkp(TagFree(m, nb.addr, End(nb) - WSIZE, nb.size), nb.addr + WSIZE) == nb.addr + WSIZE + nb.size
  {
    var nb := Around(p, b, Some(n));
    assert nb.size == (p.size + b.size) + n.size;
    Mul8(p.size, b.size);
    Mul8(p.size + b.size, n.size);
    TagFreeWrites(m, nb);
    Neighbours(m, p, b, Some(n));
    JoinBothMem(m, p, b, n, nb);
  }

  /** Case 4 of coalesce. */
  lemma CoalesceBoth(s: State, p: Block, b: Block, n: Block)
    requires BlockOk(s.mem, p) && BlockOk(s.mem, b) && BlockOk(s.mem, n) && End(p) == b.addr && End(b) == n.addr
    requires 0 <= p.addr && End(n) - p.addr < Word32
    requires !p.alloc && !n.alloc
    ensures Coalesce(s, b.addr + WSIZE) == Joined(s, Around(p, b, Some(n)))
  {
    HypBoth(s.mem, p, b, n);
    FinishBoth(s, b.addr + WSIZE, b.size, Around(p, b, Some(n)));
  }

  /** coalesce at a free block whose neighbours are both in use changes nothing. */
  lemma CoalesceKeeps(s: State, p: Block, b: Block, n: Option<Block>)
    requires BlockOk(s.mem, p) && BlockOk(s.mem, b) && End(p) == b.addr
    requires n.Some? ==> BlockOk(s.mem, n.value) && End(b) == n.value.addr
    requires n.None? ==> Load(s.mem, End(b)) == 1
    requires p.alloc && (n.None? || n.value.alloc)
    ensures Coalesce(s, b.addr + WSIZE) == (s, b.addr + WSIZE)
  {
    Neighbours(s.mem, p, b, n);
  }
  /** The merged block of blocks lo .. hi is aligned, a multiple of 8 long, and inside the heap. */
  lemma MergedShape(s: State, v: View, lo: int, hi: int)
    requires Rep(s, v) && 1 <= lo <= hi < |v.blocks|
    ensures var nb := Merged(v.blocks, lo, hi);
      && nb.addr % 8 == 4 && nb.size % 8 == 0 && DSIZE <= nb.size && 0 <= nb.addr && End(nb) < Word32
  {
    var bs := v.blocks;
    Span(s, v, lo, hi);
    if lo < hi {
      TiledOrder(bs, lo, hi);
    }
    AlignedGap(bs[lo].addr, bs[hi].addr, bs[hi].size);
  }

  /** From one 8-aligned payload to the end of a later block is a multiple of 8 bytes. */
  lemma AlignedGap(a: int, b: int, size: int)
    requires a % 8 == 4 && b % 8 == 4 && size % 8 == 0
    ensures (b + size - a) % 8 == 0
  {
    Mul8(b - 4, size);
    Mul8(b + size - 4, a - 4);
  }

  /** Writing the tags of a free block makes it a well-formed block and changes nothing outside it. */
  lemma FreeTags(m: Mem, nb: Block)
    requires !nb.alloc && nb.size % 8 == 0 && DSIZE <= nb.size && 0 <= nb.addr && End(nb) < Word32
    ensures var m' := TagFree(m, nb.addr, End(nb) - WSIZE, nb.size);
      BlockOk(m', nb) && SameOutside(m, m', nb.addr, End(nb))
  {
    TagFreeWrites(m, nb);
  }

  /** Writing the merged block over free blocks lo .. hi keeps the heap well formed. */
  lemma JoinedRep(s: State, v: View, lo: int, hi: int)
    requires Rep(s, v) && 1 <= lo <= hi < |v.blocks|
    ensures var nb := Merged(v.blocks, lo, hi);
      var r := Splice(v.blocks, lo, hi + 1, [nb]);
      |r| > 0 && MergedNext(v.next, lo, hi) <= |r|
      && Rep(Joined(s, nb).0, View(r, MergedNext(v.next, lo, hi)))
  {
    var bs := v.blocks;
    var nb := Merged(bs, lo, hi);
    var r := Splice(bs, lo, hi + 1, [nb]);
    var next' := MergedNext(v.next, lo, hi);
    var m' := TagFree(s.mem, nb.addr, End(nb) - WSIZE, nb.size);
    MergedShape(s, v, lo, hi);
    assert Tiled([nb]) && Stop([nb]) == End(bs[hi]);
    RoverAfterMerge(bs, lo, hi, v.next);
    JoinedState(s, nb, Bp(r, next'));
    FreeTags(s.mem, nb);
    SpliceRep(s, v, lo, hi + 1, [nb], Joined(s, nb).0, next');
  }

  /** The state coalesce leaves, field by field. */
  lemma JoinedState(s: State, nb: Block, x: int)
    requires x == RoverTest(s.nextFit, nb)
    ensures Joined(s, nb).0 == State(TagFree(s.mem, nb.addr, End(nb) - WSIZE, nb.size), s.heapListp, x, s.brk)
  {
  }

  /** The blocks around k, as coalesce sees them. */
  lemma AroundK(s: State, v: View, k: int)
    requires Rep(s, v) && 1 <= k < |v.blocks|
    ensures var bs := v.blocks;
      var n := if k + 1 < |bs| then Some(bs[k + 1]) else None;
      && BlockOk(s.mem, bs[k - 1]) && BlockOk(s.mem, bs[k]) && End(bs[k - 1]) == bs[k].addr
      && (n.Some? ==> BlockOk(s.mem, n.value) && End(bs[k]) == n.value.addr)
      && (n.None? ==> Load(s.mem, End(bs[k])) == 1)
      && 0 <= bs[k - 1].addr && End(bs[MergeHi(bs, k)]) - bs[k - 1].addr < Word32
      && (!bs[k].alloc ==> Around(bs[k - 1], bs[k], n) == Merged(bs, MergeLo(bs, k), MergeHi(bs, k)))
  {
    var bs := v.blocks;
    assert bs[k - 1] in bs && bs[k] in bs;
    if k + 1 < |bs| {
      assert bs[k + 1] in bs;
    }
    Span(s, v, k - 1, MergeHi(bs, k));
  }

  /** What coalesce leaves at free block k: the heap unchanged when both neighbours are in use, else the merged block written. */
  function MergeWrite(s: State, bs: seq<Block>, k: int): (State, int)
    requires 1 <= k < |bs|
  {
    var lo, hi := MergeLo(bs, k), MergeHi(bs, k);
    if lo == hi then (s, Bp(bs, k)) else Joined(s, Merged(bs, lo, hi))
  }

  /** What coalesce does at free block b between p and n: nothing when both are in use, else it writes the merged block. */
  lemma CoalesceAt(s: State, p: Block, b: Block, n: Option<Block>)
    requires BlockOk(s.mem, p) && BlockOk(s.mem, b) && End(p) == b.addr && !b.alloc
    requires n.Some? ==> BlockOk(s.mem, n.value) && End(b) == n.value.addr
    requires n.None? ==> Load(s.mem, End(b)) == 1
    requires 0 <= p.addr && End(Around(p, b, n)) - p.addr < Word32
    ensures Coalesce(s, b.addr + WSIZE) == if p.alloc && (n.None? || n.value.alloc) then (s, b.addr + WSIZE) else Joined(s, Around(p, b, n))
  {
    if p.alloc && (n.None? || n.value.alloc) {
      CoalesceKeeps(s, p, b, n);
    } else if p.alloc {
      CoalesceNext(s, p, b, n.value);
    } else if n.None? || n.value.alloc {
      CoalescePrev(s, p, b, n);
    } else {
      CoalesceBoth(s, p, b, n.value);
    }
  }

  /** coalesce at free block k, given the blocks around it. */
  lemma CoalesceAtK(s: State, bs: seq<Block>, k: int)
    requires 1 <= k < |bs| && !bs[k].alloc
    requires var n := if k + 1 < |bs| then Some(bs[k + 1]) else None;
      && BlockOk(s.mem, bs[k - 1]) && BlockOk(s.mem, bs[k]) && End(bs[k - 1]) == bs[k].addr
      && (n.Some? ==> BlockOk(s.mem, n.value) && End(bs[k]) == n.value.addr)
      && (n.None? ==> Load(s.mem, End(bs[k])) == 1)
      && 0 <= bs[k - 1].addr && End(bs[MergeHi(bs, k)]) - bs[k - 1].addr < Word32
      && Around(bs[k - 1], bs[k], n) == Merged(bs, MergeLo(bs, k), MergeHi(bs, k))
    ensures Coalesce(s, Bp(bs, k)) == MergeWrite(s, bs, k)
  {
    var n := if k + 1 < |bs| then Some(bs[k + 1]) else None;
    var p, b := bs[k - 1], bs[k];
    var e := if p.alloc && (n.None? || n.value.alloc) then (s, b.addr + WSIZE) else Joined(s, Around(p, b, n));
    CoalesceAt(s, p, b, n);
    assert Bp(bs, k) == b.addr + WSIZE;
    assert MergeLo(bs, k) == MergeHi(bs, k) <==> p.alloc && (n.None? || n.value.alloc);
    assert MergeWrite(s, bs, k) == e;
  }

  /** The state MergeWrite describes encodes MergeFree(v, k). */
  lemma MergeWriteRep(s: State, v: View, k: int)
    requires Rep(s, v) && 1 <= k < |v.blocks| && !v.blocks[k].alloc
    ensures var c, v' := MergeWrite(s, v.blocks, k), MergeFree(v, k);
      Rep(c.0, v') && |v'.blocks| > MergeLo(v.blocks, k) && c.1 == Bp(v'.blocks, MergeLo(v.blocks, k))
  {
    var bs := v.blocks;
    var lo, hi := MergeLo(bs, k), MergeHi(bs, k);
    if lo == hi {
      assert Merged(bs, k, k) == bs[k];
      SpliceSelf(bs, k);
    } else {
      JoinedRep(s, v, lo, hi);
    }
  }

  /**
   * coalesce refines MergeFree: on a heap that encodes v, at a free block k,
   * the result encodes v with block k merged into its free neighbours, the
   * rover moved off any swallowed block, and the pointer returned names the
   * merged block.
   */
  lemma CoalesceRefines(s: State, v: View, k: int)
    requires Rep(s, v) && 1 <= k < |v.blocks| && !v.blocks[k].alloc
    ensures var c, v' := Coalesce(s, Bp(v.blocks, k)), MergeFree(v, k);
      Rep(c.0, v') && |v'.blocks| > MergeLo(v.blocks, k) && c.1 == Bp(v'.blocks, MergeLo(v.blocks, k))
  {
    AroundK(s, v, k);
    CoalesceAtK(s, v.blocks, k);
    MergeWriteRep(s, v, k);
  }



  /** A rover index outside a splice still names the same payload pointer afterwards. */
  lemma BpSplice(bs: seq<Block>, i: int, j: int, ns: seq<Block>, x: int)
    requires Tiled(bs) && 0 <= i < j <= |bs| && Tiled(ns) && |ns| > 0
    requires ns[0].addr == bs[i].addr && Stop(ns) == End(bs[j - 1])
    requires 0 <= x <= |bs| && (x <= i || j <= x)
    ensures var r := Splice(bs, i, j, ns);
      var x' := if x <= i then x else x - (j - i) + |ns|;
      |r| > 0 && x' <= |r| && Bp(r, x') == Bp(bs, x)
  {
    var r := Splice(bs, i, j, ns);
    SpliceTiled(bs, i, j, ns);
    if x < i {
      assert r[x] == bs[x];
    } else if x == i {
      assert r[i] == ns[0];
    } else if x < |bs| {
      assert r[x - (j - i) + |ns|] == bs[x];
    }
  }
}

=== FILE: implicit_ops.dfy ===
/**
 * labs/malloclab/mm-implicit-free-list.c from place on: place, extend_heap,
 * mm_free, mm_init, find_fit and mm_malloc over the State and View of
 * Implicit, each shown to move the View as its abstract operation says.
 */
module ImplicitOps {
  import opened Twos
  import opened Heap
  import opened Implicit
  import opened ImplicitCoalesce

  // ---------------------------------------------------------------------------
  // place

  /** place(bp, asize): take asize bytes from the front of the block at bp, splitting off a remainder of 16 bytes or more. */
  function Place(m: Mem, bp: int, asize: int): Mem {
    var csize := GetSize(m, Hdrp(bp));
    if csize < asize then m
    else if csize - asize >= 2 * DSIZE then
      var m1 := Put(m, Hdrp(bp), Pack(asize, 1));
      var m2 := Put(m1, Ftrp(m1, bp), Pack(asize, 1));
      var bp2 := NextBlkp(m2, bp);
      var m3 := Put(m2, Hdrp(bp2), Pack(csize - asize, 0));
      Put(m3, Ftrp(m3, bp2), Pack(csize - asize, 0))
    else
      var m1 := Put(m, Hdrp(bp), Pack(csize, 1));
      Put(m1, Ftrp(m1, bp), Pack(csize, 1))
  }

  /** Header and footer of an allocated block of size S written at a1 and a2. */
  function TagUsed(m: Mem, a1: int, a2: int, S: int): Mem {
    Put(Put(m, a1, Pack(S, 1)), a2, Pack(S, 1))
  }

  lemma TagUsedWrites(m: Mem, b: Block)
    requires b.alloc && b.size % 8 == 0 && DSIZE <= b.size < Word32
    ensures Tagged(m, TagUsed(m, b.addr, End(b) - WSIZE, b.size), b)
  {
    PutTag(m, b.addr, b.size, 1);
    PutTag(Put(m, b.addr, Pack(b.size, 1)), End(b) - WSIZE, b.size, 1);
  }

  /** The split case of place writes the two tags of the part in use, then those of the remainder. */
  lemma PlaceSplitMem(m: Mem, b: Block, asize: int, a: Block, r: Block)
    requires a == Block(b.addr, asize, true) && r == Block(b.addr + asize, b.size - asize, false)
    requires BlockOk(m, b) && 0 <= b.addr && End(b) < Word32
    requires asize % 8 == 0 && DSIZE <= asize && b.size - asize >= 2 * DSIZE
    ensures Place(m, b.addr + WSIZE, asize) == TagFree(TagUsed(m, a.addr, End(a) - WSIZE, a.size), r.addr, End(r) - WSIZE, r.size)
  {
    var bp := b.addr + WSIZE;
    ReadTag(m, Hdrp(bp), b);
    var csize := GetSize(m, Hdrp(bp));
    Mul8(b.size, asize);
    var m1 := Put(m, Hdrp(bp), Pack(asize, 1));
    PutTag(m, Hdrp(bp), asize, 1);
    ReadTag(m1, Hdrp(bp), a);
    var f1 := Ftrp(m1, bp);
    assert f1 == End(a) - WSIZE;
    var m2 := Put(m1, f1, Pack(asize, 1));
    PutTag(m1, f1, asize, 1);
    assert Load(m2, bp - WSIZE) == Load(m1, bp - WSIZE);
    var bp2 := NextBlkp(m2, bp);
    assert bp2 == End(a) + WSIZE;
    var m3 := Put(m2, Hdrp(bp2), Pack(csize - asize, 0));
    PutTag(m2, Hdrp(bp2), csize - asize, 0);
    ReadTag(m3, Hdrp(bp2), r);
    var f2 := Ftrp(m3, bp2);
    assert f2 == End(r) - WSIZE;
    assert Place(m, bp, asize) == Put(m3, f2, Pack(csize - asize, 0));
  }

  /** Without a split, place marks the whole block in use. */
  lemma PlaceWholeMem(m: Mem, b: Block, asize: int)
    requires BlockOk(m, b) && 0 <= b.addr && End(b) < Word32
    requires 0 <= b.size - asize < 2 * DSIZE
    ensures Place(m, b.addr + WSIZE, asize) == TagUsed(m, b.addr, End(b) - WSIZE, b.size)
  {
    var bp := b.addr + WSIZE;
    ReadTag(m, Hdrp(bp), b);
    var csize := GetSize(m, Hdrp(bp));
    var m1 := Put(m, Hdrp(bp), Pack(csize, 1));
    PutTag(m, Hdrp(bp), csize, 1);
    ReadTag(m1, Hdrp(bp), b.(alloc := true));
    var f := Ftrp(m1, bp);
    assert f == End(b) - WSIZE;
    assert !(csize < asize) && !(csize - asize >= 2 * DSIZE);
    assert Place(m, bp, asize) == Put(m1, f, Pack(csize, 1));
  }

  /** What place leaves in a block: pieces that tile it, each a well-formed block in m', and nothing outside it changed. */
  ghost predicate Carved(m: Mem, m': Mem, b: Block, cs: seq<Block>) {
    && Tiled(cs) && |cs| > 0 && cs[0].addr == b.addr && Stop(cs) == End(b)
    && (forall c {:trigger c in cs} :: c in cs ==> BlockOk(m', c) && c.addr % 8 == 4)
    && SameOutside(m, m', b.addr, End(b))
  }

  /** A block whose tags were just written is well formed, and nothing outside it changed. */
  lemma TaggedOk(m: Mem, m': Mem, b: Block)
    requires Tagged(m, m', b) && b.size % 8 == 0 && DSIZE <= b.size
    ensures BlockOk(m', b) && SameOutside(m, m', b.addr, End(b))
  {
  }

  /** Two adjacent blocks tagged one after the other are both well formed, and nothing outside them changed. */
  lemma TaggedPair(m: Mem, m1: Mem, m2: Mem, a: Block, r: Block)
    requires Tagged(m, m1, a) && Tagged(m1, m2, r) && End(a) == r.addr
    requires a.size % 8 == 0 && DSIZE <= a.size && r.size % 8 == 0 && DSIZE <= r.size
    ensures BlockOk(m2, a) && BlockOk(m2, r) && SameOutside(m, m2, a.addr, End(r))
  {
  }

  /** The split case's two blocks, well formed, are what Carve says. */
  lemma CarvedPair(m: Mem, m': Mem, b: Block, asize: int, a: Block, r: Block)
    requires a == Block(b.addr, asize, true) && r == Block(b.addr + asize, b.size - asize, false)
    requires b.size - asize >= 2 * DSIZE && b.addr % 8 == 4 && (b.addr + asize) % 8 == 4
    requires BlockOk(m', a) && BlockOk(m', r) && SameOutside(m, m', b.addr, End(b))
    ensures Carved(m, m', b, Carve(b, asize))
  {
  }

  /** Both parts of a split are aligned and a multiple of 8 long. */
  lemma SplitShape(addr: int, size: int, asize: int)
    requires addr % 8 == 4 && size % 8 == 0 && asize % 8 == 0
    ensures (addr + asize) % 8 == 4 && (size - asize) % 8 == 0
  {
    Mul8(size, asize);
    Mul8(addr - 4, asize);
  }

  /** The tags the split case writes make both parts well-formed blocks. */
  lemma SplitTags(m: Mem, b: Block, asize: int, a: Block, r: Block)
    requires a == Block(b.addr, asize, true) && r == Block(b.addr + asize, b.size - asize, false)
    requires b.addr % 8 == 4 && b.size % 8 == 0 && 0 <= b.addr && End(b) < Word32
    requires asize % 8 == 0 && DSIZE <= asize && b.size - asize >= 2 * DSIZE
    ensures Carved(m, TagFree(TagUsed(m, a.addr, End(a) - WSIZE, a.size), r.addr, End(r) - WSIZE, r.size), b, Carve(b, asize))
  {
    SplitShape(b.addr, b.size, asize);
    var m1 := TagUsed(m, a.addr, End(a) - WSIZE, a.size);
    var m2 := TagFree(m1, r.addr, End(r) - WSIZE, r.size);
    TagUsedWrites(m, a);
    TagFreeWrites(m1, r);
    TaggedPair(m, m1, m2, a, r);
    CarvedPair(m, m2, b, asize, a, r);
  }

  /** The tags the whole-block case writes make the block well formed and in use. */
  lemma WholeTags(m: Mem, b: Block, asize: int)
    requires b.addr % 8 == 4 && b.size % 8 == 0 && DSIZE <= b.size && 0 <= b.addr && End(b) < Word32
    requires b.size - asize < 2 * DSIZE
    ensures Carved(m, TagUsed(m, b.addr, End(b) - WSIZE, b.size), b, Carve(b, asize))
  {
    var u := b.(alloc := true);
    var m' := TagUsed(m, b.addr, End(b) - WSIZE, b.size);
    TagUsedWrites(m, u);
    TaggedOk(m, m', u);
    assert Carve(b, asize) == [u];
  }

  /** The blocks place leaves are well formed, tile the old block, and nothing outside it changed. */
  lemma PlaceMem(m: Mem, b: Block, asize: int)
    requires BlockOk(m, b) && b.addr % 8 == 4 && 0 <= b.addr && End(b) < Word32
    requires asize % 8 == 0 && DSIZE <= asize <= b.size
    ensures Carved(m, Place(m, b.addr + WSIZE, asize), b, Carve(b, asize))
  {
    if b.size - asize >= 2 * DSIZE {
      var a, r := Block(b.addr, asize, true), Block(b.addr + asize, b.size - asize, false);
      PlaceSplitMem(m, b, asize, a, r);
      SplitTags(m, b, asize, a, r);
    } else {
      PlaceWholeMem(m, b, asize);
      WholeTags(m, b, asize);
    }
  }

  /** Without room for asize bytes, place changes nothing. */
  lemma PlaceNoneMem(m: Mem, b: Block, asize: int)
    requires BlockOk(m, b) && b.size < asize
    ensures Place(m, b.addr + WSIZE, asize) == m
  {
    ReadTag(m, b.addr, b);
  }

  /** Any memory in which block k has been carved as place carves it encodes PlaceView(v, k, asize). */
  lemma CarvedRep(s: State, v: View, k: int, asize: int, m': Mem)
    requires Rep(s, v) && 1 <= k < |v.blocks| && asize <= v.blocks[k].size
    requires Carved(s.mem, m', v.blocks[k], Carve(v.blocks[k], asize))
    ensures Rep(s.(mem := m'), PlaceView(v, k, asize))
  {
    var bs := v.blocks;
    var cs := Carve(bs[k], asize);
    var next' := if v.next > k then v.next + |cs| - 1 else v.next;
    var r := Splice(bs, k, k + 1, cs);
    BpSplice(bs, k, k + 1, cs, v.next);
    SpliceRep(s, v, k, k + 1, cs, s.(mem := m'), next');
    assert View(r, next') == PlaceView(v, k, asize);
  }

  /**
   * place refines PlaceView: on a heap that encodes v, placing asize bytes
   * at block k gives a heap that encodes PlaceView(v, k, asize), rover
   * included.
   */
  lemma PlaceRefines(s: State, v: View, k: int, asize: int)
    requires Rep(s, v) && 1 <= k < |v.blocks| && asize % 8 == 0 && DSIZE <= asize
    ensures Rep(s.(mem := Place(s.mem, Bp(v.blocks, k), asize)), PlaceView(v, k, asize))
  {
    var b := v.blocks[k];
    Span(s, v, k, k);
    assert Bp(v.blocks, k) == b.addr + WSIZE;
    if b.size < asize {
      PlaceNoneMem(s.mem, b, asize);
      assert s.(mem := s.mem) == s;
    } else {
      PlaceMem(s.mem, b, asize);
      CarvedRep(s, v, k, asize, Place(s.mem, b.addr + WSIZE, asize));
    }
  }


  // ---------------------------------------------------------------------------
  // extend_heap

  /** The bytes extend_heap asks for: words rounded up to an even count, in bytes, as a size_t. */
  function ChunkBytes(words: int): int {
    (if words % 2 == 1 then (words + 1) * WSIZE else words * WSIZE) % Two64
  }

  /**
   * extend_heap(words): grow the heap, make the new bytes one free block
   * whose header overwrites the old epilogue, write a new epilogue after it,
   * and coalesce.  The result is the coalesced block's bp, or 0 (NULL) when
   * mem_sbrk refuses.
   */
  function ExtendHeap(s: State, words: int, grant: bool): (State, int) {
    var size := ChunkBytes(words);
    var bp := Sbrk(s.brk, size, grant);
    if bp == -1 then (s, 0) else Grow(s, bp, size)
  }

  /** What extend_heap does once mem_sbrk has returned bp: tag the chunk, move the break, coalesce. */
  function Grow(s: State, bp: int, size: int): (State, int) {
    Coalesce(s.(mem := NewChunk(s.mem, bp, size), brk := s.brk + size), bp)
  }

  /** The three stores extend_heap makes before it coalesces: header and footer of the new block, then the epilogue. */
  function NewChunk(m: Mem, bp: int, size: int): Mem {
    var m1 := Put(m, Hdrp(bp), Pack(size, 0));
    var m2 := Put(m1, Ftrp(m1, bp), Pack(size, 0));
    Put(m2, Hdrp(NextBlkp(m2, bp)), Pack(0, 1))
  }

  /** Over a multiple of 8 bytes, the block size is the byte count and fits a tag. */
  lemma ChunkBytesShape(words: int)
    requires 1 <= words && (words + 1) * WSIZE < Two64
    ensures ChunkBytes(words) == WSIZE * (words + words % 2)
    ensures ChunkBytes(words) % 8 == 0 && DSIZE <= ChunkBytes(words)
  {
    var w := words + words % 2;
    DivUnique(w, 2, w / 2, 0);
  }

  /** The stores of extend_heap, at the old epilogue a, in terms of the block they write. */
  lemma NewChunkMem(m: Mem, a: int, bp: int, size: int)
    requires bp == a + WSIZE && size % 8 == 0 && DSIZE <= size && 0 <= a && a + size < Word32
    ensures NewChunk(m, bp, size) == Put(TagFree(m, a, a + size - WSIZE, size), a + size, Pack(0, 1))
  {
    var nb := Block(a, size, false);
    var m1 := Put(m, Hdrp(bp), Pack(size, 0));
    PutTag(m, Hdrp(bp), size, 0);
    ReadTag(m1, Hdrp(bp), nb);
    var f := Ftrp(m1, bp);
    assert f == a + size - WSIZE;
    var m2 := Put(m1, f, Pack(size, 0));
    PutTag(m1, f, size, 0);
    assert Load(m2, bp - WSIZE) == Load(m1, bp - WSIZE);
    var e := Hdrp(NextBlkp(m2, bp));
    assert e == a + size;
    assert m2 == TagFree(m, a, a + size - WSIZE, size);
    assert NewChunk(m, bp, size) == Put(m2, e, Pack(0, 1));
  }

  /** After those stores the new block is well formed, the epilogue follows it, and nothing below it changed. */
  lemma ChunkTags(m: Mem, a: int, size: int, m': Mem)
    requires size % 8 == 0 && DSIZE <= size && 0 <= a && a + size < Word32
    requires m' == Put(TagFree(m, a, a + size - WSIZE, size), a + size, Pack(0, 1))
    ensures BlockOk(m', Block(a, size, false)) && Load(m', a + size) == 1
    ensures forall x {:trigger Load(m', x)} :: x < a ==> Load(m', x) == Load(m, x)
  {
    var nb := Block(a, size, false);
    var m1 := TagFree(m, a, a + size - WSIZE, size);
    assert BlockOk(m1, nb) && SameOutside(m, m1, a, a + size) by {
      TagFreeWrites(m, nb);
      TaggedOk(m, m1, nb);
    }
    assert Load(m', a + size) == 1 && SameOutside(m1, m', a + size, a + size + 1) by {
      PutTag(m1, a + size, 0, 1);
    }
    assert Load(m', a) == Load(m1, a) && Load(m', a + size - WSIZE) == Load(m1, a + size - WSIZE);
    forall x {:trigger Load(m', x)} | x < a ensures Load(m', x) == Load(m, x) {
      assert Load(m', x) == Load(m1, x);
    }
  }


  /** The blocks of a heap with a block appended are well formed when the new one is and memory below it is unchanged. */
  lemma AppendOk(m: Mem, m': Mem, bs: seq<Block>, nb: Block)
    requires Tiled(bs) && |bs| > 0 && nb.addr == Stop(bs) && nb.addr % 8 == 4
    requires forall b {:trigger b in bs} :: b in bs ==> BlockOk(m, b) && b.addr % 8 == 4
    requires BlockOk(m', nb) && forall x {:trigger Load(m', x)} :: x < nb.addr ==> Load(m', x) == Load(m, x)
    ensures forall b {:trigger b in bs + [nb]} :: b in bs + [nb] ==> BlockOk(m', b) && b.addr % 8 == 4
  {
    Within(bs);
    forall b {:trigger b in bs + [nb]} | b in bs + [nb] ensures BlockOk(m', b) && b.addr % 8 == 4 {
      if b in bs {
        assert End(b) <= Stop(bs);
      }
    }
  }

  /** The word below an 8-aligned break starts an aligned block. */
  lemma BrkAligned(brk: int)
    requires brk % 8 == 0
    ensures (brk - WSIZE) % 8 == 4
  {
  }

  /** A heap with a free block appended over its epilogue, and a new epilogue after it, encodes the longer row. */
  lemma AppendRep(s: State, v: View, size: int, m': Mem, s': State, v': View)
    requires Rep(s, v) && size % 8 == 0 && DSIZE <= size && s.brk + size <= HeapLimit
    requires BlockOk(m', Block(s.brk - WSIZE, size, false)) && Load(m', s.brk - WSIZE + size) == 1
    requires forall x {:trigger Load(m', x)} :: x < s.brk - WSIZE ==> Load(m', x) == Load(s.mem, x)
    requires s' == s.(mem := m', brk := s.brk + size) && v' == View(v.blocks + [Block(Stop(v.blocks), size, false)], v.next)
    ensures Rep(s', v')
  {
    var bs := v.blocks;
    var nb := Block(Stop(bs), size, false);
    var bs' := bs + [nb];
    BrkAligned(s.brk);
    AppendTiled(bs, nb);
    AppendOk(s.mem, m', bs, nb);
    BpAppend(bs, nb, v.next);
    assert bs'[0] == bs[0];
  }

  /** Appending a block keeps every payload pointer up to and including the old epilogue's. */
  lemma BpAppend(bs: seq<Block>, nb: Block, x: int)
    requires |bs| > 0 && nb.addr == Stop(bs) && 0 <= x <= |bs|
    ensures Bp(bs + [nb], x) == Bp(bs, x)
  {
    if x < |bs| {
      assert (bs + [nb])[x] == bs[x];
    }
  }


  /** extend_heap when mem_sbrk grants the bytes. */
  lemma ExtendGranted(s: State, words: int, grant: bool)
    requires grant && 0 <= s.brk && 0 <= ChunkBytes(words) && s.brk + ChunkBytes(words) <= HeapLimit
    ensures ExtendHeap(s, words, grant) == Grow(s, s.brk, ChunkBytes(words))
  {
    assert Sbrk(s.brk, ChunkBytes(words), grant) == s.brk;
  }

  /** extend_heap when mem_sbrk refuses the bytes: nothing changes and the result is NULL. */
  lemma ExtendRefused(s: State, words: int, grant: bool)
    requires !(grant && 0 <= ChunkBytes(words) && s.brk + ChunkBytes(words) <= HeapLimit)
    ensures ExtendHeap(s, words, grant) == (s, 0)
  {
    assert Sbrk(s.brk, ChunkBytes(words), grant) == -1;
  }

  /** Grow is coalesce applied to the state with the chunk tagged and the break moved. */
  lemma GrowCoalesces(s: State, size: int, m': Mem)
    requires m' == NewChunk(s.mem, s.brk, size)
    ensures Grow(s, s.brk, size) == Coalesce(s.(mem := m', brk := s.brk + size), s.brk)
  {
  }

  /**
   * The tail of extend_heap refines ExtendView: the heap encodes the row with
   * a free block of the new size appended and merged with a free last block,
   * and the result names the merged block.
   */
  lemma GrowRefines(s: State, v: View, size: int)
    requires Rep(s, v) && size % 8 == 0 && DSIZE <= size && s.brk + size <= HeapLimit
    ensures Grown(v, size, Grow(s, s.brk, size))
  {
    var bs := v.blocks;
    var bp := s.brk;
    var a := bp - WSIZE;
    Within(bs);
    assert bs[0] in bs;
    var m' := NewChunk(s.mem, bp, size);
    NewChunkMem(s.mem, a, bp, size);
    ChunkTags(s.mem, a, size, m');
    var s1 := s.(mem := m', brk := s.brk + size);
    var v1 := View(bs + [Block(Stop(bs), size, false)], v.next);
    AppendRep(s, v, size, m', s1, v1);
    assert Bp(v1.blocks, |bs|) == bp;
    CoalesceRefines(s1, v1, |bs|);
    GrowCoalesces(s, size, m');
    var v' := MergeFree(v1, |bs|);
    assert v' == ExtendView(v, size);
    assert Bp(v'.blocks, MergeLo(v1.blocks, |bs|)) >= s.heapListp by {
      assert v'.blocks[0] == bs[0];
      BpOrder(v'.blocks, 0, MergeLo(v1.blocks, |bs|));
    }
  }

  /**
   * extend_heap refines ExtendView: when mem_sbrk grants the bytes, the heap
   * encodes the row with a free block of that size appended and merged with
   * a free last block, and the result names the merged block; when it
   * refuses, nothing changes and the result is NULL.
   */
  lemma ExtendRefines(s: State, v: View, words: int, grant: bool)
    requires Rep(s, v) && 1 <= words && (words + 1) * WSIZE < Two64
    ensures ChunkBytes(words) == WSIZE * (words + words % 2)
    ensures !(grant && s.brk + ChunkBytes(words) <= HeapLimit) ==> ExtendHeap(s, words, grant) == (s, 0)
    ensures grant && s.brk + ChunkBytes(words) <= HeapLimit ==> Grown(v, ChunkBytes(words), ExtendHeap(s, words, grant))
  {
    ChunkBytesShape(words);
    if grant && s.brk + ChunkBytes(words) <= HeapLimit {
      assert 0 <= s.brk by {
        Within(v.blocks);
        assert v.blocks[0] in v.blocks;
      }
      ExtendGranted(s, words, grant);
      GrowRefines(s, v, ChunkBytes(words));
    } else {
      ExtendRefused(s, words, grant);
    }
  }

  // ---------------------------------------------------------------------------
  // mm_free

  /** mm_free(ptr): NULL is ignored; otherwise the block is retagged free and coalesced. */
  function Free(s: State, ptr: int): State {
    if ptr == 0 then s else Release(s, ptr)
  }

  /** The body of mm_free past its NULL test: header, then footer, then coalesce. */
  function Release(s: State, ptr: int): State {
    var m := s.mem;
    var size := GetSize(m, Hdrp(ptr));
    var m1 := Put(m, Hdrp(ptr), Pack(size, 0));
    var m2 := Put(m1, Ftrp(m1, ptr), Pack(size, 0));
    Coalesce(s.(mem := m2), ptr).0
  }

  /** At a well-formed block, mm_free's two stores write the tags of the block marked free. */
  lemma ReleaseMem(m: Mem, b: Block)
    requires BlockOk(m, b) && 0 <= b.addr && End(b) < Word32
    ensures var ptr := b.addr + WSIZE;
      var size := GetSize(m, Hdrp(ptr));
      var m1 := Put(m, Hdrp(ptr), Pack(size, 0));
      Put(m1, Ftrp(m1, ptr), Pack(size, 0)) == TagFree(m, b.addr, End(b) - WSIZE, b.size)
  {
    var ptr := b.addr + WSIZE;
    assert Hdrp(ptr) == b.addr;
    ReadTag(m, b.addr, b);
    var m1 := Put(m, b.addr, Pack(b.size, 0));
    PutTag(m, b.addr, b.size, 0);
    TagFields(b.size, false, false);
    assert GetSize(m1, b.addr) == b.size;
    assert Ftrp(m1, ptr) == End(b) - WSIZE;
  }

  /** At a well-formed block, Release is coalesce on the state with the block's tags rewritten free. */
  lemma ReleaseCoalesces(s: State, b: Block, ptr: int, m2: Mem)
    requires BlockOk(s.mem, b) && 0 <= b.addr && End(b) < Word32
    requires ptr == b.addr + WSIZE && m2 == TagFree(s.mem, b.addr, End(b) - WSIZE, b.size)
    ensures Release(s, ptr) == Coalesce(s.(mem := m2), ptr).0
  {
    ReleaseMem(s.mem, b);
  }

  /** mm_free's stores at block b write the tags of b marked free and nothing outside b. */
  lemma UnmarkTags(m: Mem, b: Block, fb: Block, m2: Mem)
    requires BlockOk(m, b) && 0 <= b.addr && End(b) < Word32
    requires fb == b.(alloc := false) && m2 == TagFree(m, b.addr, End(b) - WSIZE, b.size)
    ensures BlockOk(m2, fb) && SameOutside(m, m2, b.addr, End(b))
  {
    FreeTags(m, fb);
  }

  /** At a well-formed block, mm_free is coalesce on the state with the block's tags rewritten free. */
  lemma FreeCoalesces(s: State, b: Block, ptr: int, m2: Mem)
    requires BlockOk(s.mem, b) && 0 <= b.addr && End(b) < Word32
    requires ptr == b.addr + WSIZE && m2 == TagFree(s.mem, b.addr, End(b) - WSIZE, b.size)
    ensures Free(s, ptr) == Coalesce(s.(mem := m2), ptr).0
  {
    ReleaseCoalesces(s, b, ptr, m2);
  }

  /** Any memory that differs from s only inside block k, where it holds block k's tags marked free, encodes the row with block k free. */
  lemma UnmarkRep(s: State, v: View, k: int, fb: Block, m2: Mem)
    requires Rep(s, v) && 1 <= k < |v.blocks|
    requires fb == v.blocks[k].(alloc := false)
    requires BlockOk(m2, fb) && SameOutside(s.mem, m2, v.blocks[k].addr, End(v.blocks[k]))
    ensures Rep(s.(mem := m2), View(Splice(v.blocks, k, k + 1, [fb]), v.next))
  {
    var bs := v.blocks;
    Span(s, v, k, k);
    assert Tiled([fb]) && Stop([fb]) == End(bs[k]);
    BpSplice(bs, k, k + 1, [fb], v.next);
    SpliceRep(s, v, k, k + 1, [fb], s.(mem := m2), v.next);
  }

  /**
   * mm_free refines FreeView: freeing block k of a heap that encodes v gives
   * a heap that encodes v with block k free and merged with its free
   * neighbours.
   */
  lemma FreeRefines(s: State, v: View, k: int)
    requires Rep(s, v) && 1 <= k < |v.blocks|
    ensures Rep(Free(s, Bp(v.blocks, k)), FreeView(v, k))
  {
    var bs := v.blocks;
    var b := bs[k];
    var ptr := Bp(bs, k);
    var fb := b.(alloc := false);
    var m2 := TagFree(s.mem, b.addr, End(b) - WSIZE, b.size);
    var s2, v2 := s.(mem := m2), View(bs[k := fb], v.next);
    Span(s, v, k, k);
    UnmarkTags(s.mem, b, fb, m2);
    FreeCoalesces(s, b, ptr, m2);
    UnmarkRep(s, v, k, fb, m2);
    SpliceUpdate(bs, k, fb);
    CoalesceRefines(s2, v2, k);
    assert Bp(v2.blocks, k) == ptr;
  }

  // ---------------------------------------------------------------------------
  // mm_init

  /** The four words mm_init writes at p: padding, prologue header and footer, epilogue header. */
  function Prologue(m: Mem, p: int): Mem {
    var m1 := Put(m, p, 0);
    var m2 := Put(m1, p + WSIZE, Pack(DSIZE, 1));
    var m3 := Put(m2, p + 2 * WSIZE, Pack(DSIZE, 1));
    Put(m3, p + 3 * WSIZE, Pack(0, 1))
  }

  /**
   * mm_init: take 16 bytes for the prologue and epilogue, point heap_listp
   * and the rover at the prologue, then extend the heap by CHUNKSIZE bytes.
   * The two flags say whether memlib grants each of the two mem_sbrk calls.
   * The result is 0, or -1 when either call fails.
   */
  function Init(s: State, grant1: bool, grant2: bool): (State, int) {
    var p := Sbrk(s.brk, 4 * WSIZE, grant1);
    if p == -1 then (s.(heapListp := -1), -1)
    else
      var s1 := State(Prologue(s.mem, p), p + 2 * WSIZE, p + 2 * WSIZE, s.brk + 4 * WSIZE);
      var e := ExtendHeap(s1, CHUNKSIZE / WSIZE, grant2);
      (e.0, if e.1 == 0 then -1 else 0)
  }

  /** The prologue's header and footer and the epilogue header read back as written. */
  lemma PrologueTags(m: Mem, p: int)
    ensures var m' := Prologue(m, p);
      Load(m', p + WSIZE) == DSIZE + 1 && Load(m', p + 2 * WSIZE) == DSIZE + 1 && Load(m', p + 3 * WSIZE) == 1
  {
    var m1 := Put(m, p, 0);
    var m2 := Put(m1, p + WSIZE, Pack(DSIZE, 1));
    var m3 := Put(m2, p + 2 * WSIZE, Pack(DSIZE, 1));
    PutTag(m1, p + WSIZE, DSIZE, 1);
    PutTag(m2, p + 2 * WSIZE, DSIZE, 1);
    PutTag(m3, p + 3 * WSIZE, 0, 1);
  }

  /** After the four stores, the heap is the prologue alone, with the rover on it. */
  lemma PrologueRep(m: Mem, p: int)
    requires 0 <= p && p % 8 == 0 && p + 4 * WSIZE <= HeapLimit
    ensures Rep(State(Prologue(m, p), p + 2 * WSIZE, p + 2 * WSIZE, p + 4 * WSIZE), View([Block(p + WSIZE, DSIZE, true)], 0))
  {
    PrologueTags(m, p);
    var pro := Block(p + WSIZE, DSIZE, true);
    assert Tiled([pro]);
    assert forall b :: b in [pro] ==> b == pro;
  }

  /** Appending a CHUNKSIZE block after the lone prologue merges with nothing. */
  lemma FirstChunk(pro: Block)
    requires pro.alloc
    ensures ExtendView(View([pro], 0), CHUNKSIZE) == View([pro, Block(End(pro), CHUNKSIZE, false)], 0)
  {
    var bs := [pro, Block(End(pro), CHUNKSIZE, false)];
    assert Stop([pro]) == End(pro);
    assert [pro] + [Block(End(pro), CHUNKSIZE, false)] == bs;
    assert MergeLo(bs, 1) == 1 && MergeHi(bs, 1) == 1;
    assert Merged(bs, 1, 1) == bs[1];
    SpliceSelf(bs, 1);
  }

  /**
   * mm_init on a break aligned to 8 bytes: when memlib refuses the first
   * call, heap_listp is -1 and the result is -1; when it refuses the
   * second, the heap is the prologue alone and the result is -1; when it
   * grants both, the heap is the prologue and one free block of CHUNKSIZE
   * bytes, the rover is on the prologue, and the result is 0.
   */
  lemma InitRefines(s: State, grant1: bool, grant2: bool)
    requires 0 <= s.brk && s.brk % 8 == 0
    ensures var r, p := Init(s, grant1, grant2), s.brk;
      var pro := Block(p + WSIZE, DSIZE, true);
      && (!(grant1 && p + 4 * WSIZE <= HeapLimit) ==> r.1 == -1 && r.0 == s.(heapListp := -1))
      && (grant1 && p + 4 * WSIZE <= HeapLimit && !(grant2 && p + 4 * WSIZE + CHUNKSIZE <= HeapLimit) ==>
            r.1 == -1 && Rep(r.0, View([pro], 0)))
      && (grant1 && grant2 && p + 4 * WSIZE + CHUNKSIZE <= HeapLimit ==>
            r.1 == 0 && Rep(r.0, View([pro, Block(p + 3 * WSIZE, CHUNKSIZE, false)], 0)))
  {
    var p := s.brk;
    if grant1 && p + 4 * WSIZE <= HeapLimit {
      assert Sbrk(s.brk, 4 * WSIZE, grant1) == p;
      var pro := Block(p + WSIZE, DSIZE, true);
      var s1 := State(Prologue(s.mem, p), p + 2 * WSIZE, p + 2 * WSIZE, s.brk + 4 * WSIZE);
      var v1 := View([pro], 0);
      PrologueRep(s.mem, p);
      ExtendRefines(s1, v1, CHUNKSIZE / WSIZE, grant2);
      FirstChunk(pro);
      assert Init(s, grant1, grant2) == (ExtendHeap(s1, CHUNKSIZE / WSIZE, grant2).0, if ExtendHeap(s1, CHUNKSIZE / WSIZE, grant2).1 == 0 then -1 else 0);
    } else {
      assert Sbrk(s.brk, 4 * WSIZE, grant1) == -1;
    }
  }

  // ---------------------------------------------------------------------------
  // find_fit and mm_malloc

  /** What find_fit's tests read at block index i (the epilogue for i == |blocks|), and where NEXT_BLKP leads. */
  lemma Visit(s: State, v: View, i: int)
    requires Rep(s, v) && 0 <= i <= |v.blocks|
    ensures var bs, bp := v.blocks, Bp(v.blocks, i);
      && bp != 0
      && (i == |bs| ==> GetSize(s.mem, Hdrp(bp)) == 0)
      && (i < |bs| ==>
            && GetSize(s.mem, Hdrp(bp)) == bs[i].size > 0 && GetAlloc(s.mem, Hdrp(bp)) == bs[i].alloc
            && NextBlkp(s.mem, bp) == Bp(bs, i + 1))
  {
    BpPositive(s, v, i);
    if i < |v.blocks| {
      ReadBlock(s, v, i);
    } else {
      ReadEpilogue(s, v);
    }
  }

  /** Every payload pointer lies at or past heap_listp, so none is NULL. */
  lemma BpPositive(s: State, v: View, i: int)
    requires Rep(s, v) && 0 <= i <= |v.blocks|
    ensures Bp(v.blocks, i) >= s.heapListp > 0
  {
    if i > 0 {
      BpOrder(v.blocks, 0, i);
    }
  }

  /** Moving the rover to block k keeps the heap encoding the same row. */
  lemma RoverRep(s: State, v: View, k: int)
    requires Rep(s, v) && 0 <= k <= |v.blocks|
    ensures Rep(s.(nextFit := Bp(v.blocks, k)), View(v.blocks, k))
  {
  }

  /**
   * find_fit(asize): search from the rover to the epilogue, then from the
   * prologue up to where the rover was, for the first free block of at
   * least asize bytes.  It returns the new rover and the block found, or
   * NULL; the rover rests on the block found, and is back where it started
   * when there is none.
   */
  method FindFit(s: State, asize: int, ghost v: View) returns (rover: int, bp: int)
    requires Rep(s, v)
    ensures var r := NextFit(v, asize);
      && (r.Some? ==> bp == rover == Bp(v.blocks, r.value) && bp != 0)
      && (r.None? ==> bp == 0 && rover == s.nextFit)
  {
    rover, bp := ScanToEnd(s, asize, v);
    if bp == 0 {
      rover, bp := ScanToRover(s, asize, v);
    }
  }

  /** find_fit's first loop: from the rover up to the epilogue. */
  method ScanToEnd(s: State, asize: int, ghost v: View) returns (rover: int, bp: int)
    requires Rep(s, v)
    ensures var r := FirstFit(v.blocks, asize, v.next, |v.blocks|);
      && (r.Some? ==> bp == rover == Bp(v.blocks, r.value) && bp != 0)
      && (r.None? ==> bp == 0)
  {
    var m := s.mem;
    ghost var bs := v.blocks;
    ghost var i := v.next;
    rover := s.nextFit;
    while GetSize(m, Hdrp(rover)) > 0
      invariant v.next <= i <= |bs| && rover == Bp(bs, i)
      invariant FirstFit(bs, asize, i, |bs|) == FirstFit(bs, asize, v.next, |bs|)
      decreases |bs| - i
    {
      Visit(s, v, i);
      if !GetAlloc(m, Hdrp(rover)) && asize <= GetSize(m, Hdrp(rover)) {
        return rover, rover;
      }
      rover := NextBlkp(m, rover);
      i := i + 1;
    }
    Visit(s, v, i);
    return rover, 0;
  }

  /** find_fit's second loop: from the prologue up to where the rover was, where it stops when nothing fits. */
  method ScanToRover(s: State, asize: int, ghost v: View) returns (rover: int, bp: int)
    requires Rep(s, v)
    ensures var r := FirstFit(v.blocks, asize, 0, v.next);
      && (r.Some? ==> bp == rover == Bp(v.blocks, r.value) && bp != 0)
      && (r.None? ==> bp == 0 && rover == s.nextFit)
  {
    var m := s.mem;
    var curr := s.nextFit;
    ghost var bs := v.blocks;
    ghost var i := 0;
    rover := s.heapListp;
    while rover < curr
      invariant 0 <= i <= v.next && rover == Bp(bs, i)
      invariant FirstFit(bs, asize, i, v.next) == FirstFit(bs, asize, 0, v.next)
      decreases v.next - i
    {
      Visit(s, v, i);
      if !GetAlloc(m, Hdrp(rover)) && asize <= GetSize(m, Hdrp(rover)) {
        return rover, rover;
      }
      rover := NextBlkp(m, rover);
      i := i + 1;
    }
    if i < v.next {
      BpOrder(bs, i, v.next);
    }
    return rover, 0;
  }

  /** Placing into a block that fits leaves an allocated block of at least asize bytes at the same address. */
  lemma PlaceAt(v: View, k: int, asize: int)
    requires 0 <= k < |v.blocks| && Fits(v.blocks[k], asize)
    ensures var r := PlaceView(v, k, asize).blocks;
      k < |r| && r[k].addr == v.blocks[k].addr && r[k].alloc && asize <= r[k].size
  {
    var cs := Carve(v.blocks[k], asize);
    assert Splice(v.blocks, k, k + 1, cs)[k] == cs[0];
  }

  /** After extending by size bytes, the merged block is free, past the prologue, and at least size bytes long. */
  lemma ExtendAt(v: View, size: int)
    requires Tiled(v.blocks) && |v.blocks| > 0 && v.next <= |v.blocks| && v.blocks[0].alloc && 0 < size
    ensures var lo := MergeLo(v.blocks + [Block(Stop(v.blocks), size, false)], |v.blocks|);
      var ve := ExtendView(v, size);
      1 <= lo < |ve.blocks| && Fits(ve.blocks[lo], size)
  {
    var bs := v.blocks;
    var bs1 := bs + [Block(Stop(bs), size, false)];
    var lo := MergeLo(bs1, |bs|);
    assert bs1[|bs|] == Block(Stop(bs), size, false);
    assert bs1[|bs| - 1] == bs[|bs| - 1] && bs[|bs| - 1] in bs;
    assert Splice(bs1, lo, |bs| + 1, [Merged(bs1, lo, |bs|)])[lo] == Merged(bs1, lo, |bs|);
  }

  /** A multiple of 8 bytes is an even number of words. */
  lemma EvenWords(n: int)
    requires n % 8 == 0
    ensures (n / WSIZE) % 2 == 0 && WSIZE * (n / WSIZE) == n
  {
    DivUnique(n, WSIZE, 2 * (n / 8), 0);
    DivUnique(n / WSIZE, 2, n / 8, 0);
  }

  /** Placing into the block next fit found leaves an allocated block of at least asize bytes there. */
  lemma PlaceFound(s: State, v: View, asize: int, k: int, s': State, v': View)
    requires Rep(s, v) && asize % 8 == 0 && DSIZE <= asize
    requires NextFit(v, asize) == Some(k)
    requires s' == s.(nextFit := Bp(v.blocks, k)).(mem := Place(s.mem, Bp(v.blocks, k), asize))
    requires v' == PlaceView(View(v.blocks, k), k, asize)
    ensures Rep(s', v') && 1 <= k < |v'.blocks| && Bp(v'.blocks, k) == Bp(v.blocks, k) != 0
    ensures v'.blocks[k].alloc && asize <= v'.blocks[k].size
  {
    assert v.blocks[0] in v.blocks;
    var s1 := s.(nextFit := Bp(v.blocks, k));
    RoverRep(s, v, k);
    PlaceRefines(s1, View(v.blocks, k), k, asize);
    PlaceAt(View(v.blocks, k), k, asize);
    BpOrder(v.blocks, 0, k);
    assert s1.(mem := Place(s1.mem, Bp(v.blocks, k), asize)) == s';
  }

  /** extend_heap by a multiple of 8 bytes, in bytes rather than words. */
  lemma ExtendBy(s: State, v: View, esize: int, grant: bool)
    requires Rep(s, v) && esize % 8 == 0 && DSIZE <= esize <= SizeMax
    ensures !(grant && s.brk + esize <= HeapLimit) ==> ExtendHeap(s, esize / WSIZE, grant) == (s, 0)
    ensures grant && s.brk + esize <= HeapLimit ==> Grown(v, esize, ExtendHeap(s, esize / WSIZE, grant))
  {
    ChunkOf(esize);
    ExtendRefines(s, v, esize / WSIZE, grant);
  }

  /** A byte count that is a multiple of 8 is the chunk extend_heap makes of its word count. */
  lemma ChunkOf(esize: int)
    requires esize % 8 == 0 && DSIZE <= esize <= SizeMax
    ensures 1 <= esize / WSIZE && (esize / WSIZE + 1) * WSIZE < Two64 && ChunkBytes(esize / WSIZE) == esize
  {
    EvenWords(esize);
    ChunkBytesShape(esize / WSIZE);
  }


  /** Placing into the merged block extend_heap returned leaves an allocated block of at least asize bytes there. */
  lemma PlaceGrown(s: State, v: View, asize: int, esize: int, e: (State, int), k: int, s': State, v': View)
    requires Rep(s, v) && asize % 8 == 0 && DSIZE <= asize <= esize
    requires Grown(v, esize, e) && k == GrowLo(v, esize)
    requires s' == e.0.(mem := Place(e.0.mem, e.1, asize)) && v' == PlaceView(ExtendView(v, esize), k, asize)
    ensures Rep(s', v') && 1 <= k < |v'.blocks| && Bp(v'.blocks, k) == e.1
    ensures v'.blocks[k].alloc && asize <= v'.blocks[k].size
  {
    assert v.blocks[0] in v.blocks;
    ExtendAt(v, esize);
    PlaceRefines(e.0, ExtendView(v, esize), k, asize);
    PlaceAt(ExtendView(v, esize), k, asize);
  }

  /**
   * mm_malloc(size), with requests too large for the size arithmetic
   * refused.  A zero or oversized request gives NULL and changes nothing.
   * Otherwise, a block that next fit finds is placed; failing that the
   * heap grows by MAX(asize, CHUNKSIZE) bytes and the merged last block is
   * placed; when memlib refuses, the result is NULL and nothing changes.
   * A non-NULL result is the payload of an allocated block with room for
   * size bytes, and the heap encodes the row v' the abstract operations
   * give.
   */
  method Malloc(s: State, size: int, grant: bool, ghost v: View) returns (s': State, bp: int, ghost v': View, ghost k: int)
    requires Rep(s, v) && 0 <= size <= SizeMax
    ensures Rep(s', v')
    ensures bp == 0 ==> s' == s && v' == v
    ensures size == 0 || SizeMax - 15 < size ==> bp == 0
    ensures bp != 0 ==> 1 <= k < |v'.blocks| && bp == Bp(v'.blocks, k) && v'.blocks[k].alloc && size + DSIZE <= v'.blocks[k].size
    ensures 0 < size <= SizeMax - 15 && NextFit(v, ASize(size)).Some? ==>
      var f := NextFit(v, ASize(size)).value;
      bp != 0 && k == f && v' == PlaceView(View(v.blocks, f), f, ASize(size))
    ensures 0 < size <= SizeMax - 15 && NextFit(v, ASize(size)).None? ==>
      var e := if ASize(size) > CHUNKSIZE then ASize(size) else CHUNKSIZE;
      && (bp == 0 <==> !(grant && s.brk + e <= HeapLimit))
      && (bp != 0 ==> k == MergeLo(v.blocks + [Block(Stop(v.blocks), e, false)], |v.blocks|)
                      && v' == PlaceView(ExtendView(v, e), k, ASize(size)))
  {
    if size == 0 || SizeMax - 15 < size {
      return s, 0, v, 0;
    }
    var asize := ASize(size);
    var rover, fit := FindFit(s, asize, v);
    if fit != 0 {
      k := NextFit(v, asize).value;
      s' := s.(nextFit := rover).(mem := Place(s.mem, fit, asize));
      v' := PlaceView(View(v.blocks, k), k, asize);
      PlaceFound(s, v, asize, k, s', v');
      return s', fit, v', k;
    }
    var esize := if asize > CHUNKSIZE then asize else CHUNKSIZE;
    ExtendBy(s, v, esize, grant);
    var e := ExtendHeap(s, esize / WSIZE, grant);
    if e.1 == 0 {
      return s, 0, v, 0;
    }
    k := MergeLo(v.blocks + [Block(Stop(v.blocks), esize, false)], |v.blocks|);
    s' := e.0.(mem := Place(e.0.mem, e.1, asize));
    v' := PlaceView(ExtendView(v, esize), k, asize);
    PlaceGrown(s, v, asize, esize, e, k, s', v');
    bp := e.1;
  }

  // ---------------------------------------------------------------------------
  // The abstract operations keep the blocks in use, and no two free blocks touch

  /** mm_free frees block k and leaves every other block in use alone. */
  lemma FreeAllocated(v: View, k: int)
    requires Tiled(v.blocks) && 1 <= k < |v.blocks| && v.next <= |v.blocks| && v.blocks[k].alloc
    ensures Allocated(FreeView(v, k).blocks) == Allocated(v.blocks) - {v.blocks[k]}
  {
    var bs := v.blocks;
    var fs := bs[k := bs[k].(alloc := false)];
    Distinct(bs, k);
    MergeKeeps(fs, k);
    assert FreeView(v, k).blocks == Merge(fs, k);
    forall b | b in Allocated(bs) - {bs[k]} ensures b in Allocated(fs) {
      var i :| 0 <= i < |bs| && bs[i] == b;
      assert fs[i] == b;
    }
  }

  /** Freeing a block of a row with no two free blocks side by side keeps it so. */
  lemma FreeCoalesced(v: View, k: int)
    requires Coalesced(v.blocks) && 1 <= k < |v.blocks| && v.next <= |v.blocks|
    ensures Coalesced(FreeView(v, k).blocks)
  {
    var fs := v.blocks[k := v.blocks[k].(alloc := false)];
    MergeCoalesced(fs, k);
    assert FreeView(v, k).blocks == Merge(fs, k);
  }

  /** Growing the heap leaves the blocks in use alone. */
  lemma ExtendAllocated(v: View, size: int)
    requires |v.blocks| > 0 && v.next <= |v.blocks|
    ensures Allocated(ExtendView(v, size).blocks) == Allocated(v.blocks)
  {
    var bs := v.blocks;
    var gs := bs + [Block(Stop(bs), size, false)];
    MergeKeeps(gs, |bs|);
    assert ExtendView(v, size).blocks == Merge(gs, |bs|);
    assert Allocated(gs) == Allocated(bs);
  }

  /** Growing the heap keeps free blocks apart: a free last block absorbs the new one. */
  lemma ExtendCoalesced(v: View, size: int)
    requires Coalesced(v.blocks) && |v.blocks| > 0 && v.next <= |v.blocks|
    ensures Coalesced(ExtendView(v, size).blocks)
  {
    var bs := v.blocks;
    var gs := bs + [Block(Stop(bs), size, false)];
    assert forall j :: 0 <= j < |bs| ==> gs[j] == bs[j];
    MergeCoalesced(gs, |bs|);
    assert ExtendView(v, size).blocks == Merge(gs, |bs|);
  }

  /** Placing into a free block that fits adds exactly the block it marks in use. */
  lemma PlaceAllocated(v: View, k: int, asize: int)
    requires 0 <= k < |v.blocks| && Fits(v.blocks[k], asize)
    ensures k < |PlaceView(v, k, asize).blocks|
    ensures Allocated(PlaceView(v, k, asize).blocks) == Allocated(v.blocks) + {PlaceView(v, k, asize).blocks[k]}
  {
    var bs := v.blocks;
    var cs := Carve(bs[k], asize);
    var r := Splice(bs, k, k + 1, cs);
    assert PlaceView(v, k, asize).blocks == r;
    assert r[k] == cs[0];
    forall b | b in Allocated(bs) ensures b in Allocated(r) {
      var i :| 0 <= i < |bs| && bs[i] == b;
      if i < k {
        assert r[i] == b;
      } else {
        assert r[i + |cs| - 1] == b;
      }
    }
    forall b | b in Allocated(r) ensures b in Allocated(bs) || b == r[k] {
      var i :| 0 <= i < |r| && r[i] == b;
      if i < k {
        assert bs[i] == b;
      } else if i >= k + |cs| {
        assert bs[i - |cs| + 1] == b;
      }
    }
  }

  /** Placing into a free block keeps free blocks apart: a split-off remainder is followed by a block in use. */
  lemma PlaceCoalesced(v: View, k: int, asize: int)
    requires Coalesced(v.blocks) && 0 <= k < |v.blocks| && !v.blocks[k].alloc
    ensures Coalesced(PlaceView(v, k, asize).blocks)
  {
    var bs := v.blocks;
    var b := bs[k];
    if b.size >= asize {
      var cs := Carve(b, asize);
      var r := Splice(bs, k, k + 1, cs);
      assert PlaceView(v, k, asize).blocks == r;
      forall j | 0 < j < |r| ensures r[j - 1].alloc || r[j].alloc {
        if j < k {
          assert r[j - 1] == bs[j - 1] && r[j] == bs[j];
        } else if j < k + |cs| {
          assert r[k] == cs[0];
        } else if j == k + |cs| {
          assert r[j] == bs[k + 1];
        } else {
          assert r[j - 1] == bs[j - |cs|] && r[j] == bs[j - |cs| + 1];
        }
      }
    }
  }
}

=== FILE: segregated.dfy ===
/**
 * labs/malloclab/mm-segregated.c: segregated free lists kept in last-in,
 * first-out order.  The file has mm_init, extend_heap, coalesce and the list
 * and tag helpers; it has no malloc or free.
 *
 * Words are 4 bytes and pointers 8.  The heap starts with the eight list
 * heads (Buckets), a padding word, an 8-byte allocated prologue block (a
 * header and a footer) and ends with a size-0 allocated epilogue header.
 * Every block has a header and a footer holding pack(size, alloc); a free
 * block keeps its prev and next pointers right after its header.  A free
 * block of size s sits in the list find_size_class_index(s - 8) picks.
 *
 * State is the memory, size_class_start and memlib's break.  View is the
 * row of blocks, prologue first, and the eight lists in list order; Rep ties
 * memory to both, and the lemmas show that coalesce, extend_heap and mm_init
 * move the View as MergeView, ExtendView and InitView say.
 */
module Segregated {
  import opened Twos
  import opened Heap
  import opened Buckets

  const CHUNKSIZE: int := 4096

  /** UPPER_0: class 0 takes payloads of up to 16 bytes. */
  const UPPER_0: int := 16

  /** The memory, size_class_start and the break. */
  datatype State = State(mem: Mem, start: int, brk: int)

  // ---------------------------------------------------------------------------
  // The helpers

  /** pack(size, alloc): the size with the low bit set when the block is in use. */
  function Pack(size: int, alloc: bool): int {
    if alloc then Or(size, 1) else size
  }

  function ExtractSize(m: Mem, p: int): int {
    SizeField(Load(m, p))
  }

  function ExtractAlloc(m: Mem, p: int): bool {
    AllocBit(Load(m, p))
  }

  /** write_header stores the packed tag in the header word. */
  function WriteHeader(m: Mem, h: int, size: int, alloc: bool): Mem {
    Store32(m, h, Pack(size, alloc))
  }

  /** write_footer finds the footer from the size the header holds now. */
  function WriteFooter(m: Mem, h: int, size: int, alloc: bool): Mem {
    Store32(m, h + ExtractSize(m, h) - WSIZE, Pack(size, alloc))
  }

  /** header_to_payload: the payload starts one word past the header. */
  function HeaderToPayload(h: int): int {
    h + WSIZE
  }

  /** payload_to_header: the header is the word before the payload. */
  function PayloadToHeader(p: int): int {
    p - WSIZE
  }

  /** The two offsets undo each other. */
  lemma PayloadInverse(h: int, p: int)
    ensures PayloadToHeader(HeaderToPayload(h)) == h && HeaderToPayload(PayloadToHeader(p)) == p
  {
  }

  function NextNeighbor(m: Mem, h: int): int {
    h + ExtractSize(m, h)
  }

  /** header_prev_neighbor steps back by the size in the word before h, the footer of the block before. */
  function PrevNeighbor(m: Mem, h: int): int {
    h - ExtractSize(m, h - WSIZE)
  }

  /** The class a free block of size `size` belongs to: link_blk classifies by the payload, size - DSIZE. */
  function ClassOf(size: int): (c: int)
    ensures 0 <= c < CLASSES
  {
    ClassIndex(UPPER_0, size - DSIZE)
  }

  /** The tag a block's header and footer hold. */
  function Tag(b: Block): int {
    b.size + (if b.alloc then 1 else 0)
  }

  lemma PackTag(size: int, alloc: bool)
    requires size % 8 == 0
    ensures Pack(size, alloc) == Tag(Block(0, size, alloc))
  {
    OrFlags(size);
  }

  lemma ReadTag(m: Mem, a: int, b: Block)
    requires Load(m, a) == Tag(b) && b.size % 8 == 0
    ensures ExtractSize(m, a) == b.size && ExtractAlloc(m, a) == b.alloc
  {
    TagFields(b.size, false, b.alloc);
  }

  /**
   * extract_size and extract_alloc read back what write_header stored, for
   * a size that is a multiple of 8 and fits the 32-bit word, and the
   * arithmetic they are modelled with agrees with SIZE_MASK and ALLOC_MASK.
   */
  lemma PackRoundTrip(m: Mem, h: int, size: int, alloc: bool)
    requires size % 8 == 0 && 0 <= size < Word32
    ensures ExtractSize(WriteHeader(m, h, size, alloc), h) == size
    ensures ExtractAlloc(WriteHeader(m, h, size, alloc), h) == alloc
    ensures And(Pack(size, alloc), Not(7)) == size
    ensures (And(Pack(size, alloc), 1) != 0) == alloc
  {
    PackTag(size, alloc);
    ReadTag(WriteHeader(m, h, size, alloc), h, Block(0, size, alloc));
    SizeFieldMask(Pack(size, alloc));
    AllocBitMask(Pack(size, alloc));
  }

  // ---------------------------------------------------------------------------
  // link_blk and remove_blk

  /** link_blk(h): push h on the front of the list its size picks. */
  function LinkBlk(m: Mem, start: int, h: int): Mem {
    Push(m, Slot(start, ClassOf(ExtractSize(m, h))), h)
  }

  /**
   * remove_blk as written: it writes the successor into the next pointer of
   * the predecessor even when the predecessor is a list head, whose slot is
   * a single pointer.
   */
  function RemoveBlkAsWritten(m: Mem, h: int): Mem {
    var prev := PrevOf(m, h);
    var next := NextOf(m, h);
    var m1 := if prev != 0 then SetNext(m, prev, next) else m;
    var m2 := if next != 0 then SetPrev(m1, next, prev) else m1;
    SetNext(SetPrev(m2, h, 0), h, 0)
  }

  // ---------------------------------------------------------------------------
  // The view

  /** The row of blocks, prologue first, and the eight lists in list order. */
  datatype View = View(blocks: seq<Block>, lists: seq<seq<Block>>)

  /** Block b's header and footer hold its tag. */
  predicate BlockOk(m: Mem, b: Block) {
    Load(m, b.addr) == Tag(b) && Load(m, End(b) - WSIZE) == Tag(b)
  }

  predicate Tagged(m: Mem, bs: seq<Block>) {
    forall b {:trigger b in bs} :: b in bs ==> BlockOk(m, b)
  }

  /** fl holds free blocks of bs of class c, none twice. */
  predicate Members(bs: seq<Block>, fl: seq<Block>, c: int) {
    && (forall i, j :: 0 <= i < j < |fl| ==> fl[i] != fl[j])
    && (forall b {:trigger b in fl} :: b in fl ==> b in bs && !b.alloc && ClassOf(b.size) == c)
  }

  /** List c: its members, threaded from head slot c. */
  predicate Bucket(m: Mem, start: int, bs: seq<Block>, ls: seq<seq<Block>>, c: int)
    requires 0 <= c < |ls|
  {
    Members(bs, ls[c], c) && Chain(m, Slot(start, c), Addrs(ls[c]))
  }

  predicate Threaded(m: Mem, start: int, bs: seq<Block>, ls: seq<seq<Block>>) {
    |ls| == CLASSES && forall c :: 0 <= c < CLASSES ==> Bucket(m, start, bs, ls, c)
  }

  /**
   * Every free block of bs is in the list of its class, except block gap,
   * when gap names one (a block just freed and not yet linked), which no
   * list holds.
   */
  predicate Listed(bs: seq<Block>, ls: seq<seq<Block>>, gap: int) {
    && |ls| == CLASSES
    && (0 <= gap < |bs| ==> forall c :: 0 <= c < CLASSES ==> bs[gap] !in ls[c])
    && (forall k :: 0 <= k < |bs| && !bs[k].alloc && k != gap ==> bs[k] in ls[ClassOf(bs[k].size)])
  }

  /**
   * The heads at size_class_start, the prologue right after the padding
   * word, tiled blocks with their tags, the epilogue header right after the
   * last block and the break one word past it.
   */
  ghost predicate Row(s: State, bs: seq<Block>) {
    && Heads(s.start) && |bs| > 0 && bs[0] == Block(HeadsEnd(s.start) + WSIZE, DSIZE, true)
    && Tiled(bs) && Sized(bs) && Tagged(s.mem, bs)
    && Load(s.mem, Stop(bs)) == 1
    && s.brk == Stop(bs) + WSIZE && s.brk <= HeapLimit
  }

  ghost predicate Shape(s: State, v: View) {
    Row(s, v.blocks) && Threaded(s.mem, s.start, v.blocks, v.lists)
  }

  /** The heap is consistent: its shape, and the lists hold exactly the free blocks. */
  ghost predicate Rep(s: State, v: View) {
    Shape(s, v) && Listed(v.blocks, v.lists, -1)
  }

  // ---------------------------------------------------------------------------
  // Where things lie in a tiled row

  /** The addresses of distinct free blocks of the row are spread out above the heads. */
  lemma FreeSpread(s: State, bs: seq<Block>, fl: seq<Block>)
    requires Row(s, bs)
    requires forall i, j :: 0 <= i < j < |fl| ==> fl[i] != fl[j]
    requires forall b {:trigger b in fl} :: b in fl ==> b in bs && !b.alloc
    ensures Spread(HeadsEnd(s.start), Addrs(fl))
  {
    var ns := Addrs(fl);
    Within(bs);
    assert bs[0] in bs;
    forall i | 0 <= i < |ns| ensures HeadsEnd(s.start) <= ns[i] && ns[i] + 20 <= HeapLimit {
      assert fl[i] in fl;
    }
    forall i, j | 0 <= i < j < |ns| ensures Far(ns[i], ns[j]) {
      assert fl[i] in fl && fl[j] in fl;
      FreeFar(bs, fl[i], fl[j]);
    }
  }

  /** A sub-list of a list of distinct members is one too. */
  lemma MembersDrop(bs: seq<Block>, fl: seq<Block>, c: int, t: int)
    requires Members(bs, fl, c) && 0 <= t < |fl|
    ensures Members(bs, fl[..t] + fl[t + 1..], c)
  {
    var r := fl[..t] + fl[t + 1..];
    forall i, j | 0 <= i < j < |r| ensures r[i] != r[j] {
      var i' := if i < t then i else i + 1;
      var j' := if j < t then j else j + 1;
      assert r[i] == fl[i'] && r[j] == fl[j'];
    }
    forall b {:trigger b in r} | b in r ensures b in bs && !b.alloc && ClassOf(b.size) == c {
      assert b in fl;
    }
  }

  lemma MembersCons(bs: seq<Block>, b: Block, fl: seq<Block>, c: int)
    requires Members(bs, fl, c) && b in bs && !b.alloc && ClassOf(b.size) == c && b !in fl
    ensures Members(bs, [b] + fl, c)
  {
    var fl' := [b] + fl;
    forall i, j | 0 <= i < j < |fl'| ensures fl'[i] != fl'[j] {
      assert fl'[j] == fl[j - 1] && fl[j - 1] in fl;
      if i > 0 {
        assert fl'[i] == fl[i - 1];
      }
    }
    assert forall x {:trigger x in fl'} :: x in fl' ==> x == b || x in fl;
  }

  /** What the helpers read at block k, and where it ends. */
  lemma ReadBlock(s: State, v: View, k: int)
    requires Row(s, v.blocks) && 0 <= k < |v.blocks|
    ensures var b := v.blocks[k];
      && ExtractSize(s.mem, b.addr) == b.size && ExtractAlloc(s.mem, b.addr) == b.alloc
      && SizeField(Load(s.mem, End(b) - WSIZE)) == b.size
      && b.size % 8 == 0 && b.size >= DSIZE && (!b.alloc ==> b.size >= MIN_BLOCK_SIZE)
      && HeadsEnd(s.start) < b.addr && End(b) <= Stop(v.blocks)
      && End(b) == (if k + 1 < |v.blocks| then v.blocks[k + 1].addr else Stop(v.blocks))
  {
    var bs := v.blocks;
    assert bs[k] in bs && bs[0] in bs;
    ReadTag(s.mem, bs[k].addr, bs[k]);
    ReadTag(s.mem, End(bs[k]) - WSIZE, bs[k]);
    Within(bs);
  }

  /** The epilogue header reads as size 0, allocated. */
  lemma ReadEpilogue(s: State, v: View)
    requires Row(s, v.blocks)
    ensures ExtractSize(s.mem, Stop(v.blocks)) == 0 && ExtractAlloc(s.mem, Stop(v.blocks))
  {
    TagFields(0, false, true);
  }

  /** The row survives any change of memory that leaves every tag and the epilogue alone. */
  lemma RowKept(s: State, bs: seq<Block>, m': Mem)
    requires Row(s, bs)
    requires forall c {:trigger c in bs} :: c in bs ==> Load(m', c.addr) == Load(s.mem, c.addr) && Load(m', End(c) - WSIZE) == Load(s.mem, End(c) - WSIZE)
    requires Load(m', Stop(bs)) == Load(s.mem, Stop(bs))
    ensures Row(s.(mem := m'), bs)
  {
    forall c {:trigger c in bs} | c in bs ensures BlockOk(m', c) {
      assert BlockOk(s.mem, c);
    }
  }

  // ---------------------------------------------------------------------------
  // The shape under remove_blk (corrected) and link_blk

  /** Unlinking the node at h, between p and n, leaves every tag in place when none lies among their link words. */
  lemma UnlinkRowAt(s: State, bs: seq<Block>, h: int, p: int, n: int)
    requires Row(s, bs) && PrevOf(s.mem, h) == p && NextOf(s.mem, h) == n
    requires 0 < p < Word32 && 0 <= h < Word32 && 0 <= n < Word32
    requires OffTags(bs, h)
    requires if p < HeadsEnd(s.start) then p + WSIZE < HeadsEnd(s.start) else OffTags(bs, p)
    requires n != 0 ==> OffTags(bs, n)
    ensures Row(s.(mem := Unlink(s.mem, s.start, h)), bs)
  {
    var m' := Unlink(s.mem, s.start, h);
    Within(bs);
    assert bs[0] in bs;
    forall x {:trigger x in bs} | x in bs
      ensures Load(m', x.addr) == Load(s.mem, x.addr) && Load(m', End(x) - WSIZE) == Load(s.mem, End(x) - WSIZE)
    {
      UnlinkFrame(s.mem, s.start, h, x.addr);
      UnlinkFrame(s.mem, s.start, h, End(x) - WSIZE);
    }
    UnlinkFrame(s.mem, s.start, h, Stop(bs));
    RowKept(s, bs, m');
  }

  /** Unlinking entry t of list c leaves every tag in place. */
  lemma UnlinkRow(s: State, v: View, c: int, t: int)
    requires Shape(s, v) && 0 <= c < CLASSES && 0 <= t < |v.lists[c]|
    ensures Row(s.(mem := Unlink(s.mem, s.start, v.lists[c][t].addr)), v.blocks)
  {
    var bs := v.blocks;
    var fl := v.lists[c];
    assert Bucket(s.mem, s.start, bs, v.lists, c);
    var ns := Addrs(fl);
    assert Node(s.mem, Slot(s.start, c), ns, t);
    assert fl[t] in fl;
    TagsOff(bs, fl[t]);
    if t > 0 {
      assert fl[t - 1] in fl;
      TagsOff(bs, fl[t - 1]);
    }
    if t + 1 < |fl| {
      assert fl[t + 1] in fl;
      TagsOff(bs, fl[t + 1]);
    }
    Within(bs);
    UnlinkRowAt(s, bs, fl[t].addr, PrevOf(s.mem, fl[t].addr), NextOf(s.mem, fl[t].addr));
  }

  /** remove_blk (corrected) on entry t of list c: the shape holds with the entry taken out. */
  lemma UnlinkShape(s: State, v: View, c: int, t: int)
    requires Shape(s, v) && 0 <= c < CLASSES && 0 <= t < |v.lists[c]|
    ensures Shape(s.(mem := Unlink(s.mem, s.start, v.lists[c][t].addr)), View(v.blocks, v.lists[c := Drop(v.lists[c], t)]))
  {
    var bs := v.blocks;
    var ls := v.lists;
    var m' := Unlink(s.mem, s.start, v.lists[c][t].addr);
    var ls' := ls[c := Drop(ls[c], t)];
    var ns := Addrs(ls[c]);
    assert Bucket(s.mem, s.start, bs, ls, c);
    FreeSpread(s, bs, ls[c]);
    UnlinkChain(s.mem, s.start, c, ns, t);
    AddrsDrop(ls[c], t);
    MembersDrop(bs, ls[c], c, t);
    assert Bucket(m', s.start, bs, ls', c);
    forall d | 0 <= d < CLASSES && d != c ensures Bucket(m', s.start, bs, ls', d) {
      assert Bucket(s.mem, s.start, bs, ls, d);
      FreeSpread(s, bs, ls[d]);
      ListsApart(bs, ls[c], ls[d]);
      UnlinkOther(s.mem, s.start, c, ns, t, d, Addrs(ls[d]));
    }
    UnlinkRow(s, v, c, t);
  }

  /** Pushing the node at h onto the list at slot leaves every tag in place when none lies among the link words. */
  lemma PushRowAt(s: State, bs: seq<Block>, slot: int, h: int)
    requires Row(s, bs) && 0 <= slot && slot + DSIZE <= HeadsEnd(s.start) && 0 <= h < Word32
    requires 0 <= LoadPtr(s.mem, slot) < Word32
    requires OffTags(bs, h) && (LoadPtr(s.mem, slot) != 0 ==> OffTags(bs, LoadPtr(s.mem, slot)))
    ensures Row(s.(mem := Push(s.mem, slot, h)), bs)
  {
    var m' := Push(s.mem, slot, h);
    Within(bs);
    assert bs[0] in bs;
    forall x {:trigger x in bs} | x in bs
      ensures Load(m', x.addr) == Load(s.mem, x.addr) && Load(m', End(x) - WSIZE) == Load(s.mem, End(x) - WSIZE)
    {
      PushFrame(s.mem, slot, h, x.addr);
      PushFrame(s.mem, slot, h, End(x) - WSIZE);
    }
    PushFrame(s.mem, slot, h, Stop(bs));
    RowKept(s, bs, m');
  }

  /** link_blk on free block k, in no list, threads it at the front of the list of its class. */
  lemma PushThreaded(s: State, v: View, k: int)
    requires Shape(s, v) && 0 <= k < |v.blocks| && !v.blocks[k].alloc
    requires forall d :: 0 <= d < CLASSES ==> v.blocks[k] !in v.lists[d]
    ensures var b := v.blocks[k]; var c := ClassOf(b.size);
      Threaded(Push(s.mem, Slot(s.start, c), b.addr), s.start, v.blocks, v.lists[c := [b] + v.lists[c]])
  {
    var bs := v.blocks;
    var ls := v.lists;
    var b := bs[k];
    var c := ClassOf(b.size);
    var m' := Push(s.mem, Slot(s.start, c), b.addr);
    var ls' := ls[c := [b] + ls[c]];
    assert Bucket(s.mem, s.start, bs, ls, c);
    var ns := Addrs(ls[c]);
    assert b in bs;
    MembersCons(bs, b, ls[c], c);
    FreeSpread(s, bs, [b] + ls[c]);
    AddrsCons(b, ls[c]);
    PushChain(s.mem, s.start, c, ns, b.addr);
    assert Bucket(m', s.start, bs, ls', c);
    forall d | 0 <= d < CLASSES && d != c ensures Bucket(m', s.start, bs, ls', d) {
      assert Bucket(s.mem, s.start, bs, ls, d);
      FreeSpread(s, bs, ls[d]);
      ListsApart(bs, [b] + ls[c], ls[d]);
      PushOther(s.mem, s.start, c, ns, b.addr, d, Addrs(ls[d]));
    }
  }

  /** link_blk on free block k, in no list: the shape holds with it at the front of the list of its class. */
  lemma PushShape(s: State, v: View, k: int)
    requires Shape(s, v) && 0 <= k < |v.blocks| && !v.blocks[k].alloc
    requires forall d :: 0 <= d < CLASSES ==> v.blocks[k] !in v.lists[d]
    ensures var b := v.blocks[k];
      Shape(s.(mem := LinkBlk(s.mem, s.start, b.addr)), View(v.blocks, v.lists[ClassOf(b.size) := [b] + v.lists[ClassOf(b.size)]]))
  {
    var bs := v.blocks;
    var b := bs[k];
    var c := ClassOf(b.size);
    var fl := v.lists[c];
    ReadBlock(s, v, k);
    assert LinkBlk(s.mem, s.start, b.addr) == Push(s.mem, Slot(s.start, c), b.addr);
    PushThreaded(s, v, k);
    assert Bucket(s.mem, s.start, bs, v.lists, c);
    FreeSpread(s, bs, fl);
    assert b in bs;
    TagsOff(bs, b);
    if |fl| > 0 {
      assert fl[0] in fl;
      TagsOff(bs, fl[0]);
    }
    PushRowAt(s, bs, Slot(s.start, c), b.addr);
  }

  // ---------------------------------------------------------------------------
  // Rewriting a run of blocks

  lemma KeptBlockOk(m: Mem, m': Mem, b: Block, lo: int, hi: int)
    requires BlockOk(m, b) && b.size >= WSIZE && (End(b) <= lo || hi <= b.addr)
    requires SameOutside(m, m', lo, hi)
    ensures BlockOk(m', b)
  {
    assert Load(m', b.addr) == Load(m, b.addr);
    assert Load(m', End(b) - WSIZE) == Load(m, End(b) - WSIZE);
  }

  /** Blocks kept by a splice keep their sizes and tags when memory changes only inside the replaced bytes. */
  lemma SpliceRow(s: State, bs: seq<Block>, i: int, j: int, ns: seq<Block>, m': Mem)
    requires Row(s, bs) && 1 <= i < j <= |bs|
    requires Tiled(ns) && |ns| > 0 && Sized(ns) && Tagged(m', ns)
    requires ns[0].addr == bs[i].addr && Stop(ns) == End(bs[j - 1])
    requires SameOutside(s.mem, m', bs[i].addr, End(bs[j - 1]))
    ensures Row(s.(mem := m'), Splice(bs, i, j, ns))
  {
    var r := Splice(bs, i, j, ns);
    var d := |ns| - (j - i);
    SpliceTiled(bs, i, j, ns);
    Within(bs);
    assert bs[j - 1] in bs;
    assert r[0] == bs[0];
    forall b {:trigger b in r} | b in r
      ensures b.size % 8 == 0 && b.size >= DSIZE && (!b.alloc ==> b.size >= MIN_BLOCK_SIZE) && b.addr % 8 == 4
      ensures BlockOk(m', b)
    {
      var x :| 0 <= x < |r| && r[x] == b;
      if x < i {
        assert r[x] == bs[x] && bs[x] in bs;
        TiledOrder(bs, x, i);
        KeptBlockOk(s.mem, m', b, bs[i].addr, End(bs[j - 1]));
      } else if x < i + |ns| {
        assert r[x] == ns[x - i] && ns[x - i] in ns;
      } else {
        assert r[x] == bs[x - d] && bs[x - d] in bs;
        TiledOrder(bs, j - 1, x - d);
        KeptBlockOk(s.mem, m', b, bs[i].addr, End(bs[j - 1]));
      }
    }
  }

  /** Listed blocks clear of the run are still blocks of the spliced row. */
  lemma SpliceMembers(bs: seq<Block>, fl: seq<Block>, c: int, i: int, j: int, ns: seq<Block>)
    requires Tiled(bs) && Members(bs, fl, c) && 0 <= i < j <= |bs|
    requires forall b {:trigger b in fl} :: b in fl ==> End(b) <= bs[i].addr || End(bs[j - 1]) <= b.addr
    ensures Members(Splice(bs, i, j, ns), fl, c)
  {
    var r := Splice(bs, i, j, ns);
    forall b {:trigger b in fl} | b in fl ensures b in r {
      var x :| 0 <= x < |bs| && bs[x] == b;
      if x < i {
        assert r[x] == b;
      } else if x >= j {
        assert r[x - (j - i) + |ns|] == b;
      } else {
        assert bs[i] in bs && bs[x] in bs && bs[j - 1] in bs;
        if x > i {
          TiledOrder(bs, i, x);
        }
        if x < j - 1 {
          TiledOrder(bs, x, j - 1);
        }
      }
    }
  }

  /**
   * Replacing blocks i .. j - 1, which no list holds, by blocks ns covering
   * the same bytes, with memory changed only inside those bytes and every
   * new block's tags in place, keeps the shape for the spliced row.
   */
  lemma SpliceShape(s: State, v: View, i: int, j: int, ns: seq<Block>, m': Mem)
    requires Shape(s, v) && 1 <= i < j <= |v.blocks| && Unlisted(v.blocks, v.lists, i, j)
    requires Tiled(ns) && |ns| > 0 && Sized(ns) && Tagged(m', ns)
    requires ns[0].addr == v.blocks[i].addr && Stop(ns) == End(v.blocks[j - 1])
    requires SameOutside(s.mem, m', v.blocks[i].addr, End(v.blocks[j - 1]))
    ensures Shape(s.(mem := m'), View(Splice(v.blocks, i, j, ns), v.lists))
    ensures Clear(v.lists, v.blocks[i].addr, End(v.blocks[j - 1]))
  {
    var bs := v.blocks;
    var ls := v.lists;
    var lo, hi := bs[i].addr, End(bs[j - 1]);
    forall c, b {:trigger b in ls[c]} | 0 <= c < |ls| && b in ls[c] ensures b in bs {
      assert Bucket(s.mem, s.start, bs, ls, c);
    }
    OutsideRun(bs, ls, i, j);
    SpliceRow(s, bs, i, j, ns, m');
    Within(bs);
    assert bs[0] in bs;
    TiledOrder(bs, 0, i);
    forall c | 0 <= c < CLASSES ensures Bucket(m', s.start, Splice(bs, i, j, ns), ls, c) {
      assert Bucket(s.mem, s.start, bs, ls, c);
      assert forall b {:trigger b in ls[c]} :: b in ls[c] ==> b in bs && !b.alloc;
      SpliceMembers(bs, ls[c], c, i, j, ns);
      ChainOutside(s.mem, m', s.start, c, ls[c], lo, hi);
    }
  }

  // ---------------------------------------------------------------------------
  // Merging

  /** Block b's tag stored in its first and last word. */
  function PutTags(m: Mem, b: Block): Mem {
    m[b.addr := Tag(b)][End(b) - WSIZE := Tag(b)]
  }

  /** write_header then write_footer for block b store its tag at both ends. */
  lemma TagWrites(m: Mem, b: Block)
    requires b.size % 8 == 0 && 0 <= b.size < Word32 - 1
    ensures WriteFooter(WriteHeader(m, b.addr, b.size, b.alloc), b.addr, b.size, b.alloc) == PutTags(m, b)
  {
    PackTag(b.size, b.alloc);
    PackRoundTrip(m, b.addr, b.size, b.alloc);
  }

  /** The free block that blocks lo .. hi make, with its tags written, is well formed. */
  lemma MergedOk(s: State, bs: seq<Block>, lo: int, hi: int, m': Mem)
    requires Row(s, bs) && 1 <= lo <= hi < |bs| && !bs[lo].alloc
    requires m' == PutTags(s.mem, Merged(bs, lo, hi))
    ensures var nb := Merged(bs, lo, hi);
      && Tiled([nb]) && Sized([nb]) && Tagged(m', [nb]) && Stop([nb]) == End(bs[hi])
      && SameOutside(s.mem, m', bs[lo].addr, End(bs[hi]))
      && nb.size % 8 == 0 && MIN_BLOCK_SIZE <= nb.size < Word32 - 1
  {
    var nb := Merged(bs, lo, hi);
    assert nb in [nb];
    assert bs[lo] in bs && bs[hi] in bs;
    if lo < hi {
      TiledOrder(bs, lo, hi);
    }
    Within(bs);
    assert BlockOk(m', nb);
  }

  /** Blocks lo .. hi, which no list holds, written over as one free block. */
  lemma MergeTags(s: State, v: View, lo: int, hi: int, m': Mem)
    requires Shape(s, v) && 1 <= lo <= hi < |v.blocks| && !v.blocks[lo].alloc && Unlisted(v.blocks, v.lists, lo, hi + 1)
    requires m' == PutTags(s.mem, Merged(v.blocks, lo, hi))
    ensures Shape(s.(mem := m'), View(Splice(v.blocks, lo, hi + 1, [Merged(v.blocks, lo, hi)]), v.lists))
    ensures forall c :: 0 <= c < |v.lists| ==> Merged(v.blocks, lo, hi) !in v.lists[c]
    ensures Merged(v.blocks, lo, hi).size % 8 == 0 && 0 <= Merged(v.blocks, lo, hi).size < Word32 - 1
  {
    var nb := Merged(v.blocks, lo, hi);
    MergedOk(s, v.blocks, lo, hi, m');
    SpliceShape(s, v, lo, hi + 1, [nb], m');
    assert forall c :: 0 <= c < |v.lists| ==> nb !in v.lists[c];
  }

  /** The tail of each merging case: header, footer, then link_blk. */
  function Rejoin(s: State, m: Mem, h: int, size: int): (State, int) {
    var m1 := WriteFooter(WriteHeader(m, h, size, false), h, size, false);
    (s.(mem := LinkBlk(m1, s.start, h)), h)
  }

  /** The lists with the merged block of lo .. hi at the front of its class. */
  function Front(ls: seq<seq<Block>>, nb: Block): seq<seq<Block>>
    requires |ls| == CLASSES
  {
    ls[ClassOf(nb.size) := [nb] + ls[ClassOf(nb.size)]]
  }

  /**
   * Blocks lo .. hi, which no list holds, written over as one free block
   * and linked: the shape holds for the merged row.
   */
  lemma RejoinShape(s: State, v: View, lo: int, hi: int)
    requires Shape(s, v) && 1 <= lo <= hi < |v.blocks| && !v.blocks[lo].alloc && Unlisted(v.blocks, v.lists, lo, hi + 1)
    ensures var nb := Merged(v.blocks, lo, hi);
      var r := Rejoin(s, s.mem, nb.addr, nb.size);
      && r.1 == nb.addr
      && Shape(r.0, View(Splice(v.blocks, lo, hi + 1, [nb]), Front(v.lists, nb)))
  {
    var bs := v.blocks;
    var nb := Merged(bs, lo, hi);
    var m' := PutTags(s.mem, nb);
    MergeTags(s, v, lo, hi, m');
    TagWrites(s.mem, nb);
    var bs' := Splice(bs, lo, hi + 1, [nb]);
    assert bs'[lo] == nb;
    PushShape(s.(mem := m'), View(bs', v.lists), lo);
  }

  // ---------------------------------------------------------------------------
  // coalesce

  /**
   * coalesce(h): look at the neighbours of free block h; take the free ones
   * off their lists, write the merged block's header and footer and link
   * it.  Returns the merged block.  The unlinking is remove_blk with the
   * head case handled (Buckets.Unlink); see RemoveBlkAsWritten.
   */
  function Coalesce(s: State, h: int): (State, int) {
    var m := s.mem;
    var prev := PrevNeighbor(m, h);
    var next := NextNeighbor(m, h);
    var prevAlloc := ExtractAlloc(m, prev);
    var nextAlloc := ExtractAlloc(m, next);
    var prevSize := ExtractSize(m, prev);
    var nextSize := ExtractSize(m, next);
    var selfSize := ExtractSize(m, h);
    if prevAlloc && nextAlloc then (s.(mem := LinkBlk(m, s.start, h)), h)
    else if prevAlloc && !nextAlloc then Rejoin(s, Unlink(m, s.start, next), h, selfSize + nextSize)
    else if !prevAlloc && nextAlloc then Rejoin(s, Unlink(m, s.start, prev), prev, selfSize + prevSize)
    else Rejoin(s, Unlink(Unlink(m, s.start, prev), s.start, next), prev, selfSize + prevSize + nextSize)
  }

  /** Free block k merged with its free neighbours; the merged block goes on the front of the list of its class. */
  function MergeView(v: View, k: int): View
    requires 1 <= k < |v.blocks| && |v.lists| == CLASSES
  {
    var bs := v.blocks;
    var lo, hi := MergeLo(bs, k), MergeHi(bs, k);
    View(Merge(bs, k), Front(Strip(Strip(v.lists, bs[lo]), bs[hi]), Merged(bs, lo, hi)))
  }

  /** What coalesce reads around block k: its neighbours' addresses, sizes and allocation bits. */
  lemma CoalesceReads(s: State, v: View, k: int)
    requires Row(s, v.blocks) && 1 <= k < |v.blocks|
    ensures var bs, m, h := v.blocks, s.mem, v.blocks[k].addr;
      && PrevNeighbor(m, h) == bs[k - 1].addr
      && ExtractAlloc(m, bs[k - 1].addr) == bs[k - 1].alloc && ExtractSize(m, bs[k - 1].addr) == bs[k - 1].size
      && ExtractSize(m, h) == bs[k].size
      && NextNeighbor(m, h) == End(bs[k])
      && (k + 1 < |bs| ==>
            End(bs[k]) == bs[k + 1].addr && ExtractAlloc(m, bs[k + 1].addr) == bs[k + 1].alloc
            && ExtractSize(m, bs[k + 1].addr) == bs[k + 1].size)
      && (k + 1 == |bs| ==> ExtractAlloc(m, End(bs[k])))
  {
    ReadBlock(s, v, k - 1);
    ReadBlock(s, v, k);
    if k + 1 < |v.blocks| {
      ReadBlock(s, v, k + 1);
    } else {
      ReadEpilogue(s, v);
    }
  }

  /**
   * After free block k, which no list holds, is merged, every free block of
   * the merged row is in the list of its class, and no list holds a block
   * of the merged run.
   */
  lemma MergeListed(bs: seq<Block>, ls: seq<seq<Block>>, k: int)
    requires Tiled(bs) && 1 <= k < |bs| && !bs[k].alloc && Listed(bs, ls, k)
    ensures var lo, hi := MergeLo(bs, k), MergeHi(bs, k);
      var ls1 := Strip(Strip(ls, bs[lo]), bs[hi]);
      && Listed(Merge(bs, k), Front(ls1, Merged(bs, lo, hi)), -1)
      && Unlisted(bs, ls1, lo, hi + 1)
  {
    var lo, hi := MergeLo(bs, k), MergeHi(bs, k);
    var nb := Merged(bs, lo, hi);
    var ls1 := Strip(Strip(ls, bs[lo]), bs[hi]);
    var ls' := Front(ls1, nb);
    var r := Merge(bs, k);
    assert |r| == |bs| - (hi - lo);
    forall x | 0 <= x < |r| && !r[x].alloc ensures r[x] in ls'[ClassOf(r[x].size)] {
      var cl := ClassOf(r[x].size);
      if x == lo {
        assert r[x] == nb;
      } else {
        var y := if x < lo then x else x + hi - lo;
        assert r[x] == bs[y];
        Distinct(bs, y);
        assert bs[y] in ls[cl];
        assert bs[y] in ls1[cl];
      }
    }
  }

  /** remove_blk (corrected) on a listed block: the shape holds with the block taken out of every list. */
  lemma UnlinkBlock(s: State, v: View, b: Block)
    requires Shape(s, v) && b in v.lists[ClassOf(b.size)]
    ensures Shape(s.(mem := Unlink(s.mem, s.start, b.addr)), View(v.blocks, Strip(v.lists, b)))
  {
    var ls := v.lists;
    var c := ClassOf(b.size);
    var t :| 0 <= t < |ls[c]| && ls[c][t] == b;
    assert Bucket(s.mem, s.start, v.blocks, ls, c);
    UnlinkShape(s, v, c, t);
    WithoutAt(ls[c], t);
    forall d | 0 <= d < CLASSES && d != c ensures Without(ls[d], b) == ls[d] {
      assert Bucket(s.mem, s.start, v.blocks, ls, d);
      WithoutAbsent(ls[d], b);
    }
    assert ls[c := Drop(ls[c], t)] == Strip(ls, b);
  }

  /** Both neighbours in use: the block is linked as it is. */
  lemma CoalesceAlone(s: State, v: View, k: int)
    requires Shape(s, v) && 1 <= k < |v.blocks| && !v.blocks[k].alloc && Listed(v.blocks, v.lists, k)
    requires v.blocks[k - 1].alloc && (k + 1 == |v.blocks| || v.blocks[k + 1].alloc)
    ensures var r := Coalesce(s, v.blocks[k].addr);
      Rep(r.0, MergeView(v, k)) && r.1 == v.blocks[MergeLo(v.blocks, k)].addr
  {
    var bs := v.blocks;
    var b := bs[k];
    CoalesceReads(s, v, k);
    PushShape(s, v, k);
    assert Merged(bs, k, k) == b;
    SpliceSelf(bs, k);
    StripAbsent(v.lists, b);
    MergeListed(bs, v.lists, k);
  }

  /**
   * The tail of the merging cases: once the free neighbours are out of the
   * lists, rewriting the merged block and linking it gives the merged view.
   */
  lemma RejoinRefines(s: State, v: View, k: int, m1: Mem)
    requires Shape(s, v) && 1 <= k < |v.blocks| && !v.blocks[k].alloc && Listed(v.blocks, v.lists, k)
    requires var lo, hi := MergeLo(v.blocks, k), MergeHi(v.blocks, k);
      Shape(s.(mem := m1), View(v.blocks, Strip(Strip(v.lists, v.blocks[lo]), v.blocks[hi])))
    ensures var nb := Merged(v.blocks, MergeLo(v.blocks, k), MergeHi(v.blocks, k));
      Rep(Rejoin(s, m1, nb.addr, nb.size).0, MergeView(v, k))
  {
    var bs := v.blocks;
    var lo, hi := MergeLo(bs, k), MergeHi(bs, k);
    var ls1 := Strip(Strip(v.lists, bs[lo]), bs[hi]);
    MergeListed(bs, v.lists, k);
    RejoinShape(s.(mem := m1), View(bs, ls1), lo, hi);
  }

  /** With the block before in use and the one after free, coalesce takes the second branch. */
  lemma NextRejoins(s: State, h: int, p: int, n: int, m1: Mem, size: int)
    requires PrevNeighbor(s.mem, h) == p && NextNeighbor(s.mem, h) == n
    requires ExtractAlloc(s.mem, p) && !ExtractAlloc(s.mem, n)
    requires m1 == Unlink(s.mem, s.start, n) && size == ExtractSize(s.mem, h) + ExtractSize(s.mem, n)
    ensures Coalesce(s, h) == Rejoin(s, m1, h, size)
  {
  }

  /** With the block before free and the one after in use, coalesce takes the third branch. */
  lemma PrevRejoins(s: State, h: int, p: int, n: int, m1: Mem, size: int)
    requires PrevNeighbor(s.mem, h) == p && NextNeighbor(s.mem, h) == n
    requires !ExtractAlloc(s.mem, p) && ExtractAlloc(s.mem, n)
    requires m1 == Unlink(s.mem, s.start, p) && size == ExtractSize(s.mem, h) + ExtractSize(s.mem, p)
    ensures Coalesce(s, h) == Rejoin(s, m1, p, size)
  {
  }

  /** With both neighbours free, coalesce takes the last branch. */
  lemma BothRejoins(s: State, h: int, p: int, n: int, m2: Mem, size: int)
    requires PrevNeighbor(s.mem, h) == p && NextNeighbor(s.mem, h) == n
    requires !ExtractAlloc(s.mem, p) && !ExtractAlloc(s.mem, n)
    requires m2 == Unlink(Unlink(s.mem, s.start, p), s.start, n)
    requires size == ExtractSize(s.mem, h) + ExtractSize(s.mem, p) + ExtractSize(s.mem, n)
    ensures Coalesce(s, h) == Rejoin(s, m2, p, size)
  {
  }

  /** Once coalesce is known to rejoin the merged block, what rejoin leaves is what coalesce leaves. */
  lemma CoalesceLands(s: State, v: View, k: int, m1: Mem)
    requires 1 <= k < |v.blocks| && |v.lists| == CLASSES
    requires var nb := Merged(v.blocks, MergeLo(v.blocks, k), MergeHi(v.blocks, k));
      Coalesce(s, v.blocks[k].addr) == Rejoin(s, m1, nb.addr, nb.size)
    requires var nb := Merged(v.blocks, MergeLo(v.blocks, k), MergeHi(v.blocks, k));
      Rep(Rejoin(s, m1, nb.addr, nb.size).0, MergeView(v, k))
    ensures Rep(Coalesce(s, v.blocks[k].addr).0, MergeView(v, k))
  {
  }

  /** The block after is free: it leaves its list and the two merge. */
  lemma CoalesceNext(s: State, v: View, k: int)
    requires Shape(s, v) && 1 <= k < |v.blocks| - 1 && !v.blocks[k].alloc && Listed(v.blocks, v.lists, k)
    requires v.blocks[k - 1].alloc && !v.blocks[k + 1].alloc
    ensures var r := Coalesce(s, v.blocks[k].addr);
      Rep(r.0, MergeView(v, k)) && r.1 == v.blocks[MergeLo(v.blocks, k)].addr
  {
    var bs := v.blocks;
    var b, n := bs[k], bs[k + 1];
    var m1 := Unlink(s.mem, s.start, n.addr);
    var lo, hi := MergeLo(bs, k), MergeHi(bs, k);
    var nb := Merged(bs, lo, hi);
    assert Coalesce(s, b.addr) == Rejoin(s, m1, nb.addr, nb.size) by {
      CoalesceReads(s, v, k);
      assert lo == k && hi == k + 1;
      assert nb == Block(b.addr, End(n) - b.addr, false);
      NextRejoins(s, b.addr, bs[k - 1].addr, n.addr, m1, nb.size);
    }
    assert Shape(s.(mem := m1), View(bs, Strip(Strip(v.lists, bs[lo]), bs[hi]))) by {
      assert lo == k && hi == k + 1;
      StripAbsent(v.lists, b);
      UnlinkBlock(s, v, n);
    }
    RejoinRefines(s, v, k, m1);
    CoalesceLands(s, v, k, m1);
  }

  /** The block before is free: it leaves its list and absorbs this one. */
  lemma CoalescePrev(s: State, v: View, k: int)
    requires Shape(s, v) && 1 <= k < |v.blocks| && !v.blocks[k].alloc && Listed(v.blocks, v.lists, k)
    requires !v.blocks[k - 1].alloc && (k + 1 == |v.blocks| || v.blocks[k + 1].alloc)
    ensures var r := Coalesce(s, v.blocks[k].addr);
      Rep(r.0, MergeView(v, k)) && r.1 == v.blocks[MergeLo(v.blocks, k)].addr
  {
    var bs := v.blocks;
    var p, b := bs[k - 1], bs[k];
    var m1 := Unlink(s.mem, s.start, p.addr);
    var lo, hi := MergeLo(bs, k), MergeHi(bs, k);
    var nb := Merged(bs, lo, hi);
    assert Coalesce(s, b.addr) == Rejoin(s, m1, nb.addr, nb.size) by {
      CoalesceReads(s, v, k);
      assert lo == k - 1 && hi == k;
      assert nb == Block(p.addr, End(b) - p.addr, false);
      PrevRejoins(s, b.addr, p.addr, End(b), m1, nb.size);
    }
    assert Shape(s.(mem := m1), View(bs, Strip(Strip(v.lists, bs[lo]), bs[hi]))) by {
      assert lo == k - 1 && hi == k;
      UnlinkBlock(s, v, p);
      forall c | 0 <= c < CLASSES ensures b !in Strip(v.lists, p)[c] {
        assert b !in v.lists[c];
      }
      StripAbsent(Strip(v.lists, p), b);
    }
    RejoinRefines(s, v, k, m1);
    CoalesceLands(s, v, k, m1);
  }

  /** Both neighbours free: both leave their lists and the three merge. */
  lemma CoalesceBoth(s: State, v: View, k: int)
    requires Shape(s, v) && 1 <= k < |v.blocks| - 1 && !v.blocks[k].alloc && Listed(v.blocks, v.lists, k)
    requires !v.blocks[k - 1].alloc && !v.blocks[k + 1].alloc
    ensures var r := Coalesce(s, v.blocks[k].addr);
      Rep(r.0, MergeView(v, k)) && r.1 == v.blocks[MergeLo(v.blocks, k)].addr
  {
    var bs := v.blocks;
    var p, n := bs[k - 1], bs[k + 1];
    var m1 := Unlink(s.mem, s.start, p.addr);
    var m2 := Unlink(m1, s.start, n.addr);
    var lo, hi := MergeLo(bs, k), MergeHi(bs, k);
    var nb := Merged(bs, lo, hi);
    assert Coalesce(s, bs[k].addr) == Rejoin(s, m2, nb.addr, nb.size) by {
      CoalesceReads(s, v, k);
      assert lo == k - 1 && hi == k + 1;
      assert nb == Block(p.addr, End(n) - p.addr, false);
      BothRejoins(s, bs[k].addr, p.addr, n.addr, m2, nb.size);
    }
    assert Shape(s.(mem := m2), View(bs, Strip(Strip(v.lists, bs[lo]), bs[hi]))) by {
      assert lo == k - 1 && hi == k + 1;
      UnlinkBlock(s, v, p);
      Distinct(bs, k + 1);
      assert n in v.lists[ClassOf(n.size)];
      assert n in Strip(v.lists, p)[ClassOf(n.size)];
      UnlinkBlock(s.(mem := m1), View(bs, Strip(v.lists, p)), n);
    }
    RejoinRefines(s, v, k, m2);
    CoalesceLands(s, v, k, m2);
  }

  /**
   * coalesce refines merging: given a free block k that no list holds yet,
   * it leaves a consistent heap for the merged view and returns the merged
   * block.
   */
  lemma CoalesceRefines(s: State, v: View, k: int)
    requires Shape(s, v) && 1 <= k < |v.blocks| && !v.blocks[k].alloc && Listed(v.blocks, v.lists, k)
    ensures var r := Coalesce(s, v.blocks[k].addr);
      Rep(r.0, MergeView(v, k)) && r.1 == v.blocks[MergeLo(v.blocks, k)].addr
  {
    var bs := v.blocks;
    var nextFree := k + 1 < |bs| && !bs[k + 1].alloc;
    if bs[k - 1].alloc && !nextFree {
      CoalesceAlone(s, v, k);
    } else if bs[k - 1].alloc {
      CoalesceNext(s, v, k);
    } else if !nextFree {
      CoalescePrev(s, v, k);
    } else {
      CoalesceBoth(s, v, k);
    }
  }

  // ---------------------------------------------------------------------------
  // extend_heap

  /**
   * extend_heap(size): ask mem_sbrk for the rounded size; the old epilogue
   * becomes the header of a new free block, a new epilogue follows it, the
   * block's links are cleared, and the block is coalesced.  The result is
   * the coalesced block, or 0 (NULL) when mem_sbrk refuses.
   */
  function ExtendHeap(s: State, size: int, grant: bool): (State, int) {
    var bytes := RoundUp(size);
    var ptr := Sbrk(s.brk, bytes, grant);
    if ptr == -1 then (s, 0) else Coalesce(Chunk(s, ptr, bytes), ptr - WSIZE)
  }

  /** The stores extend_heap makes once mem_sbrk has returned ptr, and the moved break. */
  function Chunk(s: State, ptr: int, bytes: int): State {
    var h := ptr - WSIZE;
    var m1 := WriteFooter(WriteHeader(s.mem, h, bytes, false), h, bytes, false);
    var epi := NextNeighbor(m1, h);
    var m2 := WriteHeader(m1, epi, 0, true);
    s.(mem := SetPrev(SetNext(m2, h, 0), h, 0), brk := s.brk + bytes)
  }

  /** Those stores for the new block b. */
  function ChunkMem(m: Mem, b: Block): Mem {
    PutTags(m, b)[End(b) := 1][b.addr + 12 := 0][b.addr + 16 := 0][b.addr + 4 := 0][b.addr + 8 := 0]
  }

  /** The row and the lists after extend_heap: a free block of the new size appended and coalesced. */
  function ExtendView(v: View, bytes: int): View
    requires |v.blocks| > 0 && |v.lists| == CLASSES
  {
    MergeView(View(v.blocks + [Block(Stop(v.blocks), bytes, false)], v.lists), |v.blocks|)
  }

  lemma ChunkWrites(s: State, ptr: int, bytes: int)
    requires bytes % 8 == 0 && MIN_BLOCK_SIZE <= bytes < Word32 - 1
    ensures var b := Block(ptr - WSIZE, bytes, false);
      Chunk(s, ptr, bytes) == s.(mem := ChunkMem(s.mem, b), brk := s.brk + bytes)
  {
    var b := Block(ptr - WSIZE, bytes, false);
    TagWrites(s.mem, b);
    ReadTag(PutTags(s.mem, b), b.addr, b);
    PackTag(0, true);
  }

  /** extend_heap's stores change memory only from the old epilogue to the new one. */
  lemma ChunkMemLoads(m: Mem, b: Block)
    requires b.size >= MIN_BLOCK_SIZE
    ensures SameOutside(m, ChunkMem(m, b), b.addr, End(b) + WSIZE)
    ensures BlockOk(ChunkMem(m, b), b) && Load(ChunkMem(m, b), End(b)) == 1
  {
  }

  /**
   * extend_heap's stores before it coalesces: the heap holds the row with a
   * free block of the new size appended, the lists unchanged, and the new
   * block the one free block no list holds.
   */
  lemma ChunkShape(s: State, v: View, bytes: int)
    requires Rep(s, v) && bytes % 8 == 0 && bytes >= MIN_BLOCK_SIZE && s.brk + bytes <= HeapLimit
    ensures var b := Block(Stop(v.blocks), bytes, false);
      var bs' := v.blocks + [b];
      var s' := s.(mem := ChunkMem(s.mem, b), brk := s.brk + bytes);
      Shape(s', View(bs', v.lists)) && Listed(bs', v.lists, |v.blocks|)
  {
    var bs := v.blocks;
    var ls := v.lists;
    var b := Block(Stop(bs), bytes, false);
    var bs' := bs + [b];
    var m' := ChunkMem(s.mem, b);
    var s' := s.(mem := m', brk := s.brk + bytes);
    ChunkMemLoads(s.mem, b);
    AppendTiled(bs, b);
    Within(bs);
    assert bs[0] in bs && bs[|bs| - 1] in bs;
    forall d {:trigger d in bs'} | d in bs'
      ensures d.size % 8 == 0 && d.size >= DSIZE && (!d.alloc ==> d.size >= MIN_BLOCK_SIZE) && d.addr % 8 == 4
      ensures BlockOk(m', d)
    {
      if d != b {
        assert d in bs;
        KeptBlockOk(s.mem, m', d, b.addr, End(b) + WSIZE);
      }
    }
    assert Row(s', bs');
    forall c | 0 <= c < CLASSES ensures Bucket(m', s.start, bs', ls, c) {
      assert Bucket(s.mem, s.start, bs, ls, c);
      forall d {:trigger d in ls[c]} | d in ls[c] ensures d in bs' && (End(d) <= b.addr || End(b) + WSIZE <= d.addr) {
        assert d in bs;
      }
      ChainOutside(s.mem, m', s.start, c, ls[c], b.addr, End(b) + WSIZE);
    }
    forall c | 0 <= c < CLASSES ensures b !in ls[c] {
      assert Bucket(s.mem, s.start, bs, ls, c);
    }
    forall x | 0 <= x < |bs'| && !bs'[x].alloc && x != |bs| ensures bs'[x] in ls[ClassOf(bs'[x].size)] {
      assert bs'[x] == bs[x];
    }
  }

  /**
   * The tail of extend_heap refines ExtendView: the heap holds the row with
   * the new block appended and coalesced, and the result is the block it
   * merged into.
   */
  lemma GrowRefines(s: State, v: View, bytes: int)
    requires Rep(s, v) && bytes % 8 == 0 && bytes >= MIN_BLOCK_SIZE && s.brk + bytes <= HeapLimit
    ensures var r := Coalesce(Chunk(s, s.brk, bytes), s.brk - WSIZE);
      var bs' := v.blocks + [Block(Stop(v.blocks), bytes, false)];
      && Rep(r.0, ExtendView(v, bytes))
      && r.1 == bs'[MergeLo(bs', |v.blocks|)].addr
  {
    ChunkState(s, v, bytes);
    var v1 := View(v.blocks + [Block(Stop(v.blocks), bytes, false)], v.lists);
    CoalesceAt(Chunk(s, s.brk, bytes), v1, |v.blocks|, s.brk - WSIZE);
  }

  /** extend_heap's stores leave the row with the new free block appended, which no list holds yet. */
  lemma ChunkState(s: State, v: View, bytes: int)
    requires Rep(s, v) && bytes % 8 == 0 && bytes >= MIN_BLOCK_SIZE && s.brk + bytes <= HeapLimit
    ensures var v1 := View(v.blocks + [Block(Stop(v.blocks), bytes, false)], v.lists);
      && Shape(Chunk(s, s.brk, bytes), v1) && Listed(v1.blocks, v1.lists, |v.blocks|)
      && v1.blocks[|v.blocks|].addr == s.brk - WSIZE && !v1.blocks[|v.blocks|].alloc
  {
    var bs := v.blocks;
    var b := Block(Stop(bs), bytes, false);
    Within(bs);
    assert bs[0] in bs;
    ChunkWrites(s, s.brk, bytes);
    ChunkShape(s, v, bytes);
    ShapeSame(s.(mem := ChunkMem(s.mem, b), brk := s.brk + bytes), Chunk(s, s.brk, bytes), View(bs + [b], v.lists));
    assert (bs + [b])[|bs|] == b;
  }

  /** CoalesceRefines, for the block at address h. */
  lemma CoalesceAt(s: State, v: View, k: int, h: int)
    requires Shape(s, v) && 1 <= k < |v.blocks| && !v.blocks[k].alloc && Listed(v.blocks, v.lists, k)
    requires v.blocks[k].addr == h
    ensures Rep(Coalesce(s, h).0, MergeView(v, k)) && Coalesce(s, h).1 == v.blocks[MergeLo(v.blocks, k)].addr
  {
    CoalesceRefines(s, v, k);
  }

  /** Shape carried across equal states. */
  lemma ShapeSame(s: State, s': State, v: View)
    requires Shape(s, v) && s == s'
    ensures Shape(s', v)
  {
  }

  /** Rep carried across equal states and views. */
  lemma RepSame(s: State, s': State, v: View, v': View)
    requires Rep(s, v) && s == s' && v == v'
    ensures Rep(s', v')
  {
  }

  /**
   * extend_heap refines ExtendView for the sizes its callers pass (above
   * the minimum block): when mem_sbrk grants the rounded bytes the heap
   * holds the row with a free block of that size appended and coalesced,
   * and the result is the block it merged into; when it refuses, nothing
   * changes and the result is NULL.
   */
  lemma ExtendRefines(s: State, v: View, size: int, grant: bool)
    requires Rep(s, v) && MIN_BLOCK_SIZE < size && size + DSIZE - 1 < Two64
    ensures var bytes := RoundUp(size);
      bytes % 8 == 0 && size <= bytes < size + DSIZE
    ensures var bytes, r := RoundUp(size), ExtendHeap(s, size, grant);
      !(grant && s.brk + bytes <= HeapLimit) ==> r == (s, 0)
    ensures var bytes, r := RoundUp(size), ExtendHeap(s, size, grant);
      var bs' := v.blocks + [Block(Stop(v.blocks), bytes, false)];
      grant && s.brk + bytes <= HeapLimit ==>
        && Rep(r.0, ExtendView(v, bytes))
        && r.1 == bs'[MergeLo(bs', |v.blocks|)].addr
  {
    RoundUpIs(size);
    var bytes := RoundUp(size);
    if grant && s.brk + bytes <= HeapLimit {
      assert 0 <= s.brk by {
        Within(v.blocks);
        assert v.blocks[0] in v.blocks;
      }
      ExtendIs(s, size, grant);
      GrowRefines(s, v, bytes);
      var r := Coalesce(Chunk(s, s.brk, bytes), s.brk - WSIZE);
      RepSame(r.0, ExtendHeap(s, size, grant).0, ExtendView(v, bytes), ExtendView(v, bytes));
    }
  }

  /** When mem_sbrk grants the bytes, extend_heap coalesces the block at the old break. */
  lemma ExtendIs(s: State, size: int, grant: bool)
    requires grant && 0 <= s.brk && 0 <= RoundUp(size) && s.brk + RoundUp(size) <= HeapLimit
    ensures ExtendHeap(s, size, grant) == Coalesce(Chunk(s, s.brk, RoundUp(size)), s.brk - WSIZE)
  {
    assert Sbrk(s.brk, RoundUp(size), grant) == s.brk;
  }

  // ---------------------------------------------------------------------------
  // mm_init

  /**
   * mm_init's stores once mem_sbrk has returned p: the NULL heads, the
   * padding word, the prologue's header and footer and the epilogue header;
   * size_class_start becomes p.
   */
  function Prologue(s: State, p: int): State {
    var m1 := ClearHeads(s.mem, p, 0);
    var m2 := Store32(m1, HeadsEnd(p), 0);
    var h := HeadsEnd(p) + WSIZE;
    var m3 := WriteFooter(WriteHeader(m2, h, DSIZE, true), h, DSIZE, true);
    s.(mem := WriteHeader(m3, h + DSIZE, 0, true), start := p)
  }

  /**
   * mm_init: take 10 double words from mem_sbrk for the heads, padding,
   * prologue and epilogue, then extend the heap by CHUNKSIZE bytes.  The
   * flags say whether memlib grants each of the two mem_sbrk calls.  The
   * result is 0, or -1 when either call fails.
   */
  function Init(s: State, grant1: bool, grant2: bool): (State, int) {
    var p := Sbrk(s.brk, 10 * DSIZE, grant1);
    if p == -1 then (s, -1)
    else
      var e := ExtendHeap(Prologue(s.(brk := s.brk + 10 * DSIZE), p), CHUNKSIZE, grant2);
      (e.0, if e.1 == 0 then -1 else 0)
  }

  /** The prologue alone, with the heads at p. */
  function PrologueView(p: int): View {
    View([Block(HeadsEnd(p) + WSIZE, DSIZE, true)], NoLists())
  }

  /** The heap mm_init leaves: the prologue, then one free chunk, alone in its list. */
  function InitView(p: int): View {
    var b := Block(HeadsEnd(p) + 3 * WSIZE, CHUNKSIZE, false);
    View([Block(HeadsEnd(p) + WSIZE, DSIZE, true), b], NoLists()[ClassOf(CHUNKSIZE) := [b]])
  }

  /** mm_init's stores after the loop, spelled out: padding, prologue header and footer, epilogue. */
  lemma PrologueWrites(s: State, p: int)
    ensures var h := HeadsEnd(p) + WSIZE;
      Prologue(s, p).mem == ClearHeads(s.mem, p, 0)[HeadsEnd(p) := 0][h := 9][h + 4 := 9][h + 8 := 1]
  {
    var m1 := ClearHeads(s.mem, p, 0);
    var m2 := Store32(m1, HeadsEnd(p), 0);
    var h := HeadsEnd(p) + WSIZE;
    var pro := Block(h, DSIZE, true);
    TagWrites(m2, pro);
    PackTag(0, true);
    assert m2 == m1[HeadsEnd(p) := 0];
  }

  /** What mm_init's stores leave: NULL heads, the prologue's tags and the epilogue. */
  lemma PrologueLoads(s: State, p: int)
    requires Heads(p)
    ensures var m := Prologue(s, p).mem;
      && (forall c :: 0 <= c < CLASSES ==> LoadPtr(m, Slot(p, c)) == 0)
      && Load(m, HeadsEnd(p) + WSIZE) == 9 && Load(m, HeadsEnd(p) + 2 * WSIZE) == 9
      && Load(m, HeadsEnd(p) + 3 * WSIZE) == 1
  {
    ClearHeadsLoads(s.mem, p, 0);
    PrologueWrites(s, p);
    PrologueFormLoads(ClearHeads(s.mem, p, 0), p);
  }

  lemma PrologueFormLoads(m1: Mem, p: int)
    requires Heads(p) && forall c :: 0 <= c < CLASSES ==> LoadPtr(m1, Slot(p, c)) == 0
    ensures var h := HeadsEnd(p) + WSIZE;
      var m := m1[HeadsEnd(p) := 0][h := 9][h + 4 := 9][h + 8 := 1];
      && (forall c :: 0 <= c < CLASSES ==> LoadPtr(m, Slot(p, c)) == 0)
      && Load(m, h) == 9 && Load(m, h + 4) == 9 && Load(m, h + 8) == 1
  {
    var h := HeadsEnd(p) + WSIZE;
    var m := m1[HeadsEnd(p) := 0][h := 9][h + 4 := 9][h + 8 := 1];
    forall c | 0 <= c < CLASSES ensures LoadPtr(m, Slot(p, c)) == 0 {
      assert LoadPtr(m1, Slot(p, c)) == 0;
    }
  }

  /** After mm_init's stores the heap holds the prologue alone, with every list empty. */
  lemma PrologueRep(s: State, p: int)
    requires Heads(p) && p + 10 * DSIZE <= HeapLimit
    ensures Rep(Prologue(s.(brk := p + 10 * DSIZE), p), PrologueView(p))
  {
    PrologueLoads(s.(brk := p + 10 * DSIZE), p);
    PrologueState(Prologue(s.(brk := p + 10 * DSIZE), p), p);
  }

  /** A state whose heads are NULL and which holds the prologue and the epilogue, with the break after it. */
  lemma PrologueState(s: State, p: int)
    requires Heads(p) && p + 10 * DSIZE <= HeapLimit && s.start == p && s.brk == p + 10 * DSIZE
    requires forall c :: 0 <= c < CLASSES ==> LoadPtr(s.mem, Slot(p, c)) == 0
    requires Load(s.mem, HeadsEnd(p) + WSIZE) == 9 && Load(s.mem, HeadsEnd(p) + 2 * WSIZE) == 9
    requires Load(s.mem, HeadsEnd(p) + 3 * WSIZE) == 1
    ensures Rep(s, PrologueView(p))
  {
    var bs := PrologueView(p).blocks;
    assert forall b {:trigger b in bs} :: b in bs ==> b == bs[0];
    forall c | 0 <= c < CLASSES ensures Bucket(s.mem, s.start, bs, NoLists(), c) {
      assert Chain(s.mem, Slot(p, c), Addrs(NoLists()[c]));
    }
  }

  /** Extending the lone prologue by a chunk gives InitView. */
  lemma InitViewIs(p: int)
    ensures ExtendView(PrologueView(p), CHUNKSIZE) == InitView(p)
  {
    var v := PrologueView(p);
    var b := Block(HeadsEnd(p) + 3 * WSIZE, CHUNKSIZE, false);
    var bs := v.blocks + [b];
    assert Stop(v.blocks) == b.addr;
    assert bs[1] == b;
    assert MergeLo(bs, 1) == 1 && MergeHi(bs, 1) == 1;
    assert Merged(bs, 1, 1) == b;
    SpliceSelf(bs, 1);
    assert Merge(bs, 1) == bs;
    StripAbsent(NoLists(), b);
    assert Strip(Strip(NoLists(), bs[1]), bs[1]) == NoLists();
    assert [b] + NoLists()[ClassOf(CHUNKSIZE)] == [b];
    assert Front(NoLists(), b) == InitView(p).lists;
  }

  /**
   * mm_init on a heap whose break is 8-aligned: when mem_sbrk refuses the
   * first request nothing changes and the result is -1; when it grants it
   * but refuses the chunk, the heap holds the prologue alone and the result
   * is -1; when it grants both the result is 0 and the heap holds the
   * prologue and one free chunk of CHUNKSIZE bytes in its list.
   */
  lemma InitRefines(s: State, grant1: bool, grant2: bool)
    requires 0 < s.brk && s.brk % 8 == 0
    ensures !(grant1 && s.brk + 10 * DSIZE <= HeapLimit) ==> Init(s, grant1, grant2) == (s, -1)
    ensures grant1 && s.brk + 10 * DSIZE <= HeapLimit && !(grant2 && s.brk + 10 * DSIZE + CHUNKSIZE <= HeapLimit) ==>
      && Init(s, grant1, grant2).1 == -1
      && Rep(Init(s, grant1, grant2).0, PrologueView(s.brk))
    ensures grant1 && grant2 && s.brk + 10 * DSIZE + CHUNKSIZE <= HeapLimit ==>
      && Init(s, grant1, grant2).1 == 0
      && Rep(Init(s, grant1, grant2).0, InitView(s.brk))
  {
    if grant1 && s.brk + 10 * DSIZE <= HeapLimit {
      if grant2 && s.brk + 10 * DSIZE + CHUNKSIZE <= HeapLimit {
        InitBoth(s, grant1, grant2);
      } else {
        InitNoChunk(s, grant1, grant2);
      }
    }
  }

  lemma InitBoth(s: State, grant1: bool, grant2: bool)
    requires 0 < s.brk && s.brk % 8 == 0 && grant1 && grant2 && s.brk + 10 * DSIZE + CHUNKSIZE <= HeapLimit
    ensures Init(s, grant1, grant2).1 == 0 && Rep(Init(s, grant1, grant2).0, InitView(s.brk))
  {
    InitGranted(s, grant1, grant2);
    var p := s.brk;
    var e := ExtendHeap(Prologue(s.(brk := p + 10 * DSIZE), p), CHUNKSIZE, grant2);
    ChunkOnPrologue(s, p, grant2);
    RepSame(e.0, Init(s, grant1, grant2).0, InitView(p), InitView(p));
  }

  lemma InitNoChunk(s: State, grant1: bool, grant2: bool)
    requires 0 < s.brk && s.brk % 8 == 0 && grant1 && s.brk + 10 * DSIZE <= HeapLimit
    requires !(grant2 && s.brk + 10 * DSIZE + CHUNKSIZE <= HeapLimit)
    ensures Init(s, grant1, grant2).1 == -1 && Rep(Init(s, grant1, grant2).0, PrologueView(s.brk))
  {
    InitGranted(s, grant1, grant2);
    var p := s.brk;
    var s1 := Prologue(s.(brk := p + 10 * DSIZE), p);
    NoChunkOnPrologue(s, p, grant2);
    RepSame(s1, Init(s, grant1, grant2).0, PrologueView(p), PrologueView(p));
  }

  lemma ChunkSize()
    ensures RoundUp(CHUNKSIZE) == CHUNKSIZE
  {
    RoundUpIs(CHUNKSIZE);
  }

  /** The first chunk: extend_heap on the prologue state, with the chunk granted, gives InitView. */
  lemma ChunkOnPrologue(s: State, p: int, grant2: bool)
    requires Heads(p) && grant2 && p + 10 * DSIZE + CHUNKSIZE <= HeapLimit
    ensures var e := ExtendHeap(Prologue(s.(brk := p + 10 * DSIZE), p), CHUNKSIZE, grant2);
      Rep(e.0, InitView(p)) && e.1 == HeadsEnd(p) + 3 * WSIZE
  {
    var s1 := Prologue(s.(brk := p + 10 * DSIZE), p);
    PrologueRep(s, p);
    ChunkSize();
    ExtendRefines(s1, PrologueView(p), CHUNKSIZE, grant2);
    InitViewIs(p);
    var e := ExtendHeap(s1, CHUNKSIZE, grant2);
    RepSame(e.0, e.0, ExtendView(PrologueView(p), RoundUp(CHUNKSIZE)), InitView(p));
  }

  /** With the chunk refused, extend_heap leaves the prologue state and returns NULL. */
  lemma NoChunkOnPrologue(s: State, p: int, grant2: bool)
    requires Heads(p) && p + 10 * DSIZE <= HeapLimit && !(grant2 && p + 10 * DSIZE + CHUNKSIZE <= HeapLimit)
    ensures var s1 := Prologue(s.(brk := p + 10 * DSIZE), p);
      ExtendHeap(s1, CHUNKSIZE, grant2) == (s1, 0) && Rep(s1, PrologueView(p))
  {
    var s1 := Prologue(s.(brk := p + 10 * DSIZE), p);
    PrologueRep(s, p);
    ChunkSize();
    ExtendRefines(s1, PrologueView(p), CHUNKSIZE, grant2);
  }

  /** With the first request granted, mm_init extends the heap from the prologue state. */
  lemma InitGranted(s: State, grant1: bool, grant2: bool)
    requires 0 < s.brk && grant1 && s.brk + 10 * DSIZE <= HeapLimit
    ensures var e := ExtendHeap(Prologue(s.(brk := s.brk + 10 * DSIZE), s.brk), CHUNKSIZE, grant2);
      Init(s, grant1, grant2) == (e.0, if e.1 == 0 then -1 else 0)
  {
    assert Sbrk(s.brk, 10 * DSIZE, grant1) == s.brk;
  }

  // ---------------------------------------------------------------------------
  // remove_blk as written

  /** The stores remove_blk makes, as written, for a node between prev and next. */
  function RemoveForm(m: Mem, h: int, prev: int, next: int): Mem {
    var m1 := m[prev + 12 := next][prev + 16 := 0];
    var m2 := if next == 0 then m1 else m1[next + 4 := prev][next + 8 := 0];
    m2[h + 4 := 0][h + 8 := 0][h + 12 := 0][h + 16 := 0]
  }

  lemma RemoveWrites(m: Mem, h: int, prev: int, next: int)
    requires PrevOf(m, h) == prev && NextOf(m, h) == next && 0 < prev < Word32 && 0 <= next < Word32
    ensures RemoveBlkAsWritten(m, h) == RemoveForm(m, h, prev, next)
  {
  }

  /**
   * For a block that is not first in its list, remove_blk as written does
   * what the corrected unlink does.
   */
  lemma RemoveAgrees(s: State, v: View, c: int, t: int)
    requires Shape(s, v) && 0 <= c < CLASSES && 0 < t < |v.lists[c]|
    ensures RemoveBlkAsWritten(s.mem, v.lists[c][t].addr) == Unlink(s.mem, s.start, v.lists[c][t].addr)
  {
    var fl := v.lists[c];
    assert Bucket(s.mem, s.start, v.blocks, v.lists, c);
    FreeSpread(s, v.blocks, fl);
    var ns := Addrs(fl);
    assert Node(s.mem, Slot(s.start, c), ns, t);
    assert HeadsEnd(s.start) <= ns[t - 1];
  }

  /** A free block sits past the prologue. */
  lemma FreeAbove(s: State, bs: seq<Block>, b: Block)
    requires Row(s, bs) && b in bs && !b.alloc
    ensures HeadsEnd(s.start) + 12 <= b.addr
  {
    var k :| 0 <= k < |bs| && bs[k] == b;
    if k > 0 {
      TiledOrder(bs, 0, k);
    }
  }

  /** What Shape says of the first node of a non-empty list c. */
  lemma HeadNode(s: State, v: View, c: int)
    requires Shape(s, v) && 0 <= c < CLASSES && |v.lists[c]| > 0
    ensures var h := v.lists[c][0].addr;
      var next := NextOf(s.mem, h);
      && LoadPtr(s.mem, Slot(s.start, c)) == h && PrevOf(s.mem, h) == Slot(s.start, c)
      && HeadsEnd(s.start) + 12 <= h && h + 20 <= HeapLimit
      && (next == 0 || (HeadsEnd(s.start) + 12 <= next && next + 20 <= HeapLimit && Far(h, next)))
  {
    var fl := v.lists[c];
    assert Bucket(s.mem, s.start, v.blocks, v.lists, c);
    FreeSpread(s, v.blocks, fl);
    var ns := Addrs(fl);
    assert Node(s.mem, Slot(s.start, c), ns, 0);
    assert fl[0] in fl;
    FreeAbove(s, v.blocks, fl[0]);
    if |fl| > 1 {
      assert fl[1] in fl;
      FreeAbove(s, v.blocks, fl[1]);
      assert Far(ns[0], ns[1]);
    }
  }

  /** The words RemoveForm leaves for a head-slot predecessor. */
  lemma HeadFormLoads(m: Mem, start: int, c: int, h: int, next: int)
    requires 0 <= c < CLASSES && HeadsEnd(start) + 12 <= h
    requires next == 0 || (HeadsEnd(start) + 12 <= next && Far(h, next))
    ensures var m' := RemoveForm(m, h, Slot(start, c), next);
      && Load(m', Slot(start, c)) == Load(m, Slot(start, c))
      && Load(m', Slot(start, c) + 4) == Load(m, Slot(start, c) + 4)
      && PrevOf(m', h) == 0
      && Load(m', Slot(start, c) + 12) == next
      && Load(m', Slot(start, c) + 16) == 0
      && (c + 2 < CLASSES ==> Load(m', Slot(start, c) + 20) == Load(m, Slot(start, c) + 20))
  {
  }

  /** remove_blk as written on a node whose predecessor is head slot c. */
  lemma StaleAt(m: Mem, start: int, c: int, h: int)
    requires 0 <= c < CLASSES && 0 < start
    requires LoadPtr(m, Slot(start, c)) == h && PrevOf(m, h) == Slot(start, c)
    requires HeadsEnd(start) + 12 <= h && h + 20 <= HeapLimit
    requires var next := NextOf(m, h);
      next == 0 || (HeadsEnd(start) + 12 <= next && next + 20 <= HeapLimit && Far(h, next))
    ensures var m' := RemoveBlkAsWritten(m, h);
      && LoadPtr(m', Slot(start, c)) == h
      && (forall ns :: !Chain(m', Slot(start, c), ns))
      && Load(m', Slot(start, c) + 12) == NextOf(m, h)
      && Load(m', Slot(start, c) + 16) == 0
      && (c + 2 < CLASSES ==> Load(m', Slot(start, c) + 20) == Load(m, Slot(start, c) + 20))
  {
    var next := NextOf(m, h);
    RemoveWrites(m, h, Slot(start, c), next);
    HeadFormLoads(m, start, c, h, next);
    NoChainFrom(RemoveForm(m, h, Slot(start, c), next), Slot(start, c), h);
  }

  /**
   * remove_blk as written on the first block of list c: the predecessor is
   * head slot c, an 8-byte pointer, and the store meant for its next field
   * lands 12 to 20 bytes past the slot.  The head still names the removed
   * block, whose back link is now NULL, so no chain at all starts at head
   * c; the high word of head c + 1 receives the successor, so head c + 1
   * names an address past 4 GiB whenever the successor is not NULL; the
   * low word of head c + 2 is cleared, which loses a non-empty list c + 2;
   * and for the last class the store clears the prologue's footer.
   */
  lemma RemoveHeadStale(s: State, v: View, c: int)
    requires Shape(s, v) && 0 <= c < CLASSES && |v.lists[c]| > 0
    ensures var h := v.lists[c][0].addr;
      var m' := RemoveBlkAsWritten(s.mem, h);
      && LoadPtr(m', Slot(s.start, c)) == h
      && (forall ns :: !Chain(m', Slot(s.start, c), ns))
      && (c + 1 < CLASSES ==> Load(m', Slot(s.start, c + 1) + 4) == NextOf(s.mem, h))
      && (c + 2 < CLASSES && |v.lists[c + 2]| > 0 ==> !Chain(m', Slot(s.start, c + 2), Addrs(v.lists[c + 2])))
      && (c == CLASSES - 1 ==> !Row(s.(mem := m'), v.blocks))
  {
    var h := v.lists[c][0].addr;
    HeadNode(s, v, c);
    StaleAt(s.mem, s.start, c, h);
    var m' := RemoveBlkAsWritten(s.mem, h);
    if c + 2 < CLASSES && |v.lists[c + 2]| > 0 {
      HeadLost(s, v, c, m');
    }
    if c == CLASSES - 1 {
      PrologueBroken(s, v.blocks, m');
    }
  }

  /** A head naming a node whose back link is NULL starts no chain. */
  lemma NoChainFrom(m: Mem, slot: int, h: int)
    requires 0 < slot && 0 < h && LoadPtr(m, slot) == h && PrevOf(m, h) == 0
    ensures forall ns :: !Chain(m, slot, ns)
  {
    forall ns ensures !Chain(m, slot, ns) {
      if Chain(m, slot, ns) {
        ChainFirst(m, slot, ns);
      }
    }
  }

  /** A chain from a non-NULL head starts at the node the head names, linked back to the head. */
  lemma ChainFirst(m: Mem, slot: int, ns: seq<int>)
    requires Chain(m, slot, ns) && LoadPtr(m, slot) != 0
    ensures |ns| > 0 && ns[0] == LoadPtr(m, slot) && PrevOf(m, ns[0]) == slot
  {
    assert Node(m, slot, ns, 0);
  }

  /** A prologue whose footer is cleared breaks the row. */
  lemma PrologueBroken(s: State, bs: seq<Block>, m': Mem)
    requires Load(m', HeadsEnd(s.start) + 8) == 0
    ensures !Row(s.(mem := m'), bs)
  {
    if Row(s.(mem := m'), bs) {
      PrologueFooter(s.(mem := m'), bs);
    }
  }

  lemma PrologueFooter(s: State, bs: seq<Block>)
    requires Row(s, bs)
    ensures Load(s.mem, HeadsEnd(s.start) + 8) == Tag(bs[0]) != 0
  {
    assert bs[0] in bs;
  }

  /** A head whose low word is cleared no longer names the first block of a non-empty list. */
  lemma HeadLost(s: State, v: View, c: int, m': Mem)
    requires Shape(s, v) && 0 <= c && c + 2 < CLASSES && |v.lists[c + 2]| > 0
    requires Load(m', Slot(s.start, c) + 16) == 0 && Load(m', Slot(s.start, c) + 20) == Load(s.mem, Slot(s.start, c) + 20)
    ensures !Chain(m', Slot(s.start, c + 2), Addrs(v.lists[c + 2]))
  {
    HeadNode(s, v, c + 2);
    NotMultiple(Load(s.mem, Slot(s.start, c + 2) + 4), v.lists[c + 2][0].addr);
  }

  lemma NotMultiple(hi: int, a: int)
    requires 0 < a < Word32
    ensures Word32 * hi != a
  {
    if hi <= 0 {
      assert Word32 * hi <= 0;
    } else {
      assert Word32 * hi >= Word32;
    }
  }
  // ---------------------------------------------------------------------------
  // coalesce as written

  /**
   * coalesce(h) as written: the free neighbours leave their lists through
   * remove_blk as written, not through the corrected unlink Coalesce uses.
   */
  function CoalesceAsWritten(s: State, h: int): (State, int) {
    var m := s.mem;
    var prev := PrevNeighbor(m, h);
    var next := NextNeighbor(m, h);
    var prevAlloc := ExtractAlloc(m, prev);
    var nextAlloc := ExtractAlloc(m, next);
    var prevSize := ExtractSize(m, prev);
    var nextSize := ExtractSize(m, next);
    var selfSize := ExtractSize(m, h);
    if prevAlloc && nextAlloc then (s.(mem := LinkBlk(m, s.start, h)), h)
    else if prevAlloc && !nextAlloc then Rejoin(s, RemoveBlkAsWritten(m, next), h, selfSize + nextSize)
    else if !prevAlloc && nextAlloc then Rejoin(s, RemoveBlkAsWritten(m, prev), prev, selfSize + prevSize)
    else Rejoin(s, RemoveBlkAsWritten(RemoveBlkAsWritten(m, prev), next), prev, selfSize + prevSize + nextSize)
  }

  /**
   * Freed block k, the block before in use, the block after free and first
   * in its list c, and the merged block again of class c: coalesce as
   * written leaves a heap no view is consistent with.  remove_blk leaves
   * head c naming the block after, link_blk then pushes the merged block in
   * front of it, and so list c runs from the merged block to the block it
   * has just absorbed, which lies inside it.
   */
  lemma CoalesceHeadBreaks(s: State, v: View, k: int)
    requires Shape(s, v) && 1 <= k < |v.blocks| - 1 && !v.blocks[k].alloc
    requires v.blocks[k - 1].alloc && !v.blocks[k + 1].alloc
    requires var c := ClassOf(v.blocks[k + 1].size);
      |v.lists[c]| > 0 && v.lists[c][0] == v.blocks[k + 1]
      && ClassOf(v.blocks[k].size + v.blocks[k + 1].size) == c
    ensures forall w :: !Shape(CoalesceAsWritten(s, v.blocks[k].addr).0, w)
  {
    var bs := v.blocks;
    var h, n := bs[k].addr, bs[k + 1];
    var c := ClassOf(n.size);
    var size := bs[k].size + n.size;
    var m3 := StaleJoin(s, v, k);
    forall w ensures !Shape(s.(mem := m3), w) {
      OverlapInList(s.(mem := m3), w, c, h, n.addr, size);
    }
  }

  /**
   * The memory coalesce as written leaves in the case of CoalesceHeadBreaks:
   * head c names the merged block, whose header holds its size and whose
   * next pointer names the absorbed block.
   */
  lemma StaleJoin(s: State, v: View, k: int) returns (m3: Mem)
    requires Shape(s, v) && 1 <= k < |v.blocks| - 1 && !v.blocks[k].alloc
    requires v.blocks[k - 1].alloc && !v.blocks[k + 1].alloc
    requires var c := ClassOf(v.blocks[k + 1].size);
      |v.lists[c]| > 0 && v.lists[c][0] == v.blocks[k + 1]
      && ClassOf(v.blocks[k].size + v.blocks[k + 1].size) == c
    ensures m3 == CoalesceAsWritten(s, v.blocks[k].addr).0.mem
    ensures var h, n, c := v.blocks[k].addr, v.blocks[k + 1], ClassOf(v.blocks[k + 1].size);
      && LoadPtr(m3, Slot(s.start, c)) == h && NextOf(m3, h) == n.addr
      && ExtractSize(m3, h) == v.blocks[k].size + n.size
      && 0 < h < n.addr < h + v.blocks[k].size + n.size
  {
    var h, n := v.blocks[k].addr, v.blocks[k + 1];
    var c := ClassOf(n.size);
    var nb := Block(h, v.blocks[k].size + n.size, false);
    CoalesceReads(s, v, k);
    ReadBlock(s, v, k);
    ReadBlock(s, v, k + 1);
    AsWrittenNextRejoins(s, h, v.blocks[k - 1].addr, n.addr, nb.size);
    RemoveHeadStale(s, v, c);
    assert LoadPtr(RemoveBlkAsWritten(s.mem, n.addr), Slot(s.start, c)) == n.addr;
    assert End(nb) == End(n) <= Stop(v.blocks) < s.brk <= HeapLimit;
    assert Heads(s.start);
    assert ClassOf(nb.size) == c;
    assert HeadsEnd(s.start) < nb.addr && nb.addr + MIN_BLOCK_SIZE <= n.addr < End(nb);
    SumAligned(v.blocks[k].size, n.size);
    m3 := StaleLink(s.start, c, RemoveBlkAsWritten(s.mem, n.addr), nb, n.addr);
  }

  lemma SumAligned(a: int, b: int)
    requires a % 8 == 0 && b % 8 == 0
    ensures (a + b) % 8 == 0
  {
  }

  /** With the block before in use and the one after free, coalesce as written takes the second branch. */
  lemma AsWrittenNextRejoins(s: State, h: int, p: int, n: int, size: int)
    requires PrevNeighbor(s.mem, h) == p && NextNeighbor(s.mem, h) == n
    requires ExtractAlloc(s.mem, p) && !ExtractAlloc(s.mem, n) && size == ExtractSize(s.mem, h) + ExtractSize(s.mem, n)
    ensures CoalesceAsWritten(s, h) == Rejoin(s, RemoveBlkAsWritten(s.mem, n), h, size)
  {
  }

  /**
   * Rejoin's stores for a merged block nb of class c when head c still
   * names a, which lies inside nb: head c then names nb, and nb's next
   * pointer names a.
   */
  lemma StaleLink(start: int, c: int, m: Mem, nb: Block, a: int) returns (m3: Mem)
    requires Heads(start) && 0 <= c < CLASSES && !nb.alloc && ClassOf(nb.size) == c
    requires HeadsEnd(start) < nb.addr && nb.addr + MIN_BLOCK_SIZE <= a < End(nb) <= HeapLimit
    requires nb.size % 8 == 0 && LoadPtr(m, Slot(start, c)) == a
    ensures m3 == Rejoin(State(m, start, 0), m, nb.addr, nb.size).0.mem
    ensures LoadPtr(m3, Slot(start, c)) == nb.addr && NextOf(m3, nb.addr) == a
    ensures ExtractSize(m3, nb.addr) == nb.size
  {
    var slot := Slot(start, c);
    TagWrites(m, nb);
    PackRoundTrip(m, nb.addr, nb.size, false);
    var m2 := PutTags(m, nb);
    assert ExtractSize(m2, nb.addr) == nb.size;
    assert LoadPtr(m2, slot) == a;
    assert LinkBlk(m2, start, nb.addr) == Push(m2, slot, nb.addr);
    PushWrites(m2, slot, nb.addr, a);
    m3 := PushForm(m2, slot, nb.addr, a);
  }

  /**
   * A list whose first two nodes are a block of the row and an address
   * inside that block is the list of no consistent heap.
   */
  lemma OverlapInList(s: State, w: View, c: int, h: int, a: int, size: int)
    requires 0 <= c < CLASSES
    requires LoadPtr(s.mem, Slot(s.start, c)) == h && NextOf(s.mem, h) == a
    requires ExtractSize(s.mem, h) == size && 0 < h < a < h + size
    ensures !Shape(s, w)
  {
    if Shape(s, w) {
      var fl := w.lists[c];
      var ns := Addrs(fl);
      assert Bucket(s.mem, s.start, w.blocks, w.lists, c);
      assert Node(s.mem, Slot(s.start, c), ns, 0);
      assert Node(s.mem, Slot(s.start, c), ns, 1);
      assert fl[0] in fl && fl[1] in fl;
      var i :| 0 <= i < |w.blocks| && w.blocks[i] == fl[0];
      var j :| 0 <= j < |w.blocks| && w.blocks[j] == fl[1];
      ReadBlock(s, w, i);
      if i < j {
        TiledOrder(w.blocks, i, j);
      } else if j < i {
        TiledOrder(w.blocks, j, i);
        ReadBlock(s, w, j);
      }
    }
  }

}

=== FILE: shell.dfy ===
/**
 * The command-line tokeniser of examples/ch08/shellex.c: `parseline` and
 * `builtin_command`.
 *
 * A command line is the C string that `fgets` delivered, as a sequence of
 * characters without the terminating NUL.  `parseline` splits it in place at
 * spaces; here the `argv` it builds is the sequence of the words it points at.
 * The two places where the C code calls `exit(0)` become the `Exit` outcome.
 */
module Shell {
  const MAXARGS: nat := 128

  /** What `parseline` does: exit the process, or fill `argv` and return the background flag (1 = true). */
  datatype ParseResult = Exit | Parsed(argv: seq<seq<char>>, bg: bool)

  /** What `builtin_command` does: exit the process, or return 0 or 1. */
  datatype BuiltinResult = Quit | Returns(code: int)

  predicate IsCString(s: seq<char>) {
    forall k :: 0 <= k < |s| ==> s[k] != '\0'
  }

  predicate NoSpace(w: seq<char>) {
    forall k :: 0 <= k < |w| ==> w[k] != ' '
  }

  /** A word that `parseline` takes as the background marker. */
  predicate MarksBackground(w: seq<char>) {
    |w| > 0 && w[0] == '&'
  }

  /** A word as `parseline` produces it: non-empty and without spaces. */
  predicate IsWord(w: seq<char>) {
    |w| > 0 && NoSpace(w)
  }

  // ---------------------------------------------------------------------------
  // Reference definition: the maximal runs of non-space characters

  /** Length of the leading run of non-space characters. */
  function RunLength(s: seq<char>): (n: nat)
    ensures n <= |s|
  {
    if s == [] || s[0] == ' ' then 0 else 1 + RunLength(s[1..])
  }

  /** The maximal runs of non-space characters of s, in order. */
  function Words(s: seq<char>): seq<seq<char>>
    decreases |s|
  {
    if s == [] then []
    else if s[0] == ' ' then Words(s[1..])
    else
      var n := RunLength(s);
      [s[..n]] + Words(s[n..])
  }

  /** The buffer `parseline` scans: the last character (the newline) overwritten by a space. */
  function Terminated(line: seq<char>): (s: seq<char>)
    requires |line| > 0
    ensures |s| == |line| && s[|s| - 1] == ' '
    ensures forall k :: 0 <= k < |line| - 1 ==> s[k] == line[k]
  {
    line[..|line| - 1] + [' ']
  }

  /** The outcome `parseline` must produce for a line, stated over its words. */
  function ParseSpec(line: seq<char>): ParseResult
    requires |line| > 0
  {
    var w := Words(Terminated(line));
    if |w| >= MAXARGS then Exit
    else if w == [] then Parsed([], true)
    else if MarksBackground(w[|w| - 1]) then Parsed(w[..|w| - 1], true)
    else Parsed(w, false)
  }

  // ---------------------------------------------------------------------------
  // The scanning loop of parseline

  /** `strchr(s + from, ' ')`: the first space at or after `from`, or -1 when there is none. */
  method FindSpace(s: seq<char>, from: nat) returns (d: int)
    requires from <= |s|
    ensures d == -1 ==> NoSpace(s[from..])
    ensures d != -1 ==> from <= d < |s| && s[d] == ' ' && NoSpace(s[from..d])
  {
    var k := from;
    while k < |s| && s[k] != ' '
      invariant from <= k <= |s|
      invariant forall j :: from <= j < k ==> s[j] != ' '
    {
      k := k + 1;
    }
    assert forall j :: 0 <= j < k - from ==> s[from..k][j] == s[from + j];
    if k == |s| {
      d := -1;
    } else {
      d := k;
    }
  }

  /** `while (*buf && (*buf == ' ')) buf++;` */
  method SkipSpaces(s: seq<char>, from: nat) returns (b: nat)
    requires from <= |s|
    ensures from <= b <= |s|
    ensures b == |s| || s[b] != ' '
    ensures Words(s[b..]) == Words(s[from..])
  {
    b := from;
    while b < |s| && s[b] == ' '
      invariant from <= b <= |s|
      invariant Words(s[b..]) == Words(s[from..])
    {
      WordsSkip(s, b);
      b := b + 1;
    }
  }

  /**
   * One turn of the scanning loop: find the space ending the word at b,
   * cut the word there and skip the spaces after it.
   */
  method NextWord(s: seq<char>, b: nat) returns (found: bool, w: seq<char>, next: nat)
    requires b <= |s| && (b == |s| || s[b] != ' ')
    ensures !found ==> NoSpace(s[b..])
    ensures found ==> b < next <= |s| && (next == |s| || s[next] != ' ')
    ensures found ==> IsWord(w) && Words(s[b..]) == [w] + Words(s[next..])
  {
    var d := FindSpace(s, b);
    if d == -1 {
      return false, [], b;
    }
    w := s[b..d];
    ScanStep(s, b, d);
    next := SkipSpaces(s, d + 1);
    found := true;
  }

  /**
   * The scanning loop of `parseline` over the terminated buffer: cut a word at
   * each space, and report an overflow when a 128th word would not fit in argv.
   */
  method SplitWords(s: seq<char>) returns (argv: seq<seq<char>>, overflow: bool)
    requires |s| > 0 && s[|s| - 1] == ' '
    ensures overflow <==> |Words(s)| >= MAXARGS
    ensures !overflow ==> argv == Words(s)
    ensures forall k :: 0 <= k < |argv| ==> IsWord(argv[k])
  {
    ghost var all := Words(s);
    var b := SkipSpaces(s, 0);
    assert s[0..] == s;
    argv := [];
    while true
      invariant 0 <= b <= |s|
      invariant b == |s| || s[b] != ' '
      invariant argv + Words(s[b..]) == all
      invariant |argv| < MAXARGS
      invariant forall k :: 0 <= k < |argv| ==> IsWord(argv[k])
      decreases |s| - b
    {
      var found, w, next := NextWord(s, b);
      if !found {
        break;
      }
      if |argv| == MAXARGS - 1 {
        assert |all| == |argv| + 1 + |Words(s[next..])|;
        return argv, true;
      }
      Shift(argv, w, Words(s[next..]), all);
      argv := argv + [w];
      b := next;
    }
    // No space from b on, yet the buffer ends in one: the scan reached the end.
    assert b == |s|;
    assert s[b..] == [];
    overflow := false;
  }

  /**
   * `parseline`: overwrite the newline with a space, split the buffer into
   * words, and drop a last word that starts with '&', setting the background
   * flag; a blank line also sets it.
   */
  method ParseLine(line: seq<char>) returns (r: ParseResult)
    requires |line| > 0 && IsCString(line)
    ensures r == ParseSpec(line)
    ensures r.Parsed? ==> |r.argv| < MAXARGS && forall k :: 0 <= k < |r.argv| ==> IsWord(r.argv[k])
  {
    var argv, overflow := SplitWords(Terminated(line));
    if overflow {
      return Exit;
    }
    if |argv| == 0 {
      return Parsed([], true);
    }
    if argv[|argv| - 1][0] == '&' {
      return Parsed(argv[..|argv| - 1], true);
    }
    return Parsed(argv, false);
  }

  /**
   * `builtin_command`: "quit" exits, a lone "&" is a built-in that does
   * nothing (returns 1), anything else is not a built-in (returns 0).
   */
  function BuiltinCommand(argv: seq<seq<char>>): (r: BuiltinResult)
    requires |argv| > 0
    ensures r == Quit <==> argv[0] == "quit"
    ensures r == Returns(1) <==> argv[0] == "&"
    ensures r == Returns(0) <==> argv[0] != "quit" && argv[0] != "&"
  {
    if argv[0] == "quit" then Quit
    else if argv[0] == "&" then Returns(1)
    else Returns(0)
  }

  // ---------------------------------------------------------------------------
  // Lemmas about the words of a line

  /** One turn of the scanning loop: the word cut at d is the next word of the line. */
  lemma ScanStep(s: seq<char>, b: nat, d: nat)
    requires b <= d < |s| && s[d] == ' ' && NoSpace(s[b..d]) && s[b] != ' '
    ensures IsWord(s[b..d])
    ensures Words(s[b..]) == [s[b..d]] + Words(s[d + 1..])
  {
    WordsRun(s, b, d);
    WordsSkip(s, d);
  }

  /** Moving the next word from the unscanned rest to argv keeps their concatenation. */
  lemma Shift<T>(done: seq<T>, w: T, rest: seq<T>, all: seq<T>)
    requires done + ([w] + rest) == all
    ensures (done + [w]) + rest == all
  {
    assert (done + [w]) + rest == done + ([w] + rest);
  }

  /** A leading space contributes no word. */
  lemma WordsSkip(s: seq<char>, b: nat)
    requires b < |s| && s[b] == ' '
    ensures Words(s[b..]) == Words(s[b + 1..])
  {
    assert s[b..][1..] == s[b + 1..];
  }

  lemma {:induction false} RunLengthIs(s: seq<char>, n: nat)
    requires n <= |s| && NoSpace(s[..n]) && (n == |s| || s[n] == ' ')
    ensures RunLength(s) == n
  {
    if n > 0 {
      assert s[0] == s[..n][0];
      assert s[1..][..n - 1] == s[..n][1..];
      RunLengthIs(s[1..], n - 1);
    }
  }

  /** A run of non-space characters starting at b and ending at a space d is the next word. */
  lemma WordsRun(s: seq<char>, b: nat, d: nat)
    requires b <= d < |s| && s[d] == ' ' && NoSpace(s[b..d]) && s[b] != ' '
    ensures b < d
    ensures Words(s[b..]) == [s[b..d]] + Words(s[d..])
  {
    var t := s[b..];
    assert t[..d - b] == s[b..d];
    assert t[d - b] == s[d];
    RunLengthIs(t, d - b);
    assert t[d - b..] == s[d..];
  }

  lemma {:induction false} RunLengthBounds(s: seq<char>)
    ensures NoSpace(s[..RunLength(s)])
    ensures RunLength(s) == |s| || s[RunLength(s)] == ' '
  {
    if s != [] && s[0] != ' ' {
      RunLengthBounds(s[1..]);
      assert s[..RunLength(s)] == [s[0]] + s[1..][..RunLength(s[1..])];
    }
  }

  /** Every word is non-empty and free of spaces. */
  lemma {:induction false} WordsAreWords(s: seq<char>)
    ensures forall k :: 0 <= k < |Words(s)| ==> IsWord(Words(s)[k])
    decreases |s|
  {
    if s == [] {
    } else if s[0] == ' ' {
      WordsAreWords(s[1..]);
    } else {
      var n := RunLength(s);
      RunLengthBounds(s);
      WordsAreWords(s[n..]);
    }
  }

  /** The line a shell user would type for the words ws: each word followed by one space. */
  function Spaced(ws: seq<seq<char>>): seq<char> {
    if ws == [] then [] else ws[0] + [' '] + Spaced(ws[1..])
  }

  /** Splitting a line of words separated by spaces gives the words back. */
  lemma {:induction false} WordsSpaced(ws: seq<seq<char>>)
    requires forall k :: 0 <= k < |ws| ==> IsWord(ws[k])
    ensures Words(Spaced(ws)) == ws
  {
    if ws != [] {
      var w := ws[0];
      var s := Spaced(ws);
      var rest := Spaced(ws[1..]);
      assert s == w + ([' '] + rest);
      assert s[..|w|] == w;
      RunLengthIs(s, |w|);
      assert s[|w|..] == [' '] + rest;
      assert ([' '] + rest)[1..] == rest;
      assert IsWord(ws[0]);
      WordsSpaced(ws[1..]);
    }
  }

  /** The characters of the words are the characters of the line other than spaces. */
  function Unspaced(s: seq<char>): seq<char> {
    if s == [] then [] else (if s[0] == ' ' then [] else [s[0]]) + Unspaced(s[1..])
  }

  function Concat(ws: seq<seq<char>>): seq<char> {
    if ws == [] then [] else ws[0] + Concat(ws[1..])
  }

  lemma {:induction false} UnspacedWord(w: seq<char>, t: seq<char>)
    requires NoSpace(w)
    ensures Unspaced(w + t) == w + Unspaced(t)
  {
    if w != [] {
      assert NoSpace(w[1..]) by {
        assert forall k :: 0 <= k < |w| - 1 ==> w[1..][k] == w[k + 1];
      }
      UnspacedWord(w[1..], t);
      assert (w + t)[0] == w[0] && w[0] != ' ';
      assert (w + t)[1..] == w[1..] + t;
      calc {
        Unspaced(w + t);
        [w[0]] + Unspaced(w[1..] + t);
        [w[0]] + (w[1..] + Unspaced(t));
        { assert w == [w[0]] + w[1..]; }
        w + Unspaced(t);
      }
    } else {
      assert w + t == t;
    }
  }

  /** No character other than a space is lost or invented by the split. */
  lemma {:induction false} WordsKeepCharacters(s: seq<char>)
    ensures Concat(Words(s)) == Unspaced(s)
    decreases |s|
  {
    if s == [] {
    } else if s[0] == ' ' {
      WordsKeepCharacters(s[1..]);
    } else {
      var n := RunLength(s);
      RunLengthBounds(s);
      WordsKeepCharacters(s[n..]);
      assert s == s[..n] + s[n..];
      UnspacedWord(s[..n], s[n..]);
      assert Words(s)[1..] == Words(s[n..]);
    }
  }

  // ---------------------------------------------------------------------------
  // Consequences for the shell

  /** A line of spaces only (or just a newline) parses to no words with the flag set. */
  lemma BlankLine(line: seq<char>)
    requires |line| > 0 && forall k :: 0 <= k < |line| - 1 ==> line[k] == ' '
    ensures ParseSpec(line) == Parsed([], true)
  {
    var s := Terminated(line);
    BlankWords(s);
  }

  lemma {:induction false} BlankWords(s: seq<char>)
    requires forall k :: 0 <= k < |s| ==> s[k] == ' '
    ensures Words(s) == []
  {
    if s != [] {
      BlankWords(s[1..]);
    }
  }

  /**
   * The "&" built-in only runs when "&" is the first of at least two words:
   * a lone "&" is taken as the background marker and dropped.
   */
  lemma AmpersandBuiltin(line: seq<char>)
    requires |line| > 0
    requires ParseSpec(line).Parsed? && |ParseSpec(line).argv| > 0
    requires BuiltinCommand(ParseSpec(line).argv) == Returns(1)
    ensures |Words(Terminated(line))| >= 2 && Words(Terminated(line))[0] == "&"
  {
  }

  /**
   * A line typed as words separated by spaces: more than 127 words make the
   * shell exit; otherwise it gets exactly those words back, minus a last
   * word that starts with '&', which sets the background flag instead.
   */
  lemma TypedLine(ws: seq<seq<char>>)
    requires 0 < |ws| && forall k :: 0 <= k < |ws| ==> IsWord(ws[k])
    ensures |ws| >= MAXARGS ==> ParseSpec(Spaced(ws)) == Exit
    ensures |ws| < MAXARGS && !MarksBackground(ws[|ws| - 1]) ==> ParseSpec(Spaced(ws)) == Parsed(ws, false)
    ensures |ws| < MAXARGS && MarksBackground(ws[|ws| - 1]) ==> ParseSpec(Spaced(ws)) == Parsed(ws[..|ws| - 1], true)
  {
    var line := Spaced(ws);
    SpacedEnds(ws);
    assert Terminated(line) == line;
    WordsSpaced(ws);
  }

  /**
   * builtin_command on the words a typed line gives: argv is empty only for
   * a lone word starting with '&', and otherwise starts with the first word
   * typed, so the line quits exactly when that word is "quit" and is the
   * do-nothing built-in exactly when it is "&".
   */
  lemma TypedBuiltin(ws: seq<seq<char>>)
    requires 0 < |ws| < MAXARGS && forall k :: 0 <= k < |ws| ==> IsWord(ws[k])
    ensures var r := ParseSpec(Spaced(ws));
      && r.Parsed?
      && (|r.argv| > 0 <==> |ws| > 1 || !MarksBackground(ws[0]))
      && (|r.argv| > 0 ==>
            && (BuiltinCommand(r.argv) == Quit <==> ws[0] == "quit")
            && (BuiltinCommand(r.argv) == Returns(1) <==> ws[0] == "&"))
  {
    TypedLine(ws);
  }

  lemma {:induction false} SpacedEnds(ws: seq<seq<char>>)
    requires ws != []
    ensures |Spaced(ws)| > 0 && Spaced(ws)[|Spaced(ws)| - 1] == ' '
  {
    if ws[1..] != [] {
      SpacedEnds(ws[1..]);
    }
  }
}

=== FILE: transpose.dfy ===
/**
 * The matrix transposes of labs/lab04/trans.c.
 *
 * `A` is an N x M matrix (N rows of M ints) and `B` an M x N one.  The C
 * functions overwrite B in place; here each takes B's contents and returns
 * them after the writes.  A is passed by value, so no routine can write it.
 * A read of A followed by a write of B commutes with the other reads and
 * writes of the same loop iteration when they touch different cells of B, so
 * the eight register temporaries a0..a7 of the blocked loops are written as a
 * loop over the eight columns of a block; the 64 x 64 routine, whose
 * iterations read back cells of B, keeps the statement order of the C code.
 */
module Transpose {
  type Matrix = seq<seq<int>>

  predicate IsMatrix(m: Matrix, rows: nat, cols: nat) {
    |m| == rows && forall r :: 0 <= r < rows ==> |m[r]| == cols
  }

  /** Cell (i, j) of A sits transposed in B: b[j][i] == a[i][j]. */
  predicate Cell(a: Matrix, b: Matrix, i: int, j: int) {
    0 <= i < |a| && 0 <= j < |a[i]| && j < |b| && i < |b[j]| && b[j][i] == a[i][j]
  }

  /** Every cell i0 <= i < i1, j0 <= j < j1 of A sits transposed in B. */
  predicate Done(a: Matrix, b: Matrix, i0: nat, i1: nat, j0: nat, j1: nat) {
    forall i, j :: i0 <= i < i1 && j0 <= j < j1 ==> Cell(a, b, i, j)
  }

  /** B is the transpose of the N x M matrix A. */
  predicate IsTransposeOf(a: Matrix, b: Matrix, n: nat, m: nat) {
    IsMatrix(a, n, m) && IsMatrix(b, m, n) && Done(a, b, 0, n, 0, m)
  }

  /** b' has b's shape and agrees with b outside rows j0..j1-1 and columns i0..i1-1. */
  predicate SameOutside(b: Matrix, b': Matrix, j0: int, j1: int, i0: int, i1: int) {
    && |b'| == |b|
    && (forall j :: 0 <= j < |b| ==> |b'[j]| == |b[j]|)
    && forall j, i :: 0 <= j < |b| && 0 <= i < |b[j]| && !(j0 <= j < j1 && i0 <= i < i1) ==> b'[j][i] == b[j][i]
  }

  /** `b[j][i] = v`. */
  function Set(b: Matrix, j: nat, i: nat, v: int): (b': Matrix)
    requires j < |b| && i < |b[j]|
    ensures SameOutside(b, b', j, j + 1, i, i + 1) && b'[j][i] == v
  {
    b[j := b[j][i := v]]
  }

  function Min(x: int, y: int): int {
    if x <= y then x else y
  }

  // ---------------------------------------------------------------------------
  // Bookkeeping about finished regions

  /** Writes outside a finished region leave it finished. */
  lemma DoneKept(a: Matrix, b: Matrix, b': Matrix, i0: nat, i1: nat, j0: nat, j1: nat,
                 rj0: int, rj1: int, ri0: int, ri1: int)
    requires Done(a, b, i0, i1, j0, j1) && SameOutside(b, b', rj0, rj1, ri0, ri1)
    requires i1 <= ri0 || ri1 <= i0 || j1 <= rj0 || rj1 <= j0
    ensures Done(a, b', i0, i1, j0, j1)
  {
    forall i, j | i0 <= i < i1 && j0 <= j < j1 ensures Cell(a, b', i, j) {
      assert Cell(a, b, i, j);
    }
  }

  lemma DoneRows(a: Matrix, b: Matrix, i0: nat, i1: nat, i2: nat, j0: nat, j1: nat)
    requires i0 <= i1 <= i2 && Done(a, b, i0, i1, j0, j1) && Done(a, b, i1, i2, j0, j1)
    ensures Done(a, b, i0, i2, j0, j1)
  {
    forall i, j | i0 <= i < i2 && j0 <= j < j1 ensures Cell(a, b, i, j) {
      if i < i1 {
        assert Done(a, b, i0, i1, j0, j1);
      } else {
        assert Done(a, b, i1, i2, j0, j1);
      }
    }
  }

  /** A single cell is a one-by-one finished region. */
  lemma DoneCell(a: Matrix, b: Matrix, i: nat, j: nat)
    requires Cell(a, b, i, j)
    ensures Done(a, b, i, i + 1, j, j + 1)
  {
    forall i', j' | i <= i' < i + 1 && j <= j' < j + 1 ensures Cell(a, b, i', j') {
      assert i' == i && j' == j;
    }
  }

  lemma DoneCols(a: Matrix, b: Matrix, i0: nat, i1: nat, j0: nat, j1: nat, j2: nat)
    requires j0 <= j1 <= j2 && Done(a, b, i0, i1, j0, j1) && Done(a, b, i0, i1, j1, j2)
    ensures Done(a, b, i0, i1, j0, j2)
  {
    forall i, j | i0 <= i < i1 && j0 <= j < j2
      ensures Cell(a, b, i, j)
    {
      if j < j1 {
        assert Done(a, b, i0, i1, j0, j1);
      } else {
        assert Done(a, b, i0, i1, j1, j2);
      }
    }
  }

  /** Two rounds of writes, each inside a rectangle, stay inside the enclosing one. */
  lemma SameOutsideTrans(b1: Matrix, b2: Matrix, b3: Matrix, j0: int, j1: int, i0: int, i1: int,
                         rj0: int, rj1: int, ri0: int, ri1: int)
    requires SameOutside(b1, b2, j0, j1, i0, i1) && SameOutside(b2, b3, rj0, rj1, ri0, ri1)
    requires j0 <= rj0 && rj1 <= j1 && i0 <= ri0 && ri1 <= i1
    ensures SameOutside(b1, b3, j0, j1, i0, i1)
  {
  }

  // ---------------------------------------------------------------------------
  // The row copy shared by trans, transpose_32_by_32 and transpose_61_by_67

  /** `for (c = c0; c < c1; c++) B[c][r] = A[r][c];` */
  method CopyRow(a: Matrix, b: Matrix, r: nat, c0: nat, c1: nat) returns (b': Matrix)
    requires r < |a| && c0 <= c1 <= |a[r]| && c1 <= |b|
    requires forall j :: c0 <= j < c1 ==> r < |b[j]|
    ensures SameOutside(b, b', c0, c1, r, r + 1)
    ensures Done(a, b', r, r + 1, c0, c1)
  {
    b' := b;
    var c := c0;
    while c < c1
      invariant c0 <= c <= c1
      invariant SameOutside(b, b', c0, c, r, r + 1)
      invariant Done(a, b', r, r + 1, c0, c)
    {
      var prev := b';
      b' := Set(b', c, r, a[r][c]);
      SameOutsideTrans(b, prev, b', c0, c + 1, r, r + 1, c, c + 1, r, r + 1);
      DoneKept(a, prev, b', r, r + 1, c0, c, c, c + 1, r, r + 1);
      DoneCell(a, b', r, c);
      DoneCols(a, b', r, r + 1, c0, c, c + 1);
      c := c + 1;
    }
  }

  // ---------------------------------------------------------------------------
  // trans

  /** The baseline row-wise transpose. */
  method Trans(m: nat, n: nat, a: Matrix, b: Matrix) returns (b': Matrix)
    requires IsMatrix(a, n, m) && IsMatrix(b, m, n)
    ensures IsTransposeOf(a, b', n, m)
  {
    b' := b;
    var i := 0;
    while i < n
      invariant i <= n && IsMatrix(b', m, n)
      invariant Done(a, b', 0, i, 0, m)
    {
      var prev := b';
      b' := CopyRow(a, b', i, 0, m);
      DoneKept(a, prev, b', 0, i, 0, m, 0, m, i, i + 1);
      DoneRows(a, b', 0, i, i + 1, 0, m);
      i := i + 1;
    }
  }

  // ---------------------------------------------------------------------------
  // is_transpose

  /** 1 when B is the transpose of A, 0 at the first cell that differs. */
  method IsTranspose(m: nat, n: nat, a: Matrix, b: Matrix) returns (r: int)
    requires IsMatrix(a, n, m) && IsMatrix(b, m, n)
    ensures r == 0 || r == 1
    ensures r == 1 <==> IsTransposeOf(a, b, n, m)
  {
    var i := 0;
    while i < n
      invariant i <= n && Done(a, b, 0, i, 0, m)
    {
      var j := 0;
      while j < m
        invariant j <= m && Done(a, b, 0, i, 0, m) && Done(a, b, i, i + 1, 0, j)
      {
        if a[i][j] != b[j][i] {
          assert !Cell(a, b, i, j);
          return 0;
        }
        DoneCell(a, b, i, j);
        DoneCols(a, b, i, i + 1, 0, j, j + 1);
        j := j + 1;
      }
      DoneRows(a, b, 0, i, i + 1, 0, m);
      i := i + 1;
    }
    return 1;
  }

  // ---------------------------------------------------------------------------
  // transpose_32_by_32

  /**
   * One block: for each of rows row .. rowEnd - 1 of A, copy its columns
   * col .. colEnd - 1 into B.  This is the `d` loop of transpose_32_by_32 and
   * the `r` loop of transpose_61_by_67.
   */
  method Block(a: Matrix, b: Matrix, row: nat, rowEnd: nat, col: nat, colEnd: nat) returns (b': Matrix)
    requires row <= rowEnd <= |a| && col <= colEnd <= |b|
    requires forall i :: row <= i < rowEnd ==> colEnd <= |a[i]|
    requires forall j :: col <= j < colEnd ==> rowEnd <= |b[j]|
    ensures SameOutside(b, b', col, colEnd, row, rowEnd)
    ensures Done(a, b', row, rowEnd, col, colEnd)
  {
    b' := b;
    var r := row;
    while r < rowEnd
      invariant row <= r <= rowEnd
      invariant SameOutside(b, b', col, colEnd, row, r)
      invariant Done(a, b', row, r, col, colEnd)
    {
      var prev := b';
      b' := CopyRow(a, b', r, col, colEnd);
      SameOutsideTrans(b, prev, b', col, colEnd, row, r + 1, col, colEnd, r, r + 1);
      DoneKept(a, prev, b', row, r, col, colEnd, col, colEnd, r, r + 1);
      DoneRows(a, b', row, r, r + 1, col, colEnd);
      r := r + 1;
    }
  }

  /** 8 x 8 blocks, each block copied a row of A at a time. */
  method Transpose32(m: nat, n: nat, a: Matrix, b: Matrix) returns (b': Matrix)
    requires m == 32 && n == 32 && IsMatrix(a, n, m) && IsMatrix(b, m, n)
    ensures IsTransposeOf(a, b', n, m)
  {
    b' := b;
    var row := 0;
    while row < 32
      invariant row <= 32 && row % 8 == 0 && IsMatrix(b', m, n)
      invariant Done(a, b', 0, row, 0, 32)
    {
      var col := 0;
      while col < 32
        invariant col <= 32 && col % 8 == 0 && IsMatrix(b', m, n)
        invariant Done(a, b', 0, row, 0, 32) && Done(a, b', row, row + 8, 0, col)
      {
        var prev := b';
        b' := Block(a, b', row, row + 8, col, col + 8);
        DoneKept(a, prev, b', 0, row, 0, 32, col, col + 8, row, row + 8);
        DoneKept(a, prev, b', row, row + 8, 0, col, col, col + 8, row, row + 8);
        DoneCols(a, b', row, row + 8, 0, col, col + 8);
        col := col + 8;
      }
      DoneRows(a, b', 0, row, row + 8, 0, 32);
      row := row + 8;
    }
  }

  // ---------------------------------------------------------------------------
  // transpose_61_by_67

  /** 16 x 16 blocks, cut short at the last row (67) and column (61). */
  method Transpose61(m: nat, n: nat, a: Matrix, b: Matrix) returns (b': Matrix)
    requires m == 61 && n == 67 && IsMatrix(a, n, m) && IsMatrix(b, m, n)
    ensures IsTransposeOf(a, b', n, m)
  {
    b' := b;
    var row := 0;
    while row < 67
      invariant row <= 80 && row % 16 == 0 && IsMatrix(b', m, n)
      invariant Done(a, b', 0, Min(row, 67), 0, 61)
    {
      var rowEnd := Min(row + 16, 67);
      var col := 0;
      while col < 64
        invariant col <= 64 && col % 16 == 0 && IsMatrix(b', m, n)
        invariant Done(a, b', 0, row, 0, 61) && Done(a, b', row, rowEnd, 0, Min(col, 61))
      {
        var colEnd := Min(col + 16, 61);
        var prev := b';
        b' := Block(a, b', row, rowEnd, col, colEnd);
        DoneKept(a, prev, b', 0, row, 0, 61, col, colEnd, row, rowEnd);
        DoneKept(a, prev, b', row, rowEnd, 0, col, col, colEnd, row, rowEnd);
        DoneCols(a, b', row, rowEnd, 0, col, colEnd);
        col := col + 16;
      }
      DoneRows(a, b', 0, row, rowEnd, 0, 61);
      row := row + 16;
    }
  }

  // ---------------------------------------------------------------------------
  // transpose_64_by_64

  /**
   * Scratch cell (i, j) of a 64 x 64 block at column col: B[j][i] holds
   * A[i - 4][2 col + 7 - j], so B's row col + k holds A's column col + 7 - k,
   * four rows up.
   */
  predicate ScratchCell(a: Matrix, b: Matrix, col: int, i: int, j: int) {
    && 4 <= i && i - 4 < |a| && 0 <= 2 * col + 7 - j < |a[i - 4]|
    && 0 <= j < |b| && i < |b[j]| && b[j][i] == a[i - 4][2 * col + 7 - j]
  }

  /** Every cell i0 <= i < i1, j0 <= j < j1 of B holds scratch. */
  predicate Scratch(a: Matrix, b: Matrix, col: nat, i0: nat, i1: nat, j0: nat, j1: nat) {
    forall i, j :: i0 <= i < i1 && j0 <= j < j1 ==> ScratchCell(a, b, col, i, j)
  }

  /**
   * State of a block after `rows` rows of its top half: B's top-left 4 x 4 has
   * those rows transposed, and B's top-right 4 x 4 holds the same rows' right
   * halves as scratch.
   */
  predicate TopHalf(a: Matrix, b: Matrix, row: nat, col: nat, rows: nat) {
    Done(a, b, row, row + rows, col, col + 4) && Scratch(a, b, col, row + 4, row + 4 + rows, col, col + 4)
  }

  /**
   * State of a block after `d` steps of its bottom half: the top-left 4 x 4 is
   * final; rows col + 4 - d .. col + 3 of B have their right half final and
   * rows col .. col + 3 - d still hold scratch there; rows col + 4 ..
   * col + 3 + d are final.
   */
  predicate BottomHalf(a: Matrix, b: Matrix, row: nat, col: nat, d: nat)
    requires d <= 4
  {
    && Done(a, b, row, row + 4, col, col + 4)
    && Done(a, b, row + 4, row + 8, col + 4 - d, col + 4)
    && Scratch(a, b, col, row + 4, row + 8, col, col + 4 - d)
    && Done(a, b, row, row + 8, col + 4, col + 4 + d)
  }

  /** b' has b's shape and agrees with b outside rows j0..j1-1 in columns i and i + 4. */
  predicate SameOutsidePair(b: Matrix, b': Matrix, j0: int, j1: int, i: int) {
    && |b'| == |b|
    && (forall j :: 0 <= j < |b| ==> |b'[j]| == |b[j]|)
    && forall j, c :: 0 <= j < |b| && 0 <= c < |b[j]| && !(j0 <= j < j1 && (c == i || c == i + 4)) ==> b'[j][c] == b[j][c]
  }

  /** One row r of the top half: eight writes into B's top-left and top-right 4 x 4. */
  method TopRow(a: Matrix, b: Matrix, row: nat, col: nat, r: nat) returns (b': Matrix)
    requires IsMatrix(a, 64, 64) && IsMatrix(b, 64, 64) && row + 8 <= 64 && col + 8 <= 64
    requires row <= r < row + 4
    ensures Done(a, b', r, r + 1, col, col + 4) && Scratch(a, b', col, r + 4, r + 5, col, col + 4)
    ensures SameOutsidePair(b, b', col, col + 4, r)
  {
    var a0, a1, a2, a3 := a[r][col], a[r][col + 1], a[r][col + 2], a[r][col + 3];
    var a4, a5, a6, a7 := a[r][col + 4], a[r][col + 5], a[r][col + 6], a[r][col + 7];
    b' := b;
    b' := b'[col := b'[col][r := a0]];
    b' := b'[col := b'[col][r + 4 := a7]];
    b' := b'[col + 1 := b'[col + 1][r := a1]];
    b' := b'[col + 1 := b'[col + 1][r + 4 := a6]];
    b' := b'[col + 2 := b'[col + 2][r := a2]];
    b' := b'[col + 2 := b'[col + 2][r + 4 := a5]];
    b' := b'[col + 3 := b'[col + 3][r := a3]];
    b' := b'[col + 3 := b'[col + 3][r + 4 := a4]];
    forall i, j | r <= i < r + 1 && col <= j < col + 4 ensures Cell(a, b', i, j) {
    }
    forall i, j | r + 4 <= i < r + 5 && col <= j < col + 4 ensures ScratchCell(a, b', col, i, j) {
    }
  }

  /** A top-half row keeps the earlier rows' cells and stays inside the block. */
  lemma TopRowKeeps(a: Matrix, b: Matrix, prev: Matrix, b': Matrix, row: nat, col: nat, r: nat)
    requires IsMatrix(prev, 64, 64) && row + 8 <= 64 && col + 8 <= 64 && row <= r < row + 4
    requires TopHalf(a, prev, row, col, r - row) && SameOutside(b, prev, col, col + 8, row, row + 8)
    requires Done(a, b', r, r + 1, col, col + 4) && Scratch(a, b', col, r + 4, r + 5, col, col + 4)
    requires SameOutsidePair(prev, b', col, col + 4, r)
    ensures IsMatrix(b', 64, 64) && TopHalf(a, b', row, col, r - row + 1)
    ensures SameOutside(b, b', col, col + 8, row, row + 8)
  {
    forall i, j | row <= i < r + 1 && col <= j < col + 4 ensures Cell(a, b', i, j) {
      if i < r {
        assert Cell(a, prev, i, j);
        assert b'[j][i] == prev[j][i];
      }
    }
    forall i, j | row + 4 <= i < r + 5 && col <= j < col + 4 ensures ScratchCell(a, b', col, i, j) {
      if i < r + 4 {
        assert ScratchCell(a, prev, col, i, j);
        assert b'[j][i] == prev[j][i];
      }
    }
    forall j, i | 0 <= j < |b| && 0 <= i < |b[j]| && !(col <= j < col + 8 && row <= i < row + 8)
      ensures b'[j][i] == b[j][i]
    {
      assert b'[j][i] == prev[j][i];
    }
  }

  /**
   * Step d of the bottom half: move one scratch row into place and finish two
   * rows of B.  Rows lo = col + 3 - d and hi = col + 4 + d of B are distinct,
   * so the twelve writes of the C code are collected row by row, in order.
   */
  method BottomStep(a: Matrix, b: Matrix, row: nat, col: nat, d: nat) returns (b': Matrix)
    requires IsMatrix(a, 64, 64) && IsMatrix(b, 64, 64) && row + 8 <= 64 && col + 8 <= 64
    requires d < 4 && BottomHalf(a, b, row, col, d)
    ensures IsMatrix(b', 64, 64) && BottomHalf(a, b', row, col, d + 1)
    ensures SameOutside(b, b', col, col + 8, row, row + 8)
  {
    var a0, a4 := a[row + 4][col + 3 - d], a[row + 4][col + 4 + d];
    var a1, a5 := a[row + 5][col + 3 - d], a[row + 5][col + 4 + d];
    var a2, a6 := a[row + 6][col + 3 - d], a[row + 6][col + 4 + d];
    var a3, a7 := a[row + 7][col + 3 - d], a[row + 7][col + 4 + d];
    var lo, hi := col + 3 - d, col + 4 + d;
    var loRow, hiRow := b[lo], b[hi];
    hiRow := hiRow[row + 0 := loRow[row + 4]];
    hiRow := hiRow[row + 1 := loRow[row + 5]];
    hiRow := hiRow[row + 2 := loRow[row + 6]];
    hiRow := hiRow[row + 3 := loRow[row + 7]];
    loRow := loRow[row + 4 := a0][row + 5 := a1][row + 6 := a2][row + 7 := a3];
    hiRow := hiRow[row + 4 := a4][row + 5 := a5][row + 6 := a6][row + 7 := a7];
    b' := b[lo := loRow][hi := hiRow];
    assert BottomWrites(a, b, b', row, col, d);
    BottomFrame(a, b, b', row, col, d);
    BottomTopLeft(a, b, b', row, col, d);
    BottomRight(a, b, b', row, col, d);
    BottomScratch(a, b, b', row, col, d);
    BottomHigh(a, b, b', row, col, d);
  }

  /**
   * The effect of bottom step d on B: only rows lo = col + 3 - d and
   * hi = col + 4 + d change, lo only in columns row + 4 .. row + 7 (now
   * A's column lo) and hi only in columns row .. row + 7 (the scratch
   * values from lo, then A's column hi).
   */
  predicate BottomWrites(a: Matrix, b: Matrix, b': Matrix, row: nat, col: nat, d: nat)
    requires IsMatrix(a, 64, 64) && IsMatrix(b, 64, 64) && row + 8 <= 64 && col + 8 <= 64 && d < 4
  {
    var lo, hi := col + 3 - d, col + 4 + d;
    && |b'| == 64 && (forall j :: 0 <= j < 64 && j != lo && j != hi ==> b'[j] == b[j])
    && |b'[lo]| == 64 && |b'[hi]| == 64
    && (forall i :: 0 <= i < 64 && !(row + 4 <= i < row + 8) ==> b'[lo][i] == b[lo][i])
    && (forall i :: 0 <= i < 64 && !(row <= i < row + 8) ==> b'[hi][i] == b[hi][i])
    && (forall i :: row <= i < row + 4 ==> b'[hi][i] == b[lo][i + 4])
    && (forall i :: row + 4 <= i < row + 8 ==> b'[lo][i] == a[i][lo])
    && (forall i :: row + 4 <= i < row + 8 ==> b'[hi][i] == a[i][hi])
  }

  lemma BottomFrame(a: Matrix, b: Matrix, b': Matrix, row: nat, col: nat, d: nat)
    requires IsMatrix(a, 64, 64) && IsMatrix(b, 64, 64) && row + 8 <= 64 && col + 8 <= 64
    requires d < 4 && BottomWrites(a, b, b', row, col, d)
    ensures IsMatrix(b', 64, 64) && SameOutside(b, b', col, col + 8, row, row + 8)
  {
    var lo, hi := col + 3 - d, col + 4 + d;
    forall j | 0 <= j < 64 ensures |b'[j]| == 64 {
      if j != lo && j != hi {
        assert b'[j] == b[j];
      }
    }
    forall j, i | 0 <= j < |b| && 0 <= i < |b[j]| && !(col <= j < col + 8 && row <= i < row + 8)
      ensures b'[j][i] == b[j][i]
    {
      if j != lo && j != hi {
        assert b'[j] == b[j];
      }
    }
  }

  lemma BottomTopLeft(a: Matrix, b: Matrix, b': Matrix, row: nat, col: nat, d: nat)
    requires IsMatrix(a, 64, 64) && IsMatrix(b, 64, 64) && row + 8 <= 64 && col + 8 <= 64
    requires d < 4 && BottomHalf(a, b, row, col, d) && BottomWrites(a, b, b', row, col, d)
    ensures Done(a, b', row, row + 4, col, col + 4)
  {
    var lo := col + 3 - d;
    forall i, j | row <= i < row + 4 && col <= j < col + 4 ensures Cell(a, b', i, j) {
      assert Cell(a, b, i, j);
      if j == lo {
        assert b'[lo][i] == b[lo][i];
      } else {
        assert b'[j] == b[j];
      }
    }
  }

  lemma BottomRight(a: Matrix, b: Matrix, b': Matrix, row: nat, col: nat, d: nat)
    requires IsMatrix(a, 64, 64) && IsMatrix(b, 64, 64) && row + 8 <= 64 && col + 8 <= 64
    requires d < 4 && BottomHalf(a, b, row, col, d) && BottomWrites(a, b, b', row, col, d)
    ensures Done(a, b', row + 4, row + 8, col + 3 - d, col + 4)
  {
    var lo := col + 3 - d;
    forall i, j | row + 4 <= i < row + 8 && lo <= j < col + 4 ensures Cell(a, b', i, j) {
      if j == lo {
        assert b'[lo][i] == a[i][lo];
      } else {
        assert Cell(a, b, i, j);
        assert b'[j] == b[j];
      }
    }
  }

  lemma BottomScratch(a: Matrix, b: Matrix, b': Matrix, row: nat, col: nat, d: nat)
    requires IsMatrix(a, 64, 64) && IsMatrix(b, 64, 64) && row + 8 <= 64 && col + 8 <= 64
    requires d < 4 && BottomHalf(a, b, row, col, d) && BottomWrites(a, b, b', row, col, d)
    ensures Scratch(a, b', col, row + 4, row + 8, col, col + 3 - d)
  {
    forall i, j | row + 4 <= i < row + 8 && col <= j < col + 3 - d ensures ScratchCell(a, b', col, i, j) {
      assert ScratchCell(a, b, col, i, j);
      assert b'[j] == b[j];
    }
  }

  lemma BottomHigh(a: Matrix, b: Matrix, b': Matrix, row: nat, col: nat, d: nat)
    requires IsMatrix(a, 64, 64) && IsMatrix(b, 64, 64) && row + 8 <= 64 && col + 8 <= 64
    requires d < 4 && BottomHalf(a, b, row, col, d) && BottomWrites(a, b, b', row, col, d)
    ensures Done(a, b', row, row + 8, col + 4, col + 5 + d)
  {
    var lo, hi := col + 3 - d, col + 4 + d;
    forall i, j | row <= i < row + 8 && col + 4 <= j < col + 5 + d ensures Cell(a, b', i, j) {
      if j < hi {
        assert Cell(a, b, i, j);
        assert b'[j] == b[j];
      } else if i < row + 4 {
        assert b'[hi][i] == b[lo][i + 4];
        assert ScratchCell(a, b, col, i + 4, lo);
      } else {
        assert b'[hi][i] == a[i][hi];
      }
    }
  }

  /** One 8 x 8 block of transpose_64_by_64. */
  method Block64(a: Matrix, b: Matrix, row: nat, col: nat) returns (b': Matrix)
    requires IsMatrix(a, 64, 64) && IsMatrix(b, 64, 64) && row + 8 <= 64 && col + 8 <= 64
    ensures SameOutside(b, b', col, col + 8, row, row + 8)
    ensures Done(a, b', row, row + 8, col, col + 8)
  {
    b' := b;
    var r := row;
    while r < row + 4
      invariant row <= r <= row + 4 && IsMatrix(b', 64, 64)
      invariant TopHalf(a, b', row, col, r - row)
      invariant SameOutside(b, b', col, col + 8, row, row + 8)
    {
      var prev := b';
      b' := TopRow(a, b', row, col, r);
      TopRowKeeps(a, b, prev, b', row, col, r);
      r := r + 1;
    }
    var d := 0;
    while d < 4
      invariant d <= 4 && IsMatrix(b', 64, 64)
      invariant BottomHalf(a, b', row, col, d)
      invariant SameOutside(b, b', col, col + 8, row, row + 8)
    {
      var prev := b';
      b' := BottomStep(a, b', row, col, d);
      SameOutsideTrans(b, prev, b', col, col + 8, row, row + 8, col, col + 8, row, row + 8);
      d := d + 1;
    }
    DoneRows(a, b', row, row + 4, row + 8, col, col + 4);
    DoneCols(a, b', row, row + 8, col, col + 4, col + 8);
  }

  /** 8 x 8 blocks, each passing its top-right quarter through B's top-right 4 x 4. */
  method Transpose64(m: nat, n: nat, a: Matrix, b: Matrix) returns (b': Matrix)
    requires m == 64 && n == 64 && IsMatrix(a, n, m) && IsMatrix(b, m, n)
    ensures IsTransposeOf(a, b', n, m)
  {
    b' := b;
    var row := 0;
    while row < 64
      invariant row <= 64 && row % 8 == 0 && IsMatrix(b', m, n)
      invariant Done(a, b', 0, row, 0, 64)
    {
      var col := 0;
      while col < 64
        invariant col <= 64 && col % 8 == 0 && IsMatrix(b', m, n)
        invariant Done(a, b', 0, row, 0, 64) && Done(a, b', row, row + 8, 0, col)
      {
        var prev := b';
        b' := Block64(a, b', row, col);
        DoneKept(a, prev, b', 0, row, 0, 64, col, col + 8, row, row + 8);
        DoneKept(a, prev, b', row, row + 8, 0, col, col, col + 8, row, row + 8);
        DoneCols(a, b', row, row + 8, 0, col, col + 8);
        col := col + 8;
      }
      DoneRows(a, b', 0, row, row + 8, 0, 64);
      row := row + 8;
    }
  }

  // ---------------------------------------------------------------------------
  // transpose_submit

  /**
   * Dispatch on the width M.  The 32, 64 and 61 routines hard-code their
   * heights, so callers pass N = 32, 64 and 67 with them.
   */
  method TransposeSubmit(m: nat, n: nat, a: Matrix, b: Matrix) returns (b': Matrix)
    requires IsMatrix(a, n, m) && IsMatrix(b, m, n)
    requires m == 32 ==> n == 32
    requires m == 64 ==> n == 64
    requires m == 61 ==> n == 67
    ensures IsTransposeOf(a, b', n, m)
  {
    if m == 32 {
      b' := Transpose32(m, n, a, b);
    } else if m == 64 {
      b' := Transpose64(m, n, a, b);
    } else if m == 61 {
      b' := Transpose61(m, n, a, b);
    } else {
      b' := Trans(m, n, a, b);
    }
  }

  /** A transpose is unique: any two results of the routines agree cell for cell. */
  lemma TransposeUnique(a: Matrix, b1: Matrix, b2: Matrix, n: nat, m: nat)
    requires IsTransposeOf(a, b1, n, m) && IsTransposeOf(a, b2, n, m)
    ensures b1 == b2
  {
    forall j | 0 <= j < m ensures b1[j] == b2[j] {
      forall i | 0 <= i < n ensures b1[j][i] == b2[j][i] {
        assert Cell(a, b1, i, j) && Cell(a, b2, i, j);
      }
    }
  }
}

=== FILE: twos.dfy ===
/**
 * Two's-complement integers on top of Dafny's mathematical integers.
 *
 * A C `long` is an int in [-2^63, 2^63).  The bitwise operators are defined on
 * all integers, read as infinite two's-complement bit strings (a negative number
 * has infinitely many leading ones), so `&`, `|` and `^` of two longs is again a
 * long and needs no wrap-around.  Addition and left shift can leave the range and
 * are followed by `Wrap`; right shift of a signed value is arithmetic, i.e. floor
 * division by a power of two.
 */
module Twos {

  /** 2^n */
  function Pow2(n: nat): (r: int)
    ensures r >= 1
  {
    if n == 0 then 1 else 2 * Pow2(n - 1)
  }

  const Two63: int := 0x8000_0000_0000_0000
  const Two64: int := 0x1_0000_0000_0000_0000

  predicate IsLong(x: int) {
    -Two63 <= x < Two63
  }

  /** The value a 64-bit register holds after computing x: x reduced modulo 2^64 into the signed range. */
  function Wrap(x: int): (r: int)
    ensures IsLong(r)
    ensures IsLong(x) ==> r == x
  {
    (x + Two63) % Two64 - Two63
  }

  function Abs(x: int): nat {
    if x < 0 then -x else x
  }

  /** The values whose bit string is constant: 0 (all zeros) and -1 (all ones). */
  predicate Tiny(x: int) {
    x == 0 || x == -1
  }

  datatype BitOp = AndOp | OrOp | XorOp

  /** What a bitwise operator does to one pair of bits. */
  function Apply(op: BitOp, a: bool, b: bool): bool {
    match op
    case AndOp => a && b
    case OrOp => a || b
    case XorOp => a != b
  }

  /** Bit-by-bit application of `op`, least significant bit first. */
  function Bitwise(op: BitOp, x: int, y: int): int
    decreases Abs(x) + Abs(y)
  {
    if Tiny(x) && Tiny(y) then
      (if Apply(op, x == -1, y == -1) then -1 else 0)
    else
      2 * Bitwise(op, x / 2, y / 2) + (if Apply(op, x % 2 == 1, y % 2 == 1) then 1 else 0)
  }

  /** C `x & y` */
  function And(x: int, y: int): int { Bitwise(AndOp, x, y) }
  /** C `x | y` */
  function Or(x: int, y: int): int { Bitwise(OrOp, x, y) }
  /** C `x ^ y` */
  function Xor(x: int, y: int): int { Bitwise(XorOp, x, y) }
  /** C `~x` */
  function Not(x: int): int { -x - 1 }
  /** C `!x` */
  function LNot(x: int): int { if x == 0 then 1 else 0 }
  /** C `x + y` on longs, wrapping */
  function Add(x: int, y: int): int { Wrap(x + y) }
  /**
   * C `x << n` on a long, wrapping (what the hardware does; C leaves signed
   * overflow undefined).  C also leaves shifts by 64 or more undefined.
   */
  function Shl(x: int, n: int): int
    requires 0 <= n < 64
  {
    Wrap(Dbl(x, n))
  }

  /** x doubled n times, i.e. x * 2^n without wrap-around. */
  function Dbl(x: int, n: nat): int
    decreases n
  {
    if n == 0 then x else 2 * Dbl(x, n - 1)
  }

  /** C `x >> n` on a signed long: arithmetic shift, i.e. division rounded toward minus infinity */
  function Shr(x: int, n: int): int
    requires 0 <= n < 64
  {
    Halve(x, n)
  }

  /** x halved n times, each time rounding toward minus infinity. */
  function Halve(x: int, n: nat): int
    decreases n
  {
    if n == 0 then x else Halve(x / 2, n - 1)
  }

  /** Bit i of x (bit 0 is the least significant). */
  predicate Bit(x: int, i: nat)
    decreases i
  {
    if i == 0 then x % 2 == 1 else Bit(x / 2, i - 1)
  }

  // ---------------------------------------------------------------------------
  // Arithmetic helpers

  lemma Pow2Add(a: nat, b: nat)
    ensures Pow2(a + b) == Pow2(a) * Pow2(b)
  {
    if a > 0 {
      Pow2Add(a - 1, b);
    }
  }

  lemma Pow2Values()
    ensures Pow2(8) == 256
    ensures Pow2(32) == 0x1_0000_0000
    ensures Pow2(62) == 0x4000_0000_0000_0000
    ensures Pow2(63) == Two63
    ensures Pow2(64) == Two64
  {
    Pow2Word();
    Pow2Add(32, 32);
    assert Pow2(64) == 2 * Pow2(63);
    assert Pow2(63) == 2 * Pow2(62);
  }

  lemma Pow2Word()
    ensures Pow2(8) == 256
    ensures Pow2(32) == 0x1_0000_0000
  {
    Pow2Half();
    Pow2Add(16, 16);
  }

  lemma Pow2Half()
    ensures Pow2(8) == 256
    ensures Pow2(16) == 0x1_0000
  {
    Pow2Add(8, 8);
  }

  lemma {:induction false} MulAtLeast(a: int, d: int)
    requires a >= 1 && d > 0
    ensures a * d >= d
  {
    if a > 1 {
      MulAtLeast(a - 1, d);
      assert a * d == (a - 1) * d + d;
    }
  }

  lemma NegMul(p: int, q: int)
    ensures (-p) * q == -(p * q)
  {
  }

  /** Euclidean division is determined by any quotient/remainder pair. */
  lemma DivUnique(x: int, d: int, q: int, r: int)
    requires d > 0 && 0 <= r < d && x == q * d + r
    ensures x / d == q && x % d == r
  {
    var q0, r0 := x / d, x % d;
    assert x == q0 * d + r0;
    if q > q0 {
      MulAtLeast(q - q0, d);
      assert false;
    } else if q < q0 {
      MulAtLeast(q0 - q, d);
      assert false;
    }
  }

  lemma DivDiv(x: int, a: int, b: int)
    requires a > 0 && b > 0
    ensures x / (a * b) == (x / a) / b
  {
    var q, r := x / a, x % a;
    var q2, r2 := q / b, q % b;
    assert x == q * a + r;
    assert q * a == (q2 * b + r2) * a;
    assert (q2 * b + r2) * a == q2 * (a * b) + a * r2;
    if r2 < b - 1 {
      MulAtLeast(b - 1 - r2, a);
      assert a * (b - 1 - r2) == a * b - a * r2 - a;
    }
    assert a * (b - 1) == a * b - a;
    assert 0 <= a * r2;
    DivUnique(x, a * b, q2, a * r2 + r);
  }

  /** Halving n times is floor division by 2^n. */
  lemma {:induction false} HalveDiv(x: int, n: nat)
    ensures Halve(x, n) == x / Pow2(n)
    decreases n
  {
    if n > 0 {
      HalveDiv(x / 2, n - 1);
      DivDiv(x, 2, Pow2(n - 1));
    }
  }

  /** Doubling n times is multiplication by 2^n. */
  lemma {:induction false} DblMul(x: int, n: nat)
    ensures Dbl(x, n) == x * Pow2(n)
    decreases n
  {
    if n > 0 {
      DblMul(x, n - 1);
      assert x * Pow2(n) == 2 * (x * Pow2(n - 1));
    }
  }

  lemma ShiftedDiv(x: int, k: int, d: int)
    requires d > 0
    ensures (x + k * d) / d == x / d + k
    ensures (x + k * d) % d == x % d
  {
    DivUnique(x + k * d, d, x / d + k, x % d);
  }

  // ---------------------------------------------------------------------------
  // Bits

  lemma BitHalf(x: int, i: nat)
    ensures Bit(x, i + 1) == Bit(x / 2, i)
  {
  }

  /** Dividing by 2^k moves every bit k places down. */
  lemma {:induction false} BitDivPow2(x: int, k: nat, i: nat)
    ensures Bit(x / Pow2(k), i) == Bit(x, i + k)
    decreases k
  {
    if k == 0 {
      assert x / Pow2(0) == x;
    } else {
      DivDiv(x, 2, Pow2(k - 1));
      assert Pow2(k) == 2 * Pow2(k - 1);
      BitDivPow2(x / 2, k - 1, i);
      BitHalf(x, i + k - 1);
    }
  }

  /** 0 has no bit set and -1 has every bit set. */
  lemma {:induction false} BitConst(i: nat)
    ensures !Bit(0, i) && Bit(-1, i)
    decreases i
  {
    if i > 0 {
      BitConst(i - 1);
    }
  }

  lemma BitwiseStep(op: BitOp, x: int, y: int)
    ensures Bitwise(op, x, y) % 2 == (if Apply(op, x % 2 == 1, y % 2 == 1) then 1 else 0)
    ensures Bitwise(op, x, y) / 2 == Bitwise(op, x / 2, y / 2)
  {
  }

  /** Bit i of `x op y` is `op` applied to bit i of x and bit i of y. */
  lemma {:induction false} BitBitwise(op: BitOp, x: int, y: int, i: nat)
    ensures Bit(Bitwise(op, x, y), i) == Apply(op, Bit(x, i), Bit(y, i))
    decreases i
  {
    BitwiseStep(op, x, y);
    if i > 0 {
      BitHalf(x, i - 1);
      BitHalf(y, i - 1);
      BitHalf(Bitwise(op, x, y), i - 1);
      BitBitwise(op, x / 2, y / 2, i - 1);
    }
  }

  lemma {:induction false} BitNot(x: int, i: nat)
    ensures Bit(Not(x), i) == !Bit(x, i)
    decreases i
  {
    var q, r := x / 2, x % 2;
    DivUnique(Not(x), 2, Not(q), 1 - r);
    if i > 0 {
      BitNot(q, i - 1);
    }
  }

  lemma BitShr(x: int, k: nat, i: nat)
    requires k < 64
    ensures Bit(Shr(x, k), i) == Bit(x, i + k)
  {
    BitHalve(x, k, i);
  }

  lemma {:induction false} BitHalve(x: int, k: nat, i: nat)
    ensures Bit(Halve(x, k), i) == Bit(x, i + k)
    decreases k
  {
    if k > 0 {
      BitHalve(x / 2, k - 1, i);
    }
  }

  /** Doubling moves every bit one place up and shifts in a zero. */
  lemma BitDouble(z: int, i: nat)
    ensures Bit(2 * z, i) == (1 <= i && Bit(z, i - 1))
  {
    assert (2 * z) % 2 == 0 && (2 * z) / 2 == z;
  }

  /** Doubling k times moves every bit k places up and fills with zeros. */
  lemma {:induction false} BitScale(a: int, k: nat, i: nat)
    ensures Bit(Dbl(a, k), i) == (k <= i && Bit(a, i - k))
    decreases k
  {
    if k > 0 {
      BitDouble(Dbl(a, k - 1), i);
      if 1 <= i {
        BitScale(a, k - 1, i - 1);
      }
    }
  }

  /** Adding a multiple of 2^n leaves bits 0..n-1 alone. */
  lemma {:induction false} BitAddHigh(z: int, c: int, n: nat, i: nat)
    requires i < n
    ensures Bit(z + c * Pow2(n), i) == Bit(z, i)
    decreases i
  {
    var h := c * Pow2(n - 1);
    assert c * Pow2(n) == 2 * h;
    ShiftedDiv(z, h, 2);
    if i > 0 {
      BitAddHigh(z / 2, c, n - 1, i - 1);
    }
  }

  /** Wrapping to 64 bits leaves the low 64 bits alone. */
  lemma BitWrap(z: int, i: nat)
    requires i < 64
    ensures Bit(Wrap(z), i) == Bit(z, i)
  {
    Pow2Values();
    var m := (z + Two63) / Two64;
    assert Wrap(z) == z + (-m) * Pow2(64);
    BitAddHigh(z, -m, 64, i);
  }

  lemma BitShl(x: int, k: nat, i: nat)
    requires k < 64 && i < 64
    ensures Bit(Shl(x, k), i) == (k <= i && Bit(x, i - k))
  {
    BitWrap(Dbl(x, k), i);
    BitScale(x, k, i);
  }

  /** Two integers in [-2^n, 2^n) with the same bits 0..n are equal. */
  lemma {:induction false} BitsExt(x: int, y: int, n: nat)
    requires -Pow2(n) <= x < Pow2(n) && -Pow2(n) <= y < Pow2(n)
    requires forall i: nat :: i <= n ==> Bit(x, i) == Bit(y, i)
    ensures x == y
    decreases n
  {
    assert Bit(x, 0) == Bit(y, 0);
    if n > 0 {
      forall i: nat | i <= n - 1
        ensures Bit(x / 2, i) == Bit(y / 2, i)
      {
        BitHalf(x, i);
        BitHalf(y, i);
      }
      BitsExt(x / 2, y / 2, n - 1);
    }
  }

  /** Two longs with the same 64 bits are equal. */
  lemma LongExt(x: int, y: int)
    requires IsLong(x) && IsLong(y)
    requires forall i: nat :: i < 64 ==> Bit(x, i) == Bit(y, i)
    ensures x == y
  {
    Pow2Values();
    BitsExt(x, y, 63);
  }

  /** Bitwise operators keep values inside [-2^n, 2^n); in particular longs stay longs. */
  lemma {:induction false} BitwiseRange(op: BitOp, x: int, y: int, n: nat)
    requires -Pow2(n) <= x < Pow2(n) && -Pow2(n) <= y < Pow2(n)
    ensures -Pow2(n) <= Bitwise(op, x, y) < Pow2(n)
    decreases n
  {
    if n > 0 && !(Tiny(x) && Tiny(y)) {
      BitwiseRange(op, x / 2, y / 2, n - 1);
    }
  }

  lemma BitwiseLong(op: BitOp, x: int, y: int)
    requires IsLong(x) && IsLong(y)
    ensures IsLong(Bitwise(op, x, y))
  {
    Pow2Values();
    BitwiseRange(op, x, y, 63);
  }

  lemma {:induction false} AndMinusOne(y: int)
    ensures And(-1, y) == y
    ensures And(0, y) == 0 && And(y, 0) == 0
    decreases Abs(y)
  {
    if !Tiny(y) {
      AndMinusOne(y / 2);
    }
  }

  /** Masking with 2^k - 1 keeps the low k bits: the Euclidean remainder. */
  lemma {:induction false} AndLowMask(x: int, k: nat)
    ensures And(x, Pow2(k) - 1) == x % Pow2(k)
    decreases k
  {
    if k == 0 {
      assert And(x, 0) == 0 by { AndMinusOne(x); }
    } else {
      var p := Pow2(k - 1);
      assert Pow2(k) == 2 * p;
      assert (2 * p - 1) % 2 == 1 && (2 * p - 1) / 2 == p - 1;
      AndLowMask(x / 2, k - 1);
      assert And(x, 2 * p - 1) == 2 * ((x / 2) % p) + x % 2;
      DivUnique(x, 2 * p, (x / 2) / p, 2 * ((x / 2) % p) + x % 2);
    }
  }

  lemma BitPow2(k: nat, i: nat)
    ensures Bit(Pow2(k), i) == (i == k)
  {
    BitScale(1, k, i);
    DblMul(1, k);
    if i > k {
      BitConst(i - k - 1);
    }
  }

  lemma {:induction false} BitLowOnes(k: nat, i: nat)
    ensures Bit(Pow2(k) - 1, i) == (i < k)
    decreases k
  {
    if k == 0 {
      BitConst(i);
    } else {
      var p := Pow2(k - 1);
      assert Pow2(k) - 1 == 2 * (p - 1) + 1;
      if i > 0 {
        BitLowOnes(k - 1, i - 1);
      }
    }
  }

  lemma BitHighOnes(k: nat, i: nat)
    ensures Bit(-Pow2(k), i) == (k <= i)
  {
    assert -Pow2(k) == Not(Pow2(k) - 1);
    BitNot(Pow2(k) - 1, i);
    BitLowOnes(k, i);
  }

  lemma BitSign(x: int, i: nat)
    requires IsLong(x) && 63 <= i
    ensures Bit(x, i) == (x < 0)
  {
    Pow2Values();
    BitDivPow2(x, 63, i - 63);
    BitConst(i - 63);
    if x < 0 {
      DivUnique(x, Two63, -1, x + Two63);
    } else {
      DivUnique(x, Two63, 0, x);
    }
  }

  lemma ShrSign(x: int)
    requires IsLong(x)
    ensures Shr(x, 63) == if x < 0 then -1 else 0
  {
    Pow2Values();
    HalveDiv(x, 63);
    if x < 0 {
      DivUnique(x, Two63, -1, x + Two63);
    } else {
      DivUnique(x, Two63, 0, x);
    }
  }

  lemma Pow2Mono(a: nat, b: nat)
    requires a <= b
    ensures Pow2(a) <= Pow2(b)
  {
    Pow2Add(a, b - a);
    MulAtLeast(Pow2(b - a), Pow2(a));
  }

  lemma DivBounds(x: int, d: int)
    requires d >= 1
    ensures x >= 0 ==> 0 <= x / d <= x
    ensures x < 0 ==> x <= x / d < 0
  {
    var q, r := x / d, x % d;
    if x >= 0 {
      if q < 0 {
        MulAtLeast(-q, d);
        assert false;
      } else if q > 0 {
        MulAtLeast(d, q);
      }
    } else {
      if q >= 0 {
        assert false;
      }
      if q < x {
        MulAtLeast(x - q, d);
        MulAtLeast(d, -x);
        assert false;
      }
    }
  }

  /** Arithmetic right shift keeps a long a long (it moves toward zero or -1). */
  lemma ShrLong(x: int, n: int)
    requires IsLong(x) && 0 <= n < 64
    ensures IsLong(Shr(x, n))
    ensures x >= 0 ==> 0 <= Shr(x, n) <= x
    ensures x < 0 ==> x <= Shr(x, n) < 0
  {
    HalveDiv(x, n);
    DivBounds(x, Pow2(n));
  }

  lemma {:induction false} BitwiseComm(op: BitOp, x: int, y: int)
    ensures Bitwise(op, x, y) == Bitwise(op, y, x)
    decreases Abs(x) + Abs(y)
  {
    if !(Tiny(x) && Tiny(y)) {
      BitwiseComm(op, x / 2, y / 2);
    }
  }

  lemma {:induction false} OrIdentities(y: int)
    ensures Or(0, y) == y && Or(y, 0) == y
    ensures Or(-1, y) == -1 && Or(y, -1) == -1
    decreases Abs(y)
  {
    if !Tiny(y) {
      OrIdentities(y / 2);
    }
  }

  /** `x ^ y` is zero exactly when x and y are equal. */
  lemma {:induction false} XorZero(x: int, y: int)
    ensures Xor(x, y) == 0 <==> x == y
    decreases Abs(x) + Abs(y)
  {
    if !(Tiny(x) && Tiny(y)) {
      XorZero(x / 2, y / 2);
    }
  }

  /** A value in [0, 2^k) has no bit set at k or above. */
  lemma BitAbove(c: int, k: nat, i: nat)
    requires 0 <= c < Pow2(k) && k <= i
    ensures !Bit(c, i)
  {
    Pow2Mono(k, i);
    DivUnique(c, Pow2(i), 0, c);
    BitDivPow2(c, i, 0);
  }

  /** The low bit is the parity. */
  lemma BitZero(x: int)
    ensures Bit(x, 0) == (x % 2 == 1)
  {
  }

  /** Wrapping a value at most one period outside the signed range adds or removes one period. */
  lemma WrapNear(z: int)
    requires -Two63 - Two64 <= z < Two63 + Two64
    ensures Wrap(z) == if z < -Two63 then z + Two64 else if z >= Two63 then z - Two64 else z
  {
    if z < -Two63 {
      DivUnique(z + Two63, Two64, -1, z + Two63 + Two64);
    } else if z >= Two63 {
      DivUnique(z + Two63, Two64, 1, z + Two63 - Two64);
    }
  }

  /** `x << n` is x * 2^n reduced to 64 bits. */
  lemma ShlMul(x: int, n: int)
    requires 0 <= n < 64
    ensures Shl(x, n) == Wrap(x * Pow2(n))
  {
    DblMul(x, n);
  }

  /** `x >> n` is floor division by 2^n. */
  lemma ShrDiv(x: int, n: int)
    requires 0 <= n < 64
    ensures Shr(x, n) == x / Pow2(n)
  {
    HalveDiv(x, n);
  }

  /** Wrapping ignores whole periods of 2^64. */
  lemma WrapPeriodic(z: int, k: int)
    ensures Wrap(z + k * Two64) == Wrap(z)
  {
    assert z + k * Two64 + Two63 == (z + Two63) + k * Two64;
    ShiftedDiv(z + Two63, k, Two64);
  }

  /** `1L << 63` is LONG_MIN and `0L << 63` is 0. */
  lemma ShlTop()
    ensures Shl(1, 63) == -Two63 && Shl(0, 63) == 0
  {
    Pow2Values();
    ShlMul(1, 63);
    ShlMul(0, 63);
    WrapNear(Two63);
  }

  /** `v & 1` is the low bit of v. */
  lemma AndOne(v: int)
    ensures And(v, 1) == if Bit(v, 0) then 1 else 0
  {
    AndLowMask(v, 1);
    assert Pow2(1) == 2;
  }
}
